=== FILE: README.md ===
# hcms core, modelled in Dafny

hcms is a headless CMS. A JSON model file declares entities (a JSON schema, a table, identifiers, an
optional revision column, virtual fields filled by the server) and the JSON-RPC methods exposing
them. This project models the parts of hcms that decide what a call does:

- **The model-driven SQL compiler** (`ModelHandler`). It validates each entity declaration and
  builds its immutable `Entity`: the JSON-to-column mapping, the identifier predicate
  `c1 = ? AND c2 = ?` and the positional binders. It expands every declared method (`CRUD` into
  `findById`, `findAll`, `deleteById`, `create`, `update`). For each operation it compiles the SQL
  text and the ordered parameter bindings: the dynamic `WHERE` from filters, `ORDER BY` from
  `sortBy`, `OFFSET`/`FETCH` pagination, column projection, the implicit `{{user.<claim>}}`
  filters, virtual-field generation and revision stamping, request-parameter extraction, and the
  shaping of result rows. Modules: `Entity` (file `entity.dfy`, module `EntityCompiler`),
  `SqlClauses`, `RequestValues`, `Execution`, `FindAll`, `FindById`, `Writes`, `BulkFindById`,
  `ModelRegistry`.
- **The batch dispatcher** (`ExtendedJsonRpcHandler`, module `BatchDispatcher`). A JSON-RPC batch
  goes to the default handler, runs in one shared read or write transaction, or, when it only
  looks entities up, is answered by grouped bulk `findByIds` queries. One failing group turns
  every response into the same 500.
- **The authorization wrapper** (`SecurityHandler`). It applies the anonymous, logged-in and
  roles policies and caches the verified token on the request.
- **Smaller string logic.** This covers camelCase to snake_case naming (`NameMapper`), CLI command
  selection (`CommandReader`) and the `1;algorithm;iterations;keyLength;salt;hash` password
  record (`PasswordEncoder`). It also covers the documentation endpoint's schema-type inlining,
  method tags, create/update parameters and Swagger UI dispatch (`DocEndpoint`), and the Frisby
  test-skeleton helpers (`FrisbySkeleton`).

Shared vocabulary sits in `Wrappers` (`Option`, `Result`, the failures: a JSON-RPC error code or
a Java runtime exception kind), `Strings`, `Json`, `Model` (the declarations as read from the
model file) and `Sql` (bindings and the database interface).

The model follows the code as written where it departs from the documentation. `create` inserts
every column, including virtual and generated ones. The default operator set is `{"="}` unless
`"default"` is listed. Several behaviours of the code are modelled as written and each is shown by
a lemma:

- `Writes.DeleteImplicitCollision`: a delete's implicit filter binds from index 1, over the
  identifier bindings.
- `Writes.VirtualFieldSlotMismatch`: an update applies virtual-field and revision positions
  computed on the sorted columns to the binding order.
- `FindAll.FilteredPaginationIgnoresImplicit`: `OFFSET` is placed after the explicit filters only.
- `BulkFindById.ImplicitIndexCollision` and `BulkFindById.ImplicitFilterNotConjoined`: in a bulk
  lookup, the implicit filter starts at the identifier count and is appended without `AND`.
- `BulkFindById.MissingRowFails`: a missing row fails the whole bulk batch.
- `BatchDispatcher.RecordTextInAttribute`: the traced method name prints the grouping record.
- `FrisbySkeleton.DeletionTestNeedsFindAll`: the deletion test is gated on `findAll`.

## Model

| member | source | states |
|---|---|---|
| CommandReader.ArgsCandidate | src/main/java/io/yupiik/hcms/launch/CommandReader.java:34-39 | no arguments give nothing; otherwise the first argument, or the second when the first is `--hcms-command` and a second exists |
| CommandReader.Command | src/main/java/io/yupiik/hcms/launch/CommandReader.java:29-42 | no configuration gives no command; a configured `hcms.command` wins over the arguments; a candidate starting with `--` falls back to `serve` |
| CommandReader.DefaultsToServe | src/main/java/io/yupiik/hcms/launch/CommandReader.java:40-41 | with no configured command and no argument that is not an option, the command is `serve` |
| CommandReader.ConfigurationWins | src/main/java/io/yupiik/hcms/launch/CommandReader.java:32-34 | the command does not depend on the arguments once `hcms.command` is configured |
| CommandReader.LoneCommandFlag | src/main/java/io/yupiik/hcms/launch/CommandReader.java:38-40 | a lone `--hcms-command` argument is taken as an option, so the launcher serves |
| NameMapper.Piece | src/main/java/io/yupiik/hcms/service/naming/NameMapper.java:25-33 | what one position contributes: one or two characters, `_` only before an inner upper-case letter, never an upper-case letter |
| NameMapper.CamelToSnake | src/main/java/io/yupiik/hcms/service/naming/NameMapper.java:22-36 | the builder loop computes the snake-case translation, whose properties are the lemmas below |
| NameMapper.SnakeLength | src/main/java/io/yupiik/hcms/service/naming/NameMapper.java:26-30 | the output is longer than the input by exactly one underscore per upper-case letter after the first position |
| NameMapper.SnakePrefix | src/main/java/io/yupiik/hcms/service/naming/NameMapper.java:24 | the translation works left to right: a prefix translates to a prefix of the translation |
| NameMapper.LeadingUpper | src/main/java/io/yupiik/hcms/service/naming/NameMapper.java:27-30 | a leading upper-case letter is lower-cased without an underscore in front |
| NameMapper.InnerPosition | src/main/java/io/yupiik/hcms/service/naming/NameMapper.java:26-33 | an inner upper-case letter becomes `_` plus its lower-case form right after the translation of what precedes it; other characters are copied |
| NameMapper.SnakeNoUpper | src/main/java/io/yupiik/hcms/service/naming/NameMapper.java:30-32 | no character of the output is upper-case |
| NameMapper.SnakeIdentity | src/main/java/io/yupiik/hcms/service/naming/NameMapper.java:31-33 | a name without upper-case letters is returned unchanged |
| NameMapper.SnakeIdempotent | src/main/java/io/yupiik/hcms/service/naming/NameMapper.java:22-36 | translating a translated name changes nothing |
| PasswordEncoder.Derive | src/main/java/io/yupiik/hcms/service/security/PasswordEncoder.java:96-100 | key derivation fails for an empty salt, a non-positive iteration count or key length, and otherwise gives what the derivation primitive gives |
| PasswordEncoder.Record | src/main/java/io/yupiik/hcms/service/security/PasswordEncoder.java:42-55 | the stored record is `1;algorithm;iterations;keyLength;salt;hash`, or an illegal-state failure when derivation fails |
| PasswordEncoder.ToDatabase | src/main/java/io/yupiik/hcms/service/security/PasswordEncoder.java:38-56 | draws a salt of the configured length and answers the record of the password under that salt |
| PasswordEncoder.FieldsFrom | src/main/java/io/yupiik/hcms/service/security/PasswordEncoder.java:64-87 | the repeated `indexOf(';')`/`substring` steps: the separator-closed fields then the tail, or nothing when a separator is missing |
| PasswordEncoder.SplitStored | src/main/java/io/yupiik/hcms/service/security/PasswordEncoder.java:59-87 | a stored value without the `1;` prefix or with fewer than four more separators is refused; otherwise six fields |
| PasswordEncoder.ParseStored | src/main/java/io/yupiik/hcms/service/security/PasswordEncoder.java:59-87 | the fields `matches` reads, with both numbers parsed as Java `int`s; nothing where `matches` answers false before hashing |
| PasswordEncoder.Matches | src/main/java/io/yupiik/hcms/service/security/PasswordEncoder.java:58-94 | true exactly when the stored fields parse, the salt and hash decode, and deriving the clear password gives the stored hash; every failure answers false |
| PasswordEncoder.LayoutJoin | src/main/java/io/yupiik/hcms/service/security/PasswordEncoder.java:45-52 | the record layout is the `;`-join of its six fields |
| PasswordEncoder.RecordFields | src/main/java/io/yupiik/hcms/service/security/PasswordEncoder.java:45-52 | a record holds exactly six `;`-separated fields in the written order |
| PasswordEncoder.IndexOfFromSuffix | src/main/java/io/yupiik/hcms/service/security/PasswordEncoder.java:64 | searching for `;` from an offset is searching the suffix, shifted by the offset |
| PasswordEncoder.CutAt | src/main/java/io/yupiik/hcms/service/security/PasswordEncoder.java:64-68 | one search-and-substring step of `matches` is one cut of the remaining text at its first `;` |
| PasswordEncoder.FieldsFromSuffix | src/main/java/io/yupiik/hcms/service/security/PasswordEncoder.java:64-87 | the steps of `matches` on the whole value read the same fields as cutting the text after the prefix |
| PasswordEncoder.CutField | src/main/java/io/yupiik/hcms/service/security/PasswordEncoder.java:64-68 | a field free of `;` is cut off exactly at the separator that follows it |
| PasswordEncoder.FieldsJoin | src/main/java/io/yupiik/hcms/service/security/PasswordEncoder.java:45-52 | cutting a `;`-join of separator-free fields gives the fields back |
| PasswordEncoder.SplitLayout | src/main/java/io/yupiik/hcms/service/security/PasswordEncoder.java:59-87 | the parser of `matches` takes a record layout apart into the fields it was built from |
| PasswordEncoder.ParseRecord | src/main/java/io/yupiik/hcms/service/security/PasswordEncoder.java:38-87 | what `toDatabase` writes `matches` reads back: the algorithm, both numbers, the salt and the hash |
| PasswordEncoder.MatchesOwnRecord | src/main/java/io/yupiik/hcms/service/security/PasswordEncoder.java:38-94 | a stored record accepts the password it was made from |
| PasswordEncoder.RejectsOtherPassword | src/main/java/io/yupiik/hcms/service/security/PasswordEncoder.java:89-90 | with a derivation that separates passwords, a record rejects every other password |
| PasswordEncoder.RequiresVersionPrefix | src/main/java/io/yupiik/hcms/service/security/PasswordEncoder.java:59-61 | a stored value not starting with `1;` never matches |
| SecurityHandler.JwtService.Verify | src/main/java/io/yupiik/hcms/service/security/SecurityHandler.java:98 | verifying a token answers what the verifier gives for it and changes nothing |
| SecurityHandler.Load | src/main/java/io/yupiik/hcms/service/security/SecurityHandler.java:87-101 | a cached token is answered as is; a missing or non-`Bearer ` header is unauthenticated; otherwise the verdict on the text after `Bearer ` |
| SecurityHandler.LoadJwt | src/main/java/io/yupiik/hcms/service/security/SecurityHandler.java:87-101 | answers `Load` on the request's state and caches a verified token on the request, leaving the cache alone otherwise |
| SecurityHandler.AnyGranted | src/main/java/io/yupiik/hcms/service/security/SecurityHandler.java:80 | true exactly when some required role is among the granted ones |
| SecurityHandler.Invoke | src/main/java/io/yupiik/hcms/service/security/SecurityHandler.java:42-85 | loads the token and answers the policy selected by the declaration: the wrapped method runs exactly when the policy lets the call through |
| SecurityHandler.Authorize | src/main/java/io/yupiik/hcms/service/security/SecurityHandler.java:44-84 | anonymous access fails exactly for a refused token (401); any other policy needs a loaded token (401), and a roles check on a token without a `roles` list is a 403; every failure is a 401, a 403 or a null pointer |
| SecurityHandler.AnonymousPolicy | src/main/java/io/yupiik/hcms/service/security/SecurityHandler.java:44-54 | anonymous access passes without a header and fails only for a presented Bearer token the verifier refuses |
| SecurityHandler.LoggedPolicy | src/main/java/io/yupiik/hcms/service/security/SecurityHandler.java:59-64 | `logged` without roles passes exactly when a valid Bearer token is presented |
| SecurityHandler.RolesPolicy | src/main/java/io/yupiik/hcms/service/security/SecurityHandler.java:66-84 | with required roles a call passes iff a valid token is loaded whose `roles` claim is a list holding one of them; otherwise 401 or 403 |
| SecurityHandler.EmptyRolesDenyAll | src/main/java/io/yupiik/hcms/service/security/SecurityHandler.java:57-84 | not anonymous, not logged and an empty roles list: no call ever passes |
| SecurityHandler.CachedTokenWins | src/main/java/io/yupiik/hcms/service/security/SecurityHandler.java:88-91 | a request already carrying a token is decided on it, whatever its header and whatever the verifier would say now |
| SecurityHandler.TwiceOnOneRequest | src/main/java/io/yupiik/hcms/service/security/SecurityHandler.java:88-100 | a second call on the same request reuses a verified token and gets the same decision |
| Strings.IntToStringRoundTrip | src/main/java/io/yupiik/hcms/service/security/PasswordEncoder.java:49-50 | a Java `int` printed by `Integer.toString` is read back by `Integer.parseInt` unchanged |
| Strings.ParseInt | src/main/java/io/yupiik/hcms/service/security/PasswordEncoder.java:74 | `Integer.parseInt` over ASCII digits accepts only texts whose value fits a Java `int`; the empty text is refused |
| Model.FirstType | src/main/java/io/yupiik/hcms/service/model/ModelHandler.java:1144-1147 | the first non-null declared type, nothing when every entry is null |
| Sql.Bind | src/main/java/io/yupiik/hcms/service/model/ModelHandler.java:1126-1135 | a value binding fails for a missing position, or for a null value of a property that cannot be null or whose format is parsed; a null binds a typed SQL NULL; a literal binds itself; a claim binds its value or a VARCHAR NULL |
| Sql.BindAll | src/main/java/io/yupiik/hcms/service/model/ModelHandler.java:1085-1095 | the bindings run in order set exactly their indices, and the statement fails exactly when one binding fails |
| Sql.LastBindingWins | src/main/java/io/yupiik/hcms/service/model/ModelHandler.java:1089-1094 | a parameter keeps the value of the last binding that sets it |
| Sql.Indices | src/main/java/io/yupiik/hcms/service/model/ModelHandler.java:1119 | the set of parameter indices a list of bindings sets |
| Sql.ConsecutiveIndices | src/main/java/io/yupiik/hcms/service/model/ModelHandler.java:1102-1104 | bindings numbered one after another from `from` set exactly the indices `from .. from + n - 1` |
| EntityCompiler.ValidateEntity | src/main/java/io/yupiik/hcms/service/model/ModelHandler.java:1316-1376 | every refusal is an `IllegalArgumentException`; an accepted declaration has a non-blank name other than the reserved `hcms` |
| EntityCompiler.ValidateEntityAccepts | src/main/java/io/yupiik/hcms/service/model/ModelHandler.java:1316-1390 | `validateEntity` accepts exactly the declarations passing every check: name, table, object schema with properties, an identifier, known virtual fields, column-typed properties, a number or date-time revision property |
| EntityCompiler.NullType | src/main/java/io/yupiik/hcms/service/model/ModelHandler.java:1138-1162 | a property gets a SQL NULL type exactly when its first non-null type is a scalar (string when none is declared) |
| EntityCompiler.ToBinder | src/main/java/io/yupiik/hcms/service/model/ModelHandler.java:1108-1136 | the `index`-th value binds parameter `index + 1`; an unknown property is an `IllegalStateException`; null is accepted exactly when `nullable` and the property admits `null` |
| EntityCompiler.Binders | src/main/java/io/yupiik/hcms/service/model/ModelHandler.java:1102-1105 | one binding per name with consecutive indices, each the `toBinder` of its position; fails exactly when one of them fails |
| EntityCompiler.CreateBinder | src/main/java/io/yupiik/hcms/service/model/ModelHandler.java:1097-1106 | no name is an `IllegalStateException` (`flattenBinders`); otherwise value `k` binds parameter `k + 1` |
| EntityCompiler.IdConditions | src/main/java/io/yupiik/hcms/service/model/ModelHandler.java:954-959 | one `column = ?` condition per identifier, in identifier order |
| EntityCompiler.ToWhereIds | src/main/java/io/yupiik/hcms/service/model/ModelHandler.java:954-959 | the empty text for no identifier, `<column> = ?` for one, and each further identifier appends ` AND <column> = ?` in identifier order |
| EntityCompiler.ColumnNames | src/main/java/io/yupiik/hcms/service/model/ModelHandler.java:1258-1265 | every JSON name keeps its place and maps to itself, or to its snake-case form under `CAMEL_TO_SNAKE` |
| EntityCompiler.Swap | src/main/java/io/yupiik/hcms/service/model/ModelHandler.java:1305-1306 | the column-to-JSON map is the JSON-to-column map read backwards, pair by pair |
| EntityCompiler.IdentifierColumns | src/main/java/io/yupiik/hcms/service/model/ModelHandler.java:794-796 | the column of each identifier, in identifier order (also the identifier columns of `update`, lines 567-569) |
| EntityCompiler.Operators | src/main/java/io/yupiik/hcms/service/model/ModelHandler.java:1296-1300 | `=` alone when undeclared, the ten defaults when `default` is declared, the declared operators otherwise |
| EntityCompiler.ToEntity | src/main/java/io/yupiik/hcms/service/model/ModelHandler.java:1257-1314 | the entity keeps the declared name, table, revision property, virtual fields, generated-identifier flag, implicit filtering, sort and filter keys, and properties (sorted), with the identifiers, operators, both sorted name maps over every property, the `whereIds` condition over the identifier columns and both identifier binders |
| EntityCompiler.ValidPropertyBinds | src/main/java/io/yupiik/hcms/service/model/ModelHandler.java:1108-1125 | a property that passes validation always gets a binding, which refuses null unless `nullable` |
| EntityCompiler.BindersOk | src/main/java/io/yupiik/hcms/service/model/ModelHandler.java:1102-1105 | names of valid properties always get their bindings |
| EntityCompiler.CompiledEntityInvariant | src/main/java/io/yupiik/hcms/service/model/ModelHandler.java:1257-1376 | a validated declaration compiles into an entity with properties, identifiers bound to consecutive parameters and selected by `whereIds` over their columns, and a well-typed revision property; it fails only for an empty or unknown identifier list |
| EntityCompiler.KnownIdentifiersCompile | src/main/java/io/yupiik/hcms/service/model/ModelHandler.java:1282-1313 | identifiers that all name declared properties always compile |
| EntityCompiler.CompiledBinders | src/main/java/io/yupiik/hcms/service/model/ModelHandler.java:1311-1313 | a compiled entity satisfies the entity invariant |
| EntityCompiler.NotNullableBinders | src/main/java/io/yupiik/hcms/service/model/ModelHandler.java:1312 | the non-nullable identifier binder reads value `k` into parameter `k + 1` and refuses null values |
| EntityCompiler.SnakeMapLowerCase | src/main/java/io/yupiik/hcms/service/model/ModelHandler.java:1258-1306 | under `CAMEL_TO_SNAKE` no column of the column-to-JSON map holds an upper-case letter |
| EntityCompiler.PlainMapSelf | src/main/java/io/yupiik/hcms/service/model/ModelHandler.java:1258-1306 | without a naming policy every property is its own column, read back under its own name |
| EntityCompiler.SnakeColumnsLowerCase | src/main/java/io/yupiik/hcms/service/model/ModelHandler.java:1257-1313 | a compiled entity under `CAMEL_TO_SNAKE` has only lower-case columns |
| EntityCompiler.PlainRevisionColumn | src/main/java/io/yupiik/hcms/service/model/ModelHandler.java:1257-1313 | a compiled entity without a naming policy reads its revision property from the column of the same name |
| ModelRegistry.AvailableRenderers | src/main/java/io/yupiik/hcms/service/model/ModelHandler.java:129-134 | the kept renderers are exactly the ones not disabled; two kept renderers with one name are a duplicate-key failure |
| ModelRegistry.Compile | src/main/java/io/yupiik/hcms/service/model/ModelHandler.java:185-204 | each operation kind is compiled by its own compiler (findById, findAll, deleteById, create, update), failing exactly when that compiler fails |
| ModelRegistry.ToJsonRpcMethod | src/main/java/io/yupiik/hcms/service/model/ModelHandler.java:173-206 | an unknown entity is an `IllegalArgumentException`; otherwise one method per operation the declared type stands for, named and secured after it, failing exactly when one operation fails to compile |
| ModelRegistry.CrudNames | src/main/java/io/yupiik/hcms/service/model/ModelHandler.java:180-184 | a `CRUD` declaration, or one without a type, registers `findById`, `findAll`, `deleteById`, `create`, `update` under the entity name, in that order |
| ModelRegistry.CrudSecurity | src/main/java/io/yupiik/hcms/service/model/ModelHandler.java:185-204 | the five methods are guarded by `view`, `view`, `delete`, `create`, `update`, and by nothing without a security declaration |
| ModelRegistry.SingleOperation | src/main/java/io/yupiik/hcms/service/model/ModelHandler.java:185-204 | a declaration of one operation registers that operation alone |
| ModelRegistry.CompileEntity | src/main/java/io/yupiik/hcms/service/model/ModelHandler.java:157-158 | a declaration compiles exactly when it validates and its entity builds, keeping its name |
| ModelRegistry.CollectBy | src/main/java/io/yupiik/hcms/service/model/ModelHandler.java:156-163 | collecting by name succeeds exactly when every element is produced and the names are distinct; then every element is found under its name and nothing else is |
| ModelRegistry.FlatMap | src/main/java/io/yupiik/hcms/service/model/ModelHandler.java:164-165 | the methods of all declarations: fails exactly when one declaration fails, and holds exactly the methods of the declarations |
| ModelRegistry.DuplicateEntityRejected | src/main/java/io/yupiik/hcms/service/model/ModelHandler.java:161-163 | two declarations with one entity name make the model fail, whatever else it holds |
| ModelRegistry.MissingEntityRejected | src/main/java/io/yupiik/hcms/service/model/ModelHandler.java:174-178 | a method declaration naming an undeclared entity makes the registration fail |
| ModelRegistry.ModelHandler.ToJsonRpc | src/main/java/io/yupiik/hcms/service/model/ModelHandler.java:145-171 | without methods nothing is registered and the loaded entities stay; otherwise the compiled entities replace them and the methods are registered |
| ModelRegistry.FailedRegistrationKeepsEntities | src/main/java/io/yupiik/hcms/service/model/ModelHandler.java:164-170 | entities that compile replace the loaded ones even when their methods then fail to register |
| RequestValues.FindEntries | src/main/java/io/yupiik/hcms/service/model/ModelHandler.java:1230-1255 | a positional list is taken as is when long enough; named parameters give one value per key in key order, a missing one refused unless nulls are allowed; any other shape and every refusal is a 400 |
| RequestValues.NamedValues | src/main/java/io/yupiik/hcms/service/model/ModelHandler.java:1240-1250 | one value per key, read by name, a missing key reading as null; a 400 exactly when a key is missing and nulls are not allowed |
| RequestValues.FindValuesFromParams | src/main/java/io/yupiik/hcms/service/model/ModelHandler.java:1076-1083 | the values found are exactly one per key, every refusal a 400 |
| RequestValues.ParameterShapes | src/main/java/io/yupiik/hcms/service/model/ModelHandler.java:1076-1083 | a list is accepted iff it has exactly one value per key, an object iff it holds every key (any object when nulls are allowed), nothing else is |
| RequestValues.IndexOf | src/main/java/io/yupiik/hcms/service/model/ModelHandler.java:880-882 | `List.indexOf`: the first position holding the element, `-1` exactly when it is absent |
| RequestValues.Generate | src/main/java/io/yupiik/hcms/service/model/ModelHandler.java:893-921 | a `sub` field takes the token's `sub` claim, null without a token, 403 when the token has no `sub`; the other generators never fail |
| RequestValues.VirtualFields | src/main/java/io/yupiik/hcms/service/model/ModelHandler.java:875-891 | the chained setters keep the number of values |
| RequestValues.VirtualFieldsFrame | src/main/java/io/yupiik/hcms/service/model/ModelHandler.java:875-891 | a position no virtual field names keeps the request's value |
| RequestValues.VirtualFieldsSet | src/main/java/io/yupiik/hcms/service/model/ModelHandler.java:884-888 | the last field naming a position sets it to its generated value |
| RequestValues.ApplyVirtualFields | src/main/java/io/yupiik/hcms/service/model/ModelHandler.java:884-924 | the setters run one after another over a copied array compute exactly `VirtualFields` |
| RequestValues.VirtualFieldsStep | src/main/java/io/yupiik/hcms/service/model/ModelHandler.java:884-888 | one field more: its generator's failure, an out-of-range position, or its value set on the previous result |
| RequestValues.VirtualFieldsFail | src/main/java/io/yupiik/hcms/service/model/ModelHandler.java:884-888 | a failing setter fails the whole chain the same way |
| RequestValues.VirtualFieldSetters | src/main/java/io/yupiik/hcms/service/model/ModelHandler.java:877-890 | no declaration leaves the values alone; an empty declaration fails (`reduce(...).orElseThrow()`) |
| RequestValues.RevisionValue | src/main/java/io/yupiik/hcms/service/model/ModelHandler.java:1043-1060 | a date-time string revision is stamped with now, a number one with the epoch milliseconds, anything else refused |
| RequestValues.ForceRevision | src/main/java/io/yupiik/hcms/service/model/ModelHandler.java:1046-1056 | the copy holds the stamp at the revision position and the request values everywhere else |
| RequestValues.RequestToResult | src/main/java/io/yupiik/hcms/service/model/ModelHandler.java:1062-1074 | exactly the names whose value is not null, each with its value; too few values fail |
| RequestValues.RequestToResultDistinct | src/main/java/io/yupiik/hcms/service/model/ModelHandler.java:1062-1074 | distinct names with a value each never fail |
| Execution.RunQuery | src/main/java/io/yupiik/hcms/service/model/ModelHandler.java:561-563 | a query answers the database's rows, a `SQLException` a 500 |
| Execution.RunUpdate | src/main/java/io/yupiik/hcms/service/model/ModelHandler.java:561-563 | an update answers the database's count of affected rows, a `SQLException` a 500 |
| Execution.ToRenderers | src/main/java/io/yupiik/hcms/service/model/ModelHandler.java:1014-1027 | succeeds iff every non-null requested renderer is registered (406 otherwise); each JSON name then maps to a registered renderer it requested |
| Execution.Rendered | src/main/java/io/yupiik/hcms/service/model/ModelHandler.java:1203-1205 | the column value, rendered when a renderer is requested for it; a null result cannot enter the map |
| Execution.ReadRow | src/main/java/io/yupiik/hcms/service/model/ModelHandler.java:1195-1210 | succeeds iff every projected column is in the row and renders; holds no null and only projected JSON names |
| Execution.DistinctSnoc | src/main/java/io/yupiik/hcms/service/model/ModelHandler.java:1213 | one name more keeps the identifiers distinct exactly when it is new |
| Execution.InjectIds | src/main/java/io/yupiik/hcms/service/model/ModelHandler.java:1211-1214 | succeeds iff there are enough non-null id values and distinct identifiers; every identifier then holds its id value, other entries stay |
| Execution.ToMapResult | src/main/java/io/yupiik/hcms/service/model/ModelHandler.java:1188-1217 | a shaped row holds no null and every identifier with the value it was looked up with |
| Execution.ToMapResults | src/main/java/io/yupiik/hcms/service/model/ModelHandler.java:546-549 | one shaped item per row, in order, failing exactly when one row fails |
| Execution.CollectItems | src/main/java/io/yupiik/hcms/service/model/ModelHandler.java:544-550 | the `rset.next()` loop computes exactly the shaping of every row |
| Execution.ResultsStep | src/main/java/io/yupiik/hcms/service/model/ModelHandler.java:546-549 | one row more: its failure, or its shape appended |
| Execution.ResultsFailurePersists | src/main/java/io/yupiik/hcms/service/model/ModelHandler.java:545-550 | once a row fails, the whole result set fails the same way |
| Execution.FieldNames | src/main/java/io/yupiik/hcms/service/model/ModelHandler.java:482-483 | the requested fields keyed by their column, sorted; succeeds only when every field is a known string |
| Execution.FieldPairs | src/main/java/io/yupiik/hcms/service/model/ModelHandler.java:483 | one (column, field) pair per requested field; a non-string or unknown field fails |
| SqlClauses.AsMap | src/main/java/io/yupiik/hcms/service/model/ModelHandler.java:1265 | a sorted name map read as a map: the same keys, each with the value it is paired with |
| SqlClauses.KeyColumns | src/main/java/io/yupiik/hcms/service/model/ModelHandler.java:382-391 | the sortable or filterable keys mapped to their columns; fails exactly when a key is not a property (`requireNonNull`) |
| SqlClauses.ToWhereOperator | src/main/java/io/yupiik/hcms/service/model/ModelHandler.java:1000-1011 | no operator means `=`; otherwise the lower-cased operator, accepted iff it is allowed, a 400 otherwise |
| SqlClauses.OperatorDefaults | src/main/java/io/yupiik/hcms/service/model/ModelHandler.java:1296-1300 | with no declared operators only `=` passes; with the defaults an operator passes in any letter case |
| SqlClauses.FilterCondition | src/main/java/io/yupiik/hcms/service/model/ModelHandler.java:985-995 | a kept filter binds its non-null `value`; a filter object without `value` is a 400 |
| SqlClauses.Kept | src/main/java/io/yupiik/hcms/service/model/ModelHandler.java:977-984 | only filterable entries are kept, in order |
| SqlClauses.Extend | src/main/java/io/yupiik/hcms/service/model/ModelHandler.java:978-995 | a failure already met is kept; an unfilterable entry leaves the clause as it is |
| SqlClauses.FilterPartsShape | src/main/java/io/yupiik/hcms/service/model/ModelHandler.java:985-997 | one condition and one binding per kept entry, bound at consecutive indices from the start index |
| SqlClauses.FilterPartsOk | src/main/java/io/yupiik/hcms/service/model/ModelHandler.java:985-995 | the clause fails exactly when one kept entry fails |
| SqlClauses.KeptBindings | src/main/java/io/yupiik/hcms/service/model/ModelHandler.java:991-994 | the `k`-th condition and binding belong to the `k`-th kept entry, its value bound at `start + k` |
| SqlClauses.ToWhereClause | src/main/java/io/yupiik/hcms/service/model/ModelHandler.java:961-998 | no clause for an empty filter object, a clause otherwise |
| SqlClauses.WhereClauseShape | src/main/java/io/yupiik/hcms/service/model/ModelHandler.java:974-997 | a clause binds one value per kept filter at consecutive indices from the start index |
| SqlClauses.BuildWhereClause | src/main/java/io/yupiik/hcms/service/model/ModelHandler.java:961-998 | the stream with its index counter and growing binding list computes exactly `ToWhereClause` |
| SqlClauses.RenderFilters | src/main/java/io/yupiik/hcms/service/model/ModelHandler.java:974-996 | the loop over the entries computes exactly the conditions and bindings of the kept entries |
| SqlClauses.RenderStep | src/main/java/io/yupiik/hcms/service/model/ModelHandler.java:978-995 | one entry more: skipped when unfilterable, otherwise its failure or its condition and binding appended |
| SqlClauses.PrefixStep | src/main/java/io/yupiik/hcms/service/model/ModelHandler.java:977-996 | the entries up to `i` render as those before `i` extended by entry `i` |
| SqlClauses.FailurePersists | src/main/java/io/yupiik/hcms/service/model/ModelHandler.java:987-989 | once an entry fails, the whole clause fails the same way |
| SqlClauses.UnfilterableDropped | src/main/java/io/yupiik/hcms/service/model/ModelHandler.java:978-984 | unfilterable entries have no effect: the clause is the one of the kept entries alone |
| SqlClauses.MissingValueFails | src/main/java/io/yupiik/hcms/service/model/ModelHandler.java:986-989 | a kept filter without a value makes the clause fail |
| SqlClauses.ToOrderByClause | src/main/java/io/yupiik/hcms/service/model/ModelHandler.java:927-952 | no clause without `name` or for an unsortable name; otherwise ` order by <column> ASC` or `DESC` on the named property's column |
| SqlClauses.Direction | src/main/java/io/yupiik/hcms/service/model/ModelHandler.java:946 | the direction defaults to `ASC` |
| SqlClauses.OrderByDirection | src/main/java/io/yupiik/hcms/service/model/ModelHandler.java:946-951 | ascending when absent, case-insensitive `desc` is descending, anything else a 400 |
| SqlClauses.SelectColumn | src/main/java/io/yupiik/hcms/service/model/ModelHandler.java:1378-1381 | `<column> as <name>`, wrapped in `max()` exactly when the column equals the revision property's name; what that comparison means for an entity is stated by the three lemmas below |
| SqlClauses.SelectColumns | src/main/java/io/yupiik/hcms/service/model/ModelHandler.java:366-368 | one projection per mapped column, in order |
| SqlClauses.AggregatedExactlyRevision | src/main/java/io/yupiik/hcms/service/model/ModelHandler.java:1378-1381 | a projection is the `max()` form if and only if its column is spelled exactly like the revision property's JSON name |
| SqlClauses.SnakeRevisionNeverAggregated | src/main/java/io/yupiik/hcms/service/model/ModelHandler.java:366-368 | under the camel-to-snake naming, a revision property whose name holds an upper-case letter is never wrapped in `max()`: every projection of the entity is plain |
| SqlClauses.PlainRevisionAggregated | src/main/java/io/yupiik/hcms/service/model/ModelHandler.java:366-368 | without a naming policy the revision property's column is projected as `max(<rev>) as <rev>` |
| SqlClauses.FieldColumns | src/main/java/io/yupiik/hcms/service/model/ModelHandler.java:1175-1186 | one projection per requested field, each a known string field; an unknown field fails (400) |
| SqlClauses.CustomColumns | src/main/java/io/yupiik/hcms/service/model/ModelHandler.java:1175-1186 | succeeds exactly when every requested field has a column; an unknown field fails; no field gives an empty projection and one field its single selected column |
| SqlClauses.ClaimOf | src/main/java/io/yupiik/hcms/service/model/ModelHandler.java:339-358 | a valid expression is `user.<claim>` with a non-empty, dot-free claim |
| SqlClauses.ImplicitWhere | src/main/java/io/yupiik/hcms/service/model/ModelHandler.java:336-362 | succeeds iff every expression reads a user claim (an `IllegalArgumentException` otherwise); one claim binding per expression at consecutive indices from the first index |
| SqlClauses.Implicit | src/main/java/io/yupiik/hcms/service/model/ModelHandler.java:331-334 | no clause without a template; otherwise the rendered template |
| SqlClauses.PrepareImplicitWhere | src/main/java/io/yupiik/hcms/service/model/ModelHandler.java:331-363 | the chunk-by-chunk render with its index counter computes exactly `Implicit` |
| SqlClauses.MergeBinders | src/main/java/io/yupiik/hcms/service/model/ModelHandler.java:1085-1095 | the identifier bindings alone, or followed by those of the implicit clause |
| FindAll.IdColumns | src/main/java/io/yupiik/hcms/service/model/ModelHandler.java:373-376 | only columns whose JSON name is an identifier, taken from the column map |
| FindAll.CompileFindAll | src/main/java/io/yupiik/hcms/service/model/ModelHandler.java:365-397 | the plan holds the rendered implicit `view` filter bound from 1, the sortable and filterable keys, the filters' start index right after the implicit bindings, and the plain count statement without revision |
| FindAll.IntValue | src/main/java/io/yupiik/hcms/service/model/ModelHandler.java:411-414 | only a number has an `int` value, wrapped to 32 bits and unchanged when it fits |
| FindAll.IntOr | src/main/java/io/yupiik/hcms/service/model/ModelHandler.java:440-445 | a member that is not a number leaves the default |
| FindAll.ParseList | src/main/java/io/yupiik/hcms/service/model/ModelHandler.java:409-438 | an empty list is page 1 of 10 with the implicit filter only; fewer than three entries keep the default filter, sort, renderers and fields |
| FindAll.ParseObject | src/main/java/io/yupiik/hcms/service/model/ModelHandler.java:439-460 | an empty object is page 1 of 10 with the implicit filter only; without a `filters` object the implicit filter stays |
| FindAll.ParseFindAll | src/main/java/io/yupiik/hcms/service/model/ModelHandler.java:409-465 | parameters that are neither a list nor an object are a 400 |
| FindAll.PageValue | src/main/java/io/yupiik/hcms/service/model/ModelHandler.java:487 | the page is at least 1, and the requested one when it is |
| FindAll.PageSizeValue | src/main/java/io/yupiik/hcms/service/model/ModelHandler.java:488 | the page size is clamped into `0..50` |
| FindAll.Offset | src/main/java/io/yupiik/hcms/service/model/ModelHandler.java:541 | the first page starts at row 0, page `p` at `(p - 1) * size` when that fits an `int` |
| FindAll.SelectHead | src/main/java/io/yupiik/hcms/service/model/ModelHandler.java:470-479 | without a field selection (or with `["*"]`) the base select of every column |
| FindAll.GroupBy | src/main/java/io/yupiik/hcms/service/model/ModelHandler.java:372-377 | a `group by` exactly when the entity has a revision property, and nothing otherwise |
| FindAll.FindAllSql | src/main/java/io/yupiik/hcms/service/model/ModelHandler.java:467-485 | the page statement ends with the OFFSET/FETCH clause, the count statement is the base count plus the where clause, and the projection is every column or the sorted selected fields |
| FindAll.PaginationIndex | src/main/java/io/yupiik/hcms/service/model/ModelHandler.java:540 | OFFSET is bound right after the where clause's own bindings, at index 1 or more |
| FindAll.FilterBinders | src/main/java/io/yupiik/hcms/service/model/ModelHandler.java:526-537 | both statements get the implicit filter's bindings, then the where clause's |
| FindAll.PageBinders | src/main/java/io/yupiik/hcms/service/model/ModelHandler.java:526-542 | the page statement gets the filter bindings, then OFFSET with the page offset and FETCH with the clamped size |
| FindAll.Total | src/main/java/io/yupiik/hcms/service/model/ModelHandler.java:553-558 | a count query without rows is a 500; the total is a number |
| FindAll.FindAllCall | src/main/java/io/yupiik/hcms/service/model/ModelHandler.java:401-564 | a successful call answers a page of items with a numeric total |
| FindAll.Defaults | src/main/java/io/yupiik/hcms/service/model/ModelHandler.java:402-408 | without parameters a call reads page 1 of 10 from row 0, filtered by the implicit filter only |
| FindAll.Pagination | src/main/java/io/yupiik/hcms/service/model/ModelHandler.java:539-542 | the bound statement holds the page offset at the pagination index and the clamped page size right after it |
| FindAll.ParsedWhere | src/main/java/io/yupiik/hcms/service/model/ModelHandler.java:404-449 | the where clause is the implicit filter alone, none, or the request filters bound consecutively from the start index |
| FindAll.WithoutImplicitConsecutive | src/main/java/io/yupiik/hcms/service/model/ModelHandler.java:526-542 | without implicit filter the page statement binds indices 1, 2, … without gap |
| FindAll.ImplicitOnlyPagination | src/main/java/io/yupiik/hcms/service/model/ModelHandler.java:526-542 | with the implicit filter alone its bindings are set twice at the same indices and pagination follows them |
| FindAll.DoubledIndices | src/main/java/io/yupiik/hcms/service/model/ModelHandler.java:527-542 | bindings set twice at `1..k`, then two more, cover exactly `1..k + 2` |
| FindAll.FilteredPaginationIgnoresImplicit | src/main/java/io/yupiik/hcms/service/model/ModelHandler.java:540-542 | with both an implicit filter and request filters, OFFSET lands right after the request filters' bindings only, so the last placeholder is never bound |
| FindAll.IndexAbove | src/main/java/io/yupiik/hcms/service/model/ModelHandler.java:526-542 | an index above every binding's is not bound |
| FindAll.EmptyFiltersDropImplicit | src/main/java/io/yupiik/hcms/service/model/ModelHandler.java:446-449 | an empty `filters` object replaces the implicit filter by no where clause at all |
| FindAll.UnfilteredStatements | src/main/java/io/yupiik/hcms/service/model/ModelHandler.java:467-485 | without where clause neither statement keeps the implicit condition, while its claim bindings are still set |
| FindAll.Items | src/main/java/io/yupiik/hcms/service/model/ModelHandler.java:544-560 | a successful call shapes every row of the page query, in order |
| FindById.NonIdentifiers | src/main/java/io/yupiik/hcms/service/model/ModelHandler.java:780-782 | exactly the column entries whose JSON name is not an identifier |
| FindById.CompileFindById | src/main/java/io/yupiik/hcms/service/model/ModelHandler.java:777-799 | compiles iff the implicit `view` template renders (bound after the identifiers); the sorted projection of every non-identifier column, the identifier bindings then the implicit ones, and a statement filtering on the identifiers |
| FindById.CallRenderers | src/main/java/io/yupiik/hcms/service/model/ModelHandler.java:807-812 | only an object parameter selects renderers |
| FindById.CallFields | src/main/java/io/yupiik/hcms/service/model/ModelHandler.java:814-821 | only an object parameter selects fields |
| FindById.FindByIdSql | src/main/java/io/yupiik/hcms/service/model/ModelHandler.java:823-832 | without field selection the compiled statement and projection; otherwise the selected columns with the same filter and a sorted projection |
| FindById.Prepare | src/main/java/io/yupiik/hcms/service/model/ModelHandler.java:804-840 | the identifiers are read by `findValuesFromParams` without nulls, and the bound parameters are exactly the binders' indices |
| FindById.FindByIdCall | src/main/java/io/yupiik/hcms/service/model/ModelHandler.java:845-873 | a found entity holds no null and every identifier with the value it was looked up with |
| FindById.RowCount | src/main/java/io/yupiik/hcms/service/model/ModelHandler.java:855-872 | a database failure is a 500, no row a 404, a second row a 405, and a single row the entity with its identifiers |
| Writes.RevisionStamp | src/main/java/io/yupiik/hcms/service/model/ModelHandler.java:683-687 | no revision property, no stamp; otherwise a number or date-time revision stamped at its position among the columns |
| Writes.ApplyStamp | src/main/java/io/yupiik/hcms/service/model/ModelHandler.java:695-696 | without stamp the values are unchanged; a stamp keeps the length and sets the revision value at its position, failing only when that position is outside the values |
| Writes.WriteValues | src/main/java/io/yupiik/hcms/service/model/ModelHandler.java:695-696 | one value per name read, after the virtual fields and the revision stamp |
| Writes.Placeholders | src/main/java/io/yupiik/hcms/service/model/ModelHandler.java:654-656 | one `?` per column |
| Writes.CompileCreate | src/main/java/io/yupiik/hcms/service/model/ModelHandler.java:649-687 | the insert names every column and binds value `k` to parameter `k + 1`, in column order; an entity without column is an `IllegalStateException` |
| Writes.PutKeys | src/main/java/io/yupiik/hcms/service/model/ModelHandler.java:669-673 | succeeds iff there are no more key rows than identifiers and each row has its column; the result then holds exactly the data's keys and the filled identifiers |
| Writes.PutKeysFills | src/main/java/io/yupiik/hcms/service/model/ModelHandler.java:669-673 | identifier `i` holds column `i + 1` of key row `i` unless a later row fills the same identifier |
| Writes.PutKeysKeeps | src/main/java/io/yupiik/hcms/service/model/ModelHandler.java:669-673 | an entry of the data that no key row fills keeps its value |
| Writes.PostExecute | src/main/java/io/yupiik/hcms/service/model/ModelHandler.java:661-677 | no generated key row is a 500; otherwise the `do … while (keys.next())` loop computes `PutKeys` |
| Writes.KeysFailurePersists | src/main/java/io/yupiik/hcms/service/model/ModelHandler.java:671-673 | once a key row fails, every longer sequence of key rows fails the same way |
| Writes.SingleKeyRow | src/main/java/io/yupiik/hcms/service/model/ModelHandler.java:669-673 | one generated-key row fills the first identifier only, with the row's first column |
| Writes.CreateCall | src/main/java/io/yupiik/hcms/service/model/ModelHandler.java:692-726 | a created entity answers every non-null written value under its name; without generated identifiers exactly those values, with them those values with the generated keys filled in by `PutKeys` |
| Writes.IdColumnNames | src/main/java/io/yupiik/hcms/service/model/ModelHandler.java:567-569 | the identifier columns, in identifier order |
| Writes.Without | src/main/java/io/yupiik/hcms/service/model/ModelHandler.java:570-572 | exactly the columns that are not excluded, in order |
| Writes.Assignments | src/main/java/io/yupiik/hcms/service/model/ModelHandler.java:578-579 | one `c = ?` per column, in order |
| Writes.CompileUpdate | src/main/java/io/yupiik/hcms/service/model/ModelHandler.java:566-603 | the update sets every non-identifier column, selects the row by its identifiers, binds the updated columns then the identifiers (nulls allowed) then the implicit `update` filter |
| Writes.UpdateImplicit | src/main/java/io/yupiik/hcms/service/model/ModelHandler.java:573-577 | no update template gives no filter; a filter binds its claims consecutively after the set and identifier values; an invalid template is an `IllegalArgumentException` |
| Writes.UpdateBindingOrder | src/main/java/io/yupiik/hcms/service/model/ModelHandler.java:592-603 | the values bind parameters `1..n` in order, updated columns first then identifiers, then the implicit claims |
| Writes.UpdateValues | src/main/java/io/yupiik/hcms/service/model/ModelHandler.java:611-612 | one value per binding name |
| Writes.IdValues | src/main/java/io/yupiik/hcms/service/model/ModelHandler.java:613 | the identifier values are the last values |
| Writes.UpdateCall | src/main/java/io/yupiik/hcms/service/model/ModelHandler.java:608-647 | an updated entity answers its non-null values by name, and no identifier value was null |
| Writes.NullIdentifierRejected | src/main/java/io/yupiik/hcms/service/model/ModelHandler.java:613-616 | a null identifier is a 400 whatever the database would do |
| Writes.NoRowTouched | src/main/java/io/yupiik/hcms/service/model/ModelHandler.java:638-642 | an update touching no row is a 500 |
| Writes.VirtualFieldSlotMismatch | src/main/java/io/yupiik/hcms/service/model/ModelHandler.java:587-594 | virtual fields are placed by their position among the sorted columns while the values list the identifiers last: for columns `id`, `title`, a virtual `title` lands on the identifier's slot |
| Writes.CompileDelete | src/main/java/io/yupiik/hcms/service/model/ModelHandler.java:731-739 | compiles iff the implicit `delete` template renders; the statement filters on the identifiers and the implicit condition; identifier bindings then implicit ones |
| Writes.DeleteCall | src/main/java/io/yupiik/hcms/service/model/ModelHandler.java:744-775 | a deletion answers `{"success": true}`; identifiers that cannot be read are a 400 |
| Writes.NoRowDeleted | src/main/java/io/yupiik/hcms/service/model/ModelHandler.java:764-770 | a delete touching no row is a 404 |
| Writes.DeleteImplicitCollision | src/main/java/io/yupiik/hcms/service/model/ModelHandler.java:733-736 | the implicit delete filter is bound from index 1, over the identifiers' own indices: the last placeholder is never bound and parameter 1 holds the first claim |
| BulkFindById.KeyedIds | src/main/java/io/yupiik/hcms/service/model/ModelHandler.java:236-238 | each identifier paired with the `databaseToJson` entry of the column spelled like it |
| BulkFindById.IdKeys | src/main/java/io/yupiik/hcms/service/model/ModelHandler.java:236-238 | identifiers sorted by that key, first of equal keys kept; an identifier that is not also a column name is a `NullPointerException` (the comparator meets `null`) |
| BulkFindById.Put | src/main/java/io/yupiik/hcms/service/model/ModelHandler.java:243-246 | `LinkedHashMap.put`: a present key keeps its place and takes the new value, a new key goes last, other keys are untouched |
| BulkFindById.PutAll | src/main/java/io/yupiik/hcms/service/model/ModelHandler.java:243-246 | keys already there keep their places ahead of new ones; the keys are the union; keys not put keep their values |
| BulkFindById.Reversed | src/main/java/io/yupiik/hcms/service/model/ModelHandler.java:247-248 | the projection read from JSON name to column, pair by pair; succeeds iff no JSON name repeats (a duplicate key otherwise) |
| BulkFindById.RequestIds | src/main/java/io/yupiik/hcms/service/model/ModelHandler.java:250-252 | each request's identifier values read from its `params` like a single `findById`; any request without them is a 400 |
| BulkFindById.Flatten | src/main/java/io/yupiik/hcms/service/model/ModelHandler.java:292-295 | requests with `n` values each flatten into `n` values per request |
| BulkFindById.FlattenAt | src/main/java/io/yupiik/hcms/service/model/ModelHandler.java:292-295 | with `n` values per request, position `i * n + j` of the flattened list holds the `j`-th value of request `i`: the values are the requests' values concatenated in order |
| BulkFindById.WhereGroups | src/main/java/io/yupiik/hcms/service/model/ModelHandler.java:278 | a single request gives one parenthesised identifier condition |
| BulkFindById.BulkSql | src/main/java/io/yupiik/hcms/service/model/ModelHandler.java:273-285 | the statement selects the columns from the table where one identifier group per request holds, and ends with a `group by` over the identifier columns for a revisioned entity |
| BulkFindById.ImplicitFilterNotConjoined | src/main/java/io/yupiik/hcms/service/model/ModelHandler.java:273-279 | the implicit view filter follows the identifier groups with no `AND` in between: one request reads `where (<ids>)(<filter>)` |
| BulkFindById.IdBindings | src/main/java/io/yupiik/hcms/service/model/ModelHandler.java:291-297 | one literal binding per identifier value, at consecutive indices |
| BulkFindById.BindAllAppend | src/main/java/io/yupiik/hcms/service/model/ModelHandler.java:296-302 | one binding more: the statement fails with it or its parameter is set |
| BulkFindById.BindStep | src/main/java/io/yupiik/hcms/service/model/ModelHandler.java:296-302 | the bindings up to `k` bind as those before `k` followed by binding `k` |
| BulkFindById.BindFailurePersists | src/main/java/io/yupiik/hcms/service/model/ModelHandler.java:296-302 | once a binding fails, the statement fails the same way |
| BulkFindById.BindValues | src/main/java/io/yupiik/hcms/service/model/ModelHandler.java:291-297 | the `setObject(index++, value)` loop sets exactly the identifier bindings from index 1 |
| BulkFindById.IdBindingStep | src/main/java/io/yupiik/hcms/service/model/ModelHandler.java:296 | one identifier value more sets it at the next index |
| BulkFindById.BindClaims | src/main/java/io/yupiik/hcms/service/model/ModelHandler.java:298-303 | the loop over the implicit binders, after the identifier values, gives the bindings of both in order |
| BulkFindById.BindStatement | src/main/java/io/yupiik/hcms/service/model/ModelHandler.java:290-303 | the two binding loops compute exactly the bindings of the identifier values then the implicit filter |
| BulkFindById.ImplicitIndexCollision | src/main/java/io/yupiik/hcms/service/model/ModelHandler.java:254-259 | the implicit clause is numbered from the count of identifier values, which the last value already holds: its first claim overwrites that value and the last placeholder is never set |
| BulkFindById.FirstBinderLast | src/main/java/io/yupiik/hcms/service/model/ModelHandler.java:298-303 | the first implicit binder is the last binding of its index |
| BulkFindById.BindingsBelow | src/main/java/io/yupiik/hcms/service/model/ModelHandler.java:291-303 | no binding reaches the index of the last placeholder |
| BulkFindById.IdMap | src/main/java/io/yupiik/hcms/service/model/ModelHandler.java:307-311 | a row with enough columns maps the `i`-th key identifier to its `i`-th column; a shorter row fails the read (500) |
| BulkFindById.KeyShape | src/main/java/io/yupiik/hcms/service/model/ModelHandler.java:307-312 | a row's key is read before its value; the first failure is the row's |
| BulkFindById.Filed | src/main/java/io/yupiik/hcms/service/model/ModelHandler.java:312 | every key is filed, each under the value of the last pair with that key |
| BulkFindById.Refiled | src/main/java/io/yupiik/hcms/service/model/ModelHandler.java:312 | filing one more pair keeps every key's value the one of its last pair |
| BulkFindById.FileRows | src/main/java/io/yupiik/hcms/service/model/ModelHandler.java:305-314 | succeeds iff every row's key and value read; every row's key is filed, under the value of the last row with that key |
| BulkFindById.FileRowsStep | src/main/java/io/yupiik/hcms/service/model/ModelHandler.java:306-313 | one row more: its failure, or its value filed under its key |
| BulkFindById.FileRowsFailurePersists | src/main/java/io/yupiik/hcms/service/model/ModelHandler.java:306-313 | once a row fails, the result set fails the same way |
| BulkFindById.IdsOf | src/main/java/io/yupiik/hcms/service/model/ModelHandler.java:307-311 | a row's key is its identifier map |
| BulkFindById.CollectResults | src/main/java/io/yupiik/hcms/service/model/ModelHandler.java:305-314 | the `while (rset.next())` loop computes exactly the rows filed by key |
| BulkFindById.LookUp | src/main/java/io/yupiik/hcms/service/model/ModelHandler.java:319-328 | succeeds iff every request's key has a result; then each request gets the result filed under its key; a missing result is a `NullPointerException` |
| BulkFindById.PrepareBulk | src/main/java/io/yupiik/hcms/service/model/ModelHandler.java:233-303 | the statement reads every request's identifier values and files rows by the identifiers in key order; an identifier that is not a column name is a `NullPointerException` |
| BulkFindById.Values | src/main/java/io/yupiik/hcms/service/model/ModelHandler.java:308 | the values of the identifier keys, in order |
| BulkFindById.JsonNames | src/main/java/io/yupiik/hcms/service/model/ModelHandler.java:270 | the identifier names as JSON strings |
| BulkFindById.Deduplicated | src/main/java/io/yupiik/hcms/service/model/ModelHandler.java:270-272 | `distinct()`: the same elements, each once |
| BulkFindById.RunBulk | src/main/java/io/yupiik/hcms/service/model/ModelHandler.java:305-328 | one result per request, none holding a null, each the shape of a returned row whose identifier columns are that request's values |
| BulkFindById.FindByIds | src/main/java/io/yupiik/hcms/service/model/ModelHandler.java:220-329 | an unknown entity is a 400; otherwise the prepared statement's run, one result per request |
| BulkFindById.AnsweredRequests | src/main/java/io/yupiik/hcms/service/model/ModelHandler.java:319-328 | every looked-up result comes from a row that answers its request |
| BulkFindById.MissingRowFails | src/main/java/io/yupiik/hcms/service/model/ModelHandler.java:319-328 | a request whose identifiers no row carries fails the whole batch with a `NullPointerException` |
| BatchDispatcher.MethodOf | src/main/java/io/yupiik/hcms/jsonrpc/extension/ExtendedJsonRpcHandler.java:88 | a missing `method` reads as the empty string, a present one as its text; a `null` one cannot be printed (`NullPointerException`) |
| BatchDispatcher.Classify | src/main/java/io/yupiik/hcms/jsonrpc/extension/ExtendedJsonRpcHandler.java:80-124 | an unparsed request sends the batch to the default handler; a bulked batch holds only entity `findById` calls; the shared transaction writes iff some method creates or updates |
| BatchDispatcher.PassThroughExactly | src/main/java/io/yupiik/hcms/jsonrpc/extension/ExtendedJsonRpcHandler.java:86-94 | a parsed batch goes to the default handler exactly when one of its methods is built in (`hcms…`) or not virtual |
| BatchDispatcher.FindByIdVirtual | src/main/java/io/yupiik/hcms/jsonrpc/extension/ExtendedJsonRpcHandler.java:126-129 | a `….findById` method is virtual exactly when its entity is loaded and its name not empty |
| BatchDispatcher.AllFindByIdsBulked | src/main/java/io/yupiik/hcms/jsonrpc/extension/ExtendedJsonRpcHandler.java:97-112 | a batch of loaded entities' `findById` calls, none built in, is bulked |
| BatchDispatcher.DeletionsRead | src/main/java/io/yupiik/hcms/jsonrpc/extension/ExtendedJsonRpcHandler.java:114-123 | virtual calls that are not all `findById` and neither create nor update share a read transaction |
| BatchDispatcher.KeyOf | src/main/java/io/yupiik/hcms/jsonrpc/extension/ExtendedJsonRpcHandler.java:136-148 | a bulked request is grouped under the entity its method names, with `fields` and `renderers` only when its raw `params` is an object |
| BatchDispatcher.BatchKeys | src/main/java/io/yupiik/hcms/jsonrpc/extension/ExtendedJsonRpcHandler.java:134-148 | the group key of every request, in batch order |
| BatchDispatcher.Firsts | src/main/java/io/yupiik/hcms/jsonrpc/extension/ExtendedJsonRpcHandler.java:149 | the parsed request of every batch request, in batch order |
| BatchDispatcher.Unique | src/main/java/io/yupiik/hcms/jsonrpc/extension/ExtendedJsonRpcHandler.java:134-149 | the same keys, each once, the first one first |
| BatchDispatcher.Select | src/main/java/io/yupiik/hcms/jsonrpc/extension/ExtendedJsonRpcHandler.java:149 | exactly the elements filed under a key |
| BatchDispatcher.GroupKeys | src/main/java/io/yupiik/hcms/jsonrpc/extension/ExtendedJsonRpcHandler.java:134-149 | one key per group, each the key of some request, none repeated |
| BatchDispatcher.Members | src/main/java/io/yupiik/hcms/jsonrpc/extension/ExtendedJsonRpcHandler.java:134-149 | exactly the parsed requests whose key is the group's |
| BatchDispatcher.PlainRequestsGroupByEntity | src/main/java/io/yupiik/hcms/jsonrpc/extension/ExtendedJsonRpcHandler.java:139-147 | requests without object `params` calling the same method share one group |
| BatchDispatcher.GroupResults | src/main/java/io/yupiik/hcms/jsonrpc/extension/ExtendedJsonRpcHandler.java:152-160 | one group's `findByIds` answers one result per member |
| BatchDispatcher.Pairs | src/main/java/io/yupiik/hcms/jsonrpc/extension/ExtendedJsonRpcHandler.java:161-162 | every request of a group is answered, the first of equal requests keeping its result |
| BatchDispatcher.Collect | src/main/java/io/yupiik/hcms/jsonrpc/extension/ExtendedJsonRpcHandler.java:151-163 | a merged map exists only when every group succeeded, and then answers every request of those groups |
| BatchDispatcher.BulkResults | src/main/java/io/yupiik/hcms/jsonrpc/extension/ExtendedJsonRpcHandler.java:151-163 | once every group ran, every request of the batch has a result |
| BatchDispatcher.IdOf | src/main/java/io/yupiik/hcms/jsonrpc/extension/ExtendedJsonRpcHandler.java:171 | a response carries the request's `id` exactly when it is a string |
| BatchDispatcher.ResponsesFor | src/main/java/io/yupiik/hcms/jsonrpc/extension/ExtendedJsonRpcHandler.java:168-181 | one response per request in order: its result under its id, or the same 500 for every request once anything failed |
| BatchDispatcher.BulkResponses | src/main/java/io/yupiik/hcms/jsonrpc/extension/ExtendedJsonRpcHandler.java:150-182 | one response per request of the batch, all 500 when the results fail, each request's result otherwise |
| BatchDispatcher.OneGroupFailsAll | src/main/java/io/yupiik/hcms/jsonrpc/extension/ExtendedJsonRpcHandler.java:176-181 | one failing group cancels the whole batch: every response is the 500 error |
| BatchDispatcher.RecordTextInAttribute | src/main/java/io/yupiik/hcms/jsonrpc/extension/ExtendedJsonRpcHandler.java:164-166 | the recorded method attribute prints the grouping record: a plain `book.findById` is traced as `FindById[entity=book, fields=null, renderers=null].findById` |
| BatchDispatcher.BulkFindByIdsOn | src/main/java/io/yupiik/hcms/jsonrpc/extension/ExtendedJsonRpcHandler.java:132-183 | answers the bulk responses; records the method attribute only when every group succeeded, leaving the request's attributes alone otherwise |
| BatchDispatcher.Respond | src/main/java/io/yupiik/hcms/jsonrpc/extension/ExtendedJsonRpcHandler.java:168-181 | the loop over the requests builds exactly the responses `ResponsesFor` describes |
| BatchDispatcher.HandleRequests | src/main/java/io/yupiik/hcms/jsonrpc/extension/ExtendedJsonRpcHandler.java:80-124 | the batch is routed over the loaded entities; the bulk path, taken only for a bulked batch, answers its responses |
| BatchDispatcher.BulkMethods | src/main/java/io/yupiik/hcms/jsonrpc/extension/ExtendedJsonRpcHandler.java:97-106 | a bulked batch calls `….findById` in every request |
| DocEndpoint.FirstNotNullText | src/main/java/io/yupiik/hcms/http/DocEndpoint.java:436-441 | the text of the first `type` entry that is not the string "null"; "null" when every entry is that string; a `null` entry reached first fails, as `findFirst` cannot return it |
| DocEndpoint.TypeEntries | src/main/java/io/yupiik/hcms/http/DocEndpoint.java:429-446 | a one-entry `type` list becomes that entry as text; a longer one holding "null" becomes `nullable: true` plus the first entry that is not "null"; a longer one without it becomes its first entry; printing or selecting a `null` entry fails |
| DocEndpoint.Inline | src/main/java/io/yupiik/hcms/http/DocEndpoint.java:424-458 | scalars are kept, objects come back sorted by member name, lists keep their length; every failure is a null pointer (a `null` member value, or a `null` `type` entry that is printed or selected) |
| DocEndpoint.InlineFields | src/main/java/io/yupiik/hcms/http/DocEndpoint.java:427-452 | the members of an object rewritten in order, each result member normalised when it succeeds |
| DocEndpoint.InlineMember | src/main/java/io/yupiik/hcms/http/DocEndpoint.java:429-451 | a `type` list is replaced by its rewritten entries, any other member keeps its name with its value rewritten and not `null`; every failure is a null pointer |
| DocEndpoint.InlineItems | src/main/java/io/yupiik/hcms/http/DocEndpoint.java:454-456 | the elements of a list rewritten one by one, same length, `null` elements kept |
| DocEndpoint.InlineNormalizes | src/main/java/io/yupiik/hcms/http/DocEndpoint.java:424-458 | what the rewriting returns is a normal form: sorted objects, no `null` members, no `type` lists left, all the way down |
| DocEndpoint.InlineFieldsNormalize | src/main/java/io/yupiik/hcms/http/DocEndpoint.java:427-452 | every member an object's rewriting yields is in normal form |
| DocEndpoint.InlineMemberNormalizes | src/main/java/io/yupiik/hcms/http/DocEndpoint.java:429-451 | every member one member's rewriting yields is in normal form |
| DocEndpoint.InlinedFixed | src/main/java/io/yupiik/hcms/http/DocEndpoint.java:424-458 | a normal form is left unchanged by the rewriting |
| DocEndpoint.InlinedFieldsFixed | src/main/java/io/yupiik/hcms/http/DocEndpoint.java:427-452 | normal members are rewritten to themselves |
| DocEndpoint.InlinedMemberFixed | src/main/java/io/yupiik/hcms/http/DocEndpoint.java:429-451 | a normal member is rewritten to itself alone |
| DocEndpoint.InlinedItemsFixed | src/main/java/io/yupiik/hcms/http/DocEndpoint.java:454-456 | a list of normal forms is rewritten to itself |
| DocEndpoint.InlineIdempotent | src/main/java/io/yupiik/hcms/http/DocEndpoint.java:424-458 | rewriting a rewritten schema changes nothing |
| DocEndpoint.NullTypeEntryFails | src/main/java/io/yupiik/hcms/http/DocEndpoint.java:439-442 | a `type` list holding "null" whose first other entry is a JSON `null` fails, and so does the schema holding it |
| DocEndpoint.NullableString | src/main/java/io/yupiik/hcms/http/DocEndpoint.java:436-445 | `{"type": ["null", "string"]}` becomes `{"nullable": true, "type": "string"}` |
| DocEndpoint.Tag | src/main/java/io/yupiik/hcms/http/DocEndpoint.java:377-389 | `hcms.` methods are tagged "HCMS"; others by the text before their last dot when that dot is past the first character; none otherwise |
| DocEndpoint.VirtualMethodTag | src/main/java/io/yupiik/hcms/http/DocEndpoint.java:380-387 | every entity method the dispatcher accepts, outside the built-ins, is tagged with its entity |
| DocEndpoint.EntityMethodTag | src/main/java/io/yupiik/hcms/http/DocEndpoint.java:380-387 | `<entity>.<operation>` is tagged with `<entity>` unless its name starts with `hcms.` |
| DocEndpoint.CreateParams | src/main/java/io/yupiik/hcms/http/DocEndpoint.java:770-778 | a property is a creation parameter exactly when it is not the revision property and not an identifier the database generates |
| DocEndpoint.CreateParamsOf | src/main/java/io/yupiik/hcms/http/DocEndpoint.java:759-778 | every parameter of `create` is a parameter of `update` |
| DocEndpoint.UpdateParamsOf | src/main/java/io/yupiik/hcms/http/DocEndpoint.java:793-798 | `update` lists one parameter per schema property |
| DocEndpoint.UpdateOnlyParams | src/main/java/io/yupiik/hcms/http/DocEndpoint.java:770-798 | what `update` takes and `create` does not is the revision property or a generated identifier |
| DocEndpoint.ContentType | src/main/java/io/yupiik/hcms/http/DocEndpoint.java:196-202 | `.js` is JavaScript, else `.css` is CSS, else `.png` is PNG, anything else an octet stream |
| DocEndpoint.SwaggerUI | src/main/java/io/yupiik/hcms/http/DocEndpoint.java:89-207 | 404 while OpenAPI is off or for an unknown resource; the index page exactly for a blank path or `index.html`; the `.gz` variant, flagged `content-encoding: gzip`, exactly when gzip is accepted and stored; the stored bytes with their content type otherwise |
| DocEndpoint.Enabled | src/main/java/io/yupiik/hcms/http/DocEndpoint.java:254-255 | a document is switched off only by an explicit `false` |
| DocEndpoint.DocEndpointState.Reload | src/main/java/io/yupiik/hcms/http/DocEndpoint.java:253-285 | each document answers 200 when its switch is on and 404 otherwise; the Swagger UI follows the OpenAPI switch; the resources are untouched |
| DocEndpoint.DocEndpointState.GetSwaggerUI | src/main/java/io/yupiik/hcms/http/DocEndpoint.java:89-207 | the Swagger UI answer for the current switch and resources; always 404 while OpenAPI is off |
| DocEndpoint.ReloadThenServe | src/main/java/io/yupiik/hcms/http/DocEndpoint.java:253-285 | after a reload with OpenAPI explicitly off every Swagger UI path is a 404; otherwise the index page is served |
| FrisbySkeleton.FirstNonNullType | src/main/java/io/yupiik/hcms/cli/GenerateFrisbySkeleton.java:591 | the first listed type other than "null", string when there is none; never the null type; a JSON `null` entry fails |
| FrisbySkeleton.FindType | src/main/java/io/yupiik/hcms/cli/GenerateFrisbySkeleton.java:587-592 | string for a missing schema or `type` list; otherwise a type the list names; never the null type |
| FrisbySkeleton.TypeFound | src/main/java/io/yupiik/hcms/cli/GenerateFrisbySkeleton.java:591 | a type other than string is one the list declares |
| FrisbySkeleton.JoiConstraints | src/main/java/io/yupiik/hcms/cli/GenerateFrisbySkeleton.java:343-358 | the Joi validator of the property's type, ending in `.required()` exactly when a declared `type` list does not allow "null" |
| FrisbySkeleton.NotRequiredByName | src/main/java/io/yupiik/hcms/cli/GenerateFrisbySkeleton.java:346-352 | no validator name already carries the required suffix |
| FrisbySkeleton.NeverAnyOptional | src/main/java/io/yupiik/hcms/cli/GenerateFrisbySkeleton.java:352 | `Joi.any().optional()` is never generated, since the type lookup never yields the null type |
| FrisbySkeleton.NameNotAny | src/main/java/io/yupiik/hcms/cli/GenerateFrisbySkeleton.java:346-351 | only the null type's validator starts with `Joi.any()` |
| FrisbySkeleton.Normalize | src/main/java/io/yupiik/hcms/cli/GenerateFrisbySkeleton.java:596-599 | the compared name holds no upper-case letter, `_`, `-` or space |
| FrisbySkeleton.NormalizeConcat | src/main/java/io/yupiik/hcms/cli/GenerateFrisbySkeleton.java:596-599 | normalising a name works piece by piece |
| FrisbySkeleton.SeparatorIgnored | src/main/java/io/yupiik/hcms/cli/GenerateFrisbySkeleton.java:597-599 | a `_`, `-` or space anywhere in a name does not change its normalised form |
| FrisbySkeleton.SeparatorVanishes | src/main/java/io/yupiik/hcms/cli/GenerateFrisbySkeleton.java:597-599 | a lone separator normalises to nothing |
| FrisbySkeleton.CaseIgnored | src/main/java/io/yupiik/hcms/cli/GenerateFrisbySkeleton.java:596 | upper-case letters do not change the normalised name |
| FrisbySkeleton.Sample | src/main/java/io/yupiik/hcms/cli/GenerateFrisbySkeleton.java:594-615 | a string property's sample is chosen by its normalised name; other types by type; fails only when the type lookup fails |
| FrisbySkeleton.SampleVariants | src/main/java/io/yupiik/hcms/cli/GenerateFrisbySkeleton.java:600-608 | creation and update samples differ exactly for string properties other than a middle name or a birth date |
| FrisbySkeleton.DataLine | src/main/java/io/yupiik/hcms/cli/GenerateFrisbySkeleton.java:617-619 | each data line names its property, and fails only when its type lookup fails |
| FrisbySkeleton.AuthParam | src/main/java/io/yupiik/hcms/cli/GenerateFrisbySkeleton.java:330-341 | a generated call logs in exactly when the method has a security block whose validation for the operation exists and is not anonymous |
| FrisbySkeleton.AuthParamMatchesPolicy | src/main/java/io/yupiik/hcms/cli/GenerateFrisbySkeleton.java:330-341 | a generated call logs in exactly when the server would refuse it without a token |
| FrisbySkeleton.Sections | src/main/java/io/yupiik/hcms/cli/GenerateFrisbySkeleton.java:124-167 | a CRUD entity gets every block; the blocks come in file order; a block is written exactly when the method it exercises is exposed (the deletion block follows `findAll`) and, past the creation block, entities are created |
| FrisbySkeleton.EverySection | src/main/java/io/yupiik/hcms/cli/GenerateFrisbySkeleton.java:150-167 | the full skeleton lists every block |
| FrisbySkeleton.CreatedFirst | src/main/java/io/yupiik/hcms/cli/GenerateFrisbySkeleton.java:152-167 | every block that uses the created entity is written after the creation block |
| FrisbySkeleton.LaterNeedsCreate | src/main/java/io/yupiik/hcms/cli/GenerateFrisbySkeleton.java:155-167 | blocks after the creation are only written when entities are created |
| FrisbySkeleton.DeletionTestNeedsFindAll | src/main/java/io/yupiik/hcms/cli/GenerateFrisbySkeleton.java:164-166 | an entity exposing creation and `deleteById` but not `findAll` gets no deletion test |
| FrisbySkeleton.Written | src/main/java/io/yupiik/hcms/cli/GenerateFrisbySkeleton.java:129-132 | the properties a request sends: neither identifiers nor server-generated fields |
| FrisbySkeleton.DataLines | src/main/java/io/yupiik/hcms/cli/GenerateFrisbySkeleton.java:127-136 | sorted, and the same lines as the written properties' lines taken in order (equal multisets): every line comes from a property that is neither an identifier nor a generated field, and every such property has its line; fails exactly when a type lookup does |
| FrisbySkeleton.LinesFrom | src/main/java/io/yupiik/hcms/cli/GenerateFrisbySkeleton.java:133-134 | after sorting, each line still comes from a written property and each written property still has its line |
| FrisbySkeleton.CreateData | src/main/java/io/yupiik/hcms/cli/GenerateFrisbySkeleton.java:127-136 | the sorted creation lines, one per property that is neither an identifier nor a creation-generated field, each naming its property |
| FrisbySkeleton.UpdateData | src/main/java/io/yupiik/hcms/cli/GenerateFrisbySkeleton.java:170-184 | the identifier lines in identifier order, then the sorted update lines, one per property that is neither an identifier nor an update-generated field |
| FrisbySkeleton.MissingIdLiteral | src/main/java/io/yupiik/hcms/cli/GenerateFrisbySkeleton.java:251-256 | a text literal for string identifiers, -1 for numeric ones, an `IllegalStateException` for any other type |
| FrisbySkeleton.MissingIdLine | src/main/java/io/yupiik/hcms/cli/GenerateFrisbySkeleton.java:249-256 | an identifier line carries the literal for the identifier's type; an identifier without a schema counts as a string |
| FrisbySkeleton.MissingIdLines | src/main/java/io/yupiik/hcms/cli/GenerateFrisbySkeleton.java:249-259 | one line per identifier, sorted; generation fails exactly when one identifier's type has no literal |
| FrisbySkeleton.BooleanIdRejected | src/main/java/io/yupiik/hcms/cli/GenerateFrisbySkeleton.java:254-256 | a boolean identifier stops the generation |

## Left out

- JDBC execution is not modelled. The database is a pair of functions from SQL text and bindings to rows or to an update count, where `None` is a `SQLException`. Statement preparation, result-set cursors, generated keys and connection handling are outside the model.
- Transactions are not modelled: `TransactionManager` reads and writes, the shared connection attribute, and running a batch inside a transaction. The dispatcher only decides which kind of transaction a batch gets (`Shared(write)`).
- The default JSON-RPC handler, and `createResponse` beyond the response fields, are not modelled. Batches routed there are only classified (`Delegated`).
- Handlebars template parsing is a foreign library. An implicit filter arrives already split into literal text and `{{…}}` expressions (`Model.Chunk`); what the code does with each piece is modelled.
- JSON-schema validation of request parameters (`doValidate`) is a foreign library. The model starts after it, with parameters that passed it; its 400 answer is not modelled.
- The renderer implementations are foreign code. Rendering is a function parameter; only the lookup of renderer names (406) and the handling of `null` results are modelled.
- The clock and UUIDs (`OffsetDateTime.now`, `Instant.now`, `UUID.randomUUID`) are nondeterministic. They are a `Clock` parameter giving fixed values.
- Parsing of date, time and date-time strings is a library call. Only its failure on a missing value is modelled.
- JWT signature verification is crypto. It is a verification function inside `SecurityHandler.JwtService`.
- PBKDF2, `SecureRandom` and Base64 are crypto and encoding libraries. They are abstract parameters of `PasswordEncoder`.
- Java `HashMap` iteration order is unspecified. Maps whose order the code never observes are Dafny `map`s; maps whose order matters are association lists kept in the order the code builds them.
- JSON numbers are modelled as integers. Floating-point values and the identity of boxed numbers are left out.
- `String.valueOf` of a JSON list or object is not modelled faithfully. Its text is approximated by a fixed placeholder, since the model never compares such texts.
- Character case mapping (`toLowerCase`, `isUpperCase`) covers ASCII letters only.
- Model.ObjectSchema: `properties` is always a list, so a schema without a `properties` member cannot be written; `validateEntity` throws a `NullPointerException` on one (`properties().isEmpty()`), and the model has no such case.
- Strings.ParseInt: accepts only the ASCII digits `0`-`9`, whereas `Integer.parseInt` reads any Unicode decimal digit through `Character.digit`; a stored password record whose numbers use other digit scripts is refused by `ParseStored`, so `Matches` answers false where Java could answer true.
- BatchDispatcher.KeyOf: the `renderers` part of a group key is the JSON object as an ordered member list, whereas the Java `FindById` record holds a `Map` whose equality ignores order; two `findById` requests whose `renderers` differ only in member order share one group in Java and form two groups here. The responses are the same; the statements run and the recorded method trace differ.
- `ModelRegistry.ModelHandler` starts with an empty entity map, where the source field starts out `null` until the first load.
- `BulkFindById`: `findByIds` answers a sequence aligned with its requests instead of a map keyed by request. The merge of that map into the batch result is modelled in `BatchDispatcher.Pairs`.
- The model's SQL scripts and the database loader, model reloading (file polling under a lock), and the JSON-RPC registry republishing methods are file I/O and concurrency.
- Tracing spans and logging are left out.
- The request-size guard of the JSON-RPC layer (`getMaxBulkRequests`) belongs to the default handler.
- `DocEndpoint`: building the OpenRPC document and converting it to OpenAPI are library calls and are not modelled. Loading of the Swagger UI resources and the index page's HTML text (an `IndexPage` marker) are left out too.
- `FrisbySkeleton`: file writing, project templates, and the JavaScript text around the generated lines (the schema block and the request bodies) are literal output. The generated lines and the choice of blocks are modelled.

=== FILE: bulk.dfy ===
/** `findByIds`: a batch of `findById` calls on one entity answered by a single statement, whose
    rows are keyed by their identifier columns and handed back to the request that asked for them. */
module BulkFindById {
  import opened Wrappers
  import opened Strings
  import opened Json
  import opened Sql
  import opened EntityCompiler
  import opened SqlClauses
  import opened RequestValues
  import opened Execution
  import FB = FindById

  /** One bulked JSON-RPC request object (`jsonrpc`, `method`, `params`, `id`). */
  type Request = seq<(string, Json)>

  // ---------------------------------------------------------------- projection

  /** Each identifier under the key `findByIds` files it by: the `databaseToJson` entry of the
      column spelled like the identifier. */
  function KeyedIds(identifiers: seq<string>, databaseToJson: seq<(string, string)>): (r: seq<(string, string)>)
    requires forall id :: id in identifiers ==> id in Keys(databaseToJson)
    ensures |r| == |identifiers|
    ensures forall k :: 0 <= k < |r| ==> r[k] == (Get(databaseToJson, identifiers[k]).value, identifiers[k])
  {
    if identifiers == [] then []
    else [(Get(databaseToJson, identifiers[0]).value, identifiers[0])] + KeyedIds(identifiers[1..], databaseToJson)
  }

  /** The identifiers sorted by their key, the first of two equal keys kept. An identifier that is
      not also a column name has a `null` key: with two identifiers or more the sort fails on it,
      with a single one the reversed projection does (a `toMap` value cannot be null). */
  function IdKeys(identifiers: seq<string>, databaseToJson: seq<(string, string)>): (r: Result<seq<(string, string)>>)
    ensures r.Err? <==> exists id :: id in identifiers && id !in Keys(databaseToJson)
    ensures r.Err? ==> r.error == NullPointer
    ensures r.Ok? ==> StrictlySorted(r.value)
    ensures r.Ok? ==> forall x :: Get(r.value, x) == Get(KeyedIds(identifiers, databaseToJson), x)
    ensures r.Ok? ==> forall id :: id in identifiers ==> Get(databaseToJson, id).value in Keys(r.value)
  {
    if exists id :: id in identifiers && id !in Keys(databaseToJson) then Err(NullPointer)
    else
      var keyed := KeyedIds(identifiers, databaseToJson);
      assert forall id :: id in identifiers ==> Get(databaseToJson, id).value in Keys(keyed) by {
        forall id | id in identifiers ensures Get(databaseToJson, id).value in Keys(keyed) {
          var k :| 0 <= k < |identifiers| && identifiers[k] == id;
          assert Keys(keyed)[k] == keyed[k].0;
        }
      }
      Ok(ToSortedMap(keyed))
  }

  /** `LinkedHashMap.put`: a key already present keeps its place and takes the new value, a new key
      goes last. */
  function Put(m: seq<(string, string)>, k: string, v: string): (r: seq<(string, string)>)
    ensures Keys(r) == if k in Keys(m) then Keys(m) else Keys(m) + [k]
    ensures forall x :: Get(r, x) == if x == k then Some(v) else Get(m, x)
  {
    if m == [] then [(k, v)]
    else
      assert Keys(m) == [m[0].0] + Keys(m[1..]);
      if m[0].0 == k then
        var r := [(k, v)] + m[1..];
        assert Keys(r) == [k] + Keys(m[1..]);
        assert r[1..] == m[1..];
        r
      else
        var rest := Put(m[1..], k, v);
        var r := [m[0]] + rest;
        assert Keys(r) == [m[0].0] + Keys(rest);
        assert r[1..] == rest;
        r
  }

  /** `putAll` of `entries` into an insertion-ordered map: the keys already there keep their
      places ahead of the new ones. */
  function PutAll(m: seq<(string, string)>, entries: seq<(string, string)>): (r: seq<(string, string)>)
    ensures |Keys(r)| >= |Keys(m)| && Keys(r)[..|m|] == Keys(m)
    ensures forall x :: x in Keys(r) <==> x in Keys(m) || x in Keys(entries)
    ensures forall x :: x !in Keys(entries) ==> Get(r, x) == Get(m, x)
    decreases |entries|
  {
    if entries == [] then m
    else
      var init := entries[..|entries| - 1];
      var last := entries[|entries| - 1];
      assert Keys(entries) == Keys(init) + [last.0];
      Put(PutAll(m, init), last.0, last.1)
  }

  /** The `column -> JSON name` projection of `findByIds`: the identifiers first, in key order,
      then every other column. */
  function Projection(keys: seq<(string, string)>, databaseToJson: seq<(string, string)>, identifiers: seq<string>): seq<(string, string)> {
    PutAll(keys, FB.NonIdentifiers(databaseToJson, identifiers))
  }

  /** `toMap(getValue, getKey)`: the projection read from JSON name to column; two columns with the
      same JSON name are a duplicate key. */
  function Reversed(projection: seq<(string, string)>): (r: Result<seq<(string, string)>>)
    ensures r.Ok? <==> forall i, j :: 0 <= i < j < |projection| ==> projection[i].1 != projection[j].1
    ensures r.Err? ==> r.error == IllegalState
    ensures r.Ok? ==> |r.value| == |projection| && forall k :: 0 <= k < |projection| ==> r.value[k] == (projection[k].1, projection[k].0)
    decreases |projection|
  {
    if projection == [] then Ok([])
    else
      var n := |projection| - 1;
      var init := projection[..n];
      var last := projection[n];
      assert forall i :: 0 <= i < n ==> init[i] == projection[i];
      var acc :- Reversed(init);
      if last.1 in Keys(acc) then
        var i :| 0 <= i < n && Keys(acc)[i] == last.1;
        Err(IllegalState)
      else
        assert forall i :: 0 <= i < n ==> Keys(acc)[i] == projection[i].1;
        Ok(acc + [(last.1, last.0)])
  }

  // ---------------------------------------------------------------- request values

  /** The identifier values of every request, read from its `params` like a single `findById`
      does; the first request without them is a 400. */
  function RequestIds(requests: seq<Request>, identifiers: seq<string>): (r: Result<seq<seq<Json>>>)
    ensures r.Ok? <==> forall i :: 0 <= i < |requests| ==> FindValuesFromParams(Member(requests[i], "params"), identifiers, false).Ok?
    ensures r.Ok? ==> |r.value| == |requests|
    ensures r.Ok? ==> forall i :: 0 <= i < |requests| ==> FindValuesFromParams(Member(requests[i], "params"), identifiers, false) == Ok(r.value[i])
    ensures r.Err? ==> r.error == Rpc(400)
  {
    MapAll(requests, (req: Request) => FindValuesFromParams(Member(req, "params"), identifiers, false))
  }

  /** Every request's values one after the other, in request order. */
  function Flatten(values: seq<seq<Json>>): (r: seq<Json>)
    ensures forall n: nat :: (forall i :: 0 <= i < |values| ==> |values[i]| == n) ==> |r| == |values| * n
    decreases |values|
  {
    if values == [] then []
    else
      var k := |values| - 1;
      var init := values[..k];
      assert forall i :: 0 <= i < k ==> init[i] == values[i];
      var acc := Flatten(init);
      assert forall n: nat :: k * n + n == |values| * n;
      acc + values[k]
  }

  /** With `n` values per request, the value at `i * n + j` is the `j`-th value of request `i`:
      the flattened list is the requests' values concatenated in order. */
  lemma {:induction false} FlattenAt(values: seq<seq<Json>>, n: nat, i: nat, j: nat)
    requires forall k :: 0 <= k < |values| ==> |values[k]| == n
    requires i < |values| && j < n
    ensures i * n + j < |Flatten(values)| && Flatten(values)[i * n + j] == values[i][j]
    decreases |values|
  {
    var k := |values| - 1;
    var init := values[..k];
    assert Flatten(values) == Flatten(init) + values[k];
    assert |Flatten(init)| == k * n;
    if i < k {
      MulStep(i, k, n);
      FlattenAt(init, n, i, j);
    }
  }

  /** `i * n + n` stays within `k * n` when `i < k`. */
  lemma MulStep(i: nat, k: nat, n: nat)
    requires i < k
    ensures i * n + n <= k * n
  {
    assert i * n + n == (i + 1) * n;
  }

  // ---------------------------------------------------------------- statement

  /** One `(<whereIds>)` group per request, joined by `OR`. */
  function WhereGroups(whereIds: string, count: nat): (r: string)
    ensures count == 1 ==> r == "(" + whereIds + ")"
  {
    "(" + Join(seq(count, _ => whereIds), ") OR (") + ")"
  }

  /** The statement of a batch: the projected columns, one identifier group per request, the
      implicit view filter written right after the groups, and a `group by` over the identifier
      columns for a revisioned entity. */
  function BulkSql(e: Entity, columns: string, count: nat, implicit: Option<WhereClause>): (r: string)
    ensures StartsWith(r, "select " + columns + " from " + e.table + " where " + WhereGroups(e.whereIds, count))
    ensures e.revisionProperty.Some? ==> EndsWith(r, " group by " + Join(IdentifierColumns(e.identifiers, e.jsonToDatabase), ", "))
    ensures implicit.None? && e.revisionProperty.None? ==> r == "select " + columns + " from " + e.table + " where " + WhereGroups(e.whereIds, count)
  {
    "select " + columns + " from " + e.table + " where " + WhereGroups(e.whereIds, count)
      + (if implicit.Some? then "(" + implicit.value.sql + ")" else "")
      + (if e.revisionProperty.Some? then " group by " + Join(IdentifierColumns(e.identifiers, e.jsonToDatabase), ", ") else "")
  }

  /** The implicit view filter follows the identifier groups with no `AND` in between: a single
      request with a filter reads `… where (<ids>)(<filter>)`. */
  lemma ImplicitFilterNotConjoined(e: Entity, columns: string, w: WhereClause)
    requires e.revisionProperty.None?
    ensures BulkSql(e, columns, 1, Some(w)) == "select " + columns + " from " + e.table + " where (" + e.whereIds + ")(" + w.sql + ")"
  {
  }

  /** The bindings of a batch: one literal per identifier value from index 1, in request order. */
  function IdBindings(values: seq<Json>, from: int): (r: seq<Binding>)
    ensures |r| == |values| && Consecutive(r, from)
    ensures forall k :: 0 <= k < |values| ==> r[k].source == Literal(values[k])
    decreases |values|
  {
    if values == [] then []
    else
      var n := |values| - 1;
      assert forall k :: 0 <= k < n ==> values[..n][k] == values[k];
      IdBindings(values[..n], from) + [Binding(from + n, Literal(values[n]))]
  }

  /** Every binding of the statement: the identifier values, then the implicit filter's claims. */
  function StatementBindings(values: seq<Json>, implicit: Option<WhereClause>): seq<Binding> {
    IdBindings(values, 1) + (if implicit.Some? then implicit.value.binders else [])
  }

  /** One binding more: the statement fails with it, or its parameter is set. */
  lemma BindAllAppend(bs: seq<Binding>, b: Binding, claims: Option<seq<(string, Json)>>)
    ensures BindAll(bs + [b], [], claims) ==
      if BindAll(bs, [], claims).Err? then BindAll(bs, [], claims)
      else if Bind(b, [], claims).Err? then Err(Bind(b, [], claims).error)
      else Ok(BindAll(bs, [], claims).value[b.index := Bind(b, [], claims).value])
  {
    assert (bs + [b])[..|bs|] == bs;
  }

  /** One binding more: its failure, or its parameter set. */
  lemma BindStep(bs: seq<Binding>, k: nat, params: map<int, Param>, claims: Option<seq<(string, Json)>>)
    requires k < |bs| && BindAll(bs[..k], [], claims) == Ok(params)
    ensures BindAll(bs[..k + 1], [], claims)
      == if Bind(bs[k], [], claims).Err? then Err(Bind(bs[k], [], claims).error) else Ok(params[bs[k].index := Bind(bs[k], [], claims).value])
  {
    assert bs[..k + 1] == bs[..k] + [bs[k]];
    BindAllAppend(bs[..k], bs[k], claims);
  }

  /** Once a prefix of the bindings fails, the statement fails the same way. */
  lemma {:induction false} BindFailurePersists(bs: seq<Binding>, claims: Option<seq<(string, Json)>>, n: nat)
    requires n <= |bs| && BindAll(bs[..n], [], claims).Err?
    ensures BindAll(bs, [], claims) == BindAll(bs[..n], [], claims)
    decreases |bs| - n
  {
    if n < |bs| {
      BindAllAppend(bs[..n], bs[n], claims);
      assert bs[..n + 1] == bs[..n] + [bs[n]];
      BindFailurePersists(bs, claims, n + 1);
    } else {
      assert bs[..n] == bs;
    }
  }

  /** The first binding loop: `setObject(index++, value)` for every identifier value of every
      request, from index 1. */
  method BindValues(values: seq<Json>, claims: Option<seq<(string, Json)>>) returns (params: map<int, Param>)
    ensures BindAll(IdBindings(values, 1), [], claims) == Ok(params)
  {
    params := map[];
    var index := 1;
    var i := 0;
    while i < |values|
      invariant 0 <= i <= |values| && index == i + 1
      invariant BindAll(IdBindings(values[..i], 1), [], claims) == Ok(params)
    {
      IdBindingStep(values, i, params, claims);
      params := params[index := SqlValue(values[i])];
      index := index + 1;
      i := i + 1;
    }
    assert values[..i] == values;
  }

  /** One identifier value more binds it at the next index. */
  lemma IdBindingStep(values: seq<Json>, i: nat, params: map<int, Param>, claims: Option<seq<(string, Json)>>)
    requires i < |values| && BindAll(IdBindings(values[..i], 1), [], claims) == Ok(params)
    ensures BindAll(IdBindings(values[..i + 1], 1), [], claims) == Ok(params[i + 1 := SqlValue(values[i])])
  {
    assert values[..i + 1][..i] == values[..i];
    BindAllAppend(IdBindings(values[..i], 1), Binding(i + 1, Literal(values[i])), claims);
  }

  /** The second binding loop: each binder of the implicit filter, at the index its clause was
      built with, over the parameters already set. */
  method BindClaims(bound: seq<Binding>, params0: map<int, Param>, binders: seq<Binding>, claims: Option<seq<(string, Json)>>)
    returns (r: Result<map<int, Param>>)
    requires BindAll(bound, [], claims) == Ok(params0)
    ensures r == BindAll(bound + binders, [], claims)
  {
    var all := bound + binders;
    assert all[..|bound|] == bound;
    var params := params0;
    var k := |bound|;
    while k < |all|
      invariant |bound| <= k <= |all|
      invariant BindAll(all[..k], [], claims) == Ok(params)
    {
      BindStep(all, k, params, claims);
      var p := Bind(all[k], [], claims);
      if p.Err? {
        BindFailurePersists(all, claims, k + 1);
        return Err(p.error);
      }
      params := params[all[k].index := p.value];
      k := k + 1;
    }
    assert all[..k] == all;
    r := Ok(params);
  }

  /** The bindings of the batch statement: the identifier values, then the implicit filter. */
  method BindStatement(values: seq<Json>, implicit: Option<WhereClause>, claims: Option<seq<(string, Json)>>)
    returns (r: Result<map<int, Param>>)
    ensures r == BindAll(StatementBindings(values, implicit), [], claims)
  {
    var params := BindValues(values, claims);
    r := BindClaims(IdBindings(values, 1), params, if implicit.Some? then implicit.value.binders else [], claims);
  }

  /** The implicit filter's clause is built from index `total`, the number of identifier values,
      which the last identifier value already holds: its claim replaces that value, and the
      statement's last placeholder is never set. */
  lemma {:induction false} ImplicitIndexCollision(values: seq<Json>, w: WhereClause, claims: Option<seq<(string, Json)>>)
    requires |values| > 0 && |w.binders| > 0 && Consecutive(w.binders, |values|)
    requires BindAll(StatementBindings(values, Some(w)), [], claims).Ok?
    ensures var params := BindAll(StatementBindings(values, Some(w)), [], claims).value;
      && Bind(w.binders[0], [], claims).Ok?
      && |values| in params && params[|values|] == Bind(w.binders[0], [], claims).value
      && |values| + |w.binders| !in params
  {
    var ids := IdBindings(values, 1);
    var bs := ids + w.binders;
    assert StatementBindings(values, Some(w)) == bs;
    FirstBinderLast(ids, w.binders);
    LastBindingWins(bs, [], claims, |ids|);
    BindingsBelow(ids, w.binders, |values| + |w.binders|);
  }

  /** The first filter binder is the last binding of its index. */
  lemma FirstBinderLast(ids: seq<Binding>, binders: seq<Binding>)
    requires |binders| > 0 && Consecutive(binders, |ids|)
    ensures (ids + binders)[|ids|] == binders[0]
    ensures forall l :: |ids| < l < |ids + binders| ==> (ids + binders)[l].index != (ids + binders)[|ids|].index
  {
    forall l | |ids| < l < |ids + binders| ensures (ids + binders)[l].index != (ids + binders)[|ids|].index {
      assert (ids + binders)[l] == binders[l - |ids|];
    }
  }

  /** No binding of the identifier values or of the filter reaches index `top`. */
  lemma BindingsBelow(ids: seq<Binding>, binders: seq<Binding>, top: int)
    requires Consecutive(ids, 1) && Consecutive(binders, |ids|) && |binders| > 0 && top == |ids| + |binders|
    ensures top !in Indices(ids + binders)
  {
    forall l | 0 <= l < |ids + binders| ensures (ids + binders)[l].index < top {
      if l < |ids| { assert (ids + binders)[l] == ids[l]; } else { assert (ids + binders)[l] == binders[l - |ids|]; }
    }
  }

  // ---------------------------------------------------------------- rows

  /** The identifiers of a row: the `i`-th key identifier gets the `i`-th column; a row with fewer
      columns fails the read (a 500). */
  function IdMap(row: Row, idNames: seq<string>): (r: Result<map<string, Json>>)
    ensures r.Ok? <==> |idNames| <= |row|
    ensures r.Err? ==> r.error == Rpc(500)
    ensures r.Ok? ==> r.value.Keys == set k | k in idNames
    ensures r.Ok? && Distinct(idNames) ==> forall i :: 0 <= i < |idNames| ==> r.value[idNames[i]] == row[i].1
    decreases |idNames|
  {
    if idNames == [] then Ok(map[])
    else
      var n := |idNames| - 1;
      var init := idNames[..n];
      assert idNames == init + [idNames[n]];
      var acc :- IdMap(row, init);
      if |row| <= n then Err(Rpc(500))
      else
        assert Distinct(idNames) ==> Distinct(init) && idNames[n] !in init;
        Ok(acc[idNames[n] := row[n].1])
  }

  /** A row's key read, then its value; the first failure is the row's. */
  function KeyShape<K, V>(key: Row -> Result<K>, shape: Row -> Result<V>): (f: Row -> Result<(K, V)>)
    ensures forall row :: key(row).Err? ==> f(row) == Err(key(row).error)
    ensures forall row :: key(row).Ok? && shape(row).Err? ==> f(row) == Err(shape(row).error)
    ensures forall row :: key(row).Ok? && shape(row).Ok? ==> f(row) == Ok((key(row).value, shape(row).value))
  {
    (row: Row) =>
      if key(row).Err? then Err(key(row).error)
      else if shape(row).Err? then Err(shape(row).error)
      else Ok((key(row).value, shape(row).value))
  }

  /** Pairs put into a map in order, a later pair with the same key replacing an earlier one. */
  function Filed<K(==), V>(pairs: seq<(K, V)>): (r: map<K, V>)
    ensures forall i :: 0 <= i < |pairs| ==> pairs[i].0 in r
    ensures forall k :: k in r ==> exists i :: LastPair(pairs, k, r[k], i)
    decreases |pairs|
  {
    if pairs == [] then map[]
    else
      var n := |pairs| - 1;
      var acc := Filed(pairs[..n]);
      var r := acc[pairs[n].0 := pairs[n].1];
      Refiled(pairs, pairs[..n], acc, r);
      r
  }

  /** Pair `i` is the last pair with key `k`, and its value is `v`. */
  ghost predicate LastPair<K, V>(pairs: seq<(K, V)>, k: K, v: V, i: int) {
    && 0 <= i < |pairs| && pairs[i] == (k, v)
    && forall j :: i < j < |pairs| ==> pairs[j].0 != k
  }

  /** Filing the last pair keeps every key's value the one of the last pair with that key. */
  lemma Refiled<K, V>(pairs: seq<(K, V)>, init: seq<(K, V)>, acc: map<K, V>, r: map<K, V>)
    requires |pairs| > 0 && init == pairs[..|pairs| - 1] && r == acc[pairs[|pairs| - 1].0 := pairs[|pairs| - 1].1]
    requires forall i :: 0 <= i < |init| ==> init[i].0 in acc
    requires forall x :: x in acc ==> exists i :: LastPair(init, x, acc[x], i)
    ensures forall i :: 0 <= i < |pairs| ==> pairs[i].0 in r
    ensures forall x :: x in r ==> exists i :: LastPair(pairs, x, r[x], i)
  {
    var n := |pairs| - 1;
    forall i | 0 <= i < n ensures pairs[i].0 in r {
      assert init[i] == pairs[i];
    }
    forall x | x in r ensures exists i :: LastPair(pairs, x, r[x], i) {
      if x == pairs[n].0 {
        assert LastPair(pairs, x, r[x], n);
      } else {
        var i :| LastPair(init, x, acc[x], i);
        assert init[i] == pairs[i];
        assert LastPair(pairs, x, r[x], i);
      }
    }
  }

  /** Rows filed by key: each row's key read, then its value, a later row with the same key
      replacing an earlier one; the first failing read ends the result set. */
  function FileRows<K(==), V>(rows: seq<Row>, key: Row -> Result<K>, shape: Row -> Result<V>): (r: Result<map<K, V>>)
    ensures r.Ok? <==> forall i :: 0 <= i < |rows| ==> key(rows[i]).Ok? && shape(rows[i]).Ok?
    ensures r.Ok? ==> forall i :: 0 <= i < |rows| ==> key(rows[i]).value in r.value
    ensures r.Ok? ==> forall k :: k in r.value ==> exists i :: LastFiled(rows, key, shape, k, r.value[k], i)
  {
    var pairs :- MapAll(rows, KeyShape(key, shape));
    var r := Filed(pairs);
    forall k | k in r ensures exists i :: LastFiled(rows, key, shape, k, r[k], i) {
      var i :| LastPair(pairs, k, r[k], i);
      assert LastFiled(rows, key, shape, k, r[k], i);
    }
    Ok(r)
  }

  /** Row `i` is the last row filed under `k`, and its value is `v`. */
  ghost predicate LastFiled<K, V>(rows: seq<Row>, key: Row -> Result<K>, shape: Row -> Result<V>, k: K, v: V, i: int) {
    && 0 <= i < |rows| && key(rows[i]) == Ok(k) && shape(rows[i]) == Ok(v)
    && forall j :: i < j < |rows| ==> key(rows[j]) != Ok(k)
  }

  /** One row more: its failure, or its value filed under its key. */
  lemma FileRowsStep<K, V>(rows: seq<Row>, key: Row -> Result<K>, shape: Row -> Result<V>, i: nat, results: map<K, V>)
    requires i < |rows| && FileRows(rows[..i], key, shape) == Ok(results)
    ensures FileRows(rows[..i + 1], key, shape)
      == if key(rows[i]).Err? then Err(key(rows[i]).error)
         else if shape(rows[i]).Err? then Err(shape(rows[i]).error)
         else Ok(results[key(rows[i]).value := shape(rows[i]).value])
  {
    var f := KeyShape(key, shape);
    assert rows[..i + 1][..i] == rows[..i];
    var pairs := MapAll(rows[..i], f).value;
    if f(rows[i]).Ok? {
      assert MapAll(rows[..i + 1], f) == Ok(pairs + [f(rows[i]).value]);
      assert (pairs + [f(rows[i]).value])[..i] == pairs;
    }
  }

  /** Once a prefix of the rows fails, the whole result set fails the same way. */
  lemma FileRowsFailurePersists<K, V>(rows: seq<Row>, key: Row -> Result<K>, shape: Row -> Result<V>, n: nat)
    requires n <= |rows| && FileRows(rows[..n], key, shape).Err?
    ensures FileRows(rows, key, shape) == FileRows(rows[..n], key, shape)
  {
    MapAllFailurePersists(rows, KeyShape(key, shape), n);
  }

  /** The identifier values of a row. */
  function IdsOf(idNames: seq<string>): (f: Row -> Result<map<string, Json>>)
    ensures forall row :: f(row) == IdMap(row, idNames)
  {
    (row: Row) => IdMap(row, idNames)
  }

  /** The results of a batch by identifiers: each row shaped like a single `findById` result and
      filed under its identifier values. */
  function RowsByIds(rows: seq<Row>, idNames: seq<string>, names: seq<(string, string)>, renderers: map<string, string>,
                     render: (string, Json) -> Json): Result<map<map<string, Json>, map<string, Json>>> {
    FileRows(rows, IdsOf(idNames), Shape(names, renderers, render))
  }

  /** The `while (rset.next())` loop: each row's key read (its identifier values), then its value
      (its shaped result) filed under it; `RowsByIds` is this loop over `IdsOf` and `Shape`. */
  method CollectResults<K(==), V>(rows: seq<Row>, key: Row -> Result<K>, shape: Row -> Result<V>) returns (r: Result<map<K, V>>)
    ensures r == FileRows(rows, key, shape)
  {
    var results: map<K, V> := map[];
    var i := 0;
    while i < |rows|
      invariant 0 <= i <= |rows|
      invariant FileRows(rows[..i], key, shape) == Ok(results)
    {
      FileRowsStep(rows, key, shape, i, results);
      var ids := key(rows[i]);
      if ids.Err? {
        FileRowsFailurePersists(rows, key, shape, i + 1);
        return Err(ids.error);
      }
      var res := shape(rows[i]);
      if res.Err? {
        FileRowsFailurePersists(rows, key, shape, i + 1);
        return Err(res.error);
      }
      results := results[ids.value := res.value];
      i := i + 1;
    }
    assert rows[..i] == rows;
    r := Ok(results);
  }

  /** Each value list looked up under its key; a key with no entry reads a `null` result, which the
      collected map rejects. */
  function LookUp<K(==), V>(values: seq<seq<Json>>, key: seq<Json> -> Result<K>, results: map<K, V>): (r: Result<seq<V>>)
    ensures r.Ok? <==> forall i :: 0 <= i < |values| ==> key(values[i]).Ok? && key(values[i]).value in results
    ensures r.Ok? ==> |r.value| == |values| && forall i :: 0 <= i < |values| ==> r.value[i] == results[key(values[i]).value]
    ensures r.Err? && (forall i :: 0 <= i < |values| ==> key(values[i]).Ok?) ==> r.error == NullPointer
    decreases |values|
  {
    if values == [] then Ok([])
    else
      var n := |values| - 1;
      assert forall i :: 0 <= i < n ==> values[..n][i] == values[i];
      var acc :- LookUp(values[..n], key, results);
      var k :- key(values[n]);
      if k !in results then Err(NullPointer) else Ok(acc + [results[k]])
  }

  /** Each request's result, looked up under the map of its identifiers to its values. */
  function Responses(values: seq<seq<Json>>, identifiers: seq<string>, results: map<map<string, Json>, map<string, Json>>)
    : Result<seq<map<string, Json>>> {
    LookUp(values, v => InjectIds(map[], identifiers, v), results)
  }

  // ---------------------------------------------------------------- the batch

  /** A batch ready to run: the statement, its parameters, the projection rows are read with, the
      identifiers in key order and each request's identifier values. */
  datatype BulkStatement = BulkStatement(sql: string, params: map<int, Param>, names: seq<(string, string)>,
                                         idNames: seq<string>, values: seq<seq<Json>>)

  /** The statement part of `findByIds`: key order of the identifiers, the projection and its
      reverse, each request's values, the implicit view filter numbered from the count of values,
      the columns (all, or the identifiers and the requested fields), the text and the bindings. */
  function PrepareBulk(e: Entity, requests: seq<Request>, claims: Option<seq<(string, Json)>>, fields: Option<seq<Json>>)
    : (r: Result<BulkStatement>)
    ensures r.Ok? ==> RequestIds(requests, e.identifiers) == Ok(r.value.values)
    ensures r.Ok? ==> IdKeys(e.identifiers, e.databaseToJson).Ok? && r.value.idNames == Values(IdKeys(e.identifiers, e.databaseToJson).value)
    ensures (exists id :: id in e.identifiers && id !in Keys(e.databaseToJson)) ==> r == Err(NullPointer)
  {
    var keys :- IdKeys(e.identifiers, e.databaseToJson);
    var projection := Projection(keys, e.databaseToJson, e.identifiers);
    var reversed :- Reversed(projection);
    var values :- RequestIds(requests, e.identifiers);
    var flat := Flatten(values);
    var implicit :- Implicit(ViewTemplate(e), |flat|);
    var columns :- if SelectAll(fields) then Ok(Join(SelectColumns(e.revisionProperty, projection), ", "))
                   else CustomColumns(reversed, e.revisionProperty, Deduplicated(JsonNames(e.identifiers) + fields.value));
    var names :- if SelectAll(fields) then Ok(e.databaseToJson) else FieldNames(fields.value, reversed);
    var params :- BindAll(StatementBindings(flat, implicit), [], claims);
    Ok(BulkStatement(BulkSql(e, columns, |requests|, implicit), params, names, Values(keys), values))
  }

  /** The values of an association list, in order. */
  function Values(m: seq<(string, string)>): (r: seq<string>)
    ensures |r| == |m| && forall k :: 0 <= k < |m| ==> r[k] == m[k].1
  {
    if m == [] then [] else [m[0].1] + Values(m[1..])
  }

  /** Names as JSON strings. */
  function JsonNames(names: seq<string>): (r: seq<Json>)
    ensures |r| == |names| && forall k :: 0 <= k < |names| ==> r[k] == JStr(names[k])
  {
    if names == [] then [] else [JStr(names[0])] + JsonNames(names[1..])
  }

  /** `distinct()`: the first occurrence of each element, in order. */
  function Deduplicated(s: seq<Json>): (r: seq<Json>)
    ensures forall x :: x in r <==> x in s
    ensures Distinct(r)
    decreases |s|
  {
    if s == [] then []
    else
      var n := |s| - 1;
      var acc := Deduplicated(s[..n]);
      assert forall x :: x in s <==> x in s[..n] || x == s[n];
      if s[n] in acc then acc else acc + [s[n]]
  }

  /** Row `row` answers request `i` of a batch: its identifier columns are the request's
      identifier values, and it shapes into `item`. */
  predicate Answers(row: Row, p: BulkStatement, identifiers: seq<string>, i: nat, renderers: map<string, string>,
                    render: (string, Json) -> Json, item: map<string, Json>)
    requires i < |p.values|
  {
    && IdMap(row, p.idNames) == InjectIds(map[], identifiers, p.values[i])
    && ToMapResult(row, p.names, renderers, render, [], []) == Ok(item)
  }

  /** The run of a prepared batch: one query, its rows filed by identifiers, then each request's
      result in request order; each result is the shape of a row that answers its request. */
  function RunBulk(identifiers: seq<string>, p: BulkStatement, env: Env, renderers: map<string, string>)
    : (r: Result<seq<map<string, Json>>>)
    ensures r.Ok? ==> |r.value| == |p.values|
    ensures r.Ok? ==> forall i :: 0 <= i < |p.values| ==> JNull !in r.value[i].Values
    ensures r.Ok? ==>
      var rows := env.db.query(p.sql, p.params);
      && rows.Some?
      && forall i :: 0 <= i < |p.values| ==> exists j :: (0 <= j < |rows.value| &&
           Answers(rows.value[j], p, identifiers, i, renderers, env.render, r.value[i]))
  {
    var rows :- RunQuery(env.db, p.sql, p.params);
    var results :- RowsByIds(rows, p.idNames, p.names, renderers, env.render);
    var out :- Responses(p.values, identifiers, results);
    AnsweredRequests(identifiers, p, rows, renderers, env.render, results, out);
    Ok(out)
  }

  /** `findByIds`: an unknown entity is a 400; otherwise one statement for the whole batch. */
  function FindByIds(entities: map<string, Entity>, prefix: string, requests: seq<Request>, env: Env,
                     claims: Option<seq<(string, Json)>>, renderers: map<string, string>, fields: Option<seq<Json>>)
    : (r: Result<seq<map<string, Json>>>)
    ensures prefix !in entities ==> r == Err(Rpc(400))
    ensures prefix in entities ==>
      (r == match PrepareBulk(entities[prefix], requests, claims, fields)
            case Err(e) => Err(e)
            case Ok(p) => RunBulk(entities[prefix].identifiers, p, env, renderers))
    ensures r.Ok? ==> PrepareBulk(entities[prefix], requests, claims, fields).Ok? && |r.value| == |requests|
  {
    if prefix !in entities then Err(Rpc(400))
    else
      var p :- PrepareBulk(entities[prefix], requests, claims, fields);
      RunBulk(entities[prefix].identifiers, p, env, renderers)
  }

  /** Every looked-up result comes from a row that answers its request. */
  lemma AnsweredRequests(identifiers: seq<string>, p: BulkStatement, rows: seq<Row>, renderers: map<string, string>,
                         render: (string, Json) -> Json, results: map<map<string, Json>, map<string, Json>>,
                         out: seq<map<string, Json>>)
    requires RowsByIds(rows, p.idNames, p.names, renderers, render) == Ok(results)
    requires Responses(p.values, identifiers, results) == Ok(out)
    ensures |out| == |p.values|
    ensures forall i :: 0 <= i < |p.values| ==> JNull !in out[i].Values
    ensures forall i :: 0 <= i < |p.values| ==> exists j :: 0 <= j < |rows| && Answers(rows[j], p, identifiers, i, renderers, render, out[i])
  {
    var key := IdsOf(p.idNames);
    var shape := Shape(p.names, renderers, render);
    forall i | 0 <= i < |p.values|
      ensures JNull !in out[i].Values
      ensures exists j :: 0 <= j < |rows| && Answers(rows[j], p, identifiers, i, renderers, render, out[i])
    {
      var k := InjectIds(map[], identifiers, p.values[i]).value;
      assert k in results;
      var j :| LastFiled(rows, key, shape, k, results[k], j);
      assert Answers(rows[j], p, identifiers, i, renderers, render, out[i]);
    }
  }

  /** A request whose identifiers no row carries fails the whole batch with a null result. */
  lemma MissingRowFails(e: Entity, p: BulkStatement, rows: seq<Row>, renderers: map<string, string>,
                        render: (string, Json) -> Json, i: nat)
    requires i < |p.values| && forall l :: 0 <= l < |p.values| ==> InjectIds(map[], e.identifiers, p.values[l]).Ok?
    requires RowsByIds(rows, p.idNames, p.names, renderers, render).Ok?
    requires forall j :: 0 <= j < |rows| ==> IdMap(rows[j], p.idNames) != InjectIds(map[], e.identifiers, p.values[i])
    ensures Responses(p.values, e.identifiers, RowsByIds(rows, p.idNames, p.names, renderers, render).value) == Err(NullPointer)
  {
    var key := IdsOf(p.idNames);
    var shape := Shape(p.names, renderers, render);
    var results := RowsByIds(rows, p.idNames, p.names, renderers, render).value;
    var k := InjectIds(map[], e.identifiers, p.values[i]).value;
    assert k !in results by {
      forall j | 0 <= j < |rows| ensures key(rows[j]) != Ok(k) {
      }
    }
  }
}

=== FILE: command_reader.dfy ===
/** Selection of the command the launcher runs (`CommandReader`). */
module CommandReader {
  import opened Wrappers
  import opened Strings

  /** The configuration source; `command` is the `hcms.command` entry when it is set. */
  datatype Configuration = Configuration(command: Option<string>)

  /** The command-line candidate: the first argument, or the second one when the first is
      `--hcms-command` and a second exists; nothing when there are no arguments. */
  function ArgsCandidate(args: Option<seq<string>>): (r: Option<string>)
    ensures r.Some? <==> args.Some? && |args.value| > 0
    ensures r.Some? && args.value[0] != "--hcms-command" ==> r.value == args.value[0]
    ensures r.Some? && args.value[0] == "--hcms-command" ==>
      r.value == if |args.value| >= 2 then args.value[1] else "--hcms-command"
  {
    match args
    case None => None
    case Some(a) =>
      if |a| == 0 then None
      else if a[0] == "--hcms-command" then Some(if |a| >= 2 then a[1] else a[0])
      else Some(a[0])
  }

  /** The command chosen from a configuration (absent in Java: `null`) and the program arguments. */
  function Command(configuration: Option<Configuration>, args: Option<seq<string>>): (r: Option<string>)
    ensures r.None? <==> configuration.None?
    ensures r.Some? ==> !StartsWith(r.value, "--")
    ensures configuration.Some? && configuration.value.command.Some?
            && !StartsWith(configuration.value.command.value, "--")
            ==> r == configuration.value.command
    ensures configuration.Some? && configuration.value.command.None?
            && ArgsCandidate(args).Some? && !StartsWith(ArgsCandidate(args).value, "--")
            ==> r == ArgsCandidate(args)
    ensures configuration.Some?
            && (var candidate := if configuration.value.command.Some? then configuration.value.command else ArgsCandidate(args);
                candidate.None? || StartsWith(candidate.value, "--"))
            ==> r == Some("serve")
  {
    match configuration
    case None => None
    case Some(c) =>
      var candidate := if c.command.Some? then c.command else ArgsCandidate(args);
      if candidate.Some? && !StartsWith(candidate.value, "--") then candidate
      else assert "serve"[..2] == "se"; Some("serve")
  }

  /** With no configured command and no usable argument the launcher serves. */
  lemma DefaultsToServe(c: Configuration, args: Option<seq<string>>)
    requires c.command.None?
    requires args.None? || |args.value| == 0
    ensures Command(Some(c), args) == Some("serve")
  {
  }

  /** A configured value wins over the arguments whatever they hold. */
  lemma ConfigurationWins(c: Configuration, args1: Option<seq<string>>, args2: Option<seq<string>>)
    requires c.command.Some?
    ensures Command(Some(c), args1) == Command(Some(c), args2)
  {
  }

  /** A lone `--hcms-command` is an option, not a command: the launcher serves. */
  lemma LoneCommandFlag(c: Configuration)
    requires c.command.None?
    ensures Command(Some(c), Some(["--hcms-command"])) == Some("serve")
  {
    assert StartsWith("--hcms-command", "--");
  }
}

=== FILE: dispatcher.dfy ===
/** The batch dispatcher in front of the JSON-RPC methods: a batch either goes to the default
    handler untouched, is answered by one bulk `findByIds` per entity, or runs in one shared
    read or write transaction. */
module BatchDispatcher {
  import opened Wrappers
  import opened Strings
  import opened Json
  import opened EntityCompiler
  import opened Execution
  import opened BulkFindById
  import opened ModelRegistry

  /** One request of a batch: the parsed request object (`None` when it did not parse as one) and
      the raw JSON it came from. */
  datatype BatchRequest = BatchRequest(first: Option<Request>, second: Json)

  /** How a batch is served. */
  datatype Route =
    /** The default handler, request by request, without a shared transaction. */
    | PassThrough
    /** One `findByIds` per entity and request shape, in a read transaction. */
    | BulkFindByIds
    /** The default handler inside one transaction, a write one when `write` holds. */
    | Transaction(write: bool)

  // ---------------------------------------------------------------- classification

  /** `getOrDefault("method", "").toString()`: a missing method reads as the empty string, a
      method that is present but `null` cannot be printed. */
  function MethodOf(r: Request): (m: Result<string>)
    ensures "method" !in Keys(r) ==> m == Ok("")
    ensures m.Err? <==> Get(r, "method") == Some(JNull)
    ensures m.Err? ==> m.error == NullPointer
    ensures Get(r, "method").Some? && m.Ok? ==> m.value == ToString(Get(r, "method").value)
  {
    match Get(r, "method")
    case None => Ok("")
    case Some(v) => if v == JNull then Err(NullPointer) else Ok(ToString(v))
  }

  /** The method of a batch request; only requests that parsed are ever asked. */
  function MethodOfRequest(b: BatchRequest): Result<string> {
    if b.first.None? then Ok("") else MethodOf(b.first.value)
  }

  /** The methods of a batch, in request order. */
  function Methods(batch: seq<BatchRequest>): Result<seq<string>> {
    MapAll(batch, MethodOfRequest)
  }

  /** `isVirtual`: the method's last dot is past the first character and what precedes it names a
      loaded entity. */
  predicate IsVirtual(name: string, entities: set<string>) {
    LastIndexOf(name, '.') > 0 && name[..LastIndexOf(name, '.')] in entities
  }

  /** `isWriteMethod`: only creations and updates write. */
  predicate IsWriteMethod(name: string) {
    EndsWith(name, ".create") || EndsWith(name, ".update")
  }

  /** `<entity>.findById` for a loaded entity. */
  predicate IsEntityFindById(name: string, entities: set<string>) {
    EndsWith(name, ".findById") && name[..|name| - |".findById"|] in entities
  }

  /** A method the default handler must serve alone: a built-in `hcms…` method or one that is not
      an entity's. */
  predicate NeedsDefault(name: string, entities: set<string>) {
    StartsWith(name, "hcms") || !IsVirtual(name, entities)
  }

  /** `handleRequests`: a batch with an unparsed request, or with a method that is built in or not
      virtual, goes to the default handler; a batch of entity `findById` calls is bulked; any
      other batch shares one transaction, a write one when it creates or updates. */
  function Classify(batch: seq<BatchRequest>, entities: set<string>): (r: Result<Route>)
    ensures (exists i :: 0 <= i < |batch| && batch[i].first.None?) ==> r == Ok(PassThrough)
    ensures r.Err? ==> r.error == NullPointer && Methods(batch).Err?
    ensures r.Ok? && r.value != PassThrough ==>
      && (forall i :: 0 <= i < |batch| ==> batch[i].first.Some?)
      && Methods(batch).Ok?
      && forall m :: m in Methods(batch).value ==> !NeedsDefault(m, entities)
    ensures r == Ok(BulkFindByIds) ==> forall m :: m in Methods(batch).value ==> IsEntityFindById(m, entities)
    ensures r.Ok? && r.value.Transaction? ==> (r.value.write <==> exists m :: m in Methods(batch).value && IsWriteMethod(m))
  {
    if exists i :: 0 <= i < |batch| && batch[i].first.None? then Ok(PassThrough)
    else
      var methods :- Methods(batch);
      if exists m :: m in methods && NeedsDefault(m, entities) then Ok(PassThrough)
      else if forall m :: m in methods ==> IsEntityFindById(m, entities) then Ok(BulkFindByIds)
      else Ok(Transaction(exists m :: m in methods && IsWriteMethod(m)))
  }

  /** A batch of parsed requests goes to the default handler exactly when one of its methods is built
      in or not virtual. */
  lemma PassThroughExactly(batch: seq<BatchRequest>, entities: set<string>)
    requires forall i :: 0 <= i < |batch| ==> batch[i].first.Some?
    requires Methods(batch).Ok?
    ensures Classify(batch, entities) == Ok(PassThrough) <==> exists m :: m in Methods(batch).value && NeedsDefault(m, entities)
  {
  }

  /** The last dot of `<entity>.findById` is the one before `findById`: such a method is virtual
      exactly when its entity is loaded and not empty. */
  lemma {:induction false} FindByIdVirtual(name: string, entities: set<string>)
    requires EndsWith(name, ".findById")
    ensures IsVirtual(name, entities) <==> IsEntityFindById(name, entities) && |name| > |".findById"|
  {
    var n := |name| - |".findById"|;
    assert name[n..] == ".findById";
    assert name[n] == '.';
    forall j | n < j < |name| ensures name[j] != '.' {
      assert name[j] == ".findById"[j - n];
    }
    assert LastIndexOf(name, '.') == n;
  }

  /** A batch of loaded entities' `findById` calls, none built in, is bulked. */
  lemma {:induction false} AllFindByIdsBulked(batch: seq<BatchRequest>, entities: set<string>)
    requires forall i :: 0 <= i < |batch| ==> batch[i].first.Some?
    requires Methods(batch).Ok?
    requires forall m :: m in Methods(batch).value ==> IsEntityFindById(m, entities) && |m| > |".findById"| && !StartsWith(m, "hcms")
    ensures Classify(batch, entities) == Ok(BulkFindByIds)
  {
    forall m | m in Methods(batch).value ensures !NeedsDefault(m, entities) {
      FindByIdVirtual(m, entities);
    }
  }

  /** A batch of virtual calls that is not all `findById` and neither creates nor updates (only
      deletions, say) shares a read transaction. */
  lemma DeletionsRead(batch: seq<BatchRequest>, entities: set<string>)
    requires forall i :: 0 <= i < |batch| ==> batch[i].first.Some?
    requires Methods(batch).Ok?
    requires forall m :: m in Methods(batch).value ==> !NeedsDefault(m, entities) && !IsWriteMethod(m)
    requires exists m :: m in Methods(batch).value && !IsEntityFindById(m, entities)
    ensures Classify(batch, entities) == Ok(Transaction(false))
  {
  }

  // ---------------------------------------------------------------- bulk grouping

  /** The `FindById` record a bulked request is grouped under. */
  datatype GroupKey = GroupKey(entity: string, fields: Option<seq<Json>>, renderers: Option<seq<(string, Json)>>)

  /** The text of the `method` member, as `get("method").toString()` prints it. */
  function MethodText(r: Request): string {
    ToString(Member(r, "method"))
  }

  /** A batch the bulk path serves: every request parsed and calling some `….findById`. */
  predicate BulkBatch(batch: seq<BatchRequest>) {
    forall i :: 0 <= i < |batch| ==> batch[i].first.Some? && EndsWith(MethodText(batch[i].first.value), ".findById")
  }

  /** The group of a bulked request: its entity, and the `fields` list and `renderers` object of
      the raw request's `params` when it is an object holding an object. */
  function KeyOf(b: BatchRequest): (k: GroupKey)
    requires b.first.Some? && EndsWith(MethodText(b.first.value), ".findById")
    ensures k.entity + ".findById" == MethodText(b.first.value)
    ensures !(b.second.JObj? && Member(b.second.fields, "params").JObj?) ==> k.fields.None? && k.renderers.None?
  {
    var name := MethodText(b.first.value);
    var entity := name[..|name| - |".findById"|];
    assert entity + ".findById" == name;
    if b.second.JObj? && Member(b.second.fields, "params").JObj? then
      var params := Member(b.second.fields, "params").fields;
      GroupKey(entity,
        if Member(params, "fields").JList? then Some(Member(params, "fields").items) else None,
        if Member(params, "renderers").JObj? then Some(Member(params, "renderers").fields) else None)
    else GroupKey(entity, None, None)
  }

  /** The group key of every request, in batch order. */
  function BatchKeys(batch: seq<BatchRequest>): (ks: seq<GroupKey>)
    requires BulkBatch(batch)
    ensures |ks| == |batch| && forall i :: 0 <= i < |batch| ==> ks[i] == KeyOf(batch[i])
  {
    seq(|batch|, i requires 0 <= i < |batch| && BulkBatch(batch) => KeyOf(batch[i]))
  }

  /** The parsed request of every batch request, in batch order. */
  function Firsts(batch: seq<BatchRequest>): (rs: seq<Request>)
    requires BulkBatch(batch)
    ensures |rs| == |batch| && forall i :: 0 <= i < |batch| ==> rs[i] == batch[i].first.value
  {
    seq(|batch|, i requires 0 <= i < |batch| && BulkBatch(batch) => batch[i].first.value)
  }

  /** The distinct elements, in order of first appearance. */
  function Unique<K(==, !new)>(ks: seq<K>): (r: seq<K>)
    ensures forall k :: k in r <==> k in ks
    ensures Distinct(r)
    ensures |ks| > 0 ==> |r| > 0 && r[0] == ks[0]
    decreases |ks|
  {
    if ks == [] then []
    else
      var n := |ks| - 1;
      assert forall k :: k in ks <==> k in ks[..n] || k == ks[n];
      var acc := Unique(ks[..n]);
      assert n > 0 ==> ks[..n][0] == ks[0];
      if ks[n] in acc then acc else acc + [ks[n]]
  }

  /** The elements whose key (at the same position) is `key`, in order. */
  function Select<T(!new), K(==)>(xs: seq<T>, ks: seq<K>, key: K): (r: seq<T>)
    requires |xs| == |ks|
    ensures forall x :: x in r <==> exists i :: 0 <= i < |xs| && ks[i] == key && xs[i] == x
    ensures |r| <= |xs|
    decreases |xs|
  {
    if xs == [] then []
    else
      var n := |xs| - 1;
      assert forall i :: 0 <= i < n ==> xs[..n][i] == xs[i] && ks[..n][i] == ks[i];
      var acc := Select(xs[..n], ks[..n], key);
      if ks[n] == key then acc + [xs[n]] else acc
  }

  /** The group keys of a batch, in order of first appearance. */
  function GroupKeys(batch: seq<BatchRequest>): (r: seq<GroupKey>)
    requires BulkBatch(batch)
    ensures forall k :: k in r <==> exists i :: 0 <= i < |batch| && KeyOf(batch[i]) == k
    ensures Distinct(r)
  {
    var ks := BatchKeys(batch);
    assert forall k :: k in ks <==> exists i :: 0 <= i < |batch| && KeyOf(batch[i]) == k by {
      forall k ensures k in ks ==> exists i :: 0 <= i < |batch| && KeyOf(batch[i]) == k {
        if k in ks {
          var i :| 0 <= i < |ks| && ks[i] == k;
        }
      }
    }
    Unique(ks)
  }

  /** `groupingBy(…, mapping(first, toList()))`: the requests of one group, in batch order. */
  function Members(batch: seq<BatchRequest>, key: GroupKey): (r: seq<Request>)
    requires BulkBatch(batch)
    ensures forall m :: m in r <==> exists i :: 0 <= i < |batch| && KeyOf(batch[i]) == key && batch[i].first.value == m
  {
    Select(Firsts(batch), BatchKeys(batch), key)
  }

  /** The non-`params` requests of a batch all share one group per entity. */
  lemma PlainRequestsGroupByEntity(batch: seq<BatchRequest>, i: nat, j: nat)
    requires BulkBatch(batch) && i < |batch| && j < |batch|
    requires !(batch[i].second.JObj? && Member(batch[i].second.fields, "params").JObj?)
    requires !(batch[j].second.JObj? && Member(batch[j].second.fields, "params").JObj?)
    requires MethodText(batch[i].first.value) == MethodText(batch[j].first.value)
    ensures KeyOf(batch[i]) == KeyOf(batch[j])
  {
    var n := |".findById"|;
    var a := MethodText(batch[i].first.value);
    assert KeyOf(batch[i]).entity == a[..|a| - n];
  }

  // ---------------------------------------------------------------- bulk results

  /** The results of one group: its renderers resolved (a 406 for an unknown one), then one
      `findByIds` over its requests. */
  function GroupResults(batch: seq<BatchRequest>, key: GroupKey, entities: map<string, Entity>, env: Env,
                        claims: Option<seq<(string, Json)>>): (r: Result<seq<map<string, Json>>>)
    requires BulkBatch(batch)
    ensures r.Ok? ==> |r.value| == |Members(batch, key)|
  {
    var renderers :- ToRenderers(if key.renderers.None? then [] else key.renderers.value, env.renderers);
    FindByIds(entities, key.entity, Members(batch, key), env, claims, renderers, key.fields)
  }

  /** The map `findByIds` returns: each request to its result, the first of equal requests kept. */
  function Pairs(ms: seq<Request>, vs: seq<map<string, Json>>): (r: map<Request, map<string, Json>>)
    requires |ms| == |vs|
    ensures forall m :: m in r <==> m in ms
    ensures forall j :: 0 <= j < |ms| && (forall l :: 0 <= l < j ==> ms[l] != ms[j]) ==> r[ms[j]] == vs[j]
    decreases |ms|
  {
    if ms == [] then map[]
    else
      var rest := Pairs(ms[1..], vs[1..]);
      assert forall j :: 1 <= j < |ms| ==> ms[1..][j - 1] == ms[j] && vs[1..][j - 1] == vs[j];
      assert forall m :: m in ms <==> m == ms[0] || m in ms[1..];
      rest[ms[0] := vs[0]]
  }

  /** The results of every group, merged into one map: a request answered by two groups is a
      duplicate key. */
  function Collect(batch: seq<BatchRequest>, keys: seq<GroupKey>, entities: map<string, Entity>, env: Env,
                   claims: Option<seq<(string, Json)>>): (r: Result<map<Request, map<string, Json>>>)
    requires BulkBatch(batch)
    ensures r.Ok? ==> forall k :: k in keys ==> GroupResults(batch, k, entities, env, claims).Ok?
    ensures r.Ok? ==> forall i :: 0 <= i < |batch| && KeyOf(batch[i]) in keys ==> batch[i].first.value in r.value
    decreases |keys|
  {
    if keys == [] then Ok(map[])
    else
      var n := |keys| - 1;
      assert forall k :: k in keys ==> k in keys[..n] || k == keys[n];
      var acc :- Collect(batch, keys[..n], entities, env, claims);
      var out :- GroupResults(batch, keys[n], entities, env, claims);
      var entries := Pairs(Members(batch, keys[n]), out);
      if exists m :: m in entries && m in acc then Err(IllegalState)
      else
        assert forall i :: 0 <= i < |batch| && KeyOf(batch[i]) == keys[n] ==> batch[i].first.value in entries;
        Ok(acc + entries)
  }

  /** Every request's result, once every group ran. */
  function BulkResults(batch: seq<BatchRequest>, entities: map<string, Entity>, env: Env,
                       claims: Option<seq<(string, Json)>>): (r: Result<map<Request, map<string, Json>>>)
    requires BulkBatch(batch)
    ensures r.Ok? ==> forall i :: 0 <= i < |batch| ==> batch[i].first.value in r.value
  {
    Collect(batch, GroupKeys(batch), entities, env, claims)
  }

  // ---------------------------------------------------------------- responses

  /** A JSON-RPC response of the bulk path: a result with the request's id, or the error response
      the default handler builds for a request. */
  datatype Response =
    | Reply(id: Option<string>, result: map<string, Json>)
    | ErrorReply(request: Request, code: int, message: string)

  const BulkFailure: string := "Can't execute the action, cancelling the full bulk request."

  /** The id of a response: the request's `id` when it is a string, `null` otherwise. */
  function IdOf(r: Request): (id: Option<string>)
    ensures id.Some? <==> Member(r, "id").JStr?
    ensures id.Some? ==> id.value == Member(r, "id").s
  {
    if Member(r, "id").JStr? then Some(Member(r, "id").s) else None
  }

  /** The response of each request, in order: its result under its string id; once anything
      failed, the same 500 error for every request. */
  function ResponsesFor(requests: seq<Request>, results: Result<map<Request, map<string, Json>>>): (r: seq<Response>)
    requires results.Ok? ==> forall q :: q in requests ==> q in results.value
    ensures |r| == |requests|
    ensures results.Err? ==> forall i :: 0 <= i < |requests| ==> r[i] == ErrorReply(requests[i], 500, BulkFailure)
    ensures results.Ok? ==> forall i :: 0 <= i < |requests| ==> r[i] == Reply(IdOf(requests[i]), results.value[requests[i]])
  {
    seq(|requests|, i requires 0 <= i < |requests| && (results.Ok? ==> forall q :: q in requests ==> q in results.value) =>
      if results.Ok? then Reply(IdOf(requests[i]), results.value[requests[i]]) else ErrorReply(requests[i], 500, BulkFailure))
  }

  /** The responses of a bulked batch, one per request in batch order. */
  function BulkResponses(batch: seq<BatchRequest>, entities: map<string, Entity>, env: Env,
                         claims: Option<seq<(string, Json)>>): (r: seq<Response>)
    requires BulkBatch(batch)
    ensures |r| == |batch|
    ensures BulkResults(batch, entities, env, claims).Err? ==>
      forall i :: 0 <= i < |batch| ==> r[i] == ErrorReply(batch[i].first.value, 500, BulkFailure)
    ensures BulkResults(batch, entities, env, claims).Ok? ==>
      forall i :: 0 <= i < |batch| ==>
        r[i] == Reply(IdOf(batch[i].first.value), BulkResults(batch, entities, env, claims).value[batch[i].first.value])
  {
    var requests := Firsts(batch);
    ResponsesFor(requests, BulkResults(batch, entities, env, claims))
  }

  /** A failure of one group fails the whole batch. */
  lemma {:induction false} OneGroupFailsAll(batch: seq<BatchRequest>, entities: map<string, Entity>, env: Env,
                                           claims: Option<seq<(string, Json)>>, i: nat)
    requires BulkBatch(batch) && i < |batch|
    requires GroupResults(batch, KeyOf(batch[i]), entities, env, claims).Err?
    ensures forall j :: 0 <= j < |batch| ==> BulkResponses(batch, entities, env, claims)[j] == ErrorReply(batch[j].first.value, 500, BulkFailure)
  {
    assert KeyOf(batch[i]) in GroupKeys(batch);
  }

  // ---------------------------------------------------------------- the handler

  /** The request attributes the dispatcher writes. */
  class HttpRequest {
    var attributes: map<string, string>

    constructor ()
      ensures attributes == map[]
    {
      attributes := map[];
    }
  }

  const MethodAttribute: string := "yupiik.jsonrpc.method"

  /** `toString()` of a `FindById` record. */
  function KeyText(k: GroupKey): string {
    "FindById[entity=" + k.entity
      + ", fields=" + (if k.fields.None? then "null" else "[" + Join(Texts(k.fields.value), ", ") + "]")
      + ", renderers=" + (if k.renderers.None? then "null" else "{" + Join(EntryTexts(k.renderers.value), ", ") + "}")
      + "]"
  }

  function Texts(items: seq<Json>): (r: seq<string>)
    ensures |r| == |items|
  {
    if items == [] then [] else [ToString(items[0])] + Texts(items[1..])
  }

  function EntryTexts(entries: seq<(string, Json)>): (r: seq<string>)
    ensures |r| == |entries|
  {
    if entries == [] then [] else [entries[0].0 + "=" + ToString(entries[0].1)] + EntryTexts(entries[1..])
  }

  /** The method attribute of a bulked batch: each group's record text, suffixed with `.findById`. */
  function MethodsAttribute(keys: seq<GroupKey>): string {
    Join(seq(|keys|, i requires 0 <= i < |keys| => KeyText(keys[i]) + ".findById"), ",")
  }

  /** The attribute names the grouping record, not the method: a single plain `findById` on `book`
      is traced as `FindById[entity=book, fields=null, renderers=null].findById`. */
  lemma RecordTextInAttribute(entity: string)
    ensures MethodsAttribute([GroupKey(entity, None, None)]) == "FindById[entity=" + entity + ", fields=null, renderers=null].findById"
  {
  }

  /** `bulkFindByIds`: every group run, then the method attribute recorded and the responses built
      in batch order; any failure answers every request with the same 500 and records nothing. */
  method BulkFindByIdsOn(http: HttpRequest, batch: seq<BatchRequest>, entities: map<string, Entity>, env: Env,
                         claims: Option<seq<(string, Json)>>) returns (responses: seq<Response>)
    requires BulkBatch(batch)
    modifies http
    ensures responses == BulkResponses(batch, entities, env, claims)
    ensures BulkResults(batch, entities, env, claims).Ok? ==>
      http.attributes == old(http.attributes)[MethodAttribute := MethodsAttribute(GroupKeys(batch))]
    ensures BulkResults(batch, entities, env, claims).Err? ==> http.attributes == old(http.attributes)
  {
    var results := BulkResults(batch, entities, env, claims);
    if results.Ok? {
      http.attributes := http.attributes[MethodAttribute := MethodsAttribute(GroupKeys(batch))];
    }
    responses := Respond(Firsts(batch), results);
  }

  /** The loop building the responses, one request after the other. */
  method Respond(requests: seq<Request>, results: Result<map<Request, map<string, Json>>>) returns (responses: seq<Response>)
    requires results.Ok? ==> forall q :: q in requests ==> q in results.value
    ensures responses == ResponsesFor(requests, results)
  {
    responses := [];
    var i := 0;
    while i < |requests|
      invariant 0 <= i <= |requests| && |responses| == i
      invariant forall j :: 0 <= j < i ==> responses[j] == ResponsesFor(requests, results)[j]
    {
      var r := requests[i];
      var response := if results.Ok? then Reply(IdOf(r), results.value[r]) else ErrorReply(r, 500, BulkFailure);
      responses := responses + [response];
      i := i + 1;
    }
  }

  /** What `handleRequests` does with a batch. */
  datatype Outcome =
    | Delegated
    | Shared(write: bool)
    | Answered(responses: seq<Response>)
    | Thrown(error: Failure)

  /** `handleRequests`: the route of the batch over the handler's loaded entities, the bulk path run
      when it is taken; in this model only the bulk path changes the request attributes, since the
      transaction paths are classified and not run. */
  method HandleRequests(http: HttpRequest, handler: ModelHandler, batch: seq<BatchRequest>, env: Env,
                        claims: Option<seq<(string, Json)>>) returns (outcome: Outcome)
    modifies http
    ensures match Classify(batch, handler.entities.Keys)
      case Err(e) => outcome == Thrown(e) && http.attributes == old(http.attributes)
      case Ok(PassThrough) => outcome == Delegated && http.attributes == old(http.attributes)
      case Ok(Transaction(w)) => outcome == Shared(w) && http.attributes == old(http.attributes)
      case Ok(BulkFindByIds) => BulkBatch(batch) && outcome == Answered(BulkResponses(batch, handler.entities, env, claims))
  {
    var route := Classify(batch, handler.entities.Keys);
    match route {
      case Err(e) => outcome := Thrown(e);
      case Ok(PassThrough) => outcome := Delegated;
      case Ok(Transaction(w)) => outcome := Shared(w);
      case Ok(BulkFindByIds) =>
        BulkMethods(batch, handler.entities.Keys);
        var responses := BulkFindByIdsOn(http, batch, handler.entities, env, claims);
        outcome := Answered(responses);
    }
  }

  /** A bulked batch calls `….findById` in every request. */
  lemma BulkMethods(batch: seq<BatchRequest>, entities: set<string>)
    requires Classify(batch, entities) == Ok(BulkFindByIds)
    ensures BulkBatch(batch)
  {
    var methods := Methods(batch).value;
    forall i | 0 <= i < |batch| ensures EndsWith(MethodText(batch[i].first.value), ".findById") {
      assert methods[i] in methods;
      var r := batch[i].first.value;
      assert MethodOf(r) == Ok(methods[i]);
      assert IsEntityFindById(methods[i], entities);
    }
  }
}

=== FILE: doc_endpoint.dfy ===
/** The documentation endpoint: the OpenRPC schemas rewritten into the OpenAPI dialect, the tag each
    method is listed under, the parameters listed for a creation, the flags that switch the
    documents on, and the Swagger UI resources it serves. */
module DocEndpoint {
  import opened Wrappers
  import opened Strings
  import opened Json
  import opened Model
  import opened EntityCompiler
  import BatchDispatcher

  // ---------------------------------------------------------------- inlineSchemaType

  /** `String.valueOf` of the first entry of a `type` list that is not the text "null"; "null" when
      there is none. A JSON `null` entry passes the filter and cannot be returned by `findFirst`. */
  function FirstNotNullText(items: seq<Json>): (r: Result<string>)
    ensures r.Err? ==> r.error == NullPointer
    ensures (forall i :: 0 <= i < |items| ==> items[i] == JStr("null")) ==> r == Ok("null")
    ensures forall i :: (0 <= i < |items| && items[i] != JStr("null") && (forall j :: 0 <= j < i ==> items[j] == JStr("null")))
                          ==> r == (if items[i] == JNull then Err(NullPointer) else Ok(ToString(items[i])))
  {
    if items == [] then Ok("null")
    else if items[0] == JNull then Err(NullPointer)
    else if items[0] != JStr("null") then Ok(ToString(items[0]))
    else
      var r := FirstNotNullText(items[1..]);
      assert forall i :: 1 <= i < |items| ==> items[i] == items[1..][i - 1];
      r
  }

  /** The members a non-empty `type` list becomes: one entry becomes that entry as text, a longer
      list holding "null" becomes `nullable: true` and its first other entry, a longer list without
      it becomes its first entry. Printing or selecting a `null` entry fails. */
  function TypeEntries(items: seq<Json>): (r: Result<seq<(string, Json)>>)
    requires |items| > 0
    ensures r.Err? ==> r.error == NullPointer
    ensures |items| == 1 ==> r == (if items[0] == JNull then Err(NullPointer) else Ok([("type", JStr(ToString(items[0])))]))
    ensures |items| > 1 && JStr("null") in items ==>
      (r.Ok? <==> FirstNotNullText(items).Ok?)
      && (r.Ok? ==> r.value == [("nullable", JBool(true)), ("type", JStr(FirstNotNullText(items).value))])
    ensures |items| > 1 && JStr("null") !in items ==>
      r == (if items[0] == JNull then Err(NullPointer) else Ok([("type", JStr(ToString(items[0])))]))
    ensures r.Ok? ==> forall i :: 0 <= i < |r.value| ==> r.value[i].1.JStr? || r.value[i] == ("nullable", JBool(true))
  {
    if |items| > 1 && JStr("null") in items then
      var t :- FirstNotNullText(items);
      Ok([("nullable", JBool(true)), ("type", JStr(t))])
    else if items[0] == JNull then Err(NullPointer)
    else Ok([("type", JStr(ToString(items[0])))])
  }

  /** Whether a member is a `type` list the rewriting replaces. */
  predicate Rewritten(e: (string, Json)) {
    e.0 == "type" && e.1.JList? && |e.1.items| > 0
  }

  /** `inlineSchemaType`: objects get their `type` lists rewritten, their values rewritten in turn
      and their members sorted by name (the first of two equal names wins); list elements are
      rewritten one by one; anything else is kept. A member whose value is `null` cannot enter the
      rebuilt object. */
  function Inline(schema: Json): (r: Result<Json>)
    ensures !schema.JObj? && !schema.JList? ==> r == Ok(schema)
    ensures r.Err? ==> r.error == NullPointer
    ensures schema.JObj? && r.Ok? ==> r.value.JObj? && StrictlySorted(r.value.fields)
    ensures schema.JList? && r.Ok? ==> r.value.JList? && |r.value.items| == |schema.items|
    decreases schema
  {
    match schema
    case JObj(fields) =>
      var members :- InlineFields(fields);
      Ok(JObj(ToSortedMap(members)))
    case JList(items) =>
      var rewritten :- InlineItems(items);
      Ok(JList(rewritten))
    case _ => Ok(schema)
  }

  /** The members of an object, each rewritten, in order. */
  function InlineFields(fields: seq<(string, Json)>): (r: Result<seq<(string, Json)>>)
    ensures r.Err? ==> r.error == NullPointer
    ensures r.Ok? ==> forall k :: k in Keys(fields) ==> k in Keys(r.value)
    ensures r.Ok? ==> forall k :: k in Keys(r.value) ==> k in Keys(fields) || k == "nullable"
    decreases fields
  {
    if fields == [] then Ok([])
    else
      var head :- InlineMember(fields[0]);
      var tail :- InlineFields(fields[1..]);
      assert Keys(fields) == [fields[0].0] + Keys(fields[1..]);
      KeysConcat(head, tail);
      Ok(head + tail)
  }

  /** One member: a `type` list is replaced by its text (inlining text changes nothing), any other
      value is rewritten and must not be `null`. */
  function InlineMember(e: (string, Json)): (r: Result<seq<(string, Json)>>)
    ensures r.Err? ==> r.error == NullPointer
    ensures r.Ok? && !Rewritten(e) ==> Inline(e.1).Ok? && r.value == [(e.0, Inline(e.1).value)]
    ensures r.Ok? ==> e.0 in Keys(r.value) && forall k :: k in Keys(r.value) ==> k == e.0 || k == "nullable"
    decreases e
  {
    if Rewritten(e) then TypeEntries(e.1.items)
    else
      var v :- Inline(e.1);
      if v == JNull then Err(NullPointer) else Ok([(e.0, v)])
  }

  /** The elements of a list, each rewritten, in order; `null` elements are kept. */
  function InlineItems(items: seq<Json>): (r: Result<seq<Json>>)
    ensures r.Err? ==> r.error == NullPointer
    ensures r.Ok? ==> |r.value| == |items| && forall i :: 0 <= i < |items| ==> Inline(items[i]) == Ok(r.value[i])
    decreases items
  {
    if items == [] then Ok([])
    else
      var head :- Inline(items[0]);
      var tail :- InlineItems(items[1..]);
      assert forall i :: 1 <= i < |items| ==> items[i] == items[1..][i - 1];
      Ok([head] + tail)
  }

  lemma {:induction false} KeysConcat<V>(a: seq<(string, V)>, b: seq<(string, V)>)
    ensures Keys(a + b) == Keys(a) + Keys(b)
  {
    if a != [] {
      assert (a + b)[1..] == a[1..] + b;
      KeysConcat(a[1..], b);
    }
  }

  /** What `inlineSchemaType` leaves behind: sorted objects without `null` members or non-empty
      `type` lists, all the way down. */
  predicate Inlined(j: Json)
    decreases j
  {
    match j
    case JObj(fields) => StrictlySorted(fields) && forall i :: 0 <= i < |fields| ==> InlinedMember(fields[i])
    case JList(items) => forall i :: 0 <= i < |items| ==> Inlined(items[i])
    case _ => true
  }

  predicate InlinedMember(e: (string, Json))
    decreases e
  {
    e.1 != JNull && !Rewritten(e) && Inlined(e.1)
  }

  /** The rewriting reaches its normal form in one pass. */
  lemma {:induction false} InlineNormalizes(j: Json)
    requires Inline(j).Ok?
    ensures Inlined(Inline(j).value)
    decreases j
  {
    match j
    case JObj(fields) =>
      var members := InlineFields(fields).value;
      InlineFieldsNormalize(fields);
      var r := ToSortedMap(members);
      forall i | 0 <= i < |r| ensures InlinedMember(r[i]) {
        SortedMapMember(members, i);
      }
    case JList(items) =>
      forall i | 0 <= i < |items| ensures Inlined(InlineItems(items).value[i]) {
        InlineNormalizes(items[i]);
      }
    case _ =>
  }

  lemma {:induction false} InlineFieldsNormalize(fields: seq<(string, Json)>)
    requires InlineFields(fields).Ok?
    ensures forall e :: e in InlineFields(fields).value ==> InlinedMember(e)
    decreases fields
  {
    if fields != [] {
      InlineMemberNormalizes(fields[0]);
      InlineFieldsNormalize(fields[1..]);
    }
  }

  lemma {:induction false} InlineMemberNormalizes(e: (string, Json))
    requires InlineMember(e).Ok?
    ensures forall m :: m in InlineMember(e).value ==> InlinedMember(m)
    decreases e
  {
    if !Rewritten(e) {
      InlineNormalizes(e.1);
    }
  }

  /** A normal form is left as it is. */
  lemma {:induction false} InlinedFixed(j: Json)
    requires Inlined(j)
    ensures Inline(j) == Ok(j)
    decreases j
  {
    match j
    case JObj(fields) =>
      InlinedFieldsFixed(fields);
      SortedMapIdentity(fields);
    case JList(items) =>
      InlinedItemsFixed(items);
    case _ =>
  }

  lemma {:induction false} InlinedFieldsFixed(fields: seq<(string, Json)>)
    requires forall i :: 0 <= i < |fields| ==> InlinedMember(fields[i])
    ensures InlineFields(fields) == Ok(fields)
    decreases fields
  {
    if fields != [] {
      InlinedMemberFixed(fields[0]);
      assert forall i :: 0 <= i < |fields[1..]| ==> fields[1..][i] == fields[i + 1];
      InlinedFieldsFixed(fields[1..]);
      assert fields == [fields[0]] + fields[1..];
    }
  }

  lemma {:induction false} InlinedMemberFixed(e: (string, Json))
    requires InlinedMember(e)
    ensures InlineMember(e) == Ok([e])
    decreases e
  {
    InlinedFixed(e.1);
  }

  lemma {:induction false} InlinedItemsFixed(items: seq<Json>)
    requires forall i :: 0 <= i < |items| ==> Inlined(items[i])
    ensures InlineItems(items) == Ok(items)
    decreases items
  {
    if items != [] {
      InlinedFixed(items[0]);
      assert forall i :: 0 <= i < |items[1..]| ==> items[1..][i] == items[i + 1];
      InlinedItemsFixed(items[1..]);
      assert items == [items[0]] + items[1..];
    }
  }

  /** A strictly sorted list is its own sorted map. */
  lemma {:induction false} SortedMapIdentity<V>(m: seq<(string, V)>)
    requires StrictlySorted(m)
    ensures ToSortedMap(m) == m
    decreases |m|
  {
    if m != [] {
      var prefix := m[..|m| - 1];
      var last := m[|m| - 1];
      SortedMapIdentity(prefix);
      InsertGreatest(prefix, last.0, last.1);
      assert prefix + [last] == m;
    }
  }

  /** A key above every key is appended. */
  lemma {:induction false} InsertGreatest<V>(m: seq<(string, V)>, k: string, v: V)
    requires forall i :: 0 <= i < |m| ==> Less(m[i].0, k)
    ensures InsertFirstWins(m, k, v) == m + [(k, v)]
  {
    if m != [] {
      LessIrreflexive(k);
      LessAsymmetric(m[0].0, k);
      InsertGreatest(m[1..], k, v);
      assert m == [m[0]] + m[1..];
    }
  }

  /** Rewriting twice is rewriting once. */
  lemma InlineIdempotent(j: Json)
    requires Inline(j).Ok?
    ensures Inline(Inline(j).value) == Inline(j)
  {
    InlineNormalizes(j);
    InlinedFixed(Inline(j).value);
  }

  /** A nullable string property, as an OpenRPC document declares it, becomes a nullable OpenAPI
      string. */
  lemma NullableString()
    ensures Inline(JObj([("type", JList([JStr("null"), JStr("string")]))]))
      == Ok(JObj([("nullable", JBool(true)), ("type", JStr("string"))]))
  {
    var items := [JStr("null"), JStr("string")];
    var members := [("nullable", JBool(true)), ("type", JStr("string"))];
    assert items[0] == JStr("null");
    assert FirstNotNullText(items) == Ok("string");
    var e := ("type", JList(items));
    assert TypeEntries(items) == Ok(members);
    assert InlineMember(e) == Ok(members);
    assert [e][1..] == [];
    assert InlineFields([e]) == Ok(members + []);
    assert Less("nullable", "type");
    SortedMapIdentity(members);
  }

  /** A `type` list whose first entry other than "null" is a JSON `null` cannot be rewritten:
      `findFirst` refuses to return the `null` it selects. */
  lemma NullTypeEntryFails(rest: seq<Json>)
    ensures TypeEntries([JStr("null"), JNull] + rest) == Err(NullPointer)
    ensures Inline(JObj([("type", JList([JStr("null"), JNull] + rest))])) == Err(NullPointer)
  {
    var items := [JStr("null"), JNull] + rest;
    assert items[0] == JStr("null") && items[1] == JNull;
    assert FirstNotNullText(items) == Err(NullPointer);
    assert InlineMember(("type", JList(items))) == Err(NullPointer);
  }

  // ---------------------------------------------------------------- method tags

  const HcmsTag := "HCMS"

  /** The tag `toMethod` lists a method under: built-in `hcms.` methods under "HCMS", others under
      the text before their last dot when that dot is not the first character, none otherwise. */
  function Tag(name: string): (r: Option<string>)
    ensures StartsWith(name, "hcms.") ==> r == Some(HcmsTag)
    ensures !StartsWith(name, "hcms.") ==> (r.Some? <==> LastIndexOf(name, '.') > 0)
    ensures !StartsWith(name, "hcms.") && r.Some? ==>
      |r.value| < |name| && name == r.value + "." + name[|r.value| + 1..] && '.' !in name[|r.value| + 1..]
  {
    if StartsWith(name, "hcms.") then Some(HcmsTag)
    else
      var sep := LastIndexOf(name, '.');
      if sep > 0 then
        assert name == name[..sep] + "." + name[sep + 1..];
        Some(name[..sep])
      else None
  }

  /** The methods the dispatcher takes for entity methods are listed under their entity. */
  lemma VirtualMethodTag(name: string, entities: set<string>)
    requires BatchDispatcher.IsVirtual(name, entities) && !StartsWith(name, "hcms.")
    ensures Tag(name).Some? && Tag(name).value in entities
    ensures Tag(name).value == name[..LastIndexOf(name, '.')]
  {
  }

  /** `<entity>.<operation>` is listed under its entity whatever the entity is called, unless the
      entity name starts with "hcms" and puts it among the built-ins. */
  lemma {:induction false} EntityMethodTag(entity: string, operation: string)
    requires entity != [] && '.' !in operation && !StartsWith(entity + "." + operation, "hcms.")
    ensures Tag(entity + "." + operation) == Some(entity)
  {
    var name := entity + "." + operation;
    assert name[|entity|] == '.';
    forall j | |entity| < j < |name| ensures name[j] != '.' {
      assert name[j] == operation[j - |entity| - 1];
    }
    assert LastIndexOf(name, '.') == |entity|;
    assert name[..|entity|] == entity;
  }

  // ---------------------------------------------------------------- create / update parameters

  /** The properties `create` lists as parameters, in property order: all but the revision
      property, and but the identifiers when the database generates them. */
  function CreateParams(properties: seq<(string, PropertySchema)>, revision: Option<string>, autoGeneratedIds: bool,
                        identifiers: seq<string>): (r: seq<string>)
    ensures forall x :: x in r <==> x in Keys(properties) && Some(x) != revision && !(autoGeneratedIds && x in identifiers)
    ensures |r| <= |properties|
  {
    if properties == [] then []
    else
      var name := properties[0].0;
      var rest := CreateParams(properties[1..], revision, autoGeneratedIds, identifiers);
      assert Keys(properties) == [name] + Keys(properties[1..]);
      if Some(name) != revision && !(autoGeneratedIds && name in identifiers) then [name] + rest else rest
  }

  /** The parameters of `<entity>.create`. */
  function CreateParamsOf(e: Entity): (r: seq<string>)
    ensures forall x :: x in r ==> x in UpdateParamsOf(e)
  {
    CreateParams(e.properties, e.revisionProperty, e.autoGeneratedIds, e.identifiers)
  }

  /** The parameters of `<entity>.update`: every property. */
  function UpdateParamsOf(e: Entity): (r: seq<string>)
    ensures |r| == |e.properties|
  {
    Keys(e.properties)
  }

  /** What an update takes and a creation does not: the revision property, and the generated
      identifiers. */
  lemma UpdateOnlyParams(e: Entity, x: string)
    requires x in UpdateParamsOf(e) && x !in CreateParamsOf(e)
    ensures e.revisionProperty == Some(x) || (e.autoGeneratedIds && x in e.identifiers)
  {
  }

  // ---------------------------------------------------------------- Swagger UI

  /** What a response carries: nothing, the Swagger UI index page, or a stored resource. */
  datatype Body = Empty | IndexPage | Content(bytes: seq<bv8>)

  datatype Response = Response(status: int, headers: seq<(string, string)>, body: Body)

  const SwaggerPrefix := "/swagger-ui/"

  /** The content type of a resource, from its extension. */
  function ContentType(path: string): (r: string)
    ensures r == "application/javascript" <==> EndsWith(path, ".js")
    ensures r == "text/css" <==> !EndsWith(path, ".js") && EndsWith(path, ".css")
    ensures r == "image/png" <==> !EndsWith(path, ".js") && !EndsWith(path, ".css") && EndsWith(path, ".png")
  {
    if EndsWith(path, ".js") then "application/javascript"
    else if EndsWith(path, ".css") then "text/css"
    else if EndsWith(path, ".png") then "image/png"
    else "application/octet-stream"
  }

  /** Whether a resource path asks for the index page. */
  predicate IsIndex(path: string) {
    IsBlank(path) || path == "index.html"
  }

  /** Whether the compressed variant of a resource is served. */
  predicate ServesGzip(resources: map<string, seq<bv8>>, path: string, acceptEncoding: Option<string>) {
    acceptEncoding.Some? && Contains(acceptEncoding.value, "gzip") && path + ".gz" in resources
  }

  /** `getSwaggerUI`: 404 while OpenAPI is disabled; the index page for an empty path or
      `index.html`; a stored resource (its `.gz` variant when gzip is accepted and stored) with a
      content type from its extension; 404 for anything else. */
  function SwaggerUI(enabled: bool, resources: map<string, seq<bv8>>, requestPath: string, acceptEncoding: Option<string>): (r: Response)
    requires StartsWith(requestPath, SwaggerPrefix)
    ensures var path := requestPath[|SwaggerPrefix|..];
      && (r.status == 200 || r.status == 404)
      && (r.status == 404 <==> !enabled || (!IsIndex(path) && !ServesGzip(resources, path, acceptEncoding) && path !in resources))
      && (r.body == IndexPage <==> enabled && IsIndex(path))
      && (("content-encoding", "gzip") in r.headers <==> enabled && !IsIndex(path) && ServesGzip(resources, path, acceptEncoding))
      && (r.body.Content? ==> if ServesGzip(resources, path, acceptEncoding) then r.body.bytes == resources[path + ".gz"]
                              else path in resources && r.body.bytes == resources[path])
      && (r.body.Content? ==> ("content-type", ContentType(path)) in r.headers)
  {
    if !enabled then Response(404, [("content-type", "text/tml")], Empty)
    else
      var path := requestPath[|SwaggerPrefix|..];
      if IsIndex(path) then Response(200, [("content-type", "text/html")], IndexPage)
      else if ServesGzip(resources, path, acceptEncoding) then
        Response(200, [("content-encoding", "gzip"), ("content-type", ContentType(path))], Content(resources[path + ".gz"]))
      else if path in resources then Response(200, [("content-type", ContentType(path))], Content(resources[path]))
      else Response(404, [], Empty)
  }

  /** A document switch of `model.json`: unset means on. */
  function Enabled(flag: Option<bool>): (b: bool)
    ensures b <==> flag != Some(false)
  {
    flag.None? || flag.value
  }

  /** The endpoint's state: the switches and responses the last reload left, and the Swagger UI
      resources preloaded at start-up. */
  class DocEndpointState {
    var enableOpenAPI: bool
    var openRpcStatus: int
    var openApiStatus: int
    var swaggerUIResources: map<string, seq<bv8>>

    constructor(resources: map<string, seq<bv8>>)
      ensures swaggerUIResources == resources
    {
      swaggerUIResources := resources;
    }

    /** `reload`: each document is served (200) when its switch is on and answers 404 otherwise;
        the Swagger UI follows the OpenAPI switch. */
    method Reload(openApiFlag: Option<bool>, openRpcFlag: Option<bool>)
      modifies this
      ensures enableOpenAPI == Enabled(openApiFlag)
      ensures openRpcStatus == (if Enabled(openRpcFlag) then 200 else 404)
      ensures openApiStatus == (if Enabled(openApiFlag) then 200 else 404)
      ensures swaggerUIResources == old(swaggerUIResources)
    {
      enableOpenAPI := Enabled(openApiFlag);
      var enableOpenRPC := Enabled(openRpcFlag);
      openRpcStatus := if enableOpenRPC then 200 else 404;
      if enableOpenAPI {
        openApiStatus := 200;
      } else {
        openApiStatus := 404;
      }
    }

    /** `getSwaggerUI` against the current state. */
    method GetSwaggerUI(requestPath: string, acceptEncoding: Option<string>) returns (r: Response)
      requires StartsWith(requestPath, SwaggerPrefix)
      ensures r == SwaggerUI(enableOpenAPI, swaggerUIResources, requestPath, acceptEncoding)
      ensures !enableOpenAPI ==> r.status == 404
    {
      r := SwaggerUI(enableOpenAPI, swaggerUIResources, requestPath, acceptEncoding);
    }
  }

  /** After a reload that switches OpenAPI off, every Swagger UI path answers 404; with OpenAPI on,
      the index page is served. */
  method ReloadThenServe(doc: DocEndpointState, openApiFlag: Option<bool>, requestPath: string)
    returns (r: Response)
    requires StartsWith(requestPath, SwaggerPrefix)
    modifies doc
    ensures openApiFlag == Some(false) ==> r.status == 404
    ensures openApiFlag != Some(false) && IsIndex(requestPath[|SwaggerPrefix|..]) ==> r.status == 200 && r.body == IndexPage
  {
    doc.Reload(openApiFlag, None);
    r := doc.GetSwaggerUI(requestPath, None);
  }
}

=== FILE: entity.dfy ===
/** The entity compiler of the model handler: `validateEntity` checks a declaration, `toEntity` turns
    a valid one into the immutable `Entity` every compiled method reads (name mappings, identifier
    clause, identifier bindings, allowed operators). */
module EntityCompiler {
  import opened Wrappers
  import opened Strings
  import opened Json
  import opened Sql
  import opened Model
  import NameMapper

  /** The operators `"default"` stands for. */
  const DefaultWhereOperators: set<string> := {"=", "<", ">", ">=", "<=", "<>", "like", "ilike", "not like", "not ilike"}

  datatype Entity = Entity(
    name: string,
    table: string,
    createVirtualFields: Option<seq<(string, GenerationType)>>,
    updateVirtualFields: Option<seq<(string, GenerationType)>>,
    autoGeneratedIds: bool,
    identifiers: seq<string>,
    allowedSortKeys: set<string>,
    allowedFilterKeys: set<string>,
    allowedWhereOperators: set<string>,
    revisionProperty: Option<string>,
    /** The schema properties, sorted by name. */
    properties: seq<(string, PropertySchema)>,
    /** JSON name to column, sorted by JSON name. */
    jsonToDatabase: seq<(string, string)>,
    /** Column to JSON name, sorted by column. */
    databaseToJson: seq<(string, string)>,
    implicitFiltering: Option<ImplicitFiltering>,
    /** `c1 = ? AND c2 = ?` over the identifier columns. */
    whereIds: string,
    bindIdsNotNullable: seq<Binding>,
    bindIdsNullable: seq<Binding>)

  /** `validateEntityProperty`: a property whose first non-null type is missing, `null`, `object`
      or `array` cannot be a column. */
  predicate InvalidProperty(prop: PropertySchema) {
    prop.types.None? || FirstType(prop.types.value) !in {Some(StringType), Some(NumberType), Some(IntegerType), Some(BooleanType)}
  }

  /** A revision property is a `number`, or a `string` with the `date-time` format. */
  predicate RevisionType(prop: PropertySchema) {
    prop.types.Some? && ((Some(StringType) in prop.types.value && prop.format == Some(DateTimeFormat)) || Some(NumberType) in prop.types.value)
  }

  /** Every virtual field names a declared property. */
  predicate KnownFields(fields: Option<seq<(string, GenerationType)>>, names: seq<string>) {
    fields.None? || forall f :: f in fields.value ==> f.0 in names
  }

  /** `validateEntity`: the checks a declaration passes before it is compiled, each failure an
      `IllegalArgumentException`. */
  function ValidateEntity(spec: EntitySpec): (r: Result<()>)
    ensures r.Err? ==> r.error == IllegalArgument
    ensures r.Ok? ==> spec.name.Some? && !IsBlank(spec.name.value) && spec.name.value != "hcms"
  {
    if spec.name.None? || IsBlank(spec.name.value) then Err(IllegalArgument)
    else if spec.name.value == "hcms" then Err(IllegalArgument)
    else if spec.tableName.None? || IsBlank(spec.tableName.value) then Err(IllegalArgument)
    else if spec.jsonSchema.None? || !HasType(spec.jsonSchema.value.types, ObjectType) || spec.jsonSchema.value.properties == [] then
      Err(IllegalArgument)
    else
      var props := spec.jsonSchema.value.properties;
      if (spec.identifierNames.None? || spec.identifierNames.value == []) && "id" !in Keys(props) then Err(IllegalArgument)
      else if !KnownFields(spec.generatedCreateFields, Keys(props)) || !KnownFields(spec.generatedUpdateFields, Keys(props)) then
        Err(IllegalArgument)
      else if exists p :: p in props && InvalidProperty(p.1) then Err(IllegalArgument)
      else if spec.revisionProperty.None? then Ok(())
      else match Get(props, spec.revisionProperty.value)
        case None => Err(IllegalArgument)
        case Some(prop) => if RevisionType(prop) then Ok(()) else Err(IllegalArgument)
  }

  /** What a valid declaration satisfies; the checks of `validateEntity`, stated one by one. */
  ghost predicate Valid(spec: EntitySpec) {
    && spec.name.Some? && !IsBlank(spec.name.value) && spec.name.value != "hcms"
    && spec.tableName.Some? && !IsBlank(spec.tableName.value)
    && spec.jsonSchema.Some? && HasType(spec.jsonSchema.value.types, ObjectType)
    && |spec.jsonSchema.value.properties| > 0
    && var props := spec.jsonSchema.value.properties;
      && ((spec.identifierNames.Some? && spec.identifierNames.value != []) || "id" in Keys(props))
      && (forall f :: spec.generatedCreateFields.Some? && f in spec.generatedCreateFields.value ==> f.0 in Keys(props))
      && (forall f :: spec.generatedUpdateFields.Some? && f in spec.generatedUpdateFields.value ==> f.0 in Keys(props))
      && (forall i :: 0 <= i < |props| ==> !InvalidProperty(props[i].1))
      && (spec.revisionProperty.Some? ==> Get(props, spec.revisionProperty.value).Some? && RevisionType(Get(props, spec.revisionProperty.value).value))
  }

  /** `validateEntity` accepts exactly the declarations that satisfy every check. */
  lemma ValidateEntityAccepts(spec: EntitySpec)
    ensures ValidateEntity(spec).Ok? <==> Valid(spec)
  {
    if spec.jsonSchema.Some? {
      var props := spec.jsonSchema.value.properties;
      if (exists p :: p in props && InvalidProperty(p.1)) {
        var p :| p in props && InvalidProperty(p.1);
        var i :| 0 <= i < |props| && props[i] == p;
      }
    }
  }

  /** The SQL type a null value of a property is bound with (`findPropertyNullBinder`): from its
      first non-null type, `string` when there is none. */
  function NullType(prop: PropertySchema): (r: Result<SqlType>)
    requires prop.types.Some?
    ensures r.Err? <==> FirstType(prop.types.value) in {Some(ObjectType), Some(ArrayType), Some(JsonType.NullType)}
  {
    match FirstType(prop.types.value)
    case Some(BooleanType) => Ok(Boolean)
    case Some(NumberType) => Ok(Numeric)
    case Some(IntegerType) => Ok(Integer)
    case Some(ObjectType) => Err(IllegalArgument)
    case Some(ArrayType) => Err(IllegalArgument)
    case Some(NullType) => Err(IllegalArgument)
    case _ =>
      match prop.format
      case Some(DateFormat) => Ok(Date)
      case Some(TimeFormat) => Ok(Time)
      case Some(DateTimeFormat) => Ok(Timestamp)
      case _ => Ok(Varchar)
  }

  /** A string property with a date, time or date-time format maps its values through a parser. */
  predicate ParsesTemporal(prop: PropertySchema) {
    HasType(prop.types, StringType) && prop.format in {Some(DateFormat), Some(TimeFormat), Some(DateTimeFormat)}
  }

  /** `toBinder`: the binding of the `index`-th value to parameter `index + 1`; a null value binds a
      typed NULL only when `nullable` and the property admits `null`. */
  function ToBinder(properties: seq<(string, PropertySchema)>, property: string, index: nat, nullable: bool): (r: Result<Binding>)
    ensures r.Ok? ==> r.value.index == index + 1 && r.value.source.Value? && r.value.source.position == index
    ensures r.Ok? ==> Get(properties, property).Some?
    ensures r.Ok? ==> (r.value.source.onNull.Some? <==> nullable && HasType(Get(properties, property).value.types, JsonType.NullType))
    ensures Get(properties, property).None? ==> r == Err(IllegalState)
  {
    match Get(properties, property)
    case None => Err(IllegalState)
    case Some(prop) =>
      if prop.types.None? then Err(NullPointer)
      else if nullable && Some(JsonType.NullType) in prop.types.value then
        var t :- NullType(prop);
        Ok(Binding(index + 1, Value(index, Some(t), ParsesTemporal(prop))))
      else Ok(Binding(index + 1, Value(index, None, ParsesTemporal(prop))))
  }

  /** The bindings of `names`, the first one reading value `from`. */
  function Binders(properties: seq<(string, PropertySchema)>, names: seq<string>, from: nat, nullable: bool): (r: Result<seq<Binding>>)
    ensures r.Ok? ==> |r.value| == |names| && Consecutive(r.value, from + 1)
    ensures r.Ok? <==> forall k :: 0 <= k < |names| ==> ToBinder(properties, names[k], from + k, nullable).Ok?
    ensures r.Ok? ==> forall k :: 0 <= k < |names| ==> ToBinder(properties, names[k], from + k, nullable) == Ok(r.value[k])
    decreases |names|
  {
    if names == [] then Ok([])
    else
      var first :- ToBinder(properties, names[0], from, nullable);
      var rest :- Binders(properties, names[1..], from + 1, nullable);
      assert forall k :: 1 <= k < |names| ==> names[k] == names[1..][k - 1];
      Ok([first] + rest)
  }

  /** `createBinder`: one binding per name, reading the values in order into parameters `1..n`;
      no name at all is an `IllegalStateException` (`flattenBinders`). */
  function CreateBinder(properties: seq<(string, PropertySchema)>, names: seq<string>, nullable: bool): (r: Result<seq<Binding>>)
    ensures names == [] ==> r == Err(IllegalState)
    ensures r.Ok? ==> |r.value| == |names| > 0 && Consecutive(r.value, 1)
    ensures r.Ok? ==> forall k :: 0 <= k < |names| ==> r.value[k].source.Value? && r.value[k].source.position == k
  {
    if names == [] then Err(IllegalState) else Binders(properties, names, 0, nullable)
  }

  /** The column of a JSON name; string concatenation prints a missing one as `null`. */
  function Column(jsonToDatabase: seq<(string, string)>, name: string): string {
    match Get(jsonToDatabase, name)
    case None => "null"
    case Some(c) => c
  }

  /** The columns of the identifiers, in identifier order. */
  function IdentifierColumns(identifiers: seq<string>, jsonToDatabase: seq<(string, string)>): (r: seq<string>)
    ensures |r| == |identifiers|
    ensures forall k :: 0 <= k < |identifiers| ==> r[k] == Column(jsonToDatabase, identifiers[k])
  {
    if identifiers == [] then [] else [Column(jsonToDatabase, identifiers[0])] + IdentifierColumns(identifiers[1..], jsonToDatabase)
  }

  /** The `c = ?` conditions of identifiers, in identifier order. */
  function IdConditions(identifiers: seq<string>, jsonToDatabase: seq<(string, string)>): (r: seq<string>)
    ensures |r| == |identifiers|
    ensures forall k :: 0 <= k < |identifiers| ==> r[k] == Column(jsonToDatabase, identifiers[k]) + " = ?"
  {
    if identifiers == [] then [] else [Column(jsonToDatabase, identifiers[0]) + " = ?"] + IdConditions(identifiers[1..], jsonToDatabase)
  }

  /** `toWhereIds`: the identifier conditions joined by `AND`. */
  function ToWhereIds(identifiers: seq<string>, jsonToDatabase: seq<(string, string)>): (r: string)
    ensures identifiers == [] ==> r == ""
    ensures |identifiers| == 1 ==> r == Column(jsonToDatabase, identifiers[0]) + " = ?"
    ensures |identifiers| > 1 ==>
      var n := |identifiers| - 1;
      r == ToWhereIds(identifiers[..n], jsonToDatabase) + " AND " + Column(jsonToDatabase, identifiers[n]) + " = ?"
  {
    var conditions := IdConditions(identifiers, jsonToDatabase);
    if |identifiers| > 1 then
      var n := |identifiers| - 1;
      assert IdConditions(identifiers[..n], jsonToDatabase) == conditions[..n];
      assert conditions == conditions[..n] + [conditions[n]];
      JoinAppend(conditions[..n], " AND ", conditions[n]);
      Join(conditions, " AND ")
    else
      Join(conditions, " AND ")
  }

  /** The column of every JSON name, in the given order. */
  function ColumnNames(names: seq<string>, naming: Option<Naming>): (r: seq<(string, string)>)
    ensures Keys(r) == names
    ensures forall k :: 0 <= k < |names| ==> r[k].1 == if naming.None? then names[k] else NameMapper.Snake(names[k])
  {
    if names == [] then []
    else [(names[0], if naming.None? then names[0] else NameMapper.Snake(names[0]))] + ColumnNames(names[1..], naming)
  }

  /** The name map read backwards. */
  function Swap(m: seq<(string, string)>): (r: seq<(string, string)>)
    ensures |r| == |m| && forall k :: 0 <= k < |m| ==> r[k] == (m[k].1, m[k].0)
  {
    if m == [] then [] else [(m[0].1, m[0].0)] + Swap(m[1..])
  }

  /** The allowed filter operators: `=` alone when undeclared, the ten defaults when `"default"`
      is declared, otherwise the declared ones. */
  function Operators(declared: Option<seq<string>>): (r: set<string>)
    ensures declared.None? ==> r == {"="}
    ensures declared.Some? && "default" in declared.value ==> r == DefaultWhereOperators
    ensures declared.Some? && "default" !in declared.value ==> forall o :: o in r <==> o in declared.value
  {
    if declared.None? then {"="}
    else if "default" in declared.value then DefaultWhereOperators
    else set o | o in declared.value
  }

  /** The identifiers: `["id"]` when undeclared and an `id` property exists, else the declared ones. */
  function Identifiers(spec: EntitySpec): Option<seq<string>>
    requires spec.jsonSchema.Some?
  {
    if spec.identifierNames.None? && "id" in Keys(spec.jsonSchema.value.properties) then Some(["id"])
    else spec.identifierNames
  }

  /** `toEntity`: compiles a validated declaration. */
  function ToEntity(spec: EntitySpec): (r: Result<Entity>)
    requires ValidateEntity(spec).Ok?
    ensures r.Ok? ==> r.value.name == spec.name.value && r.value.table == spec.tableName.value
    ensures r.Ok? ==> r.value.identifiers == Identifiers(spec).value
    ensures r.Ok? ==> r.value.allowedWhereOperators == Operators(spec.allowedWhereOperators)
    ensures r.Ok? ==> StrictlySorted(r.value.jsonToDatabase) && StrictlySorted(r.value.databaseToJson) && StrictlySorted(r.value.properties)
    ensures r.Ok? ==> forall k :: k in Keys(r.value.jsonToDatabase) <==> k in Keys(spec.jsonSchema.value.properties)
    ensures r.Ok? ==> CreateBinder(r.value.properties, r.value.identifiers, false) == Ok(r.value.bindIdsNotNullable)
    ensures r.Ok? ==> CreateBinder(r.value.properties, r.value.identifiers, true) == Ok(r.value.bindIdsNullable)
    ensures r.Ok? ==> r.value.revisionProperty == spec.revisionProperty
    ensures r.Ok? ==> r.value.databaseToJson == ToSortedMap(Swap(ToSortedMap(ColumnNames(Keys(spec.jsonSchema.value.properties), spec.naming))))
    ensures r.Ok? ==> forall x :: Get(r.value.properties, x) == Get(spec.jsonSchema.value.properties, x)
    ensures r.Ok? ==> r.value.jsonToDatabase == ToSortedMap(ColumnNames(Keys(spec.jsonSchema.value.properties), spec.naming))
    ensures r.Ok? ==> r.value.whereIds == ToWhereIds(r.value.identifiers, r.value.jsonToDatabase)
    ensures r.Ok? ==> r.value.createVirtualFields == spec.generatedCreateFields && r.value.updateVirtualFields == spec.generatedUpdateFields
    ensures r.Ok? ==> r.value.autoGeneratedIds == spec.autoGeneratedIds && r.value.implicitFiltering == spec.implicitFiltering
    ensures r.Ok? ==> forall k :: k in r.value.allowedSortKeys <==> spec.allowedSortKeys.Some? && k in spec.allowedSortKeys.value
    ensures r.Ok? ==> forall k :: k in r.value.allowedFilterKeys <==> spec.allowedWhereKeys.Some? && k in spec.allowedWhereKeys.value
  {
    var schema := spec.jsonSchema.value;
    var properties := ToSortedMap(schema.properties);
    var jsonToDatabase := ToSortedMap(ColumnNames(Keys(schema.properties), spec.naming));
    var databaseToJson := ToSortedMap(Swap(jsonToDatabase));
    var identifiers := Identifiers(spec);
    if identifiers.None? then Err(NullPointer)
    else
      var ids := identifiers.value;
      var whereIds := ToWhereIds(ids, jsonToDatabase);
      var notNullable :- CreateBinder(properties, ids, false);
      var nullable :- CreateBinder(properties, ids, true);
      Ok(Entity(
        spec.name.value, spec.tableName.value,
        spec.generatedCreateFields, spec.generatedUpdateFields, spec.autoGeneratedIds,
        ids,
        if spec.allowedSortKeys.None? then {} else (set k | k in spec.allowedSortKeys.value),
        if spec.allowedWhereKeys.None? then {} else (set k | k in spec.allowedWhereKeys.value),
        Operators(spec.allowedWhereOperators),
        spec.revisionProperty,
        properties, jsonToDatabase, databaseToJson,
        spec.implicitFiltering,
        whereIds, notNullable, nullable))
  }

  /** What every compiled entity satisfies: at least one property and one identifier, every
      identifier a property bound to consecutive parameters, the `whereIds` condition built over
      the identifiers' columns, and a revision property, when there is one, a number or a date-time. */
  ghost predicate EntityInvariant(e: Entity) {
    && |e.properties| > 0
    && |e.identifiers| > 0
    && (forall id :: id in e.identifiers ==> id in Keys(e.properties))
    && |e.bindIdsNotNullable| == |e.identifiers| && Consecutive(e.bindIdsNotNullable, 1)
    && e.whereIds == ToWhereIds(e.identifiers, e.jsonToDatabase)
    && (forall k :: 0 <= k < |e.bindIdsNotNullable| ==> e.bindIdsNotNullable[k].source.Value? && e.bindIdsNotNullable[k].source.position == k && e.bindIdsNotNullable[k].source.onNull.None?)
    && (e.revisionProperty.Some? ==>
          Get(e.properties, e.revisionProperty.value).Some? && RevisionType(Get(e.properties, e.revisionProperty.value).value))
  }

  /** A valid property always gets a binding; without `nullable` it rejects null values. */
  lemma ValidPropertyBinds(properties: seq<(string, PropertySchema)>, name: string, index: nat, nullable: bool)
    requires Get(properties, name).Some? && !InvalidProperty(Get(properties, name).value)
    ensures ToBinder(properties, name, index, nullable).Ok?
    ensures !nullable ==> ToBinder(properties, name, index, nullable).value.source.onNull.None?
  {
  }

  /** A list of valid properties always gets its bindings. */
  lemma {:induction false} BindersOk(properties: seq<(string, PropertySchema)>, names: seq<string>, from: nat, nullable: bool)
    requires forall k :: 0 <= k < |names| ==> Get(properties, names[k]).Some? && !InvalidProperty(Get(properties, names[k]).value)
    ensures Binders(properties, names, from, nullable).Ok?
  {
    forall k | 0 <= k < |names| ensures ToBinder(properties, names[k], from + k, nullable).Ok? {
      ValidPropertyBinds(properties, names[k], from + k, nullable);
    }
  }

  /** A declaration that passes `validateEntity` compiles into an entity that satisfies the invariant;
      it fails to compile only for an empty or unknown identifier list. */
  lemma CompiledEntityInvariant(spec: EntitySpec)
    requires ValidateEntity(spec).Ok?
    ensures ToEntity(spec).Ok? ==> EntityInvariant(ToEntity(spec).value)
    ensures ToEntity(spec).Err? ==>
      Identifiers(spec).value == [] || exists id :: id in Identifiers(spec).value && id !in Keys(spec.jsonSchema.value.properties)
  {
    ValidateEntityAccepts(spec);
    var ids := Identifiers(spec).value;
    if ids != [] && forall id :: id in ids ==> id in Keys(spec.jsonSchema.value.properties) {
      KnownIdentifiersCompile(spec);
    }
    if ToEntity(spec).Ok? {
      CompiledBinders(spec);
    }
  }

  /** Identifiers that all name schema properties compile. */
  lemma KnownIdentifiersCompile(spec: EntitySpec)
    requires ValidateEntity(spec).Ok?
    requires Identifiers(spec).value != [] && forall id :: id in Identifiers(spec).value ==> id in Keys(spec.jsonSchema.value.properties)
    ensures ToEntity(spec).Ok?
  {
    ValidateEntityAccepts(spec);
    var props := spec.jsonSchema.value.properties;
    var properties := ToSortedMap(props);
    var ids := Identifiers(spec).value;
    forall k | 0 <= k < |ids| ensures Get(properties, ids[k]).Some? && !InvalidProperty(Get(properties, ids[k]).value) {
      assert ids[k] in ids;
      var i :| 0 <= i < |props| && props[i] == (ids[k], Get(props, ids[k]).value);
    }
    BindersOk(properties, ids, 0, false);
    BindersOk(properties, ids, 0, true);
  }

  /** A compiled entity keeps the invariant. */
  lemma CompiledBinders(spec: EntitySpec)
    requires ValidateEntity(spec).Ok? && ToEntity(spec).Ok?
    ensures EntityInvariant(ToEntity(spec).value)
  {
    ValidateEntityAccepts(spec);
    var props := spec.jsonSchema.value.properties;
    var e := ToEntity(spec).value;
    assert props[0].0 in Keys(props);
    assert Get(e.properties, props[0].0).Some?;
    NotNullableBinders(e.properties, e.identifiers, e.bindIdsNotNullable);
  }

  /** The bindings `createBinder` builds without `nullable` read value `k` into parameter `k + 1`
      and reject null values. */
  lemma NotNullableBinders(properties: seq<(string, PropertySchema)>, ids: seq<string>, bs: seq<Binding>)
    requires CreateBinder(properties, ids, false) == Ok(bs)
    ensures forall k :: 0 <= k < |bs| ==> bs[k].source.Value? && bs[k].source.position == k && bs[k].source.onNull.None?
  {
    forall k | 0 <= k < |bs| ensures bs[k].source.Value? && bs[k].source.position == k && bs[k].source.onNull.None? {
      assert ToBinder(properties, ids[k], k, false) == Ok(bs[k]);
    }
  }

  /** Under the camel-to-snake naming no column of the name map holds an upper-case letter. */
  lemma SnakeMapLowerCase(names: seq<string>, naming: Option<Naming>, m: seq<(string, string)>)
    requires naming.Some? && m == ToSortedMap(Swap(ToSortedMap(ColumnNames(names, naming))))
    ensures forall k :: 0 <= k < |m| ==> NameMapper.NoUpper(m[k].0)
  {
    var columns := ColumnNames(names, naming);
    SnakeColumns(names, naming);
    var jsonToDatabase := ToSortedMap(columns);
    SortedLowerColumns(columns);
    var swapped := Swap(jsonToDatabase);
    assert forall p :: p in swapped ==> NameMapper.NoUpper(p.0) by {
      forall p | p in swapped ensures NameMapper.NoUpper(p.0) {
        var i :| 0 <= i < |swapped| && swapped[i] == p;
        assert jsonToDatabase[i] in jsonToDatabase;
      }
    }
    SortedLowerKeys(swapped);
    forall k | 0 <= k < |m| ensures NameMapper.NoUpper(m[k].0) {
      assert m[k] in m;
    }
  }

  /** The camel-to-snake columns hold no upper-case letter. */
  lemma SnakeColumns(names: seq<string>, naming: Option<Naming>)
    requires naming.Some?
    ensures forall p :: p in ColumnNames(names, naming) ==> NameMapper.NoUpper(p.1)
  {
    var columns := ColumnNames(names, naming);
    forall p | p in columns ensures NameMapper.NoUpper(p.1) {
      var n :| 0 <= n < |columns| && columns[n] == p;
      NameMapper.SnakeNoUpper(names[n]);
    }
  }

  /** Sorting a map keeps its values free of upper-case letters. */
  lemma SortedLowerColumns(m: seq<(string, string)>)
    requires forall p :: p in m ==> NameMapper.NoUpper(p.1)
    ensures forall p :: p in ToSortedMap(m) ==> NameMapper.NoUpper(p.1)
  {
    var r := ToSortedMap(m);
    forall p | p in r ensures NameMapper.NoUpper(p.1) {
      var i :| 0 <= i < |r| && r[i] == p;
      SortedMapMember(m, i);
    }
  }

  /** Sorting a map keeps its keys free of upper-case letters. */
  lemma SortedLowerKeys(m: seq<(string, string)>)
    requires forall p :: p in m ==> NameMapper.NoUpper(p.0)
    ensures forall p :: p in ToSortedMap(m) ==> NameMapper.NoUpper(p.0)
  {
    var r := ToSortedMap(m);
    forall p | p in r ensures NameMapper.NoUpper(p.0) {
      var i :| 0 <= i < |r| && r[i] == p;
      SortedMapMember(m, i);
    }
  }

  /** Without a naming policy every property is its own column, read back under its own name. */
  lemma PlainMapSelf(names: seq<string>, x: string)
    requires x in names
    ensures (x, x) in ToSortedMap(Swap(ToSortedMap(ColumnNames(names, None))))
  {
    var columns := ColumnNames(names, None);
    var jsonToDatabase := ToSortedMap(columns);
    PlainColumns(names);
    SortedSelf(columns);
    assert x in Keys(jsonToDatabase);
    PairsSwapped(jsonToDatabase, x);
    SwappedSelf(jsonToDatabase, x);
  }

  /** A map of self-bindings, sorted, holds only self-bindings. */
  lemma SortedSelf(m: seq<(string, string)>)
    requires forall p :: p in m ==> p.0 == p.1
    ensures forall p :: p in ToSortedMap(m) ==> p.0 == p.1
  {
    var r := ToSortedMap(m);
    forall p | p in r ensures p.0 == p.1 {
      var i :| 0 <= i < |r| && r[i] == p;
      SortedMapMember(m, i);
    }
  }

  /** Reversing self-bindings and sorting the result keeps a name bound to itself. */
  lemma SwappedSelf(m: seq<(string, string)>, x: string)
    requires forall p :: p in m ==> p.0 == p.1
    requires x in Keys(Swap(m))
    ensures (x, x) in ToSortedMap(Swap(m))
  {
    var swapped := Swap(m);
    var y := Get(swapped, x).value;
    var i :| 0 <= i < |swapped| && swapped[i] == (x, y);
    assert m[i] == (y, x);
    assert Get(ToSortedMap(swapped), x) == Some(y);
  }

  /** Without a naming policy every binding maps a name to itself. */
  lemma PlainColumns(names: seq<string>)
    ensures forall p :: p in ColumnNames(names, None) ==> p.0 == p.1
  {
    var columns := ColumnNames(names, None);
    forall p | p in columns ensures p.0 == p.1 {
      var k :| 0 <= k < |columns| && columns[k] == p;
      assert Keys(columns)[k] == p.0;
    }
  }

  /** A binding read backwards is a binding of the reversed map. */
  lemma PairsSwapped(m: seq<(string, string)>, x: string)
    requires (forall p :: p in m ==> p.0 == p.1) && x in Keys(m)
    ensures x in Keys(Swap(m))
  {
    var k :| 0 <= k < |m| && m[k].0 == x;
    assert Keys(Swap(m))[k] == x;
  }

  /** Under the camel-to-snake naming no column of a compiled entity holds an upper-case letter. */
  lemma SnakeColumnsLowerCase(spec: EntitySpec)
    requires ValidateEntity(spec).Ok? && ToEntity(spec).Ok? && spec.naming.Some?
    ensures forall k :: 0 <= k < |ToEntity(spec).value.databaseToJson| ==> NameMapper.NoUpper(ToEntity(spec).value.databaseToJson[k].0)
  {
    var e := ToEntity(spec).value;
    SnakeMapLowerCase(Keys(spec.jsonSchema.value.properties), spec.naming, e.databaseToJson);
  }

  /** Without a naming policy the revision property is its own column, read back under its own name. */
  lemma PlainRevisionColumn(spec: EntitySpec)
    requires ValidateEntity(spec).Ok? && ToEntity(spec).Ok? && spec.naming.None? && spec.revisionProperty.Some?
    ensures (spec.revisionProperty.value, spec.revisionProperty.value) in ToEntity(spec).value.databaseToJson
  {
    CompiledBinders(spec);
    var e := ToEntity(spec).value;
    assert Get(spec.jsonSchema.value.properties, spec.revisionProperty.value) == Get(e.properties, spec.revisionProperty.value);
    PlainMapSelf(Keys(spec.jsonSchema.value.properties), spec.revisionProperty.value);
  }

  /** The implicit filter template of the read operations. */
  function ViewTemplate(e: Entity): Option<seq<Chunk>> {
    if e.implicitFiltering.None? then None else e.implicitFiltering.value.view
  }

  /** The implicit filter template of `update`. */
  function UpdateTemplate(e: Entity): Option<seq<Chunk>> {
    if e.implicitFiltering.None? then None else e.implicitFiltering.value.update
  }

  /** The implicit filter template of `deleteById`. */
  function DeleteTemplate(e: Entity): Option<seq<Chunk>> {
    if e.implicitFiltering.None? then None else e.implicitFiltering.value.delete
  }
}

=== FILE: execution.dfy ===
/** What every compiled method shares at run time: the call it serves, the services around it, the
    renderers a request selects, and the shaping of one result row into a JSON object. */
module Execution {
  import opened Wrappers
  import opened Strings
  import opened Json
  import opened Sql
  import opened RequestValues

  /** One JSON-RPC call: its parameters, and the claims of the token cached on its request. */
  datatype Call = Call(params: Json, claims: Option<seq<(string, Json)>>)

  /** The services a method runs against: the database, the registered renderer names and what
      rendering a value with one of them gives, and the clock. */
  datatype Env = Env(db: Database, renderers: set<string>, render: (string, Json) -> Json, clock: Clock)

  /** What a method answers: one entity, a page of entities with the total count, or a deletion
      acknowledgement (`{"success": true}`). */
  datatype Output = Item(fields: map<string, Json>) | Page(items: seq<map<string, Json>>, total: Json) | Success

  /** A query; a `SQLException` is a 500. */
  function RunQuery(db: Database, sql: string, params: map<int, Param>): (r: Result<seq<Row>>)
    ensures r.Err? <==> db.query(sql, params).None?
    ensures r.Err? ==> r.error == Rpc(500)
    ensures r.Ok? ==> r.value == db.query(sql, params).value
  {
    match db.query(sql, params)
    case None => Err(Rpc(500))
    case Some(rows) => Ok(rows)
  }

  /** An update giving its count of affected rows; a `SQLException` is a 500. */
  function RunUpdate(db: Database, sql: string, params: map<int, Param>): (r: Result<int>)
    ensures r.Err? <==> db.update(sql, params).None?
    ensures r.Err? ==> r.error == Rpc(500)
    ensures r.Ok? ==> r.value == db.update(sql, params).value
  {
    match db.update(sql, params)
    case None => Err(Rpc(500))
    case Some(n) => Ok(n)
  }

  /** `toRenderers`: a JSON name to the registered renderer its value names; null values are
      skipped, an unknown renderer is a 406. */
  function ToRenderers(requested: seq<(string, Json)>, known: set<string>): (r: Result<map<string, string>>)
    ensures r.Ok? <==> forall e :: e in requested && e.1 != JNull ==> ToString(e.1) in known
    ensures r.Err? ==> r.error == Rpc(406)
    ensures r.Ok? ==> forall k :: k in r.value ==> r.value[k] in known && exists e :: e in requested && e.0 == k && e.1 != JNull
    decreases |requested|
  {
    if requested == [] then Ok(map[])
    else
      var init := requested[..|requested| - 1];
      var last := requested[|requested| - 1];
      assert requested == init + [last];
      var acc :- ToRenderers(init, known);
      if last.1 == JNull then Ok(acc)
      else if ToString(last.1) !in known then Err(Rpc(406))
      else Ok(acc[last.0 := ToString(last.1)])
  }

  /** The JSON value of a projected column: its value, rendered when the request names a renderer
      for it; a rendered `null` cannot enter the result (`Map.entry`). */
  function Rendered(json: string, value: Json, renderers: map<string, string>, render: (string, Json) -> Json): (r: Result<Json>)
    ensures r.Ok? ==> r.value != JNull
    ensures json !in renderers ==> r == Ok(value) || value == JNull
  {
    var v := if json in renderers then render(renderers[json], value) else value;
    if v == JNull then Err(NullPointer) else Ok(v)
  }

  /** The projected columns of a row: a column missing from the row fails the read, a SQL NULL is
      left out of the result. */
  function ReadRow(row: Row, projection: seq<(string, string)>, renderers: map<string, string>, render: (string, Json) -> Json): (r: Result<map<string, Json>>)
    ensures r.Ok? ==> JNull !in r.value.Values
    ensures r.Ok? ==> forall k :: k in r.value ==> exists p :: p in projection && p.1 == k
    ensures r.Ok? <==> forall p :: p in projection ==> Get(row, p.0).Some? && (Get(row, p.0).value != JNull ==> Rendered(p.1, Get(row, p.0).value, renderers, render).Ok?)
    decreases |projection|
  {
    if projection == [] then Ok(map[])
    else
      var init := projection[..|projection| - 1];
      var last := projection[|projection| - 1];
      assert projection == init + [last];
      var acc :- ReadRow(row, init, renderers, render);
      match Get(row, last.0)
      case None => Err(Persistence)
      case Some(value) =>
        if value == JNull then Ok(acc)
        else
          var v :- Rendered(last.1, value, renderers, render);
          Ok(acc[last.1 := v])
  }

  /** No element occurs twice. */
  predicate Distinct<T(==)>(s: seq<T>) {
    forall i, j :: 0 <= i < j < |s| ==> s[i] != s[j]
  }

  /** One element more keeps a sequence distinct exactly when it is new. */
  lemma DistinctSnoc<T>(s: seq<T>, x: T)
    ensures Distinct(s + [x]) <==> Distinct(s) && x !in s
  {
    var t := s + [x];
    forall i | 0 <= i < |s| ensures t[i] == s[i] && (Distinct(t) ==> s[i] != x) {
      assert t[|s|] == x;
    }
  }

  /** The identifiers injected into a result, each with the value it was looked up with, collected
      in order into a map first: too few values, a null value or an identifier named twice fail. */
  function InjectIds(res: map<string, Json>, identifiers: seq<string>, ids: seq<Json>): (r: Result<map<string, Json>>)
    ensures r.Ok? <==> |ids| >= |identifiers| && (forall i :: 0 <= i < |identifiers| ==> ids[i] != JNull) && Distinct(identifiers)
    ensures r.Ok? ==> forall i :: 0 <= i < |identifiers| ==> identifiers[i] in r.value && r.value[identifiers[i]] == ids[i]
    ensures r.Ok? ==> forall k :: k in r.value ==> k in res || k in identifiers
    ensures r.Ok? ==> forall k :: k in res && k !in identifiers ==> k in r.value && r.value[k] == res[k]
    ensures r.Ok? && JNull !in res.Values ==> JNull !in r.value.Values
    decreases |identifiers|
  {
    if identifiers == [] then Ok(res)
    else
      var n := |identifiers| - 1;
      var init := identifiers[..n];
      assert identifiers == init + [identifiers[n]];
      var acc :- InjectIds(res, init, ids);
      DistinctSnoc(init, identifiers[n]);
      if |ids| <= n then Err(NoSuchElement)
      else if ids[n] == JNull then Err(NullPointer)
      else if identifiers[n] in init then Err(IllegalState)
      else Ok(acc[identifiers[n] := ids[n]])
  }

  /** `toMapResult`: the projected non-null columns of a row under their JSON names, then the
      identifiers with the values the entity was looked up with. */
  function ToMapResult(row: Row, projection: seq<(string, string)>, renderers: map<string, string>, render: (string, Json) -> Json,
                       identifiers: seq<string>, ids: seq<Json>): (r: Result<map<string, Json>>)
    ensures r.Ok? ==> JNull !in r.value.Values
    ensures r.Ok? ==> Distinct(identifiers) && |ids| >= |identifiers|
    ensures r.Ok? ==> forall i :: 0 <= i < |identifiers| ==> identifiers[i] in r.value && r.value[identifiers[i]] == ids[i]
  {
    var res :- ReadRow(row, projection, renderers, render);
    InjectIds(res, identifiers, ids)
  }

  /** The shaping of every row of a query, in order. */
  function ToMapResults(rows: seq<Row>, projection: seq<(string, string)>, renderers: map<string, string>, render: (string, Json) -> Json): (r: Result<seq<map<string, Json>>>)
    ensures r.Ok? ==> |r.value| == |rows|
    ensures r.Ok? ==> forall i :: 0 <= i < |rows| ==> ToMapResult(rows[i], projection, renderers, render, [], []) == Ok(r.value[i])
    ensures r.Ok? <==> forall i :: 0 <= i < |rows| ==> ToMapResult(rows[i], projection, renderers, render, [], []).Ok?
  {
    MapAll(rows, Shape(projection, renderers, render))
  }

  /** The shaping of one row of a query, without identifiers to inject. */
  function Shape(projection: seq<(string, string)>, renderers: map<string, string>, render: (string, Json) -> Json): (f: Row -> Result<map<string, Json>>)
    ensures forall row :: f(row) == ToMapResult(row, projection, renderers, render, [], [])
  {
    (row: Row) => ToMapResult(row, projection, renderers, render, [], [])
  }

  /** The `while (rset.next())` loop: each row shaped and appended in turn, the first failure ending
      the query. */
  method CollectItems(rows: seq<Row>, projection: seq<(string, string)>, renderers: map<string, string>, render: (string, Json) -> Json)
    returns (r: Result<seq<map<string, Json>>>)
    ensures r == ToMapResults(rows, projection, renderers, render)
  {
    var items: seq<map<string, Json>> := [];
    var i := 0;
    while i < |rows|
      invariant 0 <= i <= |rows|
      invariant ToMapResults(rows[..i], projection, renderers, render) == Ok(items)
    {
      ResultsStep(rows, projection, renderers, render, i, items);
      var item := ToMapResult(rows[i], projection, renderers, render, [], []);
      if item.Err? {
        ResultsFailurePersists(rows, projection, renderers, render, i + 1);
        return Err(item.error);
      }
      items := items + [item.value];
      i := i + 1;
    }
    assert rows[..i] == rows;
    r := Ok(items);
  }

  /** One row more: its failure, or its shape appended. */
  lemma ResultsStep(rows: seq<Row>, projection: seq<(string, string)>, renderers: map<string, string>,
                    render: (string, Json) -> Json, i: nat, items: seq<map<string, Json>>)
    requires i < |rows| && ToMapResults(rows[..i], projection, renderers, render) == Ok(items)
    ensures ToMapResults(rows[..i + 1], projection, renderers, render)
      == var item := ToMapResult(rows[i], projection, renderers, render, [], []);
         if item.Err? then Err(item.error) else Ok(items + [item.value])
  {
    assert rows[..i + 1][..i] == rows[..i];
  }

  /** Once a prefix of the rows fails, the whole result set fails the same way. */
  lemma ResultsFailurePersists(rows: seq<Row>, projection: seq<(string, string)>, renderers: map<string, string>,
                               render: (string, Json) -> Json, n: nat)
    requires n <= |rows|
    requires ToMapResults(rows[..n], projection, renderers, render).Err?
    ensures ToMapResults(rows, projection, renderers, render) == ToMapResults(rows[..n], projection, renderers, render)
  {
    MapAllFailurePersists(rows, Shape(projection, renderers, render), n);
  }

  /** `new TreeMap<>(fields.stream().collect(toMap(jsonToDatabase::get, identity())))`: the
      requested fields keyed by their column, sorted; a field requested twice is a duplicate key. */
  function FieldNames(fields: seq<Json>, jsonToDatabase: seq<(string, string)>): (r: Result<seq<(string, string)>>)
    ensures r.Ok? ==> StrictlySorted(r.value)
    ensures r.Ok? ==> forall f :: f in fields ==> f.JStr? && f.s in Keys(jsonToDatabase)
  {
    var pairs :- FieldPairs(fields, jsonToDatabase);
    Ok(ToSortedMap(pairs))
  }

  /** The (column, field) pairs of the requested fields, with distinct columns. */
  function FieldPairs(fields: seq<Json>, jsonToDatabase: seq<(string, string)>): (r: Result<seq<(string, string)>>)
    ensures r.Ok? ==> |r.value| == |fields|
    ensures r.Ok? ==> forall f :: f in fields ==> f.JStr? && f.s in Keys(jsonToDatabase)
    decreases |fields|
  {
    if fields == [] then Ok([])
    else
      var n := |fields| - 1;
      var acc :- FieldPairs(fields[..n], jsonToDatabase);
      assert forall f :: f in fields ==> f in fields[..n] || f == fields[n];
      match fields[n]
      case JStr(f) =>
        (match Get(jsonToDatabase, f)
         case None => Err(NullPointer)
         case Some(column) => if column in Keys(acc) then Err(IllegalState) else Ok(acc + [(column, f)]))
      case _ => Err(ClassCast)
  }
}

=== FILE: find_all.dfy ===
/** `compileFindAll`: the paginated listing of an entity. What is fixed per entity (base SQL, implicit
    filter, group by, sortable and filterable columns) is compiled once; each call reads its page,
    filters, sort, renderers and projection from the request and runs the page and count queries. */
module FindAll {
  import opened Wrappers
  import opened Strings
  import opened Json
  import opened Sql
  import opened Model
  import opened EntityCompiler
  import opened SqlClauses
  import opened Execution

  /** What `compileFindAll` computes once per entity. */
  datatype FindAllPlan = FindAllPlan(
    table: string,
    revision: Option<string>,
    jsonToDatabase: seq<(string, string)>,
    databaseToJson: seq<(string, string)>,
    baseSql: string,
    implicit: Option<WhereClause>,
    groupBy: string,
    baseCountSql: string,
    sortable: map<string, string>,
    filterable: map<string, string>,
    allowed: set<string>,
    wherePrefix: string,
    defaultWherePrefix: string,
    whereStart: int)

  /** The columns whose JSON name is an identifier, in column order. */
  function IdColumns(databaseToJson: seq<(string, string)>, identifiers: seq<string>): (r: seq<string>)
    ensures |r| <= |databaseToJson|
    ensures forall c :: c in r ==> exists p :: p in databaseToJson && p.0 == c && p.1 in identifiers
  {
    if databaseToJson == [] then []
    else
      var rest := IdColumns(databaseToJson[1..], identifiers);
      if databaseToJson[0].1 in identifiers then [databaseToJson[0].0] + rest else rest
  }

  /** The `group by` of a revisioned entity, over its identifier columns; none without revision. */
  function GroupBy(e: Entity): (r: string)
    ensures e.revisionProperty.None? <==> r == ""
    ensures e.revisionProperty.Some? ==> StartsWith(r, " group by ")
    ensures e.revisionProperty.Some? && IdColumns(e.databaseToJson, e.identifiers) == [] ==> r == " group by "
  {
    if e.revisionProperty.Some? then " group by " + Join(IdColumns(e.databaseToJson, e.identifiers), ", ") else ""
  }

  /** The compile-time part of `compileFindAll`: an invalid implicit template, or a sortable or
      filterable key that is not a property, fails the compilation. */
  function CompileFindAll(e: Entity): (r: Result<FindAllPlan>)
    ensures r.Ok? ==> Implicit(ViewTemplate(e), 1) == Ok(r.value.implicit)
    ensures r.Ok? ==> r.value.sortable.Keys == e.allowedSortKeys && r.value.filterable.Keys == e.allowedFilterKeys
    ensures r.Ok? ==> r.value.whereStart == (if r.value.implicit.None? then 0 else |r.value.implicit.value.binders|) + 1
    ensures r.Ok? && e.revisionProperty.None? ==> r.value.baseCountSql == "select count(*) as total from " + e.table
  {
    var baseSql := "select " + Join(SelectColumns(e.revisionProperty, e.databaseToJson), ", ") + " from " + e.table;
    var implicit :- Implicit(ViewTemplate(e), 1);
    var groupBy := GroupBy(e);
    var baseCountSql := "select count(*) as total from " + (if e.revisionProperty.Some? then "(" + baseSql + groupBy + ") vt" else e.table);
    var sortable :- KeyColumns(e.allowedSortKeys, AsMap(e.jsonToDatabase));
    var filterable :- KeyColumns(e.allowedFilterKeys, AsMap(e.jsonToDatabase));
    Ok(FindAllPlan(
      e.table, e.revisionProperty, e.jsonToDatabase, e.databaseToJson, baseSql, implicit, groupBy, baseCountSql,
      sortable, filterable, e.allowedWhereOperators,
      "where" + (if implicit.Some? then " (" + implicit.value.sql + ") AND " else ""),
      if implicit.Some? then " where (" + implicit.value.sql + ")" else "",
      (if implicit.None? then 0 else |implicit.value.binders|) + 1))
  }

  /** What one call asks for once its parameters are read. */
  datatype FindAllQuery = FindAllQuery(
    page: int,
    pageSize: int,
    where: Option<WhereClause>,
    orderBy: string,
    renderers: map<string, string>,
    fields: Option<seq<Json>>)

  /** The where clause of a call without filters: the implicit filter alone. */
  function DefaultWhere(plan: FindAllPlan): Option<WhereClause> {
    if plan.implicit.None? then None else Some(WhereClause(plan.defaultWherePrefix, plan.implicit.value.binders))
  }

  /** `((Number) value).intValue()`: a null value has no int value, a non-number fails the cast. */
  function IntValue(value: Json): (r: Result<int>)
    ensures r.Ok? <==> value.JNum?
    ensures r.Ok? ==> INT_MIN <= r.value <= INT_MAX && (INT_MIN <= value.n <= INT_MAX ==> r.value == value.n)
  {
    match value
    case JNum(n) => Ok(Wrap32(n))
    case JNull => Err(NullPointer)
    case _ => Err(ClassCast)
  }

  /** `map.get(key) instanceof Number n ? n.intValue() : fallback`. */
  function IntOr(fields: seq<(string, Json)>, key: string, fallback: int): (r: int)
    ensures !Member(fields, key).JNum? ==> r == fallback
  {
    var v := Member(fields, key);
    if v.JNum? then Wrap32(v.n) else fallback
  }

  /** The parameters of a call given as a list: `[page, pageSize, filtersAndSort, renderers, fields]`,
      each optional from the end; the third object holds both the filters and the sort. */
  function ParseList(plan: FindAllPlan, list: seq<Json>, known: set<string>): (r: Result<FindAllQuery>)
    ensures |list| < 3 && r.Ok? ==> r.value.where == DefaultWhere(plan) && r.value.orderBy == "" && r.value.renderers == map[] && r.value.fields.None?
    ensures list == [] ==> r == Ok(FindAllQuery(1, 10, DefaultWhere(plan), "", map[], None))
  {
    var page :- if |list| >= 1 then IntValue(list[0]) else Ok(1);
    var pageSize :- if |list| >= 2 then IntValue(list[1]) else Ok(10);
    var where :- if |list| >= 3 && list[2].JObj? then ToWhereClause(list[2].fields, plan.filterable, plan.allowed, plan.whereStart, plan.wherePrefix) else Ok(DefaultWhere(plan));
    var orderBy :- if |list| >= 3 && list[2].JObj? then ToOrderByClause(list[2].fields, plan.sortable) else Ok("");
    var renderers :- if |list| >= 4 && list[3].JObj? then ToRenderers(list[3].fields, known) else Ok(map[]);
    var fields := if |list| >= 5 && list[4].JList? then Some(list[4].items) else None;
    Ok(FindAllQuery(page, pageSize, where, orderBy, renderers, fields))
  }

  /** The parameters of a call given as an object: `page`, `pageSize`, `filters`, `sortBy`,
      `renderers` and `fields`, each ignored unless of the expected JSON kind. */
  function ParseObject(plan: FindAllPlan, fields: seq<(string, Json)>, known: set<string>): (r: Result<FindAllQuery>)
    ensures !Member(fields, "filters").JObj? && r.Ok? ==> r.value.where == DefaultWhere(plan)
    ensures fields == [] ==> r == Ok(FindAllQuery(1, 10, DefaultWhere(plan), "", map[], None))
  {
    var filters := Member(fields, "filters");
    var sort := Member(fields, "sortBy");
    var renderers := Member(fields, "renderers");
    var projection := Member(fields, "fields");
    var where :- if filters.JObj? then ToWhereClause(filters.fields, plan.filterable, plan.allowed, plan.whereStart, plan.wherePrefix) else Ok(DefaultWhere(plan));
    var orderBy :- if sort.JObj? then ToOrderByClause(sort.fields, plan.sortable) else Ok("");
    var selected :- if renderers.JObj? then ToRenderers(renderers.fields, known) else Ok(map[]);
    Ok(FindAllQuery(IntOr(fields, "page", 1), IntOr(fields, "pageSize", 10), where, orderBy, selected,
                    if projection.JList? then Some(projection.items) else None))
  }

  /** The request part of a `findAll` call: a list or an object, anything else is a 400. */
  function ParseFindAll(plan: FindAllPlan, params: Json, known: set<string>): (r: Result<FindAllQuery>)
    ensures !params.JList? && !params.JObj? ==> r == Err(Rpc(400))
  {
    match params
    case JList(list) => ParseList(plan, list, known)
    case JObj(fields) => ParseObject(plan, fields, known)
    case _ => Err(Rpc(400))
  }

  /** `Math.max(page, 1)`. */
  function PageValue(page: int): (r: int)
    ensures r >= 1
    ensures page >= 1 ==> r == page
    ensures page < 1 ==> r == 1
  {
    if page > 1 then page else 1
  }

  /** `Math.max(0, Math.min(50, pageSize))`. */
  function PageSizeValue(pageSize: int): (r: int)
    ensures 0 <= r <= 50
    ensures 0 <= pageSize <= 50 ==> r == pageSize
    ensures pageSize > 50 ==> r == 50
    ensures pageSize < 0 ==> r == 0
  {
    if pageSize < 0 then 0 else if pageSize > 50 then 50 else pageSize
  }

  /** The first row of a page: `(page - 1) * pageSize` in `int` arithmetic, 0 on the first page. */
  function Offset(page: int, pageSize: int): (r: int)
    ensures page <= 1 ==> r == 0
    ensures page > 1 && INT_MIN <= (page - 1) * pageSize <= INT_MAX ==> r == (page - 1) * pageSize
  {
    if page > 1 then Wrap32((page - 1) * pageSize) else 0
  }

  /** The statements of one call. */
  datatype FindAllStatement = FindAllStatement(sql: string, countSql: string, names: seq<(string, string)>)

  /** The `select … from <table> ` head of a call: every column, or the requested fields only. */
  function SelectHead(plan: FindAllPlan, fields: Option<seq<Json>>): (r: Result<string>)
    ensures SelectAll(fields) ==> r == Ok(plan.baseSql)
  {
    if SelectAll(fields) then Ok(plan.baseSql)
    else
      var columns :- CustomColumns(plan.jsonToDatabase, plan.revision, fields.value);
      Ok("select " + columns + " from " + plan.table + " ")
  }

  /** The page and count statements of a call, and the column-to-name projection of the page. */
  function FindAllSql(plan: FindAllPlan, q: FindAllQuery): (r: Result<FindAllStatement>)
    ensures r.Ok? ==> EndsWith(r.value.sql, " OFFSET ? ROWS FETCH NEXT ? ROWS ONLY")
    ensures r.Ok? ==> r.value.countSql == plan.baseCountSql + (if q.where.None? then "" else q.where.value.sql)
    ensures r.Ok? && SelectAll(q.fields) ==> r.value.names == plan.databaseToJson
    ensures r.Ok? ==> StrictlySorted(r.value.names) || SelectAll(q.fields)
  {
    var where := if q.where.None? then "" else q.where.value.sql;
    var head :- SelectHead(plan, q.fields);
    var names :- if SelectAll(q.fields) then Ok(plan.databaseToJson) else FieldNames(q.fields.value, plan.jsonToDatabase);
    var tail := " OFFSET ? ROWS FETCH NEXT ? ROWS ONLY";
    var sql := head + where + plan.groupBy + q.orderBy + tail;
    assert sql[|sql| - |tail|..] == tail;
    Ok(FindAllStatement(sql, plan.baseCountSql + where, names))
  }

  /** The placeholder OFFSET is bound to: right after the where clause's own bindings. */
  function PaginationIndex(where: Option<WhereClause>): (r: int)
    ensures r >= 1
  {
    if where.None? then 1 else |where.value.binders| + 1
  }

  /** The bindings both statements receive: the implicit filter's, then the where clause's. */
  function FilterBinders(plan: FindAllPlan, q: FindAllQuery): (r: seq<Binding>)
    ensures |r| == (if plan.implicit.None? then 0 else |plan.implicit.value.binders|) + (if q.where.None? then 0 else |q.where.value.binders|)
  {
    (if plan.implicit.None? then [] else plan.implicit.value.binders) + (if q.where.None? then [] else q.where.value.binders)
  }

  /** The bindings of the page statement: the filter bindings, then OFFSET and FETCH. */
  function PageBinders(plan: FindAllPlan, q: FindAllQuery): (r: seq<Binding>)
    ensures |r| == |FilterBinders(plan, q)| + 2
    ensures r[|r| - 2] == Binding(PaginationIndex(q.where), Literal(JNum(Offset(PageValue(q.page), PageSizeValue(q.pageSize)))))
    ensures r[|r| - 1] == Binding(PaginationIndex(q.where) + 1, Literal(JNum(PageSizeValue(q.pageSize))))
  {
    var index := PaginationIndex(q.where);
    var page := PageValue(q.page);
    var size := PageSizeValue(q.pageSize);
    FilterBinders(plan, q) + [Binding(index, Literal(JNum(Offset(page, size)))), Binding(index + 1, Literal(JNum(size)))]
  }

  /** `rset.getLong(1)` on the first row of the count query: no row is a 500, a SQL NULL reads as 0. */
  function Total(rows: seq<Row>): (r: Result<Json>)
    ensures rows == [] ==> r == Err(Rpc(500))
    ensures r.Ok? ==> r.value.JNum?
  {
    if rows == [] || rows[0] == [] then Err(Rpc(500))
    else
      match rows[0][0].1
      case JNull => Ok(JNum(0))
      case JNum(n) => Ok(JNum(n))
      case _ => Err(Rpc(500))
  }

  /** One `findAll` call: the request read, the statements built and bound, the page shaped row by
      row, then the count. */
  function FindAllCall(plan: FindAllPlan, env: Env, call: Call): (r: Result<Output>)
    ensures r.Ok? ==> r.value.Page? && r.value.total.JNum?
  {
    var q :- ParseFindAll(plan, call.params, env.renderers);
    var st :- FindAllSql(plan, q);
    var pageParams :- BindAll(PageBinders(plan, q), [], call.claims);
    var countParams :- BindAll(FilterBinders(plan, q), [], call.claims);
    var rows :- RunQuery(env.db, st.sql, pageParams);
    var items :- ToMapResults(rows, st.names, q.renderers, env.render);
    var counted :- RunQuery(env.db, st.countSql, countParams);
    var total :- Total(counted);
    Ok(Page(items, total))
  }

  // ---------------------------------------------------------------- properties

  /** Without parameters a call reads the first page of ten, filtered by the implicit filter only. */
  lemma Defaults(plan: FindAllPlan, known: set<string>)
    ensures ParseFindAll(plan, JObj([]), known) == Ok(FindAllQuery(1, 10, DefaultWhere(plan), "", map[], None))
    ensures ParseFindAll(plan, JList([]), known) == Ok(FindAllQuery(1, 10, DefaultWhere(plan), "", map[], None))
    ensures PageValue(1) == 1 && PageSizeValue(10) == 10 && Offset(1, 10) == 0
  {
  }

  /** The page statement binds OFFSET right after the where clause's bindings, then FETCH: the
      clamped page size, and `(page - 1) * pageSize` rows skipped. */
  lemma {:induction false} Pagination(plan: FindAllPlan, q: FindAllQuery, claims: Option<seq<(string, Json)>>)
    requires BindAll(PageBinders(plan, q), [], claims).Ok?
    ensures var params := BindAll(PageBinders(plan, q), [], claims).value;
      var index := PaginationIndex(q.where);
      && index in params && params[index] == SqlValue(JNum(Offset(PageValue(q.page), PageSizeValue(q.pageSize))))
      && index + 1 in params && params[index + 1] == SqlValue(JNum(PageSizeValue(q.pageSize)))
  {
    var bs := PageBinders(plan, q);
    var n := |bs|;
    assert bs[..n - 1][..n - 2] == bs[..n - 2];
    assert BindAll(bs, [], claims).Ok? ==> BindAll(bs[..n - 1], [], claims).Ok?;
    assert BindAll(bs[..n - 1], [], claims).Ok? ==> BindAll(bs[..n - 2], [], claims).Ok?;
  }

  /** The where clause a call ends up with: the implicit filter alone, none (an empty filter
      object), or the filters bound from the plan's start index. */
  lemma ParsedWhere(plan: FindAllPlan, params: Json, known: set<string>)
    requires ParseFindAll(plan, params, known).Ok?
    ensures var q := ParseFindAll(plan, params, known).value;
      q.where == DefaultWhere(plan) || q.where.None? || Consecutive(q.where.value.binders, plan.whereStart)
  {
    match params
    case JList(list) =>
      if |list| >= 3 && list[2].JObj? {
        WhereClauseShape(list[2].fields, plan.filterable, plan.allowed, plan.whereStart, plan.wherePrefix);
      }
    case JObj(fields) =>
      var filters := Member(fields, "filters");
      if filters.JObj? {
        WhereClauseShape(filters.fields, plan.filterable, plan.allowed, plan.whereStart, plan.wherePrefix);
      }
  }

  /** Without implicit filter the page statement's bindings run 1, 2, … with no gap: the filter
      values, then OFFSET and FETCH. */
  lemma WithoutImplicitConsecutive(e: Entity, plan: FindAllPlan, params: Json, known: set<string>)
    requires CompileFindAll(e) == Ok(plan) && ViewTemplate(e).None?
    requires ParseFindAll(plan, params, known).Ok?
    ensures Consecutive(PageBinders(plan, ParseFindAll(plan, params, known).value), 1)
  {
    ParsedWhere(plan, params, known);
  }

  /** With the implicit filter alone, its bindings are bound twice at the same indices and
      pagination follows them. */
  lemma ImplicitOnlyPagination(e: Entity, plan: FindAllPlan, params: Json, known: set<string>)
    requires CompileFindAll(e) == Ok(plan) && plan.implicit.Some?
    requires ParseFindAll(plan, params, known).Ok? && ParseFindAll(plan, params, known).value.where == DefaultWhere(plan)
    ensures var k := |plan.implicit.value.binders|;
      forall i :: i in Indices(PageBinders(plan, ParseFindAll(plan, params, known).value)) <==> 1 <= i <= k + 2
  {
    var q := ParseFindAll(plan, params, known).value;
    var w := plan.implicit.value.binders;
    var bs := PageBinders(plan, q);
    DoubledIndices(w, bs[|bs| - 2], bs[|bs| - 1], bs);
  }

  /** Bindings bound twice at indices `1..k`, then two more at `k + 1` and `k + 2`, cover exactly
      `1..k + 2`. */
  lemma DoubledIndices(w: seq<Binding>, a: Binding, b: Binding, bs: seq<Binding>)
    requires Consecutive(w, 1) && bs == w + w + [a, b] && a.index == |w| + 1 && b.index == |w| + 2
    ensures forall i :: i in Indices(bs) <==> 1 <= i <= |w| + 2
  {
    var k := |w|;
    forall i ensures i in Indices(bs) <==> 1 <= i <= k + 2 {
      if 1 <= i <= k {
        assert w[i - 1] == bs[i - 1];
      }
      if i in Indices(bs) {
        var j :| 0 <= j < |bs| && bs[j].index == i;
        if j < k {
          assert bs[j] == w[j];
        } else if j < 2 * k {
          assert bs[j] == w[j - k];
        }
      }
    }
  }

  /** With both an implicit filter and request filters, OFFSET and FETCH are bound right after the
      request filters' own bindings, inside the range of the filter placeholders: the last
      placeholder of the page statement (FETCH, `k + m + 2`) is never bound. */
  lemma FilteredPaginationIgnoresImplicit(e: Entity, plan: FindAllPlan, params: Json, known: set<string>)
    requires CompileFindAll(e) == Ok(plan) && plan.implicit.Some? && |plan.implicit.value.binders| >= 1
    requires ParseFindAll(plan, params, known).Ok?
    requires var q := ParseFindAll(plan, params, known).value;
      q.where.Some? && q.where != DefaultWhere(plan) && |q.where.value.binders| >= 1
    ensures var q := ParseFindAll(plan, params, known).value;
      var k := |plan.implicit.value.binders|;
      var m := |q.where.value.binders|;
      PaginationIndex(q.where) == m + 1 && k + m + 2 !in Indices(PageBinders(plan, q))
  {
    var q := ParseFindAll(plan, params, known).value;
    ParsedWhere(plan, params, known);
    var w := plan.implicit.value.binders;
    var f := q.where.value.binders;
    var bs := PageBinders(plan, q);
    assert bs == w + f + [bs[|bs| - 2], bs[|bs| - 1]];
    IndexAbove(w, f, bs[|bs| - 2], bs[|bs| - 1], bs, |w| + |f| + 2);
  }

  /** An index above every binding's is not bound. */
  lemma IndexAbove(w: seq<Binding>, f: seq<Binding>, a: Binding, b: Binding, bs: seq<Binding>, top: int)
    requires bs == w + f + [a, b]
    requires forall j :: 0 <= j < |w| ==> w[j].index < top
    requires forall j :: 0 <= j < |f| ==> f[j].index < top
    requires a.index < top && b.index < top
    ensures top !in Indices(bs)
  {
    forall j | 0 <= j < |bs| ensures bs[j].index != top {
      if j < |w| {
        assert bs[j] == w[j];
      } else if j < |w| + |f| {
        assert bs[j] == f[j - |w|];
      }
    }
  }

  /** An empty filter object replaces the implicit filter by no clause at all. */
  lemma EmptyFiltersDropImplicit(plan: FindAllPlan, known: set<string>)
    ensures ParseFindAll(plan, JObj([("filters", JObj([]))]), known) == Ok(FindAllQuery(1, 10, None, "", map[], None))
  {
    assert Member([("filters", JObj([]))], "filters") == JObj([]);
    assert Member([("filters", JObj([]))], "page") == JNull;
    assert Member([("filters", JObj([]))], "pageSize") == JNull;
    assert Member([("filters", JObj([]))], "sortBy") == JNull;
    assert Member([("filters", JObj([]))], "renderers") == JNull;
    assert Member([("filters", JObj([]))], "fields") == JNull;
  }

  /** Without a where clause neither statement keeps the implicit condition, though its claims are
      still bound. */
  lemma UnfilteredStatements(plan: FindAllPlan)
    ensures var st := FindAllSql(plan, FindAllQuery(1, 10, None, "", map[], None));
      st.Ok? && st.value.countSql == plan.baseCountSql
      && st.value.sql == plan.baseSql + plan.groupBy + " OFFSET ? ROWS FETCH NEXT ? ROWS ONLY"
    ensures FilterBinders(plan, FindAllQuery(1, 10, None, "", map[], None)) == if plan.implicit.None? then [] else plan.implicit.value.binders
  {
  }

  /** A successful call shapes every row of the page query, in order, and reports the count
      query's first column. */
  lemma Items(plan: FindAllPlan, env: Env, call: Call)
    requires FindAllCall(plan, env, call).Ok?
    ensures var q := ParseFindAll(plan, call.params, env.renderers).value;
      var st := FindAllSql(plan, q).value;
      var rows := env.db.query(st.sql, BindAll(PageBinders(plan, q), [], call.claims).value);
      var out := FindAllCall(plan, env, call).value;
      && rows.Some? && |out.items| == |rows.value|
      && forall i :: 0 <= i < |rows.value| ==> ToMapResult(rows.value[i], st.names, q.renderers, env.render, [], []) == Ok(out.items[i])
  {
    var q := ParseFindAll(plan, call.params, env.renderers).value;
    var st := FindAllSql(plan, q).value;
    var pageParams := BindAll(PageBinders(plan, q), [], call.claims).value;
    var rows := RunQuery(env.db, st.sql, pageParams);
    assert rows.Ok?;
    var items := ToMapResults(rows.value, st.names, q.renderers, env.render);
    assert items.Ok? && items.value == FindAllCall(plan, env, call).value.items;
  }
}

=== FILE: find_by_id.dfy ===
/** `compileFindById`: one entity by its identifiers, projected on its non-identifier columns, the
    identifiers injected back from the request. */
module FindById {
  import opened Wrappers
  import opened Strings
  import opened Json
  import opened Sql
  import opened Model
  import opened EntityCompiler
  import opened SqlClauses
  import opened RequestValues
  import opened Execution

  /** What `compileFindById` computes once per entity. */
  datatype FindByIdPlan = FindByIdPlan(
    identifiers: seq<string>,
    jsonToDatabase: seq<(string, string)>,
    revision: Option<string>,
    /** Column to JSON name of the non-identifier columns, sorted by column. */
    projection: seq<(string, string)>,
    sql: string,
    /** ` from <table> where (<ids>) [AND (<implicit>)] [group by <id columns>]` */
    sqlEnd: string,
    binders: seq<Binding>)

  /** The entries of a column-to-name map whose name is not an identifier. */
  function NonIdentifiers(databaseToJson: seq<(string, string)>, identifiers: seq<string>): (r: seq<(string, string)>)
    ensures forall p :: p in r <==> p in databaseToJson && p.1 !in identifiers
  {
    if databaseToJson == [] then []
    else
      var rest := NonIdentifiers(databaseToJson[1..], identifiers);
      assert forall p :: p in databaseToJson <==> p == databaseToJson[0] || p in databaseToJson[1..];
      if databaseToJson[0].1 in identifiers then rest else [databaseToJson[0]] + rest
  }

  /** The compile-time part of `compileFindById`: the projection, the statement and its bindings,
      the implicit filter bound after the identifiers. */
  function CompileFindById(e: Entity): (r: Result<FindByIdPlan>)
    ensures r.Ok? <==> Implicit(ViewTemplate(e), |e.identifiers| + 1).Ok?
    ensures r.Ok? ==> StrictlySorted(r.value.projection)
    ensures r.Ok? ==> forall c :: c in Keys(r.value.projection) <==> c in Keys(NonIdentifiers(e.databaseToJson, e.identifiers))
    ensures r.Ok? ==> r.value.binders == MergeBinders(e.bindIdsNotNullable, Implicit(ViewTemplate(e), |e.identifiers| + 1).value)
    ensures r.Ok? ==> r.value.sql == "select " + Join(SelectColumns(e.revisionProperty, r.value.projection), ", ") + r.value.sqlEnd
    ensures r.Ok? ==> StartsWith(r.value.sqlEnd, " from " + e.table + " where (" + e.whereIds + ")")
  {
    var projection := ToSortedMap(NonIdentifiers(e.databaseToJson, e.identifiers));
    var implicit :- Implicit(ViewTemplate(e), |e.identifiers| + 1);
    var head := " from " + e.table + " where (" + e.whereIds + ")";
    var sqlEnd := head
      + (if implicit.Some? then " AND (" + implicit.value.sql + ")" else "")
      + (if e.revisionProperty.Some? then " group by " + Join(IdentifierColumns(e.identifiers, e.jsonToDatabase), ", ") else "");
    assert sqlEnd[..|head|] == head;
    Ok(FindByIdPlan(
      e.identifiers, e.jsonToDatabase, e.revisionProperty, projection,
      "select " + Join(SelectColumns(e.revisionProperty, projection), ", ") + sqlEnd, sqlEnd,
      MergeBinders(e.bindIdsNotNullable, implicit)))
  }

  /** The renderers of a call: only an object parameter can select some. */
  function CallRenderers(params: Json, known: set<string>): (r: Result<map<string, string>>)
    ensures !params.JObj? ==> r == Ok(map[])
  {
    if params.JObj? && Member(params.fields, "renderers").JObj? then ToRenderers(Member(params.fields, "renderers").fields, known)
    else Ok(map[])
  }

  /** The requested fields of a call: only an object parameter can select some. */
  function CallFields(params: Json): (r: Option<seq<Json>>)
    ensures !params.JObj? ==> r.None?
  {
    if params.JObj? && Member(params.fields, "fields").JList? then Some(Member(params.fields, "fields").items) else None
  }

  /** The statement of a call and its column-to-name projection: all non-identifier columns, or the
      requested fields. */
  function FindByIdSql(plan: FindByIdPlan, fields: Option<seq<Json>>): (r: Result<(string, seq<(string, string)>)>)
    ensures SelectAll(fields) ==> r == Ok((plan.sql, plan.projection))
    ensures r.Ok? && !SelectAll(fields) ==> EndsWith(r.value.0, plan.sqlEnd) && StrictlySorted(r.value.1)
  {
    if SelectAll(fields) then Ok((plan.sql, plan.projection))
    else
      var columns :- CustomColumns(plan.jsonToDatabase, plan.revision, fields.value);
      var names :- FieldNames(fields.value, plan.jsonToDatabase);
      var sql := "select " + columns + plan.sqlEnd;
      assert sql[|sql| - |plan.sqlEnd|..] == plan.sqlEnd;
      Ok((sql, names))
  }

  /** A call ready to run: its statement, bound parameters, projection, renderers and the
      identifier values. */
  datatype Prepared = Prepared(sql: string, params: map<int, Param>, names: seq<(string, string)>,
                               renderers: map<string, string>, ids: seq<Json>)

  /** The request part of a `findById` call: identifiers (a missing or null one is a 400),
      renderers, projection, then the bindings. */
  function Prepare(plan: FindByIdPlan, env: Env, call: Call): (r: Result<Prepared>)
    ensures r.Ok? ==> FindValuesFromParams(call.params, plan.identifiers, false) == Ok(r.value.ids)
    ensures r.Ok? ==> r.value.params.Keys == Indices(plan.binders)
  {
    var ids :- FindValuesFromParams(call.params, plan.identifiers, false);
    var renderers :- CallRenderers(call.params, env.renderers);
    var (sql, names) :- FindByIdSql(plan, CallFields(call.params));
    var params :- BindAll(plan.binders, ids, call.claims);
    Ok(Prepared(sql, params, names, renderers, ids))
  }

  /** One `findById` call: no row is a 404, a second row a 405; the row otherwise, with the
      identifiers it was looked up with. */
  function FindByIdCall(plan: FindByIdPlan, env: Env, call: Call): (r: Result<Output>)
    ensures r.Ok? ==> r.value.Item?
    ensures r.Ok? ==> JNull !in r.value.fields.Values
    ensures r.Ok? ==> Distinct(plan.identifiers) && Prepare(plan, env, call).Ok?
    ensures r.Ok? ==> forall i :: 0 <= i < |plan.identifiers| ==>
      plan.identifiers[i] in r.value.fields && r.value.fields[plan.identifiers[i]] == Prepare(plan, env, call).value.ids[i]
  {
    var p :- Prepare(plan, env, call);
    var rows :- RunQuery(env.db, p.sql, p.params);
    if rows == [] then Err(Rpc(404))
    else
      var res :- ToMapResult(rows[0], p.names, p.renderers, env.render, plan.identifiers, p.ids);
      if |rows| > 1 then Err(Rpc(405)) else Ok(Item(res))
  }

  /** Once the statement runs: a database failure is a 500, no row a 404, a second row a 405 once
      the first one reads, and a single row is the entity with its looked-up identifiers. */
  lemma RowCount(plan: FindByIdPlan, env: Env, call: Call)
    requires Prepare(plan, env, call).Ok?
    ensures var p := Prepare(plan, env, call).value;
      var rows := env.db.query(p.sql, p.params);
      var r := FindByIdCall(plan, env, call);
      && (rows.None? ==> r == Err(Rpc(500)))
      && (rows == Some([]) ==> r == Err(Rpc(404)))
      && (rows.Some? && |rows.value| >= 2 ==> r.Err?)
      && (rows.Some? && |rows.value| >= 2 && ToMapResult(rows.value[0], p.names, p.renderers, env.render, plan.identifiers, p.ids).Ok? ==> r == Err(Rpc(405)))
      && (rows.Some? && |rows.value| == 1 ==>
            r == (var res := ToMapResult(rows.value[0], p.names, p.renderers, env.render, plan.identifiers, p.ids);
                  if res.Err? then Err(res.error) else Ok(Item(res.value))))
  {
  }
}

=== FILE: frisby_skeleton.dfy ===
/** The helpers of the Frisby test-skeleton generator: the type a property is tested as, its Joi
    constraint, the sample values written into requests, the authentication flag of a call, the
    test sections generated for the methods an entity exposes, and their data lines. */
module FrisbySkeleton {
  import opened Wrappers
  import opened Strings
  import opened Model
  import opened EntityCompiler
  import opened SecurityHandler

  // ---------------------------------------------------------------- findType

  /** The first entry of a `type` list that is not the schema type "null"; string when there is
      none. A JSON `null` entry passes the filter and cannot be returned by `findFirst`. */
  function FirstNonNullType(types: seq<Option<JsonType>>): (r: Result<JsonType>)
    ensures r.Ok? ==> r.value != NullType
    ensures r.Err? ==> r.error == NullPointer
    ensures (forall i :: 0 <= i < |types| ==> types[i] == Some(NullType)) ==> r == Ok(StringType)
    ensures forall i :: (0 <= i < |types| && types[i] != Some(NullType) && (forall j :: 0 <= j < i ==> types[j] == Some(NullType)))
                          ==> r == (if types[i].None? then Err(NullPointer) else Ok(types[i].value))
  {
    if types == [] then Ok(StringType)
    else if types[0] == Some(NullType) then
      var r := FirstNonNullType(types[1..]);
      assert forall i :: 1 <= i < |types| ==> types[i] == types[1..][i - 1];
      r
    else if types[0].None? then Err(NullPointer)
    else Ok(types[0].value)
  }

  /** `findType`: string for a missing schema or a missing or empty `type` list, else the first
      type that is not "null". */
  function FindType(schema: Option<PropertySchema>): (r: Result<JsonType>)
    ensures r.Ok? ==> r.value != NullType
    ensures schema.None? || schema.value.types.None? ==> r == Ok(StringType)
    ensures r.Ok? && r.value != StringType ==> schema.Some? && schema.value.types.Some? && Some(r.value) in schema.value.types.value
  {
    if schema.None? || schema.value.types.None? || schema.value.types.value == [] then Ok(StringType)
    else
      var r := FirstNonNullType(schema.value.types.value);
      TypeFound(schema.value.types.value);
      r
  }

  /** A type other than string comes from the list. */
  lemma {:induction false} TypeFound(types: seq<Option<JsonType>>)
    ensures FirstNonNullType(types).Ok? && FirstNonNullType(types).value != StringType ==> Some(FirstNonNullType(types).value) in types
  {
    if types != [] && types[0] == Some(NullType) {
      TypeFound(types[1..]);
    }
  }

  // ---------------------------------------------------------------- joiConstraints

  /** The Joi validator of a type. */
  function JoiName(t: JsonType): string {
    match t
    case StringType => "Joi.string()"
    case NumberType => "Joi.number()"
    case IntegerType => "Joi.integer()"
    case BooleanType => "Joi.boolean()"
    case ArrayType => "Joi.array()"
    case ObjectType => "Joi.object()"
    case NullType => "Joi.any().optional()"
  }

  /** Whether a schema's `type` list is declared and does not allow "null". */
  predicate Required(schema: PropertySchema) {
    schema.types.Some? && Some(NullType) !in schema.types.value
  }

  /** `joiConstraints`: the validator of the property's type, required exactly when its declared
      type list does not allow "null". */
  function JoiConstraints(schema: PropertySchema): (r: Result<string>)
    ensures r.Err? <==> FindType(Some(schema)).Err?
    ensures r.Ok? ==> StartsWith(r.value, JoiName(FindType(Some(schema)).value))
    ensures r.Ok? ==> (EndsWith(r.value, ".required()") <==> Required(schema))
  {
    var t :- FindType(Some(schema));
    NotRequiredByName(t);
    var base := JoiName(t);
    var required := base + ".required()";
    assert required[..|base|] == base;
    assert required[|required| - |".required()"|..] == ".required()";
    Ok(if Required(schema) then required else base)
  }

  /** No validator name ends with the required suffix. */
  lemma NotRequiredByName(t: JsonType)
    ensures !EndsWith(JoiName(t), ".required()")
  {
    var n := JoiName(t);
    var suffix := ".required()";
    // every name has a letter other than 'd' before its "()"
    assert |n| >= |suffix| && n[|n| - 3] != 'd';
    assert n[|n| - |suffix|..][8] == n[|n| - 3];
  }

  /** The `null` branch of the validator switch cannot be reached: a property is never validated
      as `Joi.any().optional()`. */
  lemma NeverAnyOptional(schema: PropertySchema)
    requires JoiConstraints(schema).Ok?
    ensures !StartsWith(JoiConstraints(schema).value, "Joi.any()")
  {
    var t := FindType(Some(schema)).value;
    var r := JoiConstraints(schema).value;
    var n := JoiName(t);
    NameNotAny(t);
    assert r[..|n|] == n;
    assert r[..9] == n[..9];
  }

  /** Only the `null` validator starts like `Joi.any()`. */
  lemma NameNotAny(t: JsonType)
    requires t != NullType
    ensures |JoiName(t)| >= 9 && JoiName(t)[..9] != "Joi.any()"
  {
    var n := JoiName(t);
    // the fifth and sixth characters of "Joi.any()" are "an"; only "Joi.array()" shares the 'a'
    assert n[4] != 'a' || n[5] != 'n';
    assert n[..9][4] == n[4] && n[..9][5] == n[5];
  }

  // ---------------------------------------------------------------- findSampleValueFor

  /** The name as the sample switch compares it: lower-cased, without '_', '-' and ' '. */
  function Normalize(name: string): (r: string)
    ensures forall i :: 0 <= i < |r| ==> !IsUpper(r[i]) && r[i] != '_' && r[i] != '-' && r[i] != ' '
  {
    var lower := ToLower(name);
    var a := Remove(lower, '_');
    var b := Remove(a, '-');
    var r := Remove(b, ' ');
    RemoveKeeps(lower, '_');
    RemoveKeeps(a, '-');
    RemoveKeeps(b, ' ');
    forall i | 0 <= i < |r| ensures !IsUpper(r[i]) && r[i] != '_' && r[i] != '-' && r[i] != ' ' {
      assert r[i] in b && r[i] in a && r[i] in lower;
    }
    r
  }

  /** Removing a character keeps only characters of the input. */
  lemma {:induction false} RemoveKeeps(s: string, c: char)
    ensures forall x :: x in Remove(s, c) ==> x in s
  {
    if s != [] {
      RemoveKeeps(s[1..], c);
    }
  }

  lemma {:induction false} RemoveConcat(a: string, b: string, c: char)
    ensures Remove(a + b, c) == Remove(a, c) + Remove(b, c)
  {
    if a != [] {
      assert (a + b)[0] == a[0];
      assert (a + b)[1..] == a[1..] + b;
      RemoveConcat(a[1..], b, c);
    } else {
      assert a + b == b;
    }
  }

  lemma ToLowerConcat(a: string, b: string)
    ensures ToLower(a + b) == ToLower(a) + ToLower(b)
  {
  }

  /** Normalizing works piece by piece. */
  lemma NormalizeConcat(a: string, b: string)
    ensures Normalize(a + b) == Normalize(a) + Normalize(b)
  {
    ToLowerConcat(a, b);
    RemoveConcat(ToLower(a), ToLower(b), '_');
    RemoveConcat(Remove(ToLower(a), '_'), Remove(ToLower(b), '_'), '-');
    RemoveConcat(Remove(Remove(ToLower(a), '_'), '-'), Remove(Remove(ToLower(b), '_'), '-'), ' ');
  }

  /** A separator anywhere in a name does not change its sample. */
  lemma SeparatorIgnored(a: string, b: string, c: char)
    requires c == '_' || c == '-' || c == ' '
    ensures Normalize(a + [c] + b) == Normalize(a + b)
  {
    NormalizeConcat(a + [c], b);
    NormalizeConcat(a, [c]);
    NormalizeConcat(a, b);
    SeparatorVanishes(c);
  }

  lemma SeparatorVanishes(c: char)
    requires c == '_' || c == '-' || c == ' '
    ensures Normalize([c]) == []
  {
    assert ToLower([c]) == [c];
  }

  /** The sample text of a string property, by normalized name, for a creation (`init`) or an
      update. */
  function NamedSample(key: string, init: bool): string {
    if key == "name" then (if init then "'Gabriel Jade'" else "'Robert Son'")
    else if key == "firstname" then (if init then "'Gabriel'" else "'Robert'")
    else if key == "lastname" then (if init then "'Jade'" else "'Son'")
    else if key == "middlename" then "'Junior'"
    else if key == "phone" || key == "phonenumber" then (if init then "'0123456789'" else "'0123456788'")
    else if key == "birthdate" then "'2000-01-01'"
    else if key == "password" then (if init then "'Sup3rS3!Y'" else "'Sup3rS3!Y2'")
    else if init then "'some value'" else "'some other value'"
  }

  /** `findSampleValueFor`: a sample by type, and for strings by normalized name. */
  function Sample(name: string, init: bool, schema: PropertySchema): (r: Result<string>)
    ensures r.Err? <==> FindType(Some(schema)).Err?
    ensures r.Ok? && FindType(Some(schema)).value == StringType ==> r.value == NamedSample(Normalize(name), init)
  {
    var t :- FindType(Some(schema));
    match t
    case StringType => Ok(NamedSample(Normalize(name), init))
    case IntegerType => Ok("123")
    case NumberType => Ok("123")
    case BooleanType => Ok("false")
    case NullType => Ok("null")
    case ObjectType => Ok("{}")
    case ArrayType => Ok("[]")
  }

  /** Creation and update samples differ exactly for string properties whose name is not a middle
      name or a birth date. */
  lemma SampleVariants(name: string, schema: PropertySchema)
    requires FindType(Some(schema)).Ok?
    ensures Sample(name, true, schema) != Sample(name, false, schema) <==>
      FindType(Some(schema)).value == StringType && Normalize(name) != "middlename" && Normalize(name) != "birthdate"
  {
  }

  /** Upper-case letters do not change a sample. */
  lemma CaseIgnored(name: string)
    ensures Normalize(ToLower(name)) == Normalize(name)
  {
    assert ToLower(ToLower(name)) == ToLower(name);
  }

  /** `generateDataFor`: one request-data line, `'<name>': <sample>,`. */
  function DataLine(p: (string, PropertySchema), init: bool): (r: Result<string>)
    ensures r.Err? <==> FindType(Some(p.1)).Err?
    ensures r.Ok? ==> StartsWith(r.value, "                '" + p.0 + "': ")
  {
    var sample :- Sample(p.0, init, p.1);
    var line := "                '" + p.0 + "': " + sample + ",\n";
    assert line[..|"                '" + p.0 + "': "|] == "                '" + p.0 + "': ";
    Ok(line)
  }

  // ---------------------------------------------------------------- authParam

  /** The operations whose declared security a test call follows. */
  datatype Access = ViewAccess | CreateAccess | UpdateAccess | DeleteAccess

  /** The validation declared for one operation. */
  function Validation(spec: Security, access: Access): Option<SecurityValidation> {
    match access
    case ViewAccess => spec.view
    case CreateAccess => spec.create
    case UpdateAccess => spec.update
    case DeleteAccess => spec.delete
  }

  /** The validation a call of the given kind runs under. */
  function Selected(spec: Option<Security>, access: Access): Option<SecurityValidation> {
    if spec.None? then None else Validation(spec.value, access)
  }

  /** `authParam`: calls that need a token log in (`, true`); no security, no validation for the
      operation, or an anonymous one log nobody in. */
  function AuthParam(spec: Option<Security>, access: Access): (r: string)
    ensures r == ", true" || r == ""
    ensures r == "" <==> Selected(spec, access).None? || Selected(spec, access).value.anonymous
  {
    if spec.None? then ""
    else
      var security := Validation(spec.value, access);
      if security.None? || security.value.anonymous then "" else ", true"
  }

  /** A generated test logs in exactly when the server would refuse the call without a token. */
  lemma AuthParamMatchesPolicy(spec: Option<Security>, access: Access)
    ensures AuthParam(spec, access) == ", true" <==> Authorize(Selected(spec, access), Missing).Err?
  {
  }

  // ---------------------------------------------------------------- sections

  /** The test blocks of an entity's skeleton, in the order they are written. */
  datatype Section =
    | FindAllEmpty | FindByIdMissing | CreateTest | FindByIdFound | UpdateTest | FindAllPage1 | DeleteByIdTest

  /** The position of each block in a full skeleton. */
  function Rank(s: Section): nat {
    match s
    case FindAllEmpty => 0
    case FindByIdMissing => 1
    case CreateTest => 2
    case FindByIdFound => 3
    case UpdateTest => 4
    case FindAllPage1 => 5
    case DeleteByIdTest => 6
  }

  const AllSections := [FindAllEmpty, FindByIdMissing, CreateTest, FindByIdFound, UpdateTest, FindAllPage1, DeleteByIdTest]

  /** Whether the methods create entities: a CRUD family or an explicit creation. */
  predicate Creates(methods: set<MethodType>) {
    Crud in methods || Create in methods
  }

  /** Whether a block is written: the lookups and listings follow their method; the found /
      update / page / deletion blocks also need the created entity; the deletion block is gated on
      `findAll`, not on `deleteById`. */
  predicate Included(s: Section, methods: set<MethodType>) {
    var crud := Crud in methods;
    match s
    case FindAllEmpty => crud || FindAll in methods
    case FindByIdMissing => crud || FindById in methods
    case CreateTest => Creates(methods)
    case FindByIdFound => Creates(methods) && (crud || FindById in methods)
    case UpdateTest => Creates(methods) && (crud || Update in methods)
    case FindAllPage1 => Creates(methods) && (crud || FindAll in methods)
    case DeleteByIdTest => Creates(methods) && (crud || FindAll in methods)
  }

  /** The blocks `generate` writes for the methods an entity exposes: the found / update / page /
      deletion blocks need the created entity; the deletion block is gated on `findAll`. */
  function Sections(methods: set<MethodType>): (r: seq<Section>)
    ensures Crud in methods ==> r == AllSections
    ensures forall i, j :: 0 <= i < j < |r| ==> Rank(r[i]) < Rank(r[j])
    ensures forall s :: s in r <==> Included(s, methods)
  {
    forall s ensures s in AllSections {
      EverySection(s);
    }
    Keep(AllSections, IncludedIn(methods), Rank)
  }

  /** A full skeleton has every block. */
  lemma EverySection(s: Section)
    ensures s in AllSections
  {
    assert AllSections[Rank(s)] == s;
  }

  /** The inclusion test of a method set, as a function. */
  function IncludedIn(methods: set<MethodType>): (f: Section -> bool)
    ensures forall s :: f(s) == Included(s, methods)
  {
    s => Included(s, methods)
  }

  /** The elements of `xs` that `keep` selects, in order; an order by `rank` is kept. */
  function Keep<T(!new)>(xs: seq<T>, keep: T -> bool, rank: T -> nat): (r: seq<T>)
    requires forall i, j :: 0 <= i < j < |xs| ==> rank(xs[i]) < rank(xs[j])
    ensures forall i, j :: 0 <= i < j < |r| ==> rank(r[i]) < rank(r[j])
    ensures forall x :: x in r <==> x in xs && keep(x)
    ensures (forall x :: x in xs ==> keep(x)) ==> r == xs
  {
    if xs == [] then []
    else
      var rest := Keep(xs[1..], keep, rank);
      assert xs == [xs[0]] + xs[1..];
      if keep(xs[0]) then
        KeepHead(xs, rest, rank);
        [xs[0]] + rest
      else rest
  }

  /** A kept head ranks below everything kept after it. */
  lemma KeepHead<T>(xs: seq<T>, rest: seq<T>, rank: T -> nat)
    requires |xs| > 0
    requires forall i, j :: 0 <= i < j < |xs| ==> rank(xs[i]) < rank(xs[j])
    requires forall i, j :: 0 <= i < j < |rest| ==> rank(rest[i]) < rank(rest[j])
    requires forall x :: x in rest ==> x in xs[1..]
    ensures forall i, j :: 0 <= i < j < |[xs[0]] + rest| ==> rank(([xs[0]] + rest)[i]) < rank(([xs[0]] + rest)[j])
  {
    var r := [xs[0]] + rest;
    forall i, j | 0 <= i < j < |r| ensures rank(r[i]) < rank(r[j]) {
      if i == 0 {
        assert r[j] == rest[j - 1] && rest[j - 1] in xs[1..];
        var k :| 0 <= k < |xs[1..]| && xs[1..][k] == r[j];
        assert xs[k + 1] == r[j];
      } else {
        assert r[i] == rest[i - 1] && r[j] == rest[j - 1];
      }
    }
  }

  /** Every block that uses the created entity comes after its creation. */
  lemma CreatedFirst(methods: set<MethodType>, i: nat)
    requires i < |Sections(methods)| && Rank(Sections(methods)[i]) > Rank(CreateTest)
    ensures exists j :: 0 <= j < i && Sections(methods)[j] == CreateTest
  {
    var r := Sections(methods);
    assert r[i] in r;
    LaterNeedsCreate(r[i], methods);
    Before(r, Rank, i, CreateTest);
  }

  /** In a sequence ordered by rank, an element of lower rank comes earlier. */
  lemma Before<T>(r: seq<T>, rank: T -> nat, i: nat, x: T)
    requires forall i, j :: 0 <= i < j < |r| ==> rank(r[i]) < rank(r[j])
    requires i < |r| && x in r && rank(x) < rank(r[i])
    ensures exists j :: 0 <= j < i && r[j] == x
  {
    var j :| 0 <= j < |r| && r[j] == x;
    assert j < i;
  }

  /** Blocks after the creation are only written when entities are created. */
  lemma LaterNeedsCreate(s: Section, methods: set<MethodType>)
    requires Rank(s) > Rank(CreateTest) && Included(s, methods)
    ensures Included(CreateTest, methods)
  {
  }

  /** An entity exposing creation and deletion but not `findAll` gets no deletion test. */
  lemma DeletionTestNeedsFindAll()
    ensures DeleteByIdTest !in Sections({Create, DeleteById})
  {
    var methods := {Create, DeleteById};
    assert Crud !in methods && FindAll !in methods;
    assert !Included(DeleteByIdTest, methods);
  }

  // ---------------------------------------------------------------- data lines

  /** The properties a request writes: not identifiers, and not generated by the server. */
  function Written(properties: seq<(string, PropertySchema)>, ids: seq<string>,
                   virtualFields: Option<seq<(string, GenerationType)>>): (r: seq<(string, PropertySchema)>)
    ensures forall p :: p in r <==> p in properties && p.0 !in ids && (virtualFields.None? || p.0 !in Keys(virtualFields.value))
    ensures |r| <= |properties|
  {
    if properties == [] then []
    else
      var p := properties[0];
      var rest := Written(properties[1..], ids, virtualFields);
      assert forall q :: q in properties <==> q == p || q in properties[1..];
      if p.0 !in ids && (virtualFields.None? || p.0 !in Keys(virtualFields.value)) then [p] + rest else rest
  }

  /** The data lines of a creation (`init`) or an update, sorted; the lines of an update follow the
      identifier lines there. There is one line per written property: the lines are those of the
      written properties, reordered. */
  function DataLines(properties: seq<(string, PropertySchema)>, ids: seq<string>,
                     virtualFields: Option<seq<(string, GenerationType)>>, init: bool): (r: Result<seq<string>>)
    ensures r.Ok? <==> forall p :: p in Written(properties, ids, virtualFields) ==> FindType(Some(p.1)).Ok?
    ensures r.Ok? ==> Sorted(r.value) && |r.value| == |Written(properties, ids, virtualFields)|
    ensures r.Ok? ==> MapAll(Written(properties, ids, virtualFields), LineOf(init)).Ok?
                      && multiset(r.value) == multiset(MapAll(Written(properties, ids, virtualFields), LineOf(init)).value)
    ensures r.Ok? ==> forall line :: line in r.value ==>
      exists p :: p in Written(properties, ids, virtualFields) && DataLine(p, init) == Ok(line)
    ensures r.Ok? ==> forall p :: p in Written(properties, ids, virtualFields) ==>
      DataLine(p, init).Ok? && DataLine(p, init).value in r.value
  {
    var written := Written(properties, ids, virtualFields);
    var lines :- MapAll(written, LineOf(init));
    LinesFrom(properties, ids, virtualFields, init, lines);
    Ok(SortStrings(lines))
  }

  /** The line of a property, as a function. */
  function LineOf(init: bool): (f: ((string, PropertySchema)) -> Result<string>)
    ensures forall p :: f(p) == DataLine(p, init)
  {
    p => DataLine(p, init)
  }

  /** Each data line comes from a written property, and each written property has its line,
      wherever sorting puts it. */
  lemma LinesFrom(properties: seq<(string, PropertySchema)>, ids: seq<string>,
                  virtualFields: Option<seq<(string, GenerationType)>>, init: bool, lines: seq<string>)
    requires MapAll(Written(properties, ids, virtualFields), LineOf(init)) == Ok(lines)
    ensures forall line :: line in SortStrings(lines) ==>
      exists p :: p in Written(properties, ids, virtualFields) && DataLine(p, init) == Ok(line)
    ensures forall p :: p in Written(properties, ids, virtualFields) ==>
      DataLine(p, init).Ok? && DataLine(p, init).value in SortStrings(lines)
  {
    var written := Written(properties, ids, virtualFields);
    forall line | line in SortStrings(lines) ensures exists p :: p in written && DataLine(p, init) == Ok(line) {
      assert line in multiset(lines);
      var i :| 0 <= i < |lines| && lines[i] == line;
      assert written[i] in written;
    }
    forall p | p in written ensures DataLine(p, init).Ok? && DataLine(p, init).value in SortStrings(lines) {
      var i :| 0 <= i < |written| && written[i] == p;
      assert lines[i] in multiset(lines);
    }
  }

  /** `createData`: the sorted creation lines, one per property that is neither an identifier nor
      a creation-generated field. */
  function CreateData(e: Entity): (r: Result<seq<string>>)
    ensures r.Ok? ==> Sorted(r.value)
    ensures r.Ok? ==> |r.value| == |Written(e.properties, e.identifiers, e.createVirtualFields)|
    ensures r.Ok? ==> forall line :: line in r.value ==>
      exists p :: p in e.properties && p.0 !in e.identifiers
                  && (e.createVirtualFields.None? || p.0 !in Keys(e.createVirtualFields.value))
                  && StartsWith(line, "                '" + p.0 + "': ") && DataLine(p, true) == Ok(line)
    ensures r.Ok? ==> forall p :: p in Written(e.properties, e.identifiers, e.createVirtualFields) ==>
      DataLine(p, true).Ok? && DataLine(p, true).value in r.value
  {
    DataLines(e.properties, e.identifiers, e.createVirtualFields, true)
  }

  /** The line naming one identifier by the value the creation returned. */
  function IdValue(id: string): string {
    "                '" + id + "': created['" + id + "'],\n"
  }

  /** `updateData`: the identifier lines in identifier order, then the sorted update lines, one per
      property that is neither an identifier nor an update-generated field, sampled with the
      update variants. */
  function UpdateData(e: Entity): (r: Result<seq<string>>)
    ensures r.Ok? ==> |r.value| == |e.identifiers| + |Written(e.properties, e.identifiers, e.updateVirtualFields)|
    ensures r.Ok? ==> forall i :: 0 <= i < |e.identifiers| ==> r.value[i] == IdValue(e.identifiers[i])
    ensures r.Ok? ==> Sorted(r.value[|e.identifiers|..])
    ensures r.Ok? ==> forall line :: line in r.value[|e.identifiers|..] ==>
      exists p :: p in e.properties && p.0 !in e.identifiers
                  && (e.updateVirtualFields.None? || p.0 !in Keys(e.updateVirtualFields.value))
                  && DataLine(p, false) == Ok(line)
    ensures r.Ok? ==> forall p :: p in Written(e.properties, e.identifiers, e.updateVirtualFields) ==>
      DataLine(p, false).Ok? && DataLine(p, false).value in r.value[|e.identifiers|..]
  {
    var lines :- DataLines(e.properties, e.identifiers, e.updateVirtualFields, false);
    var ids := seq(|e.identifiers|, i requires 0 <= i < |e.identifiers| => IdValue(e.identifiers[i]));
    assert (ids + lines)[|e.identifiers|..] == lines;
    Ok(ids + lines)
  }

  // ---------------------------------------------------------------- findById not found

  /** The literal of an identifier no entity has: text for string ids, -1 for numeric ones. */
  function MissingIdLiteral(t: JsonType): (r: Result<string>)
    ensures r.Ok? <==> t == StringType || t == IntegerType || t == NumberType
    ensures r.Err? ==> r.error == IllegalState
  {
    match t
    case StringType => Ok("'xxx_id_missing'")
    case IntegerType => Ok("-1")
    case NumberType => Ok("-1")
    case _ => Err(IllegalState)
  }

  /** One identifier line of the not-found lookup. */
  function MissingIdLine(properties: seq<(string, PropertySchema)>, id: string): (r: Result<string>)
    ensures r.Ok? <==> FindType(Get(properties, id)).Ok? && MissingIdLiteral(FindType(Get(properties, id)).value).Ok?
    ensures r.Ok? ==> r.value == "                " + id + ": " + MissingIdLiteral(FindType(Get(properties, id)).value).value + ",\n"
    ensures Get(properties, id).None? ==> r == Ok("                " + id + ": " + "'xxx_id_missing'" + ",\n")
  {
    var t :- FindType(Get(properties, id));
    var literal :- MissingIdLiteral(t);
    Ok("                " + id + ": " + literal + ",\n")
  }

  /** The identifier lines of the not-found lookup, sorted; an identifier that is neither text nor a
      number stops the generation. */
  function MissingIdLines(e: Entity): (r: Result<seq<string>>)
    ensures r.Ok? <==> forall id :: id in e.identifiers ==> MissingIdLine(e.properties, id).Ok?
    ensures r.Ok? ==> Sorted(r.value) && |r.value| == |e.identifiers|
    ensures r.Ok? ==> forall id :: id in e.identifiers ==> MissingIdLine(e.properties, id).value in r.value
  {
    var lines :- MapAll(e.identifiers, id => MissingIdLine(e.properties, id));
    var sorted := SortStrings(lines);
    forall id | id in e.identifiers ensures MissingIdLine(e.properties, id).value in sorted {
      var i :| 0 <= i < |e.identifiers| && e.identifiers[i] == id;
      assert lines[i] in multiset(sorted);
    }
    Ok(sorted)
  }

  /** A boolean identifier makes the generation fail. */
  lemma BooleanIdRejected(e: Entity, id: string)
    requires id in e.identifiers && Get(e.properties, id) == Some(PropertySchema(Some([Some(BooleanType)]), None))
    ensures MissingIdLine(e.properties, id) == Err(IllegalState)
    ensures MissingIdLines(e).Err?
  {
    assert FirstNonNullType([Some(BooleanType)]) == Ok(BooleanType);
  }
}

=== FILE: json.dfy ===
/** The JSON values that requests, token claims and schemas carry, as the JSON-RPC layer hands them over. */
module Json {
  import opened Wrappers
  import opened Strings

  /** A JSON value. Objects keep their members in iteration order; numbers are integers. */
  datatype Json =
    | JNull
    | JBool(b: bool)
    | JNum(n: int)
    | JStr(s: string)
    | JList(items: seq<Json>)
    | JObj(fields: seq<(string, Json)>)

  /** `Map.get` on a JSON object: a missing member reads as `null`. */
  function Member(fields: seq<(string, Json)>, key: string): (r: Json)
    ensures key !in Keys(fields) ==> r == JNull
    ensures r != JNull ==> (key, r) in fields
  {
    match Get(fields, key)
    case None => JNull
    case Some(v) => v
  }

  /** `Object.toString()` of a JSON scalar or container, as the source prints values it compares. */
  function ToString(j: Json): string {
    match j
    case JNull => "null"
    case JBool(b) => if b then "true" else "false"
    case JNum(n) => IntToString(n)
    case JStr(s) => s
    case JList(_) => "[...]"
    case JObj(_) => "{...}"
  }
}

=== FILE: model.dfy ===
/** The declarations of `model.json` that the SQL compiler reads: entities with their JSON-schema
    properties, implicit filters and the JSON-RPC methods to expose. Absent members are `None`. */
module Model {
  import opened Wrappers
  import opened Strings
  import opened SecurityHandler

  /** The JSON-schema `type` values; `NullType` is the schema type `"null"`. */
  datatype JsonType = StringType | NumberType | IntegerType | BooleanType | ObjectType | ArrayType | NullType

  /** The JSON-schema string formats the compiler distinguishes. */
  datatype Format =
    | Uri | Ipv4 | Ipv6 | Email | Hostname | JsonPointer | UuidFormat | Regex | Duration
    | DateFormat | TimeFormat | DateTimeFormat

  /** A property schema: its `type` list (whose entries may be JSON `null`) and its `format`. */
  datatype PropertySchema = PropertySchema(types: Option<seq<Option<JsonType>>>, format: Option<Format>)

  /** An entity schema: its `type` list and its properties, in declaration order. */
  datatype ObjectSchema = ObjectSchema(types: Option<seq<Option<JsonType>>>, properties: seq<(string, PropertySchema)>)

  /** The values a virtual field is generated from. */
  datatype GenerationType = GenUuid | GenDateTime | GenSub

  datatype Naming = CamelToSnake

  /** One template chunk of an implicit filter clause: literal SQL, or a `{{…}}` expression. */
  datatype Chunk = Text(sql: string) | Mustache(expression: string)

  /** The implicit filter clause of each operation family; `None` when absent or without a clause. */
  datatype ImplicitFiltering = ImplicitFiltering(view: Option<seq<Chunk>>, update: Option<seq<Chunk>>, delete: Option<seq<Chunk>>)

  datatype EntitySpec = EntitySpec(
    name: Option<string>,
    tableName: Option<string>,
    jsonSchema: Option<ObjectSchema>,
    identifierNames: Option<seq<string>>,
    naming: Option<Naming>,
    allowedSortKeys: Option<seq<string>>,
    allowedWhereKeys: Option<seq<string>>,
    allowedWhereOperators: Option<seq<string>>,
    revisionProperty: Option<string>,
    generatedCreateFields: Option<seq<(string, GenerationType)>>,
    generatedUpdateFields: Option<seq<(string, GenerationType)>>,
    autoGeneratedIds: bool,
    implicitFiltering: Option<ImplicitFiltering>)

  datatype MethodType = Crud | FindById | FindAll | DeleteById | Create | Update

  /** The security declaration of a method family, per operation kind. */
  datatype Security = Security(view: Option<SecurityValidation>, delete: Option<SecurityValidation>,
                               create: Option<SecurityValidation>, update: Option<SecurityValidation>)

  datatype JsonRpcMethodSpec = JsonRpcMethodSpec(methodType: Option<MethodType>, entityName: string, security: Option<Security>)

  /** The whole `model.json`: start-up SQL scripts, entities and exposed JSON-RPC methods. */
  datatype ModelSpec = ModelSpec(sql: Option<seq<string>>, entities: Option<seq<EntitySpec>>,
                                 jsonRpcMethods: Option<seq<JsonRpcMethodSpec>>)

  /** `type.stream().filter(Objects::nonNull).findFirst()`. */
  function FirstType(types: seq<Option<JsonType>>): (r: Option<JsonType>)
    ensures r.Some? ==> Some(r.value) in types
    ensures r.Some? <==> exists i :: 0 <= i < |types| && types[i].Some?
    ensures r.Some? ==> exists i :: 0 <= i < |types| && types[i] == Some(r.value) && (forall j :: 0 <= j < i ==> types[j].None?)
  {
    if types == [] then None
    else if types[0].Some? then types[0]
    else
      var r := FirstType(types[1..]);
      assert forall i :: 1 <= i < |types| ==> types[i] == types[1..][i - 1];
      r
  }

  /** `type().contains(t)` on a declared type list. */
  predicate HasType(types: Option<seq<Option<JsonType>>>, t: JsonType) {
    types.Some? && Some(t) in types.value
  }
}

=== FILE: model_handler.dfy ===
/** The registration side of the model handler: the renderers it keeps, the entities it compiles from
    a model, and the JSON-RPC methods it exposes for them, each compiled once and wrapped in the
    security policy of its operation. */
module ModelRegistry {
  import opened Wrappers
  import opened Model
  import opened EntityCompiler
  import opened SecurityHandler
  import opened Execution
  import FB = FindById
  import FA = FindAll
  import W = Writes

  /** The renderers kept by the constructor, by name: a disabled one is dropped, two kept renderers
      with one name are a duplicate key. */
  function AvailableRenderers(names: seq<string>, disabled: set<string>): (r: Result<set<string>>)
    ensures r.Ok? ==> r.value == set n | n in names && n !in disabled
    ensures r.Err? <==> exists i, j :: 0 <= i < j < |names| && names[i] == names[j] && names[i] !in disabled
    ensures r.Err? ==> r.error == IllegalState
    decreases |names|
  {
    if names == [] then Ok({})
    else
      var n := |names| - 1;
      var init := names[..n];
      assert names == init + [names[n]];
      var acc :- AvailableRenderers(init, disabled);
      if names[n] in disabled then Ok(acc)
      else if names[n] in acc then Err(IllegalState)
      else Ok(acc + {names[n]})
  }

  /** A compiled operation of an entity. */
  datatype Operation =
    | FindByIdOp(findById: FB.FindByIdPlan)
    | FindAllOp(findAll: FA.FindAllPlan)
    | DeleteByIdOp(delete: W.DeletePlan)
    | CreateOp(create: W.CreatePlan)
    | UpdateOp(update: W.UpdatePlan)

  /** A registered JSON-RPC method: its name, the security policy wrapped around it and what it runs. */
  datatype Registration = Registration(name: string, security: Option<SecurityValidation>, operation: Operation)

  /** A method type that names one operation: any but `CRUD`. */
  type OperationType = t: MethodType | t != Crud witness FindById

  /** The operations a declared type stands for: `CRUD`, or no type, the five in registration order. */
  function Kinds(t: Option<MethodType>): seq<OperationType> {
    if t.None? || t.value == Crud then [FindById, FindAll, DeleteById, Create, Update] else [t.value]
  }

  /** The policy of one operation kind: `view` for both reads, then `delete`, `create` and `update`. */
  function SecurityOf(security: Option<Security>, kind: OperationType): Option<SecurityValidation> {
    if security.None? then None
    else match kind
      case FindById => security.value.view
      case FindAll => security.value.view
      case DeleteById => security.value.delete
      case Create => security.value.create
      case Update => security.value.update
  }

  /** The method name suffix of one operation kind. */
  function Suffix(kind: OperationType): string {
    match kind
    case FindById => ".findById"
    case FindAll => ".findAll"
    case DeleteById => ".deleteById"
    case Create => ".create"
    case Update => ".update"
  }

  /** The compiled operation of one kind. */
  function Compile(e: Entity, kind: OperationType): (r: Result<Operation>)
    ensures kind == FindById ==> (r.Ok? <==> FB.CompileFindById(e).Ok?) && (r.Ok? ==> r.value == FindByIdOp(FB.CompileFindById(e).value))
    ensures kind == FindAll ==> (r.Ok? <==> FA.CompileFindAll(e).Ok?) && (r.Ok? ==> r.value == FindAllOp(FA.CompileFindAll(e).value))
    ensures kind == DeleteById ==> (r.Ok? <==> W.CompileDelete(e).Ok?) && (r.Ok? ==> r.value == DeleteByIdOp(W.CompileDelete(e).value))
    ensures kind == Create ==> (r.Ok? <==> W.CompileCreate(e).Ok?) && (r.Ok? ==> r.value == CreateOp(W.CompileCreate(e).value))
    ensures kind == Update ==> (r.Ok? <==> W.CompileUpdate(e).Ok?) && (r.Ok? ==> r.value == UpdateOp(W.CompileUpdate(e).value))
  {
    match kind
    case FindById => (var p :- FB.CompileFindById(e); Ok(FindByIdOp(p)))
    case FindAll => (var p :- FA.CompileFindAll(e); Ok(FindAllOp(p)))
    case DeleteById => (var p :- W.CompileDelete(e); Ok(DeleteByIdOp(p)))
    case Create => (var p :- W.CompileCreate(e); Ok(CreateOp(p)))
    case Update => (var p :- W.CompileUpdate(e); Ok(UpdateOp(p)))
  }

  /** One operation of an entity, compiled by `compile` and wrapped in its policy; a compilation
      failure is the registration's failure. */
  function Register(e: Entity, kind: OperationType, security: Option<Security>,
                    compile: (Entity, OperationType) -> Result<Operation>): Result<Registration> {
    var op :- compile(e, kind);
    Ok(Registration(e.name + Suffix(kind), SecurityOf(security, kind), op))
  }

  /** `toJsonRpcMethod`, with the operations compiled by `compile`: an unknown entity is rejected,
      otherwise each operation the declared type stands for is registered in turn. */
  function ToJsonRpcMethod(entities: map<string, Entity>, m: JsonRpcMethodSpec,
                           compile: (Entity, OperationType) -> Result<Operation>): (r: Result<seq<Registration>>)
    ensures m.entityName !in entities ==> r == Err(IllegalArgument)
    ensures r.Ok? <==> m.entityName in entities && forall k :: k in Kinds(m.methodType) ==> compile(entities[m.entityName], k).Ok?
    ensures r.Ok? ==> |r.value| == |Kinds(m.methodType)|
    ensures r.Ok? ==> forall i :: 0 <= i < |r.value| ==>
      var kind := Kinds(m.methodType)[i];
      r.value[i] == Registration(entities[m.entityName].name + Suffix(kind), SecurityOf(m.security, kind), compile(entities[m.entityName], kind).value)
  {
    if m.entityName !in entities then Err(IllegalArgument)
    else
      var e := entities[m.entityName];
      var r := MapAll(Kinds(m.methodType), k => Register(e, k, m.security, compile));
      assert r.Ok? <==> forall k :: k in Kinds(m.methodType) ==> compile(e, k).Ok? by {
        forall k | k in Kinds(m.methodType) ensures Register(e, k, m.security, compile).Ok? <==> compile(e, k).Ok? { }
      }
      r
  }

  /** The five methods of a `CRUD` declaration, or of one without a type: their names, in order. */
  lemma CrudNames(entities: map<string, Entity>, m: JsonRpcMethodSpec, compile: (Entity, OperationType) -> Result<Operation>)
    requires m.methodType.None? || m.methodType == Some(Crud)
    requires ToJsonRpcMethod(entities, m, compile).Ok?
    ensures var r := ToJsonRpcMethod(entities, m, compile).value;
            var name := entities[m.entityName].name;
            && |r| == 5
            && r[0].name == name + ".findById" && r[1].name == name + ".findAll" && r[2].name == name + ".deleteById"
            && r[3].name == name + ".create" && r[4].name == name + ".update"
  {
    var r := ToJsonRpcMethod(entities, m, compile).value;
    var kinds := Kinds(m.methodType);
    assert kinds == [FindById, FindAll, DeleteById, Create, Update];
    assert r[0].name == entities[m.entityName].name + Suffix(kinds[0]);
  }

  /** The policies of the five methods of a `CRUD` declaration: `view` for both reads, then `delete`,
      `create` and `update`; none without a security declaration. */
  lemma CrudSecurity(entities: map<string, Entity>, m: JsonRpcMethodSpec, compile: (Entity, OperationType) -> Result<Operation>)
    requires m.methodType.None? || m.methodType == Some(Crud)
    requires ToJsonRpcMethod(entities, m, compile).Ok?
    ensures var r := ToJsonRpcMethod(entities, m, compile).value;
            m.security.Some? ==>
              && r[0].security == m.security.value.view && r[1].security == m.security.value.view
              && r[2].security == m.security.value.delete && r[3].security == m.security.value.create
              && r[4].security == m.security.value.update
    ensures var r := ToJsonRpcMethod(entities, m, compile).value;
            m.security.None? ==>
              r[0].security.None? && r[1].security.None? && r[2].security.None? && r[3].security.None? && r[4].security.None?
  {
    var kinds := Kinds(m.methodType);
    assert kinds == [FindById, FindAll, DeleteById, Create, Update];
  }

  /** A declaration of one operation registers that operation alone. */
  lemma SingleOperation(entities: map<string, Entity>, m: JsonRpcMethodSpec, compile: (Entity, OperationType) -> Result<Operation>)
    requires m.methodType.Some? && m.methodType.value != Crud
    requires ToJsonRpcMethod(entities, m, compile).Ok?
    ensures var r := ToJsonRpcMethod(entities, m, compile).value;
            |r| == 1 && r[0].name == entities[m.entityName].name + Suffix(m.methodType.value)
            && compile(entities[m.entityName], m.methodType.value) == Ok(r[0].operation)
  {
    assert Kinds(m.methodType) == [m.methodType.value];
  }

  /** One declaration validated, then compiled. */
  function CompileEntity(spec: EntitySpec): (r: Result<Entity>)
    ensures r.Ok? <==> ValidateEntity(spec).Ok? && ToEntity(spec).Ok?
    ensures r.Ok? ==> r.value == ToEntity(spec).value && spec.name == Some(r.value.name)
  {
    match ValidateEntity(spec)
    case Err(e) => Err(e)
    case Ok(_) => ToEntity(spec)
  }

  /** The keys of a sequence of elements. */
  function KeysOf<E>(es: seq<E>, key: E -> string): (r: seq<string>)
    ensures |r| == |es| && forall i :: 0 <= i < |es| ==> r[i] == key(es[i])
  {
    seq(|es|, i requires 0 <= i < |es| => key(es[i]))
  }

  /** `toMap(key, identity(), conflict)` over elements produced one at a time by `f`: each element
      is produced then put in the map before the next is read, and a second element with a key
      already present is an `IllegalArgumentException`. */
  function CollectBy<S, E>(xs: seq<S>, f: S -> Result<E>, key: E -> string): (r: Result<map<string, E>>)
    ensures r.Ok? <==> MapAll(xs, f).Ok? && Distinct(KeysOf(MapAll(xs, f).value, key))
    ensures r.Ok? ==> forall e :: e in MapAll(xs, f).value ==> key(e) in r.value && r.value[key(e)] == e
    ensures r.Ok? ==> forall k :: k in r.value ==> k in KeysOf(MapAll(xs, f).value, key)
    decreases |xs|
  {
    if xs == [] then Ok(map[])
    else
      var n := |xs| - 1;
      var acc :- CollectBy(xs[..n], f, key);
      var e :- f(xs[n]);
      if key(e) in acc then Err(IllegalArgument)
      else Ok(acc[key(e) := e])
  }

  /** The entities of a model by name. */
  function CollectEntities(specs: seq<EntitySpec>): Result<map<string, Entity>> {
    CollectBy(specs, CompileEntity, (e: Entity) => e.name)
  }

  /** The methods of every declaration, in order (`flatMap`); the first failure is the stream's. */
  function FlatMap<S, E>(xs: seq<S>, f: S -> Result<seq<E>>): (r: Result<seq<E>>)
    ensures r.Ok? <==> forall i :: 0 <= i < |xs| ==> f(xs[i]).Ok?
    ensures r.Ok? ==> forall y :: y in r.value ==> exists i :: 0 <= i < |xs| && y in f(xs[i]).value
    ensures r.Ok? ==> forall i :: 0 <= i < |xs| ==> forall y :: y in f(xs[i]).value ==> y in r.value
    decreases |xs|
  {
    if xs == [] then Ok([])
    else
      var n := |xs| - 1;
      assert forall i :: 0 <= i < n ==> xs[..n][i] == xs[i];
      var acc :- FlatMap(xs[..n], f);
      var last :- f(xs[n]);
      assert forall y :: y in acc + last ==> y in acc || y in last;
      Ok(acc + last)
  }

  /** The methods of every declaration of a model. */
  function Registrations(entities: map<string, Entity>, methods: seq<JsonRpcMethodSpec>): Result<seq<Registration>> {
    FlatMap(methods, m => ToJsonRpcMethod(entities, m, Compile))
  }

  /** Two declarations of one entity name conflict, whatever follows them. */
  lemma DuplicateEntityRejected(specs: seq<EntitySpec>, i: nat, j: nat)
    requires i < j < |specs| && specs[i].name == specs[j].name
    ensures CollectEntities(specs).Err?
  {

  }

  /** A declaration naming an entity the model does not declare fails the registration. */
  lemma {:induction false} MissingEntityRejected(entities: map<string, Entity>, methods: seq<JsonRpcMethodSpec>, k: nat)
    requires k < |methods| && methods[k].entityName !in entities
    ensures Registrations(entities, methods).Err?
  {
    assert ToJsonRpcMethod(entities, methods[k], Compile).Err?;
  }

  /** The handler and the entities of the last model it loaded. */
  class ModelHandler {
    var entities: map<string, Entity>

    constructor ()
      ensures entities == map[]
    {
      entities := map[];
    }

    /** `hasEntity`: the prefix names a loaded entity. */
    predicate HasEntity(prefix: string)
      reads this
    {
      prefix in entities
    }

    /** `toJsonRpc`: without methods nothing is loaded; otherwise the entities are compiled, kept by
        the handler even when a method then fails to compile, and the methods registered. */
    method ToJsonRpc(model: ModelSpec) returns (r: Result<seq<Registration>>)
      modifies this
      ensures model.jsonRpcMethods.None? || model.jsonRpcMethods.value == [] ==> r == Ok([]) && entities == old(entities)
      ensures model.jsonRpcMethods.Some? && model.jsonRpcMethods.value != [] ==>
        var collected := CollectEntities(if model.entities.None? then [] else model.entities.value);
        && (collected.Err? ==> r == Err(collected.error) && entities == old(entities))
        && (collected.Ok? ==> entities == collected.value && r == Registrations(entities, model.jsonRpcMethods.value))
    {
      if model.jsonRpcMethods.None? || model.jsonRpcMethods.value == [] {
        return Ok([]);
      }
      var collected := CollectEntities(if model.entities.None? then [] else model.entities.value);
      if collected.Err? {
        return Err(collected.error);
      }
      entities := collected.value;
      r := Registrations(entities, model.jsonRpcMethods.value);
    }
  }

  /** A model whose entities compile but whose methods do not still replaces the loaded entities. */
  method FailedRegistrationKeepsEntities(handler: ModelHandler, model: ModelSpec, specs: seq<EntitySpec>)
    requires model.entities == Some(specs) && model.jsonRpcMethods.Some? && model.jsonRpcMethods.value != []
    requires CollectEntities(specs).Ok?
    requires Registrations(CollectEntities(specs).value, model.jsonRpcMethods.value).Err?
    modifies handler
    ensures handler.entities == CollectEntities(specs).value
  {
    var r := handler.ToJsonRpc(model);
    assert r.Err?;
  }
}

=== FILE: name_mapper.dfy ===
/** The naming convention that turns a JSON property name into a column name (`NameMapper.camelToSnake`). */
module NameMapper {
  import opened Strings

  /** What position `i` of the input contributes: an upper-case letter becomes its lower-case form,
      preceded by `_` unless it is the first character; anything else is copied. */
  function Piece(c: char, i: nat): (r: string)
    ensures IsUpper(c) && i > 0 ==> r == ['_', LowerChar(c)]
    ensures IsUpper(c) && i == 0 ==> r == [LowerChar(c)]
    ensures !IsUpper(c) ==> r == [c]
  {
    if IsUpper(c) then (if i > 0 then "_" else "") + [LowerChar(c)] else [c]
  }

  /** The snake-case form of `s`: the pieces of its positions, in order. */
  function Snake(s: string): string {
    if s == [] then [] else Snake(s[..|s| - 1]) + Piece(s[|s| - 1], |s| - 1)
  }

  /** Number of upper-case letters after the first position. */
  function InnerUppers(s: string): nat {
    if |s| <= 1 then 0
    else InnerUppers(s[..|s| - 1]) + (if IsUpper(s[|s| - 1]) then 1 else 0)
  }

  predicate NoUpper(s: string) {
    forall i :: 0 <= i < |s| ==> !IsUpper(s[i])
  }

  /** `camelToSnake`: the character loop appending to a builder. */
  method CamelToSnake(name: string) returns (out: string)
    ensures out == Snake(name)
  {
    out := "";
    var i := 0;
    while i < |name|
      invariant 0 <= i <= |name|
      invariant out == Snake(name[..i])
    {
      var c := name[i];
      if IsUpper(c) {
        if i > 0 {
          out := out + "_";
        }
        out := out + [LowerChar(c)];
      } else {
        out := out + [c];
      }
      assert name[..i + 1][..i] == name[..i];
      i := i + 1;
    }
    assert name[..i] == name;
  }

  /** The output is the input lengthened by one underscore per inner upper-case letter. */
  lemma {:induction false} SnakeLength(s: string)
    ensures |Snake(s)| == |s| + InnerUppers(s)
  {
    if s != [] {
      SnakeLength(s[..|s| - 1]);
    }
  }

  /** The translation of a prefix is a prefix of the translation. */
  lemma {:induction false} SnakePrefix(s: string, n: nat)
    requires n <= |s|
    ensures |Snake(s[..n])| <= |Snake(s)|
    ensures Snake(s)[..|Snake(s[..n])|] == Snake(s[..n])
  {
    if n < |s| {
      var p := s[..|s| - 1];
      assert p[..n] == s[..n];
      SnakePrefix(p, n);
    } else {
      assert s[..n] == s;
    }
  }

  /** A leading upper-case letter is only lower-cased: no underscore is put in front of it. */
  lemma LeadingUpper(s: string)
    requires |s| > 0 && IsUpper(s[0])
    ensures |Snake(s)| > 0 && Snake(s)[0] == LowerChar(s[0]) && Snake(s)[0] != '_'
  {
    SnakePrefix(s, 1);
    assert s[..1][..0] == [];
  }

  /** An upper-case letter at position `i > 0` becomes `_` and its lower-case form, right after
      the translation of the characters before it; other characters are copied in place. */
  lemma InnerPosition(s: string, i: nat)
    requires 0 < i < |s|
    ensures var before := |Snake(s[..i])|;
      if IsUpper(s[i]) then
        before + 2 <= |Snake(s)| && Snake(s)[before] == '_' && Snake(s)[before + 1] == LowerChar(s[i])
      else
        before + 1 <= |Snake(s)| && Snake(s)[before] == s[i]
  {
    SnakePrefix(s, i + 1);
    assert s[..i + 1][..i] == s[..i];
  }

  /** No output character is an upper-case letter. */
  lemma {:induction false} SnakeNoUpper(s: string)
    ensures NoUpper(Snake(s))
  {
    if s != [] {
      SnakeNoUpper(s[..|s| - 1]);
    }
  }

  /** A name without upper-case letters is left as it is. */
  lemma {:induction false} SnakeIdentity(s: string)
    requires NoUpper(s)
    ensures Snake(s) == s
  {
    if s != [] {
      SnakeIdentity(s[..|s| - 1]);
      assert s[..|s| - 1] + [s[|s| - 1]] == s;
    }
  }

  /** Translating twice is translating once. */
  lemma SnakeIdempotent(s: string)
    ensures Snake(Snake(s)) == Snake(s)
  {
    SnakeNoUpper(s);
    SnakeIdentity(Snake(s));
  }
}

=== FILE: password_encoder.dfy ===
/** The stored password record `1;<algorithm>;<iterations>;<key length>;<salt>;<hash>` written by
    `PasswordEncoder.toDatabase` and read back by `PasswordEncoder.matches`. The key derivation
    function and Base64 are parameters. */
module PasswordEncoder {
  import opened Wrappers
  import opened Strings

  /** `PasswordConfiguration`: Java `int`s and the algorithm name. */
  datatype PasswordConfiguration = PasswordConfiguration(iterations: int, keyLength: int, saltLength: int, algorithm: string)

  const DefaultConfiguration := PasswordConfiguration(310000, 512, 16, "PBKDF2WithHmacSHA256")

  predicate JavaInts(c: PasswordConfiguration) {
    INT_MIN <= c.iterations <= INT_MAX && INT_MIN <= c.keyLength <= INT_MAX && INT_MIN <= c.saltLength <= INT_MAX
  }

  /** The primitives the encoder calls: a key derivation (`None` where the algorithm is unknown or
      the key specification is refused) and Base64 in both directions (`None` for invalid text). */
  datatype Crypto = Crypto(
    derive: (string, seq<bv8>, int, int, string) -> Option<seq<bv8>>,
    encode: seq<bv8> -> string,
    decode: string -> Option<seq<bv8>>)

  /** Building the key specification and deriving the key: an empty salt or a non-positive count
      is refused by the specification itself; a derivation failure is a checked exception. */
  function Derive(crypto: Crypto, password: string, salt: seq<bv8>, iterations: int, keyLength: int, algorithm: string): (r: Result<seq<bv8>>)
    ensures r.Ok? <==> |salt| > 0 && iterations > 0 && keyLength > 0
                       && crypto.derive(password, salt, iterations, keyLength, algorithm).Some?
    ensures r.Ok? ==> r.value == crypto.derive(password, salt, iterations, keyLength, algorithm).value
    ensures r.Err? && (|salt| == 0 || iterations <= 0 || keyLength <= 0) ==> r.error == IllegalArgument
  {
    if |salt| == 0 || iterations <= 0 || keyLength <= 0 then Err(IllegalArgument)
    else match crypto.derive(password, salt, iterations, keyLength, algorithm)
      case None => Err(IllegalState)
      case Some(key) => Ok(key)
  }

  /** `String.join(";", "1", algorithm, iterations, keyLength, salt, hash)`. */
  function Layout(algorithm: string, iterations: string, keyLength: string, salt: string, hash: string): string {
    "1" + ";" + (algorithm + ";" + (iterations + ";" + (keyLength + ";" + (salt + ";" + hash))))
  }

  /** The six-field record for a password under a given salt. */
  function Record(c: PasswordConfiguration, crypto: Crypto, salt: seq<bv8>, password: string): (r: Result<string>)
    ensures r.Ok? <==> Derive(crypto, password, salt, c.iterations, c.keyLength, c.algorithm).Ok?
  {
    var key :- Derive(crypto, password, salt, c.iterations, c.keyLength, c.algorithm);
    Ok(Layout(c.algorithm, IntToString(c.iterations), IntToString(c.keyLength), crypto.encode(salt), crypto.encode(key)))
  }

  /** `toDatabase`: a fresh salt of `saltLength` bytes drawn from `random`, then the record. */
  method ToDatabase(c: PasswordConfiguration, crypto: Crypto, random: nat -> bv8, password: string)
    returns (r: Result<string>, salt: seq<bv8>)
    ensures c.saltLength < 0 ==> r == Err(NegativeArraySize)
    ensures c.saltLength >= 0 ==> |salt| == c.saltLength && r == Record(c, crypto, salt, password)
    ensures forall i :: 0 <= i < |salt| ==> salt[i] == random(i)
  {
    if c.saltLength < 0 {
      return Err(NegativeArraySize), [];
    }
    var bytes := new bv8[c.saltLength];
    var i := 0;
    while i < bytes.Length
      invariant 0 <= i <= bytes.Length
      invariant forall j :: 0 <= j < i ==> bytes[j] == random(j)
    {
      bytes[i] := random(i);
      i := i + 1;
    }
    salt := bytes[..];
    r := Record(c, crypto, salt, password);
  }

  /** The fields `matches` reads from a stored record, numbers parsed. */
  datatype StoredFields = StoredFields(algorithm: string, iterations: int, keyLength: int, salt: string, hash: string)

  /** `count` repetitions of the `indexOf(';', from)`/`substring` step of `matches`, from `from`:
      the `count` fields closed by a separator, then the text after the last of them; `None` where a
      separator is missing. */
  function FieldsFrom(database: string, from: nat, count: nat): (r: Option<seq<string>>)
    requires from <= |database|
    ensures r.Some? ==> |r.value| == count + 1
    decreases count
  {
    if count == 0 then Some([database[from..]])
    else
      var end := IndexOfFrom(database, ';', from);
      if end < 0 then None
      else match FieldsFrom(database, end + 1, count - 1)
        case None => None
        case Some(rest) => Some([database[from..end]] + rest)
  }

  /** The separator steps of `matches`: version prefix `1;`, then algorithm, iterations, key length
      and salt each closed by `;`, and the hash running to the end. */
  function SplitStored(database: string): (r: Option<seq<string>>)
    ensures !StartsWith(database, "1;") ==> r.None?
    ensures r.Some? ==> |r.value| == 5
  {
    if !StartsWith(database, "1;") then None else FieldsFrom(database, 2, 4)
  }

  /** The field parser of `matches`: the text fields with both numbers parsed as `int`s; `None`
      where `matches` answers false before hashing. (`matches` parses the iteration count before
      looking for the next separator; both failures answer false, so the order is not observable.) */
  function ParseStored(database: string): (r: Option<StoredFields>)
    ensures !StartsWith(database, "1;") ==> r.None?
    ensures r.Some? ==> SplitStored(database).Some?
  {
    match SplitStored(database)
    case None => None
    case Some(t) =>
      match (ParseInt(t[1]), ParseInt(t[2]))
      case (Some(i), Some(k)) => Some(StoredFields(t[0], i, k, t[3], t[4]))
      case _ => None
  }

  /** `matches`: whether `clear` hashes to the stored hash under the stored parameters. Every
      failure (bad layout, bad number, bad Base64, unknown algorithm) answers false. */
  function Matches(crypto: Crypto, clear: string, database: string): (b: bool)
    ensures b ==> StartsWith(database, "1;") && ParseStored(database).Some?
  {
    match ParseStored(database)
    case None => false
    case Some(f) =>
      match crypto.decode(f.salt)
      case None => false
      case Some(salt) =>
        match crypto.decode(f.hash)
        case None => false
        case Some(hash) =>
          match Derive(crypto, clear, salt, f.iterations, f.keyLength, f.algorithm)
          case Err(_) => false
          case Ok(key) => key == hash
  }

  /** What the record format needs from the primitives: Base64 text never contains `;` and
      decodes back to the bytes it encodes. */
  ghost predicate SoundBase64(crypto: Crypto) {
    (forall b :: Free(crypto.encode(b), ';')) && (forall b :: crypto.decode(crypto.encode(b)) == Some(b))
  }

  lemma IntFieldFree(n: int)
    ensures Free(IntToString(n), ';')
  {
  }

  /** The layout is `String.join(";", …)` of the six fields. */
  lemma LayoutJoin(algorithm: string, iterations: string, keyLength: string, salt: string, hash: string)
    ensures Layout(algorithm, iterations, keyLength, salt, hash) == Join(["1", algorithm, iterations, keyLength, salt, hash], ";")
  {
    var p := ["1", algorithm, iterations, keyLength, salt, hash];
    assert Join(p[5..], ";") == hash;
    assert Join(p[4..], ";") == salt + ";" + hash by { assert p[4..][1..] == p[5..]; }
    assert Join(p[3..], ";") == keyLength + ";" + (salt + ";" + hash) by { assert p[3..][1..] == p[4..]; }
    assert Join(p[2..], ";") == iterations + ";" + (keyLength + ";" + (salt + ";" + hash)) by { assert p[2..][1..] == p[3..]; }
    assert Join(p[1..], ";") == algorithm + ";" + (iterations + ";" + (keyLength + ";" + (salt + ";" + hash))) by { assert p[1..][1..] == p[2..]; }
  }

  /** A record splits into exactly six fields: version, algorithm, the two numbers, salt and hash. */
  lemma RecordFields(c: PasswordConfiguration, crypto: Crypto, salt: seq<bv8>, password: string)
    requires SoundBase64(crypto) && Free(c.algorithm, ';')
    requires Record(c, crypto, salt, password).Ok?
    ensures var key := crypto.derive(password, salt, c.iterations, c.keyLength, c.algorithm).value;
      Split(Record(c, crypto, salt, password).value, ';')
        == ["1", c.algorithm, IntToString(c.iterations), IntToString(c.keyLength), crypto.encode(salt), crypto.encode(key)]
  {
    var key := crypto.derive(password, salt, c.iterations, c.keyLength, c.algorithm).value;
    IntFieldFree(c.iterations);
    IntFieldFree(c.keyLength);
    var p := ["1", c.algorithm, IntToString(c.iterations), IntToString(c.keyLength), crypto.encode(salt), crypto.encode(key)];
    assert Free("1", ';');
    SplitJoin(p, ';');
    LayoutJoin(c.algorithm, IntToString(c.iterations), IntToString(c.keyLength), crypto.encode(salt), crypto.encode(key));
  }

  /** The text before the first `;` and the text after it. */
  function Cut(s: string): Option<(string, string)> {
    var i := IndexOfFrom(s, ';', 0);
    if i < 0 then None else Some((s[..i], s[i + 1..]))
  }

  /** `FieldsFrom` taken on a text that starts where the search starts, one `Cut` per field. */
  function Fields(s: string, count: nat): Option<seq<string>>
    decreases count
  {
    if count == 0 then Some([s])
    else match Cut(s)
      case None => None
      case Some((field, rest)) =>
        match Fields(rest, count - 1)
        case None => None
        case Some(fs) => Some([field] + fs)
  }

  /** Searching from `n` is searching the suffix from `n`, shifted by `n`. */
  lemma {:induction false} IndexOfFromSuffix(s: string, n: nat, k: nat)
    requires n <= |s|
    ensures var r := IndexOfFrom(s[n..], ';', k);
      IndexOfFrom(s, ';', n + k) == if r < 0 then -1 else n + r
    decreases |s| - n - k
  {
    if n + k < |s| {
      assert s[n..][k] == s[n + k];
      IndexOfFromSuffix(s, n, k + 1);
    }
  }

  /** One search-and-substring step of `matches` from `n` is one `Cut` of the suffix from `n`. */
  lemma CutAt(db: string, n: nat)
    requires n <= |db|
    ensures var i := IndexOfFrom(db, ';', n);
      Cut(db[n..]) == if i < 0 then None else Some((db[n..i], db[i + 1..]))
  {
    var s := db[n..];
    IndexOfFromSuffix(db, n, 0);
    var j := IndexOfFrom(s, ';', 0);
    var i := IndexOfFrom(db, ';', n);
    assert i == if j < 0 then -1 else n + j;
    if j >= 0 {
      assert s[..j] == db[n..i];
      assert s[j + 1..] == db[i + 1..];
    }
  }

  /** The steps of `matches` on the whole text read the same fields as cutting the suffix. */
  lemma {:induction false} FieldsFromSuffix(db: string, n: nat, count: nat)
    requires n <= |db|
    ensures FieldsFrom(db, n, count) == Fields(db[n..], count)
    decreases count
  {
    if count > 0 {
      CutAt(db, n);
      var i := IndexOfFrom(db, ';', n);
      if i >= 0 {
        FieldsFromSuffix(db, i + 1, count - 1);
        var rest := FieldsFrom(db, i + 1, count - 1);
        assert Fields(db[n..], count) == if rest.None? then None else Some([db[n..i]] + rest.value);
      } else {
        assert Cut(db[n..]) == None;
      }
    }
  }

  /** A field free of `;` is cut off at the separator that follows it. */
  lemma CutField(field: string, rest: string)
    requires Free(field, ';')
    ensures Cut(field + ";" + rest) == Some((field, rest))
  {
    var s := field + ";" + rest;
    assert s[|field|] == ';';
    IndexOfFromSkip(s, ';', 0, |field|);
    assert s[..|field|] == field && s[|field| + 1..] == rest;
  }

  /** Cutting a join of fields free of `;` gives the fields back. */
  lemma {:induction false} FieldsJoin(parts: seq<string>)
    requires |parts| > 0
    requires forall i :: 0 <= i < |parts| - 1 ==> Free(parts[i], ';')
    ensures Fields(Join(parts, ";"), |parts| - 1) == Some(parts)
  {
    if |parts| > 1 {
      assert Join(parts, ";") == parts[0] + ";" + Join(parts[1..], ";");
      CutField(parts[0], Join(parts[1..], ";"));
      assert forall i :: 0 <= i < |parts[1..]| - 1 ==> parts[1..][i] == parts[i + 1];
      FieldsJoin(parts[1..]);
      assert [parts[0]] + parts[1..] == parts;
    } else {
      assert parts == [parts[0]];
    }
  }

  /** The parser of `matches` takes a layout apart into the fields it was built from, when its first
      four fields are free of `;`. */
  lemma SplitLayout(algorithm: string, iterations: string, keyLength: string, salt: string, hash: string)
    requires Free(algorithm, ';') && Free(iterations, ';') && Free(keyLength, ';') && Free(salt, ';')
    ensures SplitStored(Layout(algorithm, iterations, keyLength, salt, hash)) == Some([algorithm, iterations, keyLength, salt, hash])
  {
    var db := Layout(algorithm, iterations, keyLength, salt, hash);
    var parts := [algorithm, iterations, keyLength, salt, hash];
    LayoutJoin(algorithm, iterations, keyLength, salt, hash);
    var all := ["1"] + parts;
    assert all[1..] == parts;
    assert db == "1" + ";" + Join(parts, ";");
    assert db[..2] == "1;" && db[2..] == Join(parts, ";");
    FieldsFromSuffix(db, 2, 4);
    FieldsJoin(parts);
  }

  /** `matches` reads back exactly the fields `toDatabase` writes. */
  lemma ParseRecord(c: PasswordConfiguration, crypto: Crypto, salt: seq<bv8>, password: string)
    requires SoundBase64(crypto) && Free(c.algorithm, ';') && JavaInts(c)
    requires Record(c, crypto, salt, password).Ok?
    ensures var key := crypto.derive(password, salt, c.iterations, c.keyLength, c.algorithm).value;
      ParseStored(Record(c, crypto, salt, password).value)
        == Some(StoredFields(c.algorithm, c.iterations, c.keyLength, crypto.encode(salt), crypto.encode(key)))
  {
    var key := crypto.derive(password, salt, c.iterations, c.keyLength, c.algorithm).value;
    IntFieldFree(c.iterations);
    IntFieldFree(c.keyLength);
    IntToStringRoundTrip(c.iterations);
    IntToStringRoundTrip(c.keyLength);
    SplitLayout(c.algorithm, IntToString(c.iterations), IntToString(c.keyLength), crypto.encode(salt), crypto.encode(key));
  }

  /** A stored record accepts the password it was made from. */
  lemma MatchesOwnRecord(c: PasswordConfiguration, crypto: Crypto, salt: seq<bv8>, password: string)
    requires SoundBase64(crypto) && Free(c.algorithm, ';') && JavaInts(c)
    requires Record(c, crypto, salt, password).Ok?
    ensures Matches(crypto, password, Record(c, crypto, salt, password).value)
  {
    ParseRecord(c, crypto, salt, password);
  }

  /** With a derivation that separates passwords, a record rejects every other password. */
  lemma RejectsOtherPassword(c: PasswordConfiguration, crypto: Crypto, salt: seq<bv8>, password: string, other: string)
    requires SoundBase64(crypto) && Free(c.algorithm, ';') && JavaInts(c)
    requires Record(c, crypto, salt, password).Ok?
    requires other != password
    requires crypto.derive(other, salt, c.iterations, c.keyLength, c.algorithm)
             != crypto.derive(password, salt, c.iterations, c.keyLength, c.algorithm)
    ensures !Matches(crypto, other, Record(c, crypto, salt, password).value)
  {
    ParseRecord(c, crypto, salt, password);
  }

  /** A record is refused unless it starts with the version prefix `1;`. */
  lemma RequiresVersionPrefix(crypto: Crypto, clear: string, database: string)
    requires !StartsWith(database, "1;")
    ensures !Matches(crypto, clear, database)
  {
  }
}

=== FILE: request_values.dfy ===
/** The values a compiled method reads from a JSON-RPC request and writes back: parameter
    extraction, virtual fields generated server side, revision stamping, and the result map. */
module RequestValues {
  import opened Wrappers
  import opened Json
  import opened Model

  // ---------------------------------------------------------------- parameters

  /** `findEntries`: a positional list is taken as is when long enough (400 otherwise); named
      parameters give one value per key, in key order, a missing one a 400 unless nulls are allowed;
      any other shape is a 400. */
  function FindEntries(params: Json, keys: seq<string>, allowNull: bool): (r: Result<seq<Json>>)
    ensures params.JList? ==> (r.Ok? <==> |params.items| >= |keys|)
    ensures params.JList? && r.Ok? ==> r.value == params.items
    ensures params.JObj? ==> (r.Ok? <==> allowNull || forall k :: k in keys ==> Member(params.fields, k) != JNull)
    ensures params.JObj? && r.Ok? ==> |r.value| == |keys| && forall i :: 0 <= i < |keys| ==> r.value[i] == Member(params.fields, keys[i])
    ensures !params.JList? && !params.JObj? ==> r == Err(Rpc(400))
    ensures r.Err? ==> r.error == Rpc(400)
  {
    match params
    case JList(items) => if |items| < |keys| then Err(Rpc(400)) else Ok(items)
    case JObj(fields) => NamedValues(fields, keys, allowNull)
    case _ => Err(Rpc(400))
  }

  /** The named values of `keys`, the first missing one a 400 when nulls are not allowed. */
  function NamedValues(fields: seq<(string, Json)>, keys: seq<string>, allowNull: bool): (r: Result<seq<Json>>)
    ensures r.Ok? <==> allowNull || forall k :: k in keys ==> Member(fields, k) != JNull
    ensures r.Ok? ==> |r.value| == |keys| && forall i :: 0 <= i < |keys| ==> r.value[i] == Member(fields, keys[i])
    ensures r.Err? ==> r.error == Rpc(400)
  {
    if keys == [] then Ok([])
    else
      var v := Member(fields, keys[0]);
      if !allowNull && v == JNull then Err(Rpc(400))
      else
        var rest :- NamedValues(fields, keys[1..], allowNull);
        assert forall k :: k in keys ==> k == keys[0] || k in keys[1..];
        Ok([v] + rest)
  }

  /** `findValuesFromParams`: the entries, which must be exactly one per key (400). */
  function FindValuesFromParams(params: Json, keys: seq<string>, allowNull: bool): (r: Result<seq<Json>>)
    ensures r.Ok? ==> |r.value| == |keys|
    ensures r.Err? ==> r.error == Rpc(400)
  {
    var entries :- FindEntries(params, keys, allowNull);
    if |entries| != |keys| then Err(Rpc(400)) else Ok(entries)
  }

  /** The three request shapes: a list of exactly the right length, an object holding every key
      (or any object when nulls are allowed), nothing else. */
  lemma ParameterShapes(params: Json, keys: seq<string>, allowNull: bool)
    ensures params.JList? ==> (FindValuesFromParams(params, keys, allowNull).Ok? <==> |params.items| == |keys|)
    ensures params.JList? && FindValuesFromParams(params, keys, allowNull).Ok? ==> FindValuesFromParams(params, keys, allowNull).value == params.items
    ensures params.JObj? ==> (FindValuesFromParams(params, keys, allowNull).Ok? <==>
      allowNull || forall k :: k in keys ==> Member(params.fields, k) != JNull)
    ensures params.JObj? && FindValuesFromParams(params, keys, allowNull).Ok? ==>
      forall i :: 0 <= i < |keys| ==> FindValuesFromParams(params, keys, allowNull).value[i] == Member(params.fields, keys[i])
    ensures !params.JList? && !params.JObj? ==> FindValuesFromParams(params, keys, allowNull) == Err(Rpc(400))
  {
  }

  // ---------------------------------------------------------------- generated values

  /** The values the clock and the UUID source give one request: the current date-time, the epoch
      milliseconds, and one fresh UUID per virtual field. */
  datatype Clock = Clock(now: string, epochMillis: int, uuids: nat -> string)

  /** `List.indexOf`: the first position of `x`, `-1` when absent. */
  function IndexOf<T(==)>(s: seq<T>, x: T): (r: int)
    ensures r == -1 <==> x !in s
    ensures 0 <= r ==> r < |s| && s[r] == x && x !in s[..r]
    ensures -1 <= r
  {
    if s == [] then -1
    else if s[0] == x then 0
    else
      var i := IndexOf(s[1..], x);
      if i < 0 then -1
      else
        assert s[..i + 1] == [s[0]] + s[1..][..i];
        i + 1
  }

  /** The value one virtual field gets: a fresh UUID, the current date-time, or the token's `sub`
      claim (`null` without token, 403 when the token has none). */
  function Generate(kind: GenerationType, k: nat, claims: Option<seq<(string, Json)>>, clock: Clock): (r: Result<Json>)
    ensures kind == GenSub && claims.Some? && !Member(claims.value, "sub").JStr? ==> r == Err(Rpc(403))
    ensures r.Err? ==> r == Err(Rpc(403)) && kind == GenSub
    ensures kind == GenSub && claims.None? ==> r == Ok(JNull)
  {
    match kind
    case GenUuid => Ok(JStr(clock.uuids(k)))
    case GenDateTime => Ok(JStr(clock.now))
    case GenSub =>
      if claims.None? then Ok(JNull)
      else
        match Member(claims.value, "sub")
        case JStr(sub) => Ok(JStr(sub))
        case _ => Err(Rpc(403))
  }

  /** `setVirtualFields` applied: each field, in declaration order, sets its generated value at the
      position of its name in `names`; a name not found there is an `IndexOutOfBoundsException`. */
  function VirtualFields(values: seq<Json>, names: seq<string>, fields: seq<(string, GenerationType)>,
                         claims: Option<seq<(string, Json)>>, clock: Clock): (r: Result<seq<Json>>)
    ensures r.Ok? ==> |r.value| == |values|
    decreases |fields|
  {
    if fields == [] then Ok(values)
    else
      var init := fields[..|fields| - 1];
      var last := fields[|fields| - 1];
      var acc :- VirtualFields(values, names, init, claims, clock);
      var v :- Generate(last.1, |init|, claims, clock);
      var index := IndexOf(names, last.0);
      if index < 0 || index >= |acc| then Err(IndexOutOfBounds) else Ok(acc[index := v])
  }

  /** The position a field writes to, when it is a valid one. */
  predicate Targets(names: seq<string>, field: (string, GenerationType), i: int) {
    IndexOf(names, field.0) == i
  }

  /** Positions no field names keep the request's value. */
  lemma {:induction false} VirtualFieldsFrame(values: seq<Json>, names: seq<string>, fields: seq<(string, GenerationType)>,
                                              claims: Option<seq<(string, Json)>>, clock: Clock, i: int)
    requires VirtualFields(values, names, fields, claims, clock).Ok?
    requires 0 <= i < |values| && forall f :: f in fields ==> !Targets(names, f, i)
    ensures VirtualFields(values, names, fields, claims, clock).value[i] == values[i]
    decreases |fields|
  {
    if fields != [] {
      var init := fields[..|fields| - 1];
      assert forall f :: f in init ==> f in fields;
      VirtualFieldsFrame(values, names, init, claims, clock, i);
      assert fields[|fields| - 1] in fields;
    }
  }

  /** The last field naming a position decides its value. */
  lemma {:induction false} VirtualFieldsSet(values: seq<Json>, names: seq<string>, fields: seq<(string, GenerationType)>,
                                            claims: Option<seq<(string, Json)>>, clock: Clock, j: nat)
    requires VirtualFields(values, names, fields, claims, clock).Ok?
    requires j < |fields| && forall l :: j < l < |fields| ==> fields[l].0 != fields[j].0
    ensures 0 <= IndexOf(names, fields[j].0) < |values|
    ensures Generate(fields[j].1, j, claims, clock).Ok?
    ensures VirtualFields(values, names, fields, claims, clock).value[IndexOf(names, fields[j].0)] == Generate(fields[j].1, j, claims, clock).value
    decreases |fields|
  {
    var init := fields[..|fields| - 1];
    var last := fields[|fields| - 1];
    if j < |fields| - 1 {
      VirtualFieldsSet(values, names, init, claims, clock, j);
      assert init[j] == fields[j];
      var k := IndexOf(names, fields[j].0);
      var kl := IndexOf(names, last.0);
      assert last.0 != fields[j].0;
      assert kl != k;
    }
  }

  /** The generators chained over a copy of the request values, one `set` per field. */
  method ApplyVirtualFields(values: seq<Json>, names: seq<string>, fields: seq<(string, GenerationType)>,
                            claims: Option<seq<(string, Json)>>, clock: Clock) returns (r: Result<seq<Json>>)
    ensures r == VirtualFields(values, names, fields, claims, clock)
  {
    var copy := new Json[|values|](i requires 0 <= i < |values| => values[i]);
    assert copy[..] == values;
    assert fields[..0] == [];
    var j := 0;
    while j < |fields|
      invariant 0 <= j <= |fields|
      invariant VirtualFields(values, names, fields[..j], claims, clock) == Ok(copy[..])
    {
      ghost var current := copy[..];
      VirtualFieldsStep(values, names, fields, claims, clock, j, current);
      var v := Generate(fields[j].1, j, claims, clock);
      if v.Err? {
        VirtualFieldsFail(values, names, fields, claims, clock, j + 1);
        return Err(v.error);
      }
      var index := IndexOf(names, fields[j].0);
      if index < 0 || index >= copy.Length {
        VirtualFieldsFail(values, names, fields, claims, clock, j + 1);
        return Err(IndexOutOfBounds);
      }
      copy[index] := v.value;
      assert copy[..] == current[index := v.value];
      j := j + 1;
    }
    assert fields[..j] == fields;
    r := Ok(copy[..]);
  }

  /** One field more: its generator's failure, a position outside the values, or the value set. */
  lemma VirtualFieldsStep(values: seq<Json>, names: seq<string>, fields: seq<(string, GenerationType)>,
                          claims: Option<seq<(string, Json)>>, clock: Clock, j: nat, current: seq<Json>)
    requires j < |fields| && VirtualFields(values, names, fields[..j], claims, clock) == Ok(current)
    ensures VirtualFields(values, names, fields[..j + 1], claims, clock)
      == var v := Generate(fields[j].1, j, claims, clock);
         var index := IndexOf(names, fields[j].0);
         if v.Err? then Err(v.error)
         else if index < 0 || index >= |current| then Err(IndexOutOfBounds)
         else Ok(current[index := v.value])
  {
    assert fields[..j + 1][..j] == fields[..j];
  }

  /** A failing field fails every longer chain the same way. */
  lemma {:induction false} VirtualFieldsFail(values: seq<Json>, names: seq<string>, fields: seq<(string, GenerationType)>,
                                             claims: Option<seq<(string, Json)>>, clock: Clock, n: nat)
    requires n <= |fields| && VirtualFields(values, names, fields[..n], claims, clock).Err?
    ensures VirtualFields(values, names, fields, claims, clock) == VirtualFields(values, names, fields[..n], claims, clock)
    decreases |fields| - n
  {
    if n < |fields| {
      assert fields[..n + 1][..n] == fields[..n];
      VirtualFieldsFail(values, names, fields, claims, clock, n + 1);
    } else {
      assert fields[..n] == fields;
    }
  }

  /** `setVirtualFields` at compile time: no declaration leaves the values alone, an empty one
      fails (`reduce(...).orElseThrow()`). */
  function VirtualFieldSetters(fields: Option<seq<(string, GenerationType)>>): (r: Result<seq<(string, GenerationType)>>)
    ensures fields == Some([]) <==> r == Err(NoSuchElement)
    ensures r.Ok? ==> r.value == if fields.None? then [] else fields.value
  {
    if fields.None? then Ok([])
    else if fields.value == [] then Err(NoSuchElement)
    else Ok(fields.value)
  }

  // ---------------------------------------------------------------- revision

  /** `revisionValueProvider`: a date-time string revision is stamped with now, a number one with
      the epoch milliseconds; any other schema is refused when the method is compiled. */
  function RevisionValue(prop: PropertySchema, clock: Clock): (r: Result<Json>)
    ensures r.Ok? <==> prop.types.Some? && ((Some(StringType) in prop.types.value && prop.format == Some(DateTimeFormat)) || Some(NumberType) in prop.types.value)
    ensures r.Ok? && !(Some(StringType) in prop.types.value && prop.format == Some(DateTimeFormat)) ==> r.value == JNum(clock.epochMillis)
    ensures r.Ok? && Some(StringType) in prop.types.value && prop.format == Some(DateTimeFormat) ==> r.value == JStr(clock.now)
  {
    if prop.types.None? then Err(NullPointer)
    else if Some(StringType) in prop.types.value && prop.format == Some(DateTimeFormat) then Ok(JStr(clock.now))
    else if Some(NumberType) in prop.types.value then Ok(JNum(clock.epochMillis))
    else Err(IllegalArgument)
  }

  /** The stamp applied to a copy of the values at `index`. */
  function ForceRevision(values: seq<Json>, index: int, stamp: Json): (r: Result<seq<Json>>)
    ensures r.Ok? <==> 0 <= index < |values|
    ensures r.Ok? ==> |r.value| == |values| && r.value[index] == stamp
    ensures r.Ok? ==> forall i :: 0 <= i < |values| && i != index ==> r.value[i] == values[i]
  {
    if 0 <= index < |values| then Ok(values[index := stamp]) else Err(IndexOutOfBounds)
  }

  // ---------------------------------------------------------------- result

  /** `requestToResult`: name to value for every non-null value; values run out with a
      `NoSuchElementException`, a name met twice is a duplicate key. */
  function RequestToResult(names: seq<string>, values: seq<Json>): (r: Result<map<string, Json>>)
    ensures r.Ok? ==> |values| >= |names|
    ensures |values| < |names| ==> r.Err?
    ensures r.Ok? ==> forall k :: k in r.value <==> exists i :: 0 <= i < |names| && names[i] == k && values[i] != JNull
    ensures r.Ok? ==> forall i :: 0 <= i < |names| && values[i] != JNull ==> names[i] in r.value && r.value[names[i]] == values[i]
    ensures r.Ok? ==> JNull !in r.value.Values
    decreases |names|
  {
    if names == [] then Ok(map[])
    else if |values| < |names| then Err(NoSuchElement)
    else
      var n := |names| - 1;
      var acc :- RequestToResult(names[..n], values);
      if values[n] == JNull then
        assert forall i :: 0 <= i < n ==> names[..n][i] == names[i];
        Ok(acc)
      else if names[n] in acc then Err(IllegalState)
      else
        assert forall i :: 0 <= i < n ==> names[..n][i] == names[i];
        Ok(acc[names[n] := values[n]])
  }

  /** Distinct names with all values present give every name. */
  lemma {:induction false} RequestToResultDistinct(names: seq<string>, values: seq<Json>)
    requires |values| >= |names|
    requires forall i, j :: 0 <= i < j < |names| ==> names[i] != names[j]
    ensures RequestToResult(names, values).Ok?
    decreases |names|
  {
    if names != [] {
      var n := |names| - 1;
      var init := names[..n];
      RequestToResultDistinct(init, values);
      var acc := RequestToResult(init, values).value;
      assert forall i :: 0 <= i < |init| ==> init[i] == names[i] && names[i] != names[n];
      assert names[n] !in acc;
    }
  }
}

=== FILE: security_handler.dfy ===
/** The authorization wrapper put around every model JSON-RPC method: the anonymous, logged and
    roles policies, and the verified token cached on the request. The token verifier is a
    parameter; a token is its claims. */
module SecurityHandler {
  import opened Wrappers
  import opened Strings
  import opened Json

  /** A method's `security` declaration; `roles` is `None` when the model leaves it out. */
  datatype SecurityValidation = SecurityValidation(anonymous: bool, logged: bool, roles: Option<seq<string>>)

  /** A verified token, as its claims. */
  datatype Jwt = Jwt(claims: seq<(string, Json)>)

  /** What loading the token gave: the token, the missing/non-Bearer header (the shared
      `unauthenticated` exception, 401), or a token the verifier refused (its own 401). */
  datatype Loaded = Token(jwt: Jwt) | Missing | Invalid

  const Bearer: string := "Bearer "

  /** The token service: a verification function, and how many verifications were done. */
  class JwtService {
    const validator: string -> Option<Jwt>
    var verifications: nat

    constructor (validator: string -> Option<Jwt>)
      ensures this.validator == validator && verifications == 0
    {
      this.validator := validator;
      verifications := 0;
    }

    /** Verifies one token; a refused token is `None` (the service throws a 401). */
    method Verify(token: string) returns (r: Option<Jwt>)
      modifies this
      ensures r == validator(token)
      ensures verifications == old(verifications) + 1
    {
      r := validator(token);
      verifications := verifications + 1;
    }
  }

  /** One JSON-RPC call: its `authorization` header, the token attribute cached on it, and how
      many times the wrapped method ran for it. */
  class Request {
    const authorization: Option<string>
    var jwt: Option<Jwt>
    var handled: nat

    constructor (authorization: Option<string>)
      ensures this.authorization == authorization && jwt == None && handled == 0
    {
      this.authorization := authorization;
      jwt := None;
      handled := 0;
    }
  }

  /** What `loadJwt` gives for a request with cache `cached` and header `authorization`. */
  function Load(cached: Option<Jwt>, authorization: Option<string>, validator: string -> Option<Jwt>): (l: Loaded)
    ensures cached.Some? ==> l == Token(cached.value)
    ensures cached.None? ==> (l.Missing? <==> authorization.None? || !StartsWith(authorization.value, Bearer))
    ensures cached.None? && !l.Missing? ==>
      (l.Token? <==> validator(authorization.value[|Bearer|..]).Some?)
  {
    if cached.Some? then Token(cached.value)
    else if authorization.None? || !StartsWith(authorization.value, Bearer) then Missing
    else match validator(authorization.value[|Bearer|..])
      case None => Invalid
      case Some(j) => Token(j)
  }

  /** `loadJwt`: answers the cached token without verifying again; otherwise verifies the Bearer
      token and caches it on the request. */
  method LoadJwt(request: Request, jwts: JwtService) returns (l: Loaded)
    modifies request, jwts
    ensures l == Load(old(request.jwt), request.authorization, jwts.validator)
    ensures request.jwt == if l.Token? then Some(l.jwt) else None
    ensures jwts.verifications == old(jwts.verifications) + (if old(request.jwt).None? && !l.Missing? then 1 else 0)
    ensures request.handled == old(request.handled)
  {
    if request.jwt.Some? {
      return Token(request.jwt.value);
    }
    var authorization := request.authorization;
    if authorization.None? || !StartsWith(authorization.value, Bearer) {
      return Missing;
    }
    var verified := jwts.Verify(authorization.value[|Bearer|..]);
    if verified.None? {
      return Invalid;
    }
    request.jwt := verified;
    l := Token(verified.value);
  }

  /** Whether some required role is among the granted ones. */
  function AnyGranted(required: seq<string>, granted: seq<Json>): (b: bool)
    ensures b <==> exists role :: role in required && JStr(role) in granted
  {
    if required == [] then false
    else if JStr(required[0]) in granted then true
    else
      var b := AnyGranted(required[1..], granted);
      assert forall role :: role in required ==> role == required[0] || role in required[1..];
      b
  }

  /** The roles policy once a token is loaded: its `roles` claim must be a list (else 403) holding
      one of the required roles (else 403); undeclared required roles fail on first use. */
  function RolesCheck(required: Option<seq<string>>, jwt: Jwt): Result<()> {
    match Member(jwt.claims, "roles")
    case JList(granted) =>
      if required.None? then Err(NullPointer)
      else if AnyGranted(required.value, granted) then Ok(())
      else Err(Rpc(403))
    case _ => Err(Rpc(403))
  }

  /** The policy `compile` selects for `spec`, applied to what loading the token gave. */
  function Authorize(spec: Option<SecurityValidation>, loaded: Loaded): (r: Result<()>)
    ensures r.Err? ==> r.error == Rpc(401) || r.error == Rpc(403) || r.error == NullPointer
    ensures (spec.None? || spec.value.anonymous) ==> (r.Ok? <==> !loaded.Invalid?)
    ensures spec.Some? && !spec.value.anonymous && !loaded.Token? ==> r == Err(Rpc(401))
    ensures (spec.Some? && !spec.value.anonymous && loaded.Token? && !Member(loaded.jwt.claims, "roles").JList?
             && !(spec.value.logged && (spec.value.roles.None? || spec.value.roles.value == [])))
            ==> r == Err(Rpc(403))
  {
    if spec.None? || spec.value.anonymous then
      if loaded.Invalid? then Err(Rpc(401)) else Ok(())
    else if !loaded.Token? then Err(Rpc(401))
    else if spec.value.logged && (spec.value.roles.None? || spec.value.roles.value == []) then Ok(())
    else RolesCheck(spec.value.roles, loaded.jwt)
  }

  /** The compiled wrapper: loads the token, applies the policy, and runs the wrapped method once,
      only when the policy lets the call through. */
  method Invoke(spec: Option<SecurityValidation>, request: Request, jwts: JwtService) returns (r: Result<()>)
    modifies request, jwts
    ensures r == Authorize(spec, Load(old(request.jwt), request.authorization, jwts.validator))
    ensures request.handled == old(request.handled) + (if r.Ok? then 1 else 0)
    ensures var l := Load(old(request.jwt), request.authorization, jwts.validator);
      && request.jwt == (if l.Token? then Some(l.jwt) else None)
      && jwts.verifications == old(jwts.verifications) + (if old(request.jwt).None? && !l.Missing? then 1 else 0)
  {
    var loaded := LoadJwt(request, jwts);
    r := Authorize(spec, loaded);
    if r.Ok? {
      request.handled := request.handled + 1;
    }
  }

  /** Anonymous access (no declaration, or `anonymous`) lets a call through without a header, and
      refuses it only when a Bearer token is presented that the verifier refuses. */
  lemma AnonymousPolicy(spec: Option<SecurityValidation>, authorization: Option<string>, validator: string -> Option<Jwt>)
    requires spec.None? || spec.value.anonymous
    ensures var r := Authorize(spec, Load(None, authorization, validator));
      r.Ok? <==> (authorization.None? || !StartsWith(authorization.value, Bearer)
        || validator(authorization.value[|Bearer|..]).Some?)
    ensures Authorize(spec, Load(None, authorization, validator)).Err? ==>
      Authorize(spec, Load(None, authorization, validator)) == Err(Rpc(401))
  {
  }

  /** `logged` without roles: a valid Bearer token is needed and enough. */
  lemma LoggedPolicy(spec: SecurityValidation, authorization: Option<string>, validator: string -> Option<Jwt>)
    requires !spec.anonymous && spec.logged && (spec.roles.None? || spec.roles.value == [])
    ensures var r := Authorize(Some(spec), Load(None, authorization, validator));
      (r.Ok? <==> Load(None, authorization, validator).Token?) && (r.Err? ==> r == Err(Rpc(401)))
  {
  }

  /** The roles policy: a call passes iff a valid token is loaded whose `roles` claim is a list
      holding one of the required roles. */
  lemma RolesPolicy(spec: SecurityValidation, required: seq<string>, loaded: Loaded)
    requires !spec.anonymous && spec.roles == Some(required)
    requires !(spec.logged && required == [])
    ensures Authorize(Some(spec), loaded).Ok? <==>
      loaded.Token? && Member(loaded.jwt.claims, "roles").JList?
        && exists role :: role in required && JStr(role) in Member(loaded.jwt.claims, "roles").items
  {
  }

  /** Neither anonymous nor logged, with an empty roles list: no call ever passes; a valid token
      gets 403. */
  lemma EmptyRolesDenyAll(loaded: Loaded)
    ensures Authorize(Some(SecurityValidation(false, false, Some([]))), loaded).Err?
    ensures loaded.Token? ==> Authorize(Some(SecurityValidation(false, false, Some([]))), loaded) == Err(Rpc(403))
  {
  }

  /** A request that already carries a token is answered from it, whatever its header says and
      whatever the verifier would answer now. */
  lemma CachedTokenWins(jwt: Jwt, authorization: Option<string>, validator: string -> Option<Jwt>, spec: Option<SecurityValidation>)
    ensures Load(Some(jwt), authorization, validator) == Token(jwt)
    ensures Authorize(spec, Load(Some(jwt), authorization, validator)) == Authorize(spec, Token(jwt))
  {
  }

  /** A second call on the same request, once the first one verified its token, is decided on the
      cached token: it does not verify again and gets the same decision. A refused token is not
      cached, so it is verified again. */
  method TwiceOnOneRequest(spec: Option<SecurityValidation>, request: Request, jwts: JwtService)
    returns (first: Result<()>, second: Result<()>)
    requires request.jwt.None?
    modifies request, jwts
    ensures Load(None, request.authorization, jwts.validator).Token? ==>
      second == first && jwts.verifications == old(jwts.verifications) + 1
    ensures Load(None, request.authorization, jwts.validator).Invalid? ==>
      second == first && jwts.verifications == old(jwts.verifications) + 2
    ensures request.handled == old(request.handled) + (if first.Ok? then 1 else 0) + (if second.Ok? then 1 else 0)
  {
    ghost var loaded := Load(None, request.authorization, jwts.validator);
    first := Invoke(spec, request, jwts);
    assert request.jwt == if loaded.Token? then Some(loaded.jwt) else None;
    second := Invoke(spec, request, jwts);
  }
}

=== FILE: sql.dfy ===
/** Compiled SQL: statement text with `?` placeholders and the parameter bindings that fill them,
    the values a binding reads, and the database that runs a bound statement. */
module Sql {
  import opened Wrappers
  import opened Json

  /** The `java.sql.Types` a SQL NULL is bound with. */
  datatype SqlType = Varchar | Date | Time | Timestamp | Boolean | Numeric | Integer

  /** Where one statement parameter takes its value from. */
  datatype Source =
    /** The `position`-th request value; a null one binds a NULL of type `onNull`, or fails with an
        `IllegalStateException` when `onNull` is `None` (a property that cannot be null). A string
        property with a date, time or date-time format parses its value (`parsesTemporal`), which
        the null value then reaches too. */
    | Value(position: nat, onNull: Option<SqlType>, parsesTemporal: bool)
    /** A value fixed when the clause was built (a filter value, a pagination bound). */
    | Literal(value: Json)
    /** A claim of the token cached on the request; a VARCHAR NULL without token or claim. */
    | Claim(name: string)

  /** `stmt.setXxx(index, …)` with the value `source` gives. */
  datatype Binding = Binding(index: int, source: Source)

  /** A SQL fragment and the bindings of its placeholders. */
  datatype WhereClause = WhereClause(sql: string, binders: seq<Binding>)

  /** What a statement parameter holds. */
  datatype Param = SqlNull(sqlType: SqlType) | SqlValue(value: Json)

  /** A row of a result set: column label to value, `JNull` for SQL NULL. */
  type Row = seq<(string, Json)>

  /** The database: runs a bound query, or an update giving its count of affected rows and the
      rows of generated keys; `None` is a `SQLException`. */
  datatype Database = Database(
    query: (string, map<int, Param>) -> Option<seq<Row>>,
    update: (string, map<int, Param>) -> Option<int>,
    generatedKeys: (string, map<int, Param>) -> Option<seq<seq<Json>>>)

  /** The parameter one binding sets, from the request values and the cached token's claims. */
  function Bind(b: Binding, values: seq<Json>, claims: Option<seq<(string, Json)>>): (r: Result<Param>)
    ensures b.source.Literal? ==> r == Ok(SqlValue(b.source.value))
    ensures b.source.Claim? ==> r.Ok? && (r.value.SqlNull? <==> claims.None? || Member(claims.value, b.source.name) == JNull)
    ensures b.source.Value? ==>
      (r.Err? <==> (b.source.position >= |values| || (values[b.source.position] == JNull && (b.source.onNull.None? || b.source.parsesTemporal))))
    ensures b.source.Value? && r.Ok? ==> r.value == if values[b.source.position] == JNull then SqlNull(b.source.onNull.value) else SqlValue(values[b.source.position])
  {
    match b.source
    case Literal(v) => Ok(SqlValue(v))
    case Claim(name) =>
      if claims.None? then Ok(SqlNull(Varchar))
      else
        var v := Member(claims.value, name);
        if v == JNull then Ok(SqlNull(Varchar)) else Ok(SqlValue(v))
    case Value(position, onNull, parsesTemporal) =>
      if position >= |values| then Err(IndexOutOfBounds)
      else if values[position] != JNull then Ok(SqlValue(values[position]))
      else if onNull.None? then Err(IllegalState)
      else if parsesTemporal then Err(DateTimeParse)
      else Ok(SqlNull(onNull.value))
  }

  /** The parameters of a statement once `bs` ran in order: a later binding of an index replaces an
      earlier one, the first failing binding stops the statement. */
  function BindAll(bs: seq<Binding>, values: seq<Json>, claims: Option<seq<(string, Json)>>): (r: Result<map<int, Param>>)
    ensures r.Ok? ==> r.value.Keys == set b | b in bs :: b.index
    ensures r.Ok? <==> forall i :: 0 <= i < |bs| ==> Bind(bs[i], values, claims).Ok?
    decreases |bs|
  {
    if bs == [] then Ok(map[])
    else
      var init := bs[..|bs| - 1];
      var last := bs[|bs| - 1];
      assert bs == init + [last];
      match BindAll(init, values, claims)
      case Err(e) => Err(e)
      case Ok(params) =>
        match Bind(last, values, claims)
        case Err(e) => Err(e)
        case Ok(p) => Ok(params[last.index := p])
  }

  /** The parameter set by binding `j` keeps its value when no later binding sets the same index. */
  lemma {:induction false} LastBindingWins(bs: seq<Binding>, values: seq<Json>, claims: Option<seq<(string, Json)>>, j: nat)
    requires j < |bs| && BindAll(bs, values, claims).Ok?
    requires forall l :: j < l < |bs| ==> bs[l].index != bs[j].index
    ensures bs[j].index in BindAll(bs, values, claims).value
    ensures BindAll(bs, values, claims).value[bs[j].index] == Bind(bs[j], values, claims).value
    decreases |bs|
  {
    var init := bs[..|bs| - 1];
    assert BindAll(bs, values, claims).Ok? ==> BindAll(init, values, claims).Ok?;
    if j < |bs| - 1 {
      assert init[j] == bs[j];
      LastBindingWins(init, values, claims, j);
    }
  }

  /** The indices a list of bindings sets. */
  function Indices(bs: seq<Binding>): (r: set<int>)
    ensures forall i :: i in r <==> exists k :: 0 <= k < |bs| && bs[k].index == i
  {
    set b | b in bs :: b.index
  }

  /** Bindings whose indices run from `from`, one after the other. */
  predicate Consecutive(bs: seq<Binding>, from: int) {
    forall k :: 0 <= k < |bs| ==> bs[k].index == from + k
  }

  lemma {:induction false} ConsecutiveIndices(bs: seq<Binding>, from: int)
    requires Consecutive(bs, from)
    ensures forall i :: i in Indices(bs) <==> from <= i < from + |bs|
  {
    forall i | from <= i < from + |bs| ensures i in Indices(bs) {
      assert bs[i - from].index == i;
    }
  }
}

=== FILE: sql_clauses.dfy ===
/** The clause builders of the model handler: filter operators, the dynamic `WHERE` of `findAll`,
    `ORDER BY`, column projection, and the implicit `{{user.<claim>}}` filters. */
module SqlClauses {
  import opened Wrappers
  import opened Strings
  import opened Json
  import opened Sql
  import opened Model
  import EntityCompiler
  import NameMapper

  /** A sorted name map as a Dafny map. */
  function AsMap(m: seq<(string, string)>): (r: map<string, string>)
    ensures forall k :: k in r <==> k in Keys(m)
    ensures forall k :: k in r ==> Get(m, k) == Some(r[k])
  {
    if m == [] then map[]
    else
      var rest := AsMap(m[1..]);
      assert Keys(m) == [m[0].0] + Keys(m[1..]);
      rest[m[0].0 := m[0].1]
  }

  /** `allowedSortKeys`/`allowedWhereKeys` mapped to their columns; a key that is not a property
      fails method compilation (`requireNonNull`). */
  function KeyColumns(keys: set<string>, jsonToDatabase: map<string, string>): (r: Result<map<string, string>>)
    ensures r.Ok? <==> keys <= jsonToDatabase.Keys
    ensures r.Ok? ==> r.value.Keys == keys && forall k :: k in keys ==> r.value[k] == jsonToDatabase[k]
  {
    if keys <= jsonToDatabase.Keys then Ok(map k | k in keys :: jsonToDatabase[k])
    else Err(NullPointer)
  }

  // ---------------------------------------------------------------- operators

  /** `toWhereOperator`: no operator means `=`; any other is lower-cased and must be allowed. */
  function ToWhereOperator(operator: Json, allowed: set<string>): (r: Result<string>)
    ensures operator == JNull ==> r == Ok("=")
    ensures operator != JNull ==> (r.Ok? <==> ToLower(ToString(operator)) in allowed)
    ensures operator != JNull && r.Ok? ==> r.value == ToLower(ToString(operator))
    ensures r.Err? ==> r.error == Rpc(400)
  {
    if operator == JNull then Ok("=")
    else
      var lower := ToLower(ToString(operator));
      if lower in allowed then Ok(lower) else Err(Rpc(400))
  }

  /** With no declared operators only `=` passes; with the defaults an operator passes in any case. */
  lemma OperatorDefaults(op: string)
    ensures ToWhereOperator(JStr(op), EntityCompiler.Operators(None)).Ok? <==> ToLower(op) == "="
    ensures ToWhereOperator(JStr("LIKE"), EntityCompiler.Operators(Some(["default"]))) == Ok("like")
  {
    var lower := ToLower("LIKE");
    assert lower[0] == 'l' && lower[1] == 'i' && lower[2] == 'k' && lower[3] == 'e';
    assert lower == "like";
  }

  // ---------------------------------------------------------------- dynamic where

  /** One kept filter entry: its condition `col op ?` and the value it binds. A filter that is not an
      object fails the cast, a missing `value` is a 400. */
  function FilterCondition(column: string, filter: Json, allowed: set<string>): (r: Result<(string, Json)>)
    ensures r.Ok? ==> filter.JObj? && r.value.1 == Member(filter.fields, "value") && r.value.1 != JNull
    ensures filter.JObj? && Member(filter.fields, "value") == JNull ==> r == Err(Rpc(400))
  {
    match filter
    case JNull => Err(NullPointer)
    case JObj(fields) =>
      var value := Member(fields, "value");
      if value == JNull then Err(Rpc(400))
      else
        var op :- ToWhereOperator(Member(fields, "operator"), allowed);
        Ok((column + " " + op + " ?", value))
    case _ => Err(ClassCast)
  }

  /** The filter entries whose key is filterable, in order. */
  function Kept(filters: seq<(string, Json)>, filterable: map<string, string>): (r: seq<(string, Json)>)
    ensures |r| <= |filters|
    ensures forall k :: 0 <= k < |r| ==> r[k].0 in filterable
  {
    if filters == [] then []
    else
      var init := filters[..|filters| - 1];
      var last := filters[|filters| - 1];
      assert filters == init + [last];
      Kept(init, filterable) + (if last.0 in filterable then [last] else [])
  }

  /** The value a filter entry binds. */
  function FilterValue(filter: Json): Json {
    if filter.JObj? then Member(filter.fields, "value") else JNull
  }

  /** Rendering one more entry after `acc`: skipped when its key is not filterable, otherwise its
      condition appended and its value bound at the next index. */
  function Extend(acc: Result<(seq<string>, seq<Binding>)>, entry: (string, Json), filterable: map<string, string>, allowed: set<string>, start: int): (r: Result<(seq<string>, seq<Binding>)>)
    ensures acc.Err? ==> r == acc
    ensures entry.0 !in filterable ==> r == acc
  {
    if acc.Err? || entry.0 !in filterable then acc
    else
      var c := FilterCondition(filterable[entry.0], entry.1, allowed);
      if c.Err? then Err(c.error)
      else Ok((acc.value.0 + [c.value.0], acc.value.1 + [Binding(start + |acc.value.1|, Literal(c.value.1))]))
  }

  /** The conditions and bindings of the filter entries, bound from `start` on; the first failing
      kept entry fails the whole clause. */
  function FilterParts(filters: seq<(string, Json)>, filterable: map<string, string>, allowed: set<string>, start: int): (r: Result<(seq<string>, seq<Binding>)>)
    decreases |filters|
  {
    if filters == [] then Ok(([], []))
    else Extend(FilterParts(filters[..|filters| - 1], filterable, allowed, start), filters[|filters| - 1], filterable, allowed, start)
  }

  /** One condition and one binding per kept entry, bound at consecutive indices from `start`. */
  lemma {:induction false} FilterPartsShape(filters: seq<(string, Json)>, filterable: map<string, string>, allowed: set<string>, start: int)
    ensures var r := FilterParts(filters, filterable, allowed, start);
      r.Ok? ==> |r.value.0| == |r.value.1| == |Kept(filters, filterable)| && Consecutive(r.value.1, start)
    decreases |filters|
  {
    if filters != [] {
      FilterPartsShape(filters[..|filters| - 1], filterable, allowed, start);
    }
  }

  /** The clause fails exactly when one of the kept entries fails. */
  lemma {:induction false} FilterPartsOk(filters: seq<(string, Json)>, filterable: map<string, string>, allowed: set<string>, start: int)
    ensures FilterParts(filters, filterable, allowed, start).Ok? <==>
      forall e :: e in filters && e.0 in filterable ==> FilterCondition(filterable[e.0], e.1, allowed).Ok?
    decreases |filters|
  {
    if filters != [] {
      var init := filters[..|filters| - 1];
      var last := filters[|filters| - 1];
      assert filters == init + [last];
      FilterPartsOk(init, filterable, allowed, start);
    }
  }

  /** The `k`-th binding and condition are those of the `k`-th kept entry. */
  lemma {:induction false} KeptBindings(filters: seq<(string, Json)>, filterable: map<string, string>, allowed: set<string>, start: int, k: nat)
    requires FilterParts(filters, filterable, allowed, start).Ok?
    requires k < |Kept(filters, filterable)|
    ensures var (parts, bindings) := FilterParts(filters, filterable, allowed, start).value;
      |parts| == |bindings| == |Kept(filters, filterable)|
    ensures var (parts, bindings) := FilterParts(filters, filterable, allowed, start).value;
      var e := Kept(filters, filterable)[k];
      && bindings[k] == Binding(start + k, Literal(FilterValue(e.1)))
      && FilterCondition(filterable[e.0], e.1, allowed) == Ok((parts[k], FilterValue(e.1)))
    decreases |filters|
  {
    var init := filters[..|filters| - 1];
    var last := filters[|filters| - 1];
    assert filters == init + [last];
    FilterPartsShape(filters, filterable, allowed, start);
    FilterPartsShape(init, filterable, allowed, start);
    if k < |Kept(init, filterable)| {
      KeptBindings(init, filterable, allowed, start, k);
    }
  }

  /** `toWhereClause`: no clause for an empty filter object; otherwise the kept conditions joined by
      `AND` after the prefix, their values bound from `start` on. */
  function ToWhereClause(filters: seq<(string, Json)>, filterable: map<string, string>, allowed: set<string>, start: int, prefix: string): (r: Result<Option<WhereClause>>)
    ensures filters == [] ==> r == Ok(None)
    ensures filters != [] && r.Ok? ==> r.value.Some?
  {
    if filters == [] then Ok(None)
    else
      var (parts, bindings) :- FilterParts(filters, filterable, allowed, start);
      Ok(Some(WhereClause(" " + prefix + " (" + Join(parts, " AND ") + ")", bindings)))
  }

  /** A clause binds one value per kept filter, at consecutive indices from `start`. */
  lemma WhereClauseShape(filters: seq<(string, Json)>, filterable: map<string, string>, allowed: set<string>, start: int, prefix: string)
    ensures var r := ToWhereClause(filters, filterable, allowed, start, prefix);
      r.Ok? && r.value.Some? ==> Consecutive(r.value.value.binders, start) && |r.value.value.binders| == |Kept(filters, filterable)|
  {
    FilterPartsShape(filters, filterable, allowed, start);
  }

  /** The stream of `toWhereClause`: entries visited in order, an index counter and a binding list
      grown as each kept entry is rendered. */
  method BuildWhereClause(filters: seq<(string, Json)>, filterable: map<string, string>, allowed: set<string>, start: int, prefix: string)
    returns (r: Result<Option<WhereClause>>)
    ensures r == ToWhereClause(filters, filterable, allowed, start, prefix)
  {
    if filters == [] {
      return Ok(None);
    }
    var rendered := RenderFilters(filters, filterable, allowed, start);
    match rendered {
      case Err(e) =>
        r := Err(e);
      case Ok((parts, bindings)) =>
        r := Ok(Some(WhereClause(" " + prefix + " (" + Join(parts, " AND ") + ")", bindings)));
    }
  }

  /** The loop of `toWhereClause` over the filter entries. */
  method RenderFilters(filters: seq<(string, Json)>, filterable: map<string, string>, allowed: set<string>, start: int)
    returns (r: Result<(seq<string>, seq<Binding>)>)
    ensures r == FilterParts(filters, filterable, allowed, start)
  {
    var parts: seq<string> := [];
    var bindings: seq<Binding> := [];
    var index := start;
    var i := 0;
    while i < |filters|
      invariant 0 <= i <= |filters|
      invariant FilterParts(filters[..i], filterable, allowed, start) == Ok((parts, bindings))
      invariant index == start + |bindings|
    {
      var entry := filters[i];
      RenderStep(filters, filterable, allowed, start, i, parts, bindings);
      if entry.0 in filterable {
        var condition := FilterCondition(filterable[entry.0], entry.1, allowed);
        if condition.Err? {
          FailurePersists(filters, filterable, allowed, start, i + 1);
          return Err(condition.error);
        }
        bindings := bindings + [Binding(index, Literal(condition.value.1))];
        parts := parts + [condition.value.0];
        index := index + 1;
      }
      i := i + 1;
    }
    assert filters[..i] == filters;
    r := Ok((parts, bindings));
  }

  /** One entry more: skipped when not filterable, otherwise its failure or its condition and
      binding appended. */
  lemma RenderStep(filters: seq<(string, Json)>, filterable: map<string, string>, allowed: set<string>, start: int, i: nat,
                   parts: seq<string>, bindings: seq<Binding>)
    requires i < |filters| && FilterParts(filters[..i], filterable, allowed, start) == Ok((parts, bindings))
    ensures filters[i].0 !in filterable ==> FilterParts(filters[..i + 1], filterable, allowed, start) == Ok((parts, bindings))
    ensures filters[i].0 in filterable ==>
      var c := FilterCondition(filterable[filters[i].0], filters[i].1, allowed);
      FilterParts(filters[..i + 1], filterable, allowed, start)
        == if c.Err? then Err(c.error) else Ok((parts + [c.value.0], bindings + [Binding(start + |bindings|, Literal(c.value.1))]))
  {
    PrefixStep(filters, filterable, allowed, start, i);
  }

  /** The entries up to `i` are those up to `i - 1` extended by entry `i`. */
  lemma PrefixStep(filters: seq<(string, Json)>, filterable: map<string, string>, allowed: set<string>, start: int, i: nat)
    requires i < |filters|
    ensures FilterParts(filters[..i + 1], filterable, allowed, start)
      == Extend(FilterParts(filters[..i], filterable, allowed, start), filters[i], filterable, allowed, start)
  {
    assert filters[..i + 1][..i] == filters[..i];
  }

  /** Once a prefix of the entries fails, every longer prefix fails the same way. */
  lemma {:induction false} FailurePersists(filters: seq<(string, Json)>, filterable: map<string, string>, allowed: set<string>, start: int, n: nat)
    requires n <= |filters|
    requires FilterParts(filters[..n], filterable, allowed, start).Err?
    ensures FilterParts(filters, filterable, allowed, start) == FilterParts(filters[..n], filterable, allowed, start)
    decreases |filters| - n
  {
    if n < |filters| {
      PrefixStep(filters, filterable, allowed, start, n);
      FailurePersists(filters, filterable, allowed, start, n + 1);
    } else {
      assert filters[..n] == filters;
    }
  }

  /** Entries whose key is not filterable are dropped without effect: the clause is the one of the
      kept entries alone. */
  lemma {:induction false} UnfilterableDropped(filters: seq<(string, Json)>, filterable: map<string, string>, allowed: set<string>, start: int)
    ensures FilterParts(filters, filterable, allowed, start) == FilterParts(Kept(filters, filterable), filterable, allowed, start)
    decreases |filters|
  {
    if filters != [] {
      var init := filters[..|filters| - 1];
      var last := filters[|filters| - 1];
      UnfilterableDropped(init, filterable, allowed, start);
      var kept := Kept(filters, filterable);
      if last.0 in filterable {
        assert kept[..|kept| - 1] == Kept(init, filterable);
        assert kept[|kept| - 1] == last;
      } else {
        assert kept == Kept(init, filterable);
      }
    }
  }

  /** A kept filter without a value makes the clause fail; all filters with a value and an allowed
      operator make it succeed. */
  lemma MissingValueFails(filters: seq<(string, Json)>, filterable: map<string, string>, allowed: set<string>, start: int, prefix: string, key: string, filter: seq<(string, Json)>)
    requires (key, JObj(filter)) in filters && key in filterable && Member(filter, "value") == JNull
    ensures ToWhereClause(filters, filterable, allowed, start, prefix).Err?
  {
    assert FilterCondition(filterable[key], JObj(filter), allowed).Err?;
    FilterPartsOk(filters, filterable, allowed, start);
  }

  // ---------------------------------------------------------------- order by

  /** `toOrderByClause`: no clause without a sortable `name`; otherwise ` order by <col> <dir>`, the
      direction `ASC` by default, upper-cased, and nothing but `ASC`/`DESC` (400). */
  function ToOrderByClause(sort: seq<(string, Json)>, sortable: map<string, string>): (r: Result<string>)
    ensures Member(sort, "name") == JNull ==> r == Ok("")
    ensures Member(sort, "name").JStr? && Member(sort, "name").s !in sortable ==> r == Ok("")
    ensures r.Ok? && r.value != "" ==> Member(sort, "name").JStr? && Member(sort, "name").s in sortable
    ensures r.Ok? && r.value != "" ==>
      (r.value == " order by " + sortable[Member(sort, "name").s] + " ASC"
       || r.value == " order by " + sortable[Member(sort, "name").s] + " DESC")
  {
    match Member(sort, "name")
    case JNull => Ok("")
    case JStr(property) =>
      if property !in sortable then Ok("")
      else
        var direction :- Direction(Get(sort, "direction"));
        if direction == "ASC" || direction == "DESC" then Ok(" order by " + sortable[property] + " " + direction)
        else Err(Rpc(400))
    case _ => Err(ClassCast)
  }

  /** The `direction` entry: `ASC` when absent, otherwise the upper-cased string. */
  function Direction(direction: Option<Json>): (r: Result<string>)
    ensures direction.None? ==> r == Ok("ASC")
  {
    match direction
    case None => Ok("ASC")
    case Some(JStr(d)) => Ok(ToUpper(d))
    case Some(JNull) => Err(NullPointer)
    case Some(_) => Err(ClassCast)
  }

  /** The direction: ascending when absent, case-insensitive, anything but asc/desc a 400. */
  lemma OrderByDirection(property: string, sortable: map<string, string>, direction: string)
    requires property in sortable
    ensures ToOrderByClause([("name", JStr(property))], sortable) == Ok(" order by " + sortable[property] + " ASC")
    ensures ToUpper(direction) == "DESC" ==>
      ToOrderByClause([("name", JStr(property)), ("direction", JStr(direction))], sortable) == Ok(" order by " + sortable[property] + " DESC")
    ensures ToUpper(direction) !in {"ASC", "DESC"} ==>
      ToOrderByClause([("name", JStr(property)), ("direction", JStr(direction))], sortable) == Err(Rpc(400))
  {
    assert Get([("name", JStr(property))], "direction") == None;
    var sort := [("name", JStr(property)), ("direction", JStr(direction))];
    assert Get(sort, "direction") == Some(JStr(direction));
    assert Member(sort, "name") == JStr(property);
  }

  // ---------------------------------------------------------------- projection

  /** `selectColumn`: `<col> as <json>`, wrapped in `max()` when the column is named like the
      revision property (the comparison is between the revision's JSON name and the column). */
  function SelectColumn(revision: Option<string>, column: string, jsonName: string): (r: string)
    ensures revision == Some(column) ==> r == "max(" + column + ") as " + jsonName
    ensures revision != Some(column) ==> r == column + " as " + jsonName
  {
    (if revision == Some(column) then "max(" + column + ")" else column) + " as " + jsonName
  }

  /** The projection of every column of a column-to-name map. */
  function SelectColumns(revision: Option<string>, columns: seq<(string, string)>): (r: seq<string>)
    ensures |r| == |columns|
    ensures forall k :: 0 <= k < |columns| ==> r[k] == SelectColumn(revision, columns[k].0, columns[k].1)
  {
    if columns == [] then [] else [SelectColumn(revision, columns[0].0, columns[0].1)] + SelectColumns(revision, columns[1..])
  }

  /** A projection is aggregated exactly when its column is spelled like the revision property. */
  lemma AggregatedExactlyRevision(revision: Option<string>, columns: seq<(string, string)>, k: nat)
    requires k < |columns|
    ensures SelectColumns(revision, columns)[k] == "max(" + columns[k].0 + ") as " + columns[k].1 <==> revision == Some(columns[k].0)
  {
    var plain := columns[k].0 + " as " + columns[k].1;
    var aggregated := "max(" + columns[k].0 + ") as " + columns[k].1;
    assert |plain| < |aggregated|;
  }

  /** Under the camel-to-snake naming a revision property whose name holds an upper-case letter is
      never aggregated: its JSON name is compared with columns that are all lower-case. */
  lemma SnakeRevisionNeverAggregated(spec: EntitySpec)
    requires EntityCompiler.ValidateEntity(spec).Ok? && EntityCompiler.ToEntity(spec).Ok? && spec.naming.Some?
    requires spec.revisionProperty.Some? && !NameMapper.NoUpper(spec.revisionProperty.value)
    ensures var e := EntityCompiler.ToEntity(spec).value;
      forall k :: 0 <= k < |e.databaseToJson| ==>
        SelectColumns(e.revisionProperty, e.databaseToJson)[k] == e.databaseToJson[k].0 + " as " + e.databaseToJson[k].1
  {
    var e := EntityCompiler.ToEntity(spec).value;
    EntityCompiler.SnakeColumnsLowerCase(spec);
    forall k | 0 <= k < |e.databaseToJson|
      ensures SelectColumns(e.revisionProperty, e.databaseToJson)[k] == e.databaseToJson[k].0 + " as " + e.databaseToJson[k].1
    {
      assert e.revisionProperty != Some(e.databaseToJson[k].0);
    }
  }

  /** Without a naming policy the revision property is projected as `max(<revision>) as <revision>`. */
  lemma PlainRevisionAggregated(spec: EntitySpec)
    requires EntityCompiler.ValidateEntity(spec).Ok? && EntityCompiler.ToEntity(spec).Ok?
    requires spec.naming.None? && spec.revisionProperty.Some?
    ensures var e := EntityCompiler.ToEntity(spec).value; var rev := spec.revisionProperty.value;
      exists k :: 0 <= k < |e.databaseToJson| && SelectColumns(e.revisionProperty, e.databaseToJson)[k] == "max(" + rev + ") as " + rev
  {
    var e := EntityCompiler.ToEntity(spec).value;
    var rev := spec.revisionProperty.value;
    EntityCompiler.PlainRevisionColumn(spec);
    var k :| 0 <= k < |e.databaseToJson| && e.databaseToJson[k] == (rev, rev);
    assert SelectColumns(e.revisionProperty, e.databaseToJson)[k] == "max(" + rev + ") as " + rev;
  }

  /** The projected columns of requested fields: each must be a known name (400), a non-string entry
      fails its cast. */
  function FieldColumns(jsonToDatabase: seq<(string, string)>, revision: Option<string>, fields: seq<Json>): (r: Result<seq<string>>)
    ensures r.Ok? ==> |r.value| == |fields|
    ensures r.Ok? ==> forall k :: 0 <= k < |fields| ==> fields[k].JStr? && Get(jsonToDatabase, fields[k].s).Some?
    ensures r.Ok? ==> forall k :: 0 <= k < |fields| ==>
      (fields[k].JStr? && Get(jsonToDatabase, fields[k].s).Some?
       && r.value[k] == SelectColumn(revision, Get(jsonToDatabase, fields[k].s).value, fields[k].s))
    ensures (exists k :: 0 <= k < |fields| && fields[k].JStr? && fields[k].s !in Keys(jsonToDatabase)) ==> r.Err?
  {
    if fields == [] then Ok([])
    else
      var first :- match fields[0]
        case JStr(f) =>
          (match Get(jsonToDatabase, f)
           case None => Err(Rpc(400))
           case Some(column) => Ok(SelectColumn(revision, column, f)))
        case JNull => Err(NullPointer)
        case _ => Err(ClassCast);
      var rest :- FieldColumns(jsonToDatabase, revision, fields[1..]);
      assert forall k :: 1 <= k < |fields| ==> fields[k] == fields[1..][k - 1];
      Ok([first] + rest)
  }

  /** `customColumns`: the projection of the requested fields, comma separated. */
  function CustomColumns(jsonToDatabase: seq<(string, string)>, revision: Option<string>, fields: seq<Json>): (r: Result<string>)
    ensures r.Ok? <==> FieldColumns(jsonToDatabase, revision, fields).Ok?
    ensures fields == [] ==> r == Ok("")
    ensures r.Ok? && |fields| == 1 ==>
      r.value == SelectColumn(revision, Get(jsonToDatabase, fields[0].s).value, fields[0].s)
    ensures (exists k :: 0 <= k < |fields| && fields[k].JStr? && fields[k].s !in Keys(jsonToDatabase)) ==> r.Err?
  {
    var columns :- FieldColumns(jsonToDatabase, revision, fields);
    Ok(Join(columns, ", "))
  }

  /** `fields == null || fields == ["*"]`. */
  predicate SelectAll(fields: Option<seq<Json>>) {
    fields.None? || fields.value == [JStr("*")]
  }

  // ---------------------------------------------------------------- implicit filters

  /** The claim a `{{user.<claim>}}` expression reads; any other expression is invalid. */
  function ClaimOf(expression: string): (r: Option<string>)
    ensures r.Some? ==> expression == "user." + r.value && r.value != [] && '.' !in r.value
  {
    if |expression| > 5 && expression[..5] == "user." && '.' !in expression[5..] then
      assert expression == expression[..5] + expression[5..];
      Some(expression[5..])
    else None
  }

  /** The implicit clause of a template: literal text kept, each expression a `?` bound to its claim,
      the `k`-th one at `firstIndex + k`; an invalid expression is an `IllegalArgumentException`. */
  function ImplicitWhere(clause: seq<Chunk>, firstIndex: int): (r: Result<WhereClause>)
    ensures r.Ok? ==> Consecutive(r.value.binders, firstIndex) && |r.value.binders| == Mustaches(clause)
    ensures r.Ok? ==> forall k :: 0 <= k < |r.value.binders| ==> r.value.binders[k].source.Claim?
    ensures r.Err? ==> r.error == IllegalArgument
    ensures r.Ok? <==> forall c :: c in clause && c.Mustache? ==> ClaimOf(c.expression).Some?
    decreases |clause|
  {
    if clause == [] then Ok(WhereClause("", []))
    else
      var init := clause[..|clause| - 1];
      var last := clause[|clause| - 1];
      assert clause == init + [last];
      var w :- ImplicitWhere(init, firstIndex);
      match last
      case Text(sql) => Ok(WhereClause(w.sql + sql, w.binders))
      case Mustache(expression) =>
        match ClaimOf(expression)
        case None => Err(IllegalArgument)
        case Some(claim) => Ok(WhereClause(w.sql + "?", w.binders + [Binding(firstIndex + |w.binders|, Claim(claim))]))
  }

  /** The number of expressions of a template. */
  function Mustaches(clause: seq<Chunk>): nat {
    if clause == [] then 0 else Mustaches(clause[..|clause| - 1]) + (if clause[|clause| - 1].Mustache? then 1 else 0)
  }

  /** What `prepareImplicitWhere` gives: no clause without a template, else the rendered template. */
  function Implicit(filtering: Option<seq<Chunk>>, firstIndex: int): (r: Result<Option<WhereClause>>)
    ensures filtering.None? ==> r == Ok(None)
    ensures filtering.Some? ==> (r.Ok? <==> ImplicitWhere(filtering.value, firstIndex).Ok?)
    ensures filtering.Some? && r.Ok? ==> r.value == Some(ImplicitWhere(filtering.value, firstIndex).value)
  {
    if filtering.None? then Ok(None)
    else
      var w :- ImplicitWhere(filtering.value, firstIndex);
      Ok(Some(w))
  }

  /** `prepareImplicitWhere`: no clause without a template; otherwise the template rendered chunk by
      chunk, an index counter and a binding list grown at each expression. */
  method PrepareImplicitWhere(filtering: Option<seq<Chunk>>, firstIndex: int) returns (r: Result<Option<WhereClause>>)
    ensures r == Implicit(filtering, firstIndex)
  {
    if filtering.None? {
      return Ok(None);
    }
    var clause := filtering.value;
    var sql := "";
    var bindings: seq<Binding> := [];
    var index := firstIndex;
    var i := 0;
    while i < |clause|
      invariant 0 <= i <= |clause|
      invariant ImplicitWhere(clause[..i], firstIndex) == Ok(WhereClause(sql, bindings))
      invariant index == firstIndex + |bindings|
    {
      assert clause[..i + 1][..i] == clause[..i];
      match clause[i] {
        case Text(text) =>
          sql := sql + text;
        case Mustache(expression) =>
          var claim := ClaimOf(expression);
          if claim.None? {
            assert clause[i] in clause;
            return Err(IllegalArgument);
          }
          bindings := bindings + [Binding(index, Claim(claim.value))];
          index := index + 1;
          sql := sql + "?";
      }
      i := i + 1;
    }
    assert clause[..i] == clause;
    r := Ok(Some(WhereClause(sql, bindings)));
  }

  /** `mergeBinders`: the identifier bindings, then those of a non-empty implicit clause. */
  function MergeBinders(bindIds: seq<Binding>, implicit: Option<WhereClause>): (r: seq<Binding>)
    ensures implicit.None? ==> r == bindIds
    ensures implicit.Some? ==> r == bindIds + implicit.value.binders
  {
    if implicit.None? || implicit.value.binders == [] then bindIds else bindIds + implicit.value.binders
  }
}

=== FILE: strings.dfy ===
/** Java string operations used by the core, on `seq<char>`, for ASCII letters and digits. */
module Strings {
  import opened Wrappers

  // ---------------------------------------------------------------- characters

  predicate IsUpper(c: char) { 'A' <= c <= 'Z' }

  predicate IsLower(c: char) { 'a' <= c <= 'z' }

  function LowerChar(c: char): (r: char)
    ensures IsUpper(c) ==> IsLower(r) && r as int == c as int + 32
    ensures !IsUpper(c) ==> r == c
  {
    if IsUpper(c) then (c as int + 32) as char else c
  }

  function UpperChar(c: char): (r: char)
    ensures IsLower(c) ==> IsUpper(r) && r as int == c as int - 32
    ensures !IsLower(c) ==> r == c
  {
    if IsLower(c) then (c as int - 32) as char else c
  }

  /** `String.toLowerCase(Locale.ROOT)` restricted to ASCII letters. */
  function ToLower(s: string): (r: string)
    ensures |r| == |s|
    ensures forall i :: 0 <= i < |s| ==> r[i] == LowerChar(s[i])
  {
    if s == [] then [] else [LowerChar(s[0])] + ToLower(s[1..])
  }

  /** `String.toUpperCase(Locale.ROOT)` restricted to ASCII letters. */
  function ToUpper(s: string): (r: string)
    ensures |r| == |s|
    ensures forall i :: 0 <= i < |s| ==> r[i] == UpperChar(s[i])
  {
    if s == [] then [] else [UpperChar(s[0])] + ToUpper(s[1..])
  }

  /** `Character.isWhitespace`: the Unicode space, line and paragraph separators other than the
      non-breaking ones (U+00A0, U+2007, U+202F), the controls tab to carriage return, and the
      four information separators U+001C to U+001F. */
  predicate IsWhitespace(c: char) {
    || c == ' '
    || ('\t' <= c <= '\r')
    || ('\U{1C}' <= c <= '\U{1F}')
    || c == '\U{1680}'
    || ('\U{2000}' <= c <= '\U{200A}' && c != '\U{2007}')
    || c == '\U{2028}' || c == '\U{2029}' || c == '\U{205F}' || c == '\U{3000}'
  }

  /** `String.isBlank`. */
  predicate IsBlank(s: string) {
    forall i :: 0 <= i < |s| ==> IsWhitespace(s[i])
  }

  // ---------------------------------------------------------------- searching

  predicate StartsWith(s: string, prefix: string) {
    |prefix| <= |s| && s[..|prefix|] == prefix
  }

  predicate EndsWith(s: string, suffix: string) {
    |suffix| <= |s| && s[|s| - |suffix|..] == suffix
  }

  /** `String.contains` for a substring. */
  predicate ContainsAt(s: string, sub: string, i: nat) {
    i + |sub| <= |s| && s[i..i + |sub|] == sub
  }

  function Contains(s: string, sub: string): (b: bool)
    ensures b <==> exists i :: 0 <= i && ContainsAt(s, sub, i)
  {
    ContainsFrom(s, sub, 0)
  }

  function ContainsFrom(s: string, sub: string, from: nat): (b: bool)
    ensures b <==> exists i :: from <= i && ContainsAt(s, sub, i)
    decreases |s| - from
  {
    if from + |sub| > |s| then
      assert forall i :: from <= i ==> !ContainsAt(s, sub, i);
      false
    else if s[from..from + |sub|] == sub then
      assert ContainsAt(s, sub, from);
      true
    else
      var rest := ContainsFrom(s, sub, from + 1);
      assert !ContainsAt(s, sub, from);
      assert rest <==> exists i :: from + 1 <= i && ContainsAt(s, sub, i);
      rest
  }

  /** `String.indexOf(ch, fromIndex)`: the first position at or after `from` holding `c`, or -1. */
  function IndexOfFrom(s: string, c: char, from: nat): (r: int)
    ensures r == -1 || (from <= r < |s| && s[r] == c)
    decreases |s| - from
  {
    if from >= |s| then -1
    else if s[from] == c then from
    else IndexOfFrom(s, c, from + 1)
  }

  /** Positions without `c` are skipped: the search from `from` finds what the search from `k` finds. */
  lemma {:induction false} IndexOfFromSkip(s: string, c: char, from: nat, k: nat)
    requires from <= k <= |s|
    requires forall j :: from <= j < k ==> s[j] != c
    ensures IndexOfFrom(s, c, from) == IndexOfFrom(s, c, k)
    decreases k - from
  {
    if from < k {
      IndexOfFromSkip(s, c, from + 1, k);
    }
  }

  /** -1 means no position at or after `from` holds `c`. */
  lemma {:induction false} IndexOfFromAbsent(s: string, c: char, from: nat)
    requires IndexOfFrom(s, c, from) == -1
    ensures forall j :: from <= j < |s| ==> s[j] != c
    decreases |s| - from
  {
    if from < |s| {
      IndexOfFromAbsent(s, c, from + 1);
    }
  }

  /** `String.lastIndexOf(ch)`: the last position holding `c`, or -1. */
  function LastIndexOf(s: string, c: char): (r: int)
    ensures -1 <= r < |s|
    ensures r >= 0 ==> s[r] == c
    ensures forall j :: r < j < |s| ==> s[j] != c
  {
    if s == [] then -1
    else if s[|s| - 1] == c then |s| - 1
    else LastIndexOf(s[..|s| - 1], c)
  }

  /** `String.replace(c, "")`: every occurrence of `c` removed, the rest kept in order. */
  function Remove(s: string, c: char): (r: string)
    ensures forall i :: 0 <= i < |r| ==> r[i] != c
    ensures |r| <= |s|
  {
    if s == [] then []
    else if s[0] == c then Remove(s[1..], c)
    else [s[0]] + Remove(s[1..], c)
  }

  /** `String.join(sep, parts)` / `Collectors.joining(sep)`. */
  function Join(parts: seq<string>, sep: string): string {
    if parts == [] then []
    else if |parts| == 1 then parts[0]
    else parts[0] + sep + Join(parts[1..], sep)
  }

  lemma {:induction false} JoinAppend(parts: seq<string>, sep: string, last: string)
    requires parts != []
    ensures Join(parts + [last], sep) == Join(parts, sep) + sep + last
  {
    if |parts| == 1 {
      assert (parts + [last])[1..] == [last];
    } else {
      assert (parts + [last])[1..] == parts[1..] + [last];
      JoinAppend(parts[1..], sep, last);
    }
  }

  /** `String.split` on a single separator character, keeping empty fields. */
  function Split(s: string, sep: char): (r: seq<string>)
    ensures |r| > 0
    decreases |s|
  {
    var i := IndexOfFrom(s, sep, 0);
    if i < 0 then [s] else [s[..i]] + Split(s[i + 1..], sep)
  }

  predicate Free(s: string, c: char) {
    forall i :: 0 <= i < |s| ==> s[i] != c
  }

  /** Splitting after a field free of the separator yields that field, then the rest's fields. */
  lemma SplitConcat(field: string, sep: char, rest: string)
    requires Free(field, sep)
    ensures Split(field + [sep] + rest, sep) == [field] + Split(rest, sep)
  {
    var s := field + [sep] + rest;
    assert s[|field|] == sep;
    IndexOfFromSkip(s, sep, 0, |field|);
    assert s[..|field|] == field && s[|field| + 1..] == rest;
  }

  /** Splitting fields joined by a separator none of them (but the last) contains gives them back. */
  lemma {:induction false} SplitJoin(parts: seq<string>, sep: char)
    requires |parts| > 0
    requires forall i :: 0 <= i < |parts| ==> Free(parts[i], sep)
    ensures Split(Join(parts, [sep]), sep) == parts
  {
    if |parts| == 1 {
      IndexOfFromSkip(parts[0], sep, 0, |parts[0]|);
    } else {
      SplitJoin(parts[1..], sep);
      SplitConcat(parts[0], sep, Join(parts[1..], [sep]));
    }
  }

  // ---------------------------------------------------------------- ordering

  /** `String.compareTo(a, b) < 0`: lexicographic order on characters. */
  predicate Less(a: string, b: string) {
    if |a| == 0 then |b| > 0
    else if |b| == 0 then false
    else if a[0] < b[0] then true
    else if a[0] == b[0] then Less(a[1..], b[1..])
    else false
  }

  lemma {:induction false} LessIrreflexive(a: string)
    ensures !Less(a, a)
  {
    if |a| > 0 { LessIrreflexive(a[1..]); }
  }

  lemma {:induction false} LessTransitive(a: string, b: string, c: string)
    requires Less(a, b) && Less(b, c)
    ensures Less(a, c)
  {
    if |a| > 0 && |b| > 0 && |c| > 0 && a[0] == b[0] == c[0] {
      LessTransitive(a[1..], b[1..], c[1..]);
    }
  }

  lemma {:induction false} LessTotal(a: string, b: string)
    requires a != b
    ensures Less(a, b) || Less(b, a)
  {
    if |a| > 0 && |b| > 0 && a[0] == b[0] {
      assert a == [a[0]] + a[1..] && b == [b[0]] + b[1..];
      LessTotal(a[1..], b[1..]);
    }
  }

  lemma {:induction false} LessAsymmetric(a: string, b: string)
    requires Less(a, b)
    ensures !Less(b, a)
  {
    if |a| > 0 && |b| > 0 && a[0] == b[0] {
      LessAsymmetric(a[1..], b[1..]);
    }
  }

  predicate LessEq(a: string, b: string) { a == b || Less(a, b) }

  predicate Sorted(s: seq<string>) {
    forall i, j :: 0 <= i < j < |s| ==> LessEq(s[i], s[j])
  }

  /** Inserts `x` before the first element it is less than or equal to. */
  function InsertSorted(x: string, s: seq<string>): (r: seq<string>)
    requires Sorted(s)
    ensures Sorted(r)
    ensures multiset(r) == multiset(s) + multiset{x}
    ensures |r| == |s| + 1
  {
    if s == [] then [x]
    else if LessEq(x, s[0]) then
      SortedCons(x, s);
      [x] + s
    else
      LessTotal(x, s[0]);
      var rest := InsertSorted(x, s[1..]);
      assert s == [s[0]] + s[1..];
      HeadBelowInserted(x, s, rest);
      SortedCons(s[0], rest);
      [s[0]] + rest
  }

  /** A sorted sequence stays sorted under a head no greater than every element. */
  lemma SortedCons(x: string, s: seq<string>)
    requires Sorted(s) && (|s| > 0 ==> LessEq(x, s[0]))
    ensures Sorted([x] + s)
  {
    var t := [x] + s;
    forall i, j | 0 <= i < j < |t| ensures LessEq(t[i], t[j]) {
      assert t[j] == s[j - 1];
      if i == 0 && x != s[0] && s[0] != s[j - 1] {
        LessTransitive(x, s[0], s[j - 1]);
      }
      if i > 0 {
        assert t[i] == s[i - 1];
      }
    }
  }

  /** The head of a sorted sequence is no greater than anything inserted after it. */
  lemma HeadBelowInserted(x: string, s: seq<string>, rest: seq<string>)
    requires |s| > 0 && Sorted(s) && Less(s[0], x)
    requires multiset(rest) == multiset(s[1..]) + multiset{x}
    ensures forall j :: 0 <= j < |rest| ==> LessEq(s[0], rest[j])
  {
    forall j | 0 <= j < |rest| ensures LessEq(s[0], rest[j]) {
      assert rest[j] in multiset(rest);
      if rest[j] != x {
        assert rest[j] in multiset(s[1..]);
        var k :| 0 <= k < |s[1..]| && s[1..][k] == rest[j];
        assert s[k + 1] == rest[j];
      }
    }
  }

  /** `Stream.sorted()` on strings: a sorted permutation of the input. */
  function SortStrings(s: seq<string>): (r: seq<string>)
    ensures Sorted(r)
    ensures multiset(r) == multiset(s)
    ensures |r| == |s|
  {
    if s == [] then []
    else
      assert s == [s[0]] + s[1..];
      InsertSorted(s[0], SortStrings(s[1..]))
  }

  // ---------------------------------------------------------------- sorted maps

  /** Keys of an association list, in order. */
  function Keys<V>(m: seq<(string, V)>): (r: seq<string>)
    ensures |r| == |m|
    ensures forall i :: 0 <= i < |m| ==> r[i] == m[i].0
  {
    if m == [] then [] else [m[0].0] + Keys(m[1..])
  }

  /** Keys strictly increasing: what a `TreeMap` iterates. */
  predicate StrictlySorted<V>(m: seq<(string, V)>) {
    forall i, j :: 0 <= i < j < |m| ==> Less(m[i].0, m[j].0)
  }

  /** `Map.get` on an association list: the first binding of `k`. */
  function Get<V>(m: seq<(string, V)>, k: string): (r: Option<V>)
    ensures r.None? <==> k !in Keys(m)
    ensures r.Some? ==> (k, r.value) in m
  {
    if m == [] then None
    else if m[0].0 == k then Some(m[0].1)
    else Get(m[1..], k)
  }

  /** Inserts a binding into a strictly sorted list, keeping an existing binding of the same key. */
  function InsertFirstWins<V>(m: seq<(string, V)>, k: string, v: V): seq<(string, V)> {
    if m == [] then [(k, v)]
    else if m[0].0 == k then m
    else if Less(k, m[0].0) then [(k, v)] + m
    else [m[0]] + InsertFirstWins(m[1..], k, v)
  }

  lemma {:induction false} InsertFirstWinsKeys<V>(m: seq<(string, V)>, k: string, v: V)
    ensures forall x :: x in Keys(InsertFirstWins(m, k, v)) <==> x in Keys(m) || x == k
  {
    var r := InsertFirstWins(m, k, v);
    if m == [] || m[0].0 == k {
    } else if Less(k, m[0].0) {
      assert Keys(r) == [k] + Keys(m);
    } else {
      InsertFirstWinsKeys(m[1..], k, v);
      assert Keys(r) == [m[0].0] + Keys(InsertFirstWins(m[1..], k, v));
      assert Keys(m) == [m[0].0] + Keys(m[1..]);
    }
  }

  lemma {:induction false} InsertFirstWinsSorted<V>(m: seq<(string, V)>, k: string, v: V)
    requires StrictlySorted(m)
    ensures StrictlySorted(InsertFirstWins(m, k, v))
  {
    if m == [] || m[0].0 == k {
    } else if Less(k, m[0].0) {
      forall j | 0 <= j < |m| ensures Less(k, m[j].0) {
        if j > 0 { LessTransitive(k, m[0].0, m[j].0); }
      }
    } else {
      LessTotal(k, m[0].0);
      var rest := InsertFirstWins(m[1..], k, v);
      InsertFirstWinsSorted(m[1..], k, v);
      InsertFirstWinsKeys(m[1..], k, v);
      forall j | 0 <= j < |rest| ensures Less(m[0].0, rest[j].0) {
        assert rest[j].0 in Keys(rest) by { assert Keys(rest)[j] == rest[j].0; }
        if rest[j].0 != k {
          var i :| 0 <= i < |m[1..]| && Keys(m[1..])[i] == rest[j].0;
          assert m[i + 1].0 == rest[j].0;
        }
      }
    }
  }

  lemma {:induction false} InsertFirstWinsGet<V>(m: seq<(string, V)>, k: string, v: V, x: string)
    requires StrictlySorted(m)
    ensures Get(InsertFirstWins(m, k, v), x) == if x in Keys(m) then Get(m, x) else if x == k then Some(v) else None
  {
    var r := InsertFirstWins(m, k, v);
    if m == [] || m[0].0 == k {
    } else if Less(k, m[0].0) {
      assert r[1..] == m;
      forall j | 0 <= j < |m| ensures m[j].0 != k {
        LessIrreflexive(k);
        if j > 0 { LessTransitive(k, m[0].0, m[j].0); }
      }
    } else {
      assert r[1..] == InsertFirstWins(m[1..], k, v);
      InsertFirstWinsGet(m[1..], k, v, x);
      assert Keys(m) == [m[0].0] + Keys(m[1..]);
    }
  }

  /** `collect(toMap(k, v, (a, b) -> a, TreeMap::new))`: a key-sorted map in which the first
      binding of each key wins. */
  function ToSortedMap<V>(m: seq<(string, V)>): (r: seq<(string, V)>)
    ensures StrictlySorted(r)
    ensures forall x :: x in Keys(r) <==> x in Keys(m)
    ensures forall x :: Get(r, x) == Get(m, x)
    decreases |m|
  {
    if m == [] then []
    else
      var prefix := m[..|m| - 1];
      var last := m[|m| - 1];
      assert m == prefix + [last];
      assert Keys(m) == Keys(prefix) + [last.0];
      var acc := ToSortedMap(prefix);
      InsertFirstWinsSorted(acc, last.0, last.1);
      InsertFirstWinsKeys(acc, last.0, last.1);
      forall x ensures Get(m, x) == Get(InsertFirstWins(acc, last.0, last.1), x) {
        GetAppend(prefix, last, x);
        InsertFirstWinsGet(acc, last.0, last.1, x);
      }
      InsertFirstWins(acc, last.0, last.1)
  }

  lemma {:induction false} GetAppend<V>(prefix: seq<(string, V)>, last: (string, V), x: string)
    ensures Get(prefix + [last], x) == if x in Keys(prefix) then Get(prefix, x) else if x == last.0 then Some(last.1) else None
  {
    if prefix != [] {
      assert (prefix + [last])[1..] == prefix[1..] + [last];
      GetAppend(prefix[1..], last, x);
    }
  }

  /** Every binding of a sorted map built from a list comes from that list. */
  lemma SortedMapMember<V>(m: seq<(string, V)>, i: nat)
    requires i < |ToSortedMap(m)|
    ensures ToSortedMap(m)[i] in m
  {
    var r := ToSortedMap(m);
    var k := r[i].0;
    assert Keys(r)[i] == k;
    SortedGet(r, i);
    assert Get(m, k) == Some(r[i].1);
  }

  /** In a strictly sorted list, looking a key up finds its only binding. */
  lemma {:induction false} SortedGet<V>(m: seq<(string, V)>, i: nat)
    requires StrictlySorted(m) && i < |m|
    ensures Get(m, m[i].0) == Some(m[i].1)
  {
    if i > 0 {
      LessIrreflexive(m[0].0);
      assert m[0].0 != m[i].0;
      SortedGet(m[1..], i - 1);
    }
  }

  // ---------------------------------------------------------------- decimal numbers

  const INT_MIN: int := -0x8000_0000
  const INT_MAX: int := 0x7fff_ffff

  /** Java `int` arithmetic: the two's-complement 32-bit value congruent to `n`. */
  function Wrap32(n: int): (r: int)
    ensures INT_MIN <= r <= INT_MAX
    ensures (r - n) % 0x1_0000_0000 == 0
    ensures INT_MIN <= n <= INT_MAX ==> r == n
  {
    var m := n % 0x1_0000_0000;
    if m > INT_MAX then m - 0x1_0000_0000 else m
  }

  predicate IsDigit(c: char) { '0' <= c <= '9' }

  function DigitChar(d: nat): (c: char)
    requires d < 10
    ensures IsDigit(c)
  {
    ('0' as int + d) as char
  }

  function DigitValue(c: char): nat
    requires IsDigit(c)
  {
    c as int - '0' as int
  }

  /** `Integer.toString` of a non-negative number. */
  function NatToString(n: nat): (s: string)
    ensures |s| > 0
    ensures forall i :: 0 <= i < |s| ==> IsDigit(s[i])
  {
    if n < 10 then [DigitChar(n)] else NatToString(n / 10) + [DigitChar(n % 10)]
  }

  /** `Integer.toString` / `Long.toString`. */
  function IntToString(n: int): (s: string)
    ensures |s| > 0
    ensures forall i :: 0 <= i < |s| ==> IsDigit(s[i]) || (i == 0 && s[i] == '-')
    ensures n >= 0 ==> IsDigit(s[0])
  {
    if n < 0 then "-" + NatToString(-n) else NatToString(n)
  }

  function DigitsValue(s: string): nat
    requires forall i :: 0 <= i < |s| ==> IsDigit(s[i])
  {
    if s == [] then 0 else DigitsValue(s[..|s| - 1]) * 10 + DigitValue(s[|s| - 1])
  }

  predicate AllDigits(s: string) {
    forall i :: 0 <= i < |s| ==> IsDigit(s[i])
  }

  /** `Integer.parseInt`: an optional sign then ASCII digits, in the `int` range; `None` where Java throws
      `NumberFormatException`. */
  function ParseInt(s: string): (r: Option<int>)
    ensures r.Some? ==> INT_MIN <= r.value <= INT_MAX
    ensures s == [] ==> r.None?
  {
    if s == [] then None
    else if s[0] == '-' || s[0] == '+' then
      var digits := s[1..];
      if digits == [] || !AllDigits(digits) then None
      else
        var v := if s[0] == '-' then -(DigitsValue(digits) as int) else DigitsValue(digits);
        if INT_MIN <= v <= INT_MAX then Some(v) else None
    else if !AllDigits(s) then None
    else if DigitsValue(s) <= INT_MAX then Some(DigitsValue(s))
    else None
  }

  lemma {:induction false} NatToStringValue(n: nat)
    ensures DigitsValue(NatToString(n)) == n
  {
    if n >= 10 {
      var s := NatToString(n / 10) + [DigitChar(n % 10)];
      assert s[..|s| - 1] == NatToString(n / 10);
      NatToStringValue(n / 10);
    }
  }

  /** Printing an `int` and parsing it back gives the same number. */
  lemma IntToStringRoundTrip(n: int)
    requires INT_MIN <= n <= INT_MAX
    ensures ParseInt(IntToString(n)) == Some(n)
  {
    if n < 0 {
      var s := IntToString(n);
      assert s[1..] == NatToString(-n);
      NatToStringValue(-n);
    } else {
      NatToStringValue(n);
    }
  }
}

=== FILE: wrappers.dfy ===
/** Option and Result values shared by every module, and the failures the system raises. */
module Wrappers {

  datatype Option<+T> = None | Some(value: T)

  /** What a call can fail with: a JSON-RPC error carrying its code, or a Java runtime exception
      that escapes the JSON-RPC layer (the transport turns those into a generic error). */
  datatype Failure =
    | Rpc(code: int)
    | IllegalArgument
    | IllegalState
    | NullPointer
    | ClassCast
    | IndexOutOfBounds
    | NoSuchElement
    | DateTimeParse
    | NegativeArraySize
    /** A `SQLException` met while reading a result row, rethrown unchecked. */
    | Persistence

  datatype Result<+T> = Ok(value: T) | Err(error: Failure) {
    predicate IsFailure() { Err? }
    function PropagateFailure<U>(): Result<U>
      requires Err?
    {
      Err(error)
    }
    function Extract(): T
      requires Ok?
    {
      value
    }
  }

  /** Elements mapped one at a time, in order; the first failure stops the stream. */
  function MapAll<S, E>(xs: seq<S>, f: S -> Result<E>): (r: Result<seq<E>>)
    ensures r.Ok? <==> forall i :: 0 <= i < |xs| ==> f(xs[i]).Ok?
    ensures r.Ok? ==> |r.value| == |xs| && forall i :: 0 <= i < |xs| ==> f(xs[i]) == Ok(r.value[i])
    ensures r.Err? ==> exists i :: 0 <= i < |xs| && f(xs[i]) == Err(r.error)
    decreases |xs|
  {
    if xs == [] then Ok([])
    else
      var n := |xs| - 1;
      assert forall i :: 0 <= i < n ==> xs[..n][i] == xs[i];
      var acc :- MapAll(xs[..n], f);
      var e :- f(xs[n]);
      Ok(acc + [e])
  }

  /** Once a prefix fails, the whole stream fails the same way. */
  lemma {:induction false} MapAllFailurePersists<S, E>(xs: seq<S>, f: S -> Result<E>, n: nat)
    requires n <= |xs| && MapAll(xs[..n], f).Err?
    ensures MapAll(xs, f) == MapAll(xs[..n], f)
    decreases |xs| - n
  {
    if n < |xs| {
      assert xs[..n + 1][..n] == xs[..n];
      MapAllFailurePersists(xs, f, n + 1);
    } else {
      assert xs[..n] == xs;
    }
  }
}

=== FILE: writes.dfy ===
/** The writing methods of an entity: `compileCreate`, `compileUpdate` and `compileDeleteById`. Each
    compiles its statement and bindings once; a call reads its values, completes them with the
    virtual fields and the revision stamp, and runs one update. */
module Writes {
  import opened Wrappers
  import opened Strings
  import opened Json
  import opened Sql
  import opened Model
  import opened EntityCompiler
  import opened SqlClauses
  import opened RequestValues
  import opened Execution

  // ---------------------------------------------------------------- shared

  /** Where the revision stamp goes, and the schema that decides its kind. */
  datatype Stamp = Stamp(index: int, prop: PropertySchema)

  /** `revisionValueProvider` at compile time: the revision property must have a type, and be a
      number or a date-time string; its stamp goes at its position among `columns`. */
  function RevisionStamp(e: Entity, columns: seq<string>): (r: Result<Option<Stamp>>)
    ensures e.revisionProperty.None? ==> r == Ok(None)
    ensures r.Ok? && e.revisionProperty.Some? ==>
      (r.value.Some? && RevisionType(r.value.value.prop) && r.value.value.index == IndexOf(columns, e.revisionProperty.value))
  {
    if e.revisionProperty.None? then Ok(None)
    else
      match Get(e.properties, e.revisionProperty.value)
      case None => Err(NullPointer)
      case Some(prop) =>
        if prop.types.None? then Err(NullPointer)
        else if RevisionType(prop) then Ok(Some(Stamp(IndexOf(columns, e.revisionProperty.value), prop)))
        else Err(IllegalArgument)
  }

  /** The revision stamp of one call set into the values. */
  function ApplyStamp(values: seq<Json>, stamp: Option<Stamp>, clock: Clock): (r: Result<seq<Json>>)
    ensures stamp.None? ==> r == Ok(values)
    ensures stamp.Some? && RevisionType(stamp.value.prop) ==>
      (r.Ok? <==> 0 <= stamp.value.index < |values|)
    ensures r.Ok? ==> |r.value| == |values|
    ensures r.Ok? && stamp.Some? ==>
      (0 <= stamp.value.index < |values| && RevisionValue(stamp.value.prop, clock).Ok?
       && r.value[stamp.value.index] == RevisionValue(stamp.value.prop, clock).value)
  {
    if stamp.None? then Ok(values)
    else
      var v :- RevisionValue(stamp.value.prop, clock);
      ForceRevision(values, stamp.value.index, v)
  }

  /** The values of a writing call: read by `names` (nulls allowed), then the virtual fields placed by
      their position among `columns`, then the revision stamp. */
  function WriteValues(params: Json, names: seq<string>, columns: seq<string>, fields: seq<(string, GenerationType)>,
                       stamp: Option<Stamp>, claims: Option<seq<(string, Json)>>, clock: Clock): (r: Result<seq<Json>>)
    ensures r.Ok? ==> |r.value| == |names|
  {
    var values :- FindValuesFromParams(params, names, true);
    var virtual :- VirtualFields(values, columns, fields, claims, clock);
    ApplyStamp(virtual, stamp, clock)
  }

  /** `n` placeholders. */
  function Placeholders(n: nat): (r: seq<string>)
    ensures |r| == n && forall k :: 0 <= k < n ==> r[k] == "?"
  {
    if n == 0 then [] else Placeholders(n - 1) + ["?"]
  }

  /** The ` AND (<implicit>)` tail of a statement restricted by an implicit filter. */
  function ImplicitTail(implicit: Option<WhereClause>): string {
    if implicit.Some? then " AND (" + implicit.value.sql + ")" else ""
  }

  // ---------------------------------------------------------------- create

  /** What `compileCreate` computes once per entity: every column is inserted. */
  datatype CreatePlan = CreatePlan(
    sql: string,
    columns: seq<string>,
    binders: seq<Binding>,
    fields: seq<(string, GenerationType)>,
    stamp: Option<Stamp>,
    identifiers: seq<string>,
    autoGeneratedIds: bool)

  /** The compile-time part of `compileCreate`: one placeholder per column, bound in column order;
      a column that is not a property name, an empty virtual field declaration, or a revision that
      is neither a number nor a date-time fails the compilation. */
  function CompileCreate(e: Entity): (r: Result<CreatePlan>)
    ensures r.Ok? ==> r.value.columns == Keys(e.databaseToJson)
    ensures r.Ok? ==> r.value.sql == "insert into " + e.table + " (" + Join(r.value.columns, ", ") + ")"
                                    + " values (" + Join(Placeholders(|r.value.columns|), ", ") + ")"
    ensures r.Ok? ==> |r.value.binders| == |r.value.columns| && Consecutive(r.value.binders, 1)
    ensures r.Ok? ==> forall k :: 0 <= k < |r.value.binders| ==> r.value.binders[k].source.Value? && r.value.binders[k].source.position == k
    ensures e.databaseToJson == [] ==> r == Err(IllegalState)
  {
    var columns := Keys(e.databaseToJson);
    var sql := "insert into " + e.table + " (" + Join(columns, ", ") + ")" + " values (" + Join(Placeholders(|columns|), ", ") + ")";
    var binders :- CreateBinder(e.properties, columns, true);
    var fields :- VirtualFieldSetters(e.createVirtualFields);
    var stamp :- RevisionStamp(e, columns);
    Ok(CreatePlan(sql, columns, binders, fields, stamp, e.identifiers, e.autoGeneratedIds))
  }

  /** The generated keys put into the result: row `r` gives identifier `r` its column `r + 1`; more
      rows than identifiers is a `NoSuchElementException`, a row without that column a 500. */
  function PutKeys(data: map<string, Json>, identifiers: seq<string>, keys: seq<seq<Json>>): (r: Result<map<string, Json>>)
    ensures r.Ok? <==> |keys| <= |identifiers| && forall i :: 0 <= i < |keys| ==> i < |keys[i]|
    ensures r.Ok? ==> forall k :: k in r.value <==> k in data || exists i :: 0 <= i < |keys| && identifiers[i] == k
    decreases |keys|
  {
    if keys == [] then Ok(data)
    else
      var n := |keys| - 1;
      var acc :- PutKeys(data, identifiers, keys[..n]);
      assert forall i :: 0 <= i < n ==> keys[..n][i] == keys[i];
      if n >= |identifiers| then Err(NoSuchElement)
      else if n >= |keys[n]| then Err(Rpc(500))
      else Ok(acc[identifiers[n] := keys[n][n]])
  }

  /** Identifier `i` holds column `i + 1` of key row `i` when no later row fills the same identifier. */
  lemma {:induction false} PutKeysFills(data: map<string, Json>, identifiers: seq<string>, keys: seq<seq<Json>>, i: nat)
    requires PutKeys(data, identifiers, keys).Ok? && i < |keys|
    requires forall j :: i < j < |keys| ==> identifiers[j] != identifiers[i]
    ensures identifiers[i] in PutKeys(data, identifiers, keys).value
    ensures PutKeys(data, identifiers, keys).value[identifiers[i]] == keys[i][i]
    decreases |keys|
  {
    var n := |keys| - 1;
    assert forall l :: 0 <= l < n ==> keys[..n][l] == keys[l];
    if i < n {
      PutKeysFills(data, identifiers, keys[..n], i);
    }
  }

  /** An entry of the data that no key row fills keeps its value. */
  lemma {:induction false} PutKeysKeeps(data: map<string, Json>, identifiers: seq<string>, keys: seq<seq<Json>>, k: string)
    requires PutKeys(data, identifiers, keys).Ok? && k in data
    requires forall i :: 0 <= i < |keys| ==> identifiers[i] != k
    ensures PutKeys(data, identifiers, keys).value[k] == data[k]
    decreases |keys|
  {
    if keys != [] {
      var n := |keys| - 1;
      assert forall l :: 0 <= l < n ==> keys[..n][l] == keys[l];
      PutKeysKeeps(data, identifiers, keys[..n], k);
    }
  }

  /** The `do { data.put(keyIt.next(), keys.getObject(index++)); } while (keys.next())` loop: no row at
      all is a 500. */
  method PostExecute(data: map<string, Json>, identifiers: seq<string>, keys: seq<seq<Json>>) returns (r: Result<map<string, Json>>)
    ensures r == if keys == [] then Err(Rpc(500)) else PutKeys(data, identifiers, keys)
  {
    if keys == [] {
      return Err(Rpc(500));
    }
    var result := data;
    var index := 1;
    var row := 0;
    while row < |keys|
      invariant 0 <= row <= |keys|
      invariant index == row + 1
      invariant PutKeys(data, identifiers, keys[..row]) == Ok(result)
    {
      assert keys[..row + 1][..row] == keys[..row];
      if row >= |identifiers| {
        KeysFailurePersists(data, identifiers, keys, row + 1);
        return Err(NoSuchElement);
      }
      if index > |keys[row]| {
        KeysFailurePersists(data, identifiers, keys, row + 1);
        return Err(Rpc(500));
      }
      result := result[identifiers[row] := keys[row][index - 1]];
      index := index + 1;
      row := row + 1;
    }
    assert keys[..row] == keys;
    r := Ok(result);
  }

  /** Once a prefix of the key rows fails, every longer one fails the same way. */
  lemma {:induction false} KeysFailurePersists(data: map<string, Json>, identifiers: seq<string>, keys: seq<seq<Json>>, n: nat)
    requires n <= |keys| && PutKeys(data, identifiers, keys[..n]).Err?
    ensures PutKeys(data, identifiers, keys) == PutKeys(data, identifiers, keys[..n])
    decreases |keys| - n
  {
    if n < |keys| {
      assert keys[..n + 1][..n] == keys[..n];
      KeysFailurePersists(data, identifiers, keys, n + 1);
    } else {
      assert keys[..n] == keys;
    }
  }

  /** One generated-key row fills the first identifier only, with the row's first column, however
      many identifiers and key columns there are. */
  lemma SingleKeyRow(data: map<string, Json>, identifiers: seq<string>, row: seq<Json>)
    requires |identifiers| >= 1 && |row| >= 1
    ensures PutKeys(data, identifiers, [row]) == Ok(data[identifiers[0] := row[0]])
  {
    assert [row][..0] == [];
  }

  /** One `create` call: the values inserted, the non-null ones answered under their column name,
      with the generated identifiers when the database generates them; no inserted row is a 500. */
  function CreateCall(plan: CreatePlan, env: Env, call: Call): (r: Result<Output>)
    ensures r.Ok? ==> r.value.Item?
    ensures r.Ok? ==> var values := WriteValues(call.params, plan.columns, plan.columns, plan.fields, plan.stamp, call.claims, env.clock);
      values.Ok? && RequestToResult(plan.columns, values.value).Ok?
      && forall k :: k in RequestToResult(plan.columns, values.value).value ==> k in r.value.fields
    ensures r.Ok? && !plan.autoGeneratedIds ==>
      r.value == Item(RequestToResult(plan.columns, WriteValues(call.params, plan.columns, plan.columns, plan.fields, plan.stamp, call.claims, env.clock).value).value)
    ensures r.Ok? && plan.autoGeneratedIds ==>
      var values := WriteValues(call.params, plan.columns, plan.columns, plan.fields, plan.stamp, call.claims, env.clock).value;
      BindAll(plan.binders, values, call.claims).Ok?
      && var keys := env.db.generatedKeys(plan.sql, BindAll(plan.binders, values, call.claims).value);
      keys.Some? && keys.value != []
      && PutKeys(RequestToResult(plan.columns, values).value, plan.identifiers, keys.value) == Ok(r.value.fields)
  {
    var values :- WriteValues(call.params, plan.columns, plan.columns, plan.fields, plan.stamp, call.claims, env.clock);
    var result :- RequestToResult(plan.columns, values);
    var params :- BindAll(plan.binders, values, call.claims);
    var count :- RunUpdate(env.db, plan.sql, params);
    if count == 0 then Err(Rpc(500))
    else if !plan.autoGeneratedIds then Ok(Item(result))
    else
      match env.db.generatedKeys(plan.sql, params)
      case None => Err(Rpc(500))
      case Some(keys) =>
        if keys == [] then Err(Rpc(500))
        else
          var data :- PutKeys(result, plan.identifiers, keys);
          Ok(Item(data))
  }

  // ---------------------------------------------------------------- update

  /** The identifier columns, in identifier order. */
  function IdColumnNames(e: Entity): (r: seq<string>)
    ensures |r| == |e.identifiers|
    ensures forall k :: 0 <= k < |r| ==> r[k] == Column(e.jsonToDatabase, e.identifiers[k])
  {
    IdentifierColumns(e.identifiers, e.jsonToDatabase)
  }

  /** The columns of `columns` that are not in `excluded`, in order. */
  function Without(columns: seq<string>, excluded: seq<string>): (r: seq<string>)
    ensures |r| <= |columns|
    ensures forall c :: c in r <==> c in columns && c !in excluded
  {
    if columns == [] then []
    else
      var rest := Without(columns[1..], excluded);
      assert forall c :: c in columns <==> c == columns[0] || c in columns[1..];
      if columns[0] in excluded then rest else [columns[0]] + rest
  }

  /** `c = ?` for each column. */
  function Assignments(columns: seq<string>): (r: seq<string>)
    ensures |r| == |columns| && forall k :: 0 <= k < |columns| ==> r[k] == columns[k] + " = ?"
  {
    if columns == [] then [] else [columns[0] + " = ?"] + Assignments(columns[1..])
  }

  /** What `compileUpdate` computes once per entity. */
  datatype UpdatePlan = UpdatePlan(
    sql: string,
    columns: seq<string>,
    /** The order values are read and bound in: updated columns, then identifier columns. */
    names: seq<string>,
    binders: seq<Binding>,
    fields: seq<(string, GenerationType)>,
    stamp: Option<Stamp>,
    idCount: nat)

  /** The columns an update sets: every column but the identifiers'. */
  function UpdatedColumns(e: Entity): seq<string> {
    Without(Keys(e.databaseToJson), IdColumnNames(e))
  }

  /** The implicit update filter, bound after the set and identifier values. */
  function UpdateImplicit(e: Entity): (r: Result<Option<WhereClause>>)
    ensures UpdateTemplate(e).None? ==> r == Ok(None)
    ensures r.Ok? && r.value.Some? ==> Consecutive(r.value.value.binders, |UpdatedColumns(e)| + |e.identifiers| + 1)
    ensures r.Err? ==> r.error == IllegalArgument
  {
    Implicit(UpdateTemplate(e), |UpdatedColumns(e)| + |e.identifiers| + 1)
  }

  /** The compile-time part of `compileUpdate`: every non-identifier column is set, the row is
      selected by its identifiers and the implicit filter, bound after the set and identifier
      values. */
  function CompileUpdate(e: Entity): (r: Result<UpdatePlan>)
    ensures r.Ok? ==> r.value.columns == Keys(e.databaseToJson) && r.value.idCount == |e.identifiers|
    ensures r.Ok? ==> r.value.names == UpdatedColumns(e) + IdColumnNames(e)
    ensures r.Ok? ==> UpdateImplicit(e).Ok?
    ensures r.Ok? ==> r.value.sql == "update " + e.table + " set " + Join(Assignments(UpdatedColumns(e)), ", ")
                                    + " where (" + e.whereIds + ")" + ImplicitTail(UpdateImplicit(e).value)
    ensures r.Ok? ==> CreateBinder(e.properties, r.value.names, true).Ok?
    ensures r.Ok? ==> r.value.binders == MergeBinders(CreateBinder(e.properties, r.value.names, true).value, UpdateImplicit(e).value)
  {
    var ids := IdColumnNames(e);
    var columns := Keys(e.databaseToJson);
    var updated := UpdatedColumns(e);
    var implicit :- UpdateImplicit(e);
    var sql := "update " + e.table + " set " + Join(Assignments(updated), ", ") + " where (" + e.whereIds + ")" + ImplicitTail(implicit);
    var fields :- VirtualFieldSetters(e.updateVirtualFields);
    var names := updated + ids;
    var stamp :- RevisionStamp(e, columns);
    var binders :- CreateBinder(e.properties, names, true);
    Ok(UpdatePlan(sql, columns, names, MergeBinders(binders, implicit), fields, stamp, |e.identifiers|))
  }

  /** The update values are bound in order to parameters `1..n`: the updated columns first, then the
      identifiers, then the implicit filter's claims. */
  lemma UpdateBindingOrder(e: Entity, plan: UpdatePlan)
    requires CompileUpdate(e) == Ok(plan)
    ensures |plan.names| <= |plan.binders| && Consecutive(plan.binders[..|plan.names|], 1)
    ensures forall k :: 0 <= k < |plan.names| ==> plan.binders[k].source.Value? && plan.binders[k].source.position == k
    ensures forall k :: |plan.names| <= k < |plan.binders| ==> plan.binders[k].source.Claim?
    ensures plan.names[..|UpdatedColumns(e)|] == UpdatedColumns(e) && plan.names[|UpdatedColumns(e)|..] == IdColumnNames(e)
  {
    var binders := CreateBinder(e.properties, plan.names, true).value;
    assert plan.binders[..|plan.names|] == binders;
  }

  /** The values of an update call, ordered like the plan's names. */
  function UpdateValues(plan: UpdatePlan, call: Call, clock: Clock): (r: Result<seq<Json>>)
    ensures r.Ok? ==> |r.value| == |plan.names|
  {
    WriteValues(call.params, plan.names, plan.columns, plan.fields, plan.stamp, call.claims, clock)
  }

  /** The identifier values of an update call: its last values. */
  function IdValues(values: seq<Json>, idCount: nat): (r: seq<Json>)
    ensures |r| == if idCount <= |values| then idCount else |values|
  {
    if idCount <= |values| then values[|values| - idCount..] else values
  }

  /** One `update` call: a null identifier is a 400 before any statement runs; otherwise the row is
      updated (none updated is a 500) and the call answers its non-null values by column. */
  function UpdateCall(plan: UpdatePlan, env: Env, call: Call): (r: Result<Output>)
    ensures r.Ok? ==> r.value.Item? && UpdateValues(plan, call, env.clock).Ok?
    ensures r.Ok? ==> RequestToResult(plan.names, UpdateValues(plan, call, env.clock).value) == Ok(r.value.fields)
    ensures r.Ok? ==> JNull !in IdValues(UpdateValues(plan, call, env.clock).value, plan.idCount)
  {
    var values :- UpdateValues(plan, call, env.clock);
    if JNull in IdValues(values, plan.idCount) then Err(Rpc(400))
    else
      var result :- RequestToResult(plan.names, values);
      var params :- BindAll(plan.binders, values, call.claims);
      var count :- RunUpdate(env.db, plan.sql, params);
      if count == 0 then Err(Rpc(500)) else Ok(Item(result))
  }

  /** A null identifier fails the call with a 400 whatever the database would do: no statement
      decides it. */
  lemma NullIdentifierRejected(plan: UpdatePlan, env: Env, call: Call)
    requires UpdateValues(plan, call, env.clock).Ok?
    requires JNull in IdValues(UpdateValues(plan, call, env.clock).value, plan.idCount)
    ensures UpdateCall(plan, env, call) == Err(Rpc(400))
    ensures forall db :: UpdateCall(plan, env.(db := db), call) == Err(Rpc(400))
  {
  }

  /** An update that touches no row is a 500, and a delete that touches none a 404. */
  lemma NoRowTouched(plan: UpdatePlan, env: Env, call: Call)
    requires UpdateValues(plan, call, env.clock).Ok?
    requires var values := UpdateValues(plan, call, env.clock).value;
      && JNull !in IdValues(values, plan.idCount)
      && RequestToResult(plan.names, values).Ok?
      && BindAll(plan.binders, values, call.claims).Ok?
      && env.db.update(plan.sql, BindAll(plan.binders, values, call.claims).value) == Some(0)
    ensures UpdateCall(plan, env, call) == Err(Rpc(500))
  {
  }

  /** Virtual fields are placed by their position among the sorted columns, but the update values
      are ordered with the identifiers last: for columns `id`, `title` a virtual `title` overwrites
      the identifier's value. */
  lemma VirtualFieldSlotMismatch()
    ensures Without(["id", "title"], ["id"]) + ["id"] == ["title", "id"]
    ensures IndexOf(["id", "title"], "title") == 1
    ensures (Without(["id", "title"], ["id"]) + ["id"])[IndexOf(["id", "title"], "title")] == "id"
  {
    assert Without(["id", "title"], ["id"]) == ["title"] by {
      assert ["id", "title"][1..] == ["title"];
      assert ["title"][1..] == [];
    }
    assert ["id", "title"][1..] == ["title"];
  }

  // ---------------------------------------------------------------- delete

  /** What `compileDeleteById` computes once per entity. */
  datatype DeletePlan = DeletePlan(sql: string, identifiers: seq<string>, binders: seq<Binding>)

  /** The compile-time part of `compileDeleteById`: the row selected by its identifiers and the
      implicit filter, whose bindings start at index 1. */
  function CompileDelete(e: Entity): (r: Result<DeletePlan>)
    ensures r.Ok? <==> Implicit(DeleteTemplate(e), 1).Ok?
    ensures r.Ok? ==> r.value.sql == "delete  from " + e.table + " where (" + e.whereIds + ")" + ImplicitTail(Implicit(DeleteTemplate(e), 1).value)
    ensures r.Ok? ==> r.value.binders == MergeBinders(e.bindIdsNotNullable, Implicit(DeleteTemplate(e), 1).value)
  {
    var implicit :- Implicit(DeleteTemplate(e), 1);
    Ok(DeletePlan("delete  from " + e.table + " where (" + e.whereIds + ")" + ImplicitTail(implicit), e.identifiers,
                  MergeBinders(e.bindIdsNotNullable, implicit)))
  }

  /** One `deleteById` call: identifiers required (400), no deleted row a 404. */
  function DeleteCall(plan: DeletePlan, env: Env, call: Call): (r: Result<Output>)
    ensures r.Ok? ==> r.value == Success
    ensures r.Ok? ==> FindValuesFromParams(call.params, plan.identifiers, false).Ok?
    ensures FindValuesFromParams(call.params, plan.identifiers, false).Err? ==> r == Err(Rpc(400))
  {
    var ids :- FindValuesFromParams(call.params, plan.identifiers, false);
    var params :- BindAll(plan.binders, ids, call.claims);
    var count :- RunUpdate(env.db, plan.sql, params);
    if count == 0 then Err(Rpc(404)) else Ok(Success)
  }

  /** A delete that touches no row is a 404. */
  lemma NoRowDeleted(plan: DeletePlan, env: Env, call: Call)
    requires FindValuesFromParams(call.params, plan.identifiers, false).Ok?
    requires var ids := FindValuesFromParams(call.params, plan.identifiers, false).value;
      BindAll(plan.binders, ids, call.claims).Ok?
      && env.db.update(plan.sql, BindAll(plan.binders, ids, call.claims).value) == Some(0)
    ensures DeleteCall(plan, env, call) == Err(Rpc(404))
  {
  }

  /** The implicit delete filter is bound from index 1, over the identifiers' own indices: the
      statement's last placeholder (`n + k`) is never bound, and the first identifier's parameter
      ends up holding the first claim. */
  lemma {:induction false} DeleteImplicitCollision(e: Entity, plan: DeletePlan, claims: Option<seq<(string, Json)>>, ids: seq<Json>)
    requires EntityInvariant(e) && CompileDelete(e) == Ok(plan)
    requires Implicit(DeleteTemplate(e), 1).value.Some? && |Implicit(DeleteTemplate(e), 1).value.value.binders| >= 1
    requires BindAll(plan.binders, ids, claims).Ok?
    ensures var k := |Implicit(DeleteTemplate(e), 1).value.value.binders|;
      var n := |e.identifiers|;
      && n + k !in BindAll(plan.binders, ids, claims).value
      && 1 in BindAll(plan.binders, ids, claims).value
      && BindAll(plan.binders, ids, claims).value[1] == Bind(Implicit(DeleteTemplate(e), 1).value.value.binders[0], ids, claims).value
  {
    var w := Implicit(DeleteTemplate(e), 1).value.value;
    var bs := plan.binders;
    assert bs == e.bindIdsNotNullable + w.binders;
    assert Consecutive(w.binders, 1);
    OverlappingIndices(e.bindIdsNotNullable, w.binders);
    assert BindAll(bs, ids, claims).value.Keys == Indices(bs);
    LastBindingWins(bs, ids, claims, |e.identifiers|);
  }

  /** Two runs of bindings both numbered from 1: the combined run never reaches its own length, and
      after the first binding of the second run no binding sets index 1 again. */
  lemma OverlappingIndices(ids: seq<Binding>, binders: seq<Binding>)
    requires Consecutive(ids, 1) && Consecutive(binders, 1) && |ids| >= 1 && |binders| >= 1
    ensures forall j :: 0 <= j < |ids + binders| ==> (ids + binders)[j].index != |ids| + |binders|
    ensures (ids + binders)[|ids|].index == 1
    ensures forall l :: |ids| < l < |ids + binders| ==> (ids + binders)[l].index != 1
  {
    var bs := ids + binders;
    forall j | 0 <= j < |bs| ensures bs[j].index != |ids| + |binders| && (j > |ids| ==> bs[j].index != 1) {
      if j < |ids| { assert bs[j] == ids[j]; } else { assert bs[j] == binders[j - |ids|]; }
    }
  }
}
